=== FILE: README.md ===
# kaa core, modelled in Dafny

A Dafny model of the deterministic core of kotonebot ("kaa"), a game-automation bot, its launcher and its developer tools. It covers:

- **Vision back end**
  - template matching post-processing: thresholding, the score sort, truncation and the x-offset de-duplication, plus `find`, `find_any`, `count`, `expect` and `find_crop`;
  - colour parsing, the HSB range test, `find_rgb`'s nearest-colour search and `dominant_color`'s hex output;
  - OCR result construction and text search;
  - the rect test, the string matchers and fractional cropping.
- **Launcher**
  - reading the update settings;
  - dispatch of a positional package file, the installers' file-type checks and the administrator check;
  - PEP 440 version parsing and ordering, package-name normalisation, versions in wheel names and the newest-first version list;
  - the console's display widths, truncation, header and status line.
- **Configuration**
  - the schema's enumerations and defaults;
  - the `PIdol` table;
  - the version-by-version upgrade of stored user configs.
- **Tools**
  - schema inference, composite-key discovery and `CREATE TABLE` generation for YAML game data;
  - changelog categorisation and printing;
  - address parsing for the TCP forwarder.
- **Developer tool (TypeScript)**
  - the image editor's coordinate conversions, zoom, rectangle dragging and drawing;
  - the annotation page's tools, aspect ratio and event handling;
  - the metadata store and its JSON serialisation;
  - hotkeys, the resizable panel, the tool/overlay registry, the form modal, and `[img]` tag rendering.

Most source modules map to one Dafny module in its own file, named after the source module. The exceptions:

- `ImageMatch` models kotonebot/backend/image.py.
- `BackendUtil` and `BootstrapUtil` model the two `util.py` files, under kotonebot/backend and bootstrap/kaa-bootstrap.
- `PIdols` holds the `PIdol` table, split out of kotonebot/kaa/config/upgrade.py.
- `RectTool` covers both rectangle tools of the image editor.
- `EditorRegistry` models the editor's `core/registry.ts`.
- `ImageAnnotationPage` models the page `ImageAnnotation.tsx`.
- `StrMatch`, `Mat` and `Numeric` have no source module of their own. They hold the regex-matcher abstraction, NumPy-style image slicing and Python's number helpers.

A few modules are shared:

- `Wrappers` (`Option`, `Result`);
- `Text` (Python and JavaScript string operations);
- `Assoc` (insertion-ordered dicts: Python `dict`, JavaScript objects and `Map`);
- `Sorting` (a stable sort);
- `PyValue` (a loaded JSON/YAML document);
- `EditorTypes` (the editor's points, rectangles and annotations).

Python and JavaScript numbers are exact reals or unbounded integers. Operations the code hands to a library appear as function parameters, as noted under "Left out":

- OpenCV;
- the OCR engine;
- the PEP 440 regular expression;
- Unicode width and normalisation;
- `json.dumps`;
- `encodeURIComponent`;
- `uuid`.

A Python exception is an `Err` of the `PyError` datatype (`KeyError`, `TypeError`, `ValueError`, ...), returned where the code would raise.

## Model

| member | source | states |
|---|---|---|
| BackendUtil.IsRectSpec | kotonebot/backend/util.py:17-18 | among the values the model represents, `is_rect` holds exactly of a list or a tuple of four elements each of which is an `int` (a `bool` counting as one) |
| BackendUtil.IsRectExamples | kotonebot/backend/util.py:17-18 | examples: a four-integer list and tuple (one element a `bool`) are accepted; three elements, a float element, a string and a dict are not |
| BackendUtil.RegexMatcher | kotonebot/backend/util.py:28-34 | the predicate `regex(r)` holds of a string exactly when `re.match` of the pattern on the whole string succeeds |
| BackendUtil.RegexMatcherByPrefix | kotonebot/backend/util.py:28-34 | for a pattern without anchors, word boundaries or lookaround, the predicate holds exactly when some prefix of the string is in the pattern's language |
| BackendUtil.RegexMatcherLiteral | kotonebot/backend/util.py:28-34 | for a pattern of plain characters, the predicate holds exactly when the string starts with them |
| BackendUtil.ContainsMatcher | kotonebot/backend/util.py:36-42 | the predicate `contains(t)` holds of exactly the strings that hold `t` as a substring |
| BackendUtil.ContainsMatcherFinds | kotonebot/backend/util.py:39 | an occurrence of `t` anywhere makes `contains(t)` hold, and a `t` longer than the subject never does |
| BackendUtil.Px | kotonebot/backend/util.py:48-51 | `int(n * f)` of a fraction in `[0, 1]` is an index between 0 and `n` |
| BackendUtil.PxMonotonic | kotonebot/backend/util.py:48-51 | fractions in order give pixel indices in order |
| BackendUtil.PxRange | kotonebot/backend/util.py:45-52 | fractions `0 <= f <= g <= 1` give indices `0 <= int(n*f) <= int(n*g) <= n` |
| BackendUtil.Crop | kotonebot/backend/util.py:45-52 | for fractions in `[0, 1]` in order, `crop` keeps rows `int(h*y1)` to `int(h*y2)` and columns `int(w*x1)` to `int(w*x2)`, pixel for pixel |
| BackendUtil.CropY | kotonebot/backend/util.py:54-59 | `crop_y` keeps the full width and exactly the rows `int(h*y1)` to `int(h*y2)` |
| BackendUtil.CropX | kotonebot/backend/util.py:61-66 | `crop_x` keeps every row and, of each, exactly the columns `int(w*x1)` to `int(w*x2)` |
| BackendUtil.CropExample | kotonebot/backend/util.py:45-52 | a 10x10 image cropped to 0.2-0.8 both ways is 6x6 |
| BackendUtil.Cropper | kotonebot/backend/util.py:68-69 | `cropper` returns a function equal to `crop` with the same fractions on every image |
| BackendUtil.CropperY | kotonebot/backend/util.py:71-72 | `cropper_y` returns a function equal to `crop_y` with the same fractions |
| BackendUtil.CropperX | kotonebot/backend/util.py:74-75 | `cropper_x` returns a function equal to `crop_x` with the same fractions |
| Mat.ClampBound | kotonebot/backend/util.py:52 | a slice bound is clamped into `[0, len]`, a negative bound counting from the end, as Python slicing does |
| Mat.SliceRange | kotonebot/backend/util.py:52 | the index range a slice selects lies within the sequence and is the bounds themselves when they are in range and ordered |
| Mat.PySlice | kotonebot/backend/util.py:52 | a slice with in-range ordered bounds is the subsequence between them, and never longer than the sequence |
| Mat.Crop | kotonebot/backend/util.py:52 | `m[y0:y1, x0:x1]` is a well-formed image whose size is that of the two slice ranges and whose pixels are the source's, shifted |
| Numeric.Trunc | kotonebot/backend/util.py:48-51 | Python's `int()` of a float truncates toward zero: the result lies within one of the value, on the zero side |
| Numeric.TruncMonotonic | kotonebot/backend/util.py:48-51 | truncation keeps the order of non-negative values |
| Numeric.TruncInt | kotonebot/backend/util.py:48-51 | `int()` of a whole number gives it back |
| StrMatch.MatchIsNotSearch | kotonebot/backend/util.py:31 | `re.match` is anchored at the start: pattern `b` does not match `ab` although `ab` contains `b` |
| StrMatch.PrefixMatchExtends | kotonebot/backend/util.py:31 | for a pattern decided by prefixes, a match at the start of a subject is still a match after text is appended |
| StrMatch.EndAnchoredA | kotonebot/backend/util.py:31 | `re.match('a$', s)` succeeds exactly on `a` and on `a` followed by a final newline |
| StrMatch.EndAnchorNotByPrefix | kotonebot/backend/util.py:31 | `a$` matches `a` but not `ab`, so no language of prefixes decides it: matching may depend on the text after the match |
| StrMatch.LiteralMatch | kotonebot/backend/util.py:31 | a pattern of plain characters matches exactly the strings that start with them |
| StrMatch.LiteralByPrefix | kotonebot/backend/util.py:31 | a pattern of plain characters is decided by prefixes, its language being the characters themselves |
| ImageMatch.Rect | kotonebot/backend/image.py:30-33 | a match's `rect` is its top-left corner followed by the template's width and height |
| ImageMatch.RightBottom | kotonebot/backend/image.py:35-38 | the bottom-right corner lies exactly the template's size beyond the top-left corner |
| ImageMatch.BinarizeMask | kotonebot/backend/image.py:102-104 | thresholding a mask keeps its shape and turns every channel above 127 into 255 and every other into 0 |
| ImageMatch.ScoreMap | kotonebot/backend/image.py:106-112 | without a mask the scores are the normalised correlation coefficient; with one, the normalised cross-correlation against the binarised mask |
| ImageMatch.RowCandidates | kotonebot/backend/image.py:114-121 | one row yields exactly the positions from the start column on whose score reaches the threshold, left to right |
| ImageMatch.Candidates | kotonebot/backend/image.py:114-121 | the candidates are exactly the positions whose score reaches the threshold, in row-major order (the order of `np.where`) |
| ImageMatch.SortByScore | kotonebot/backend/image.py:124 | sorting by score, highest first, is a permutation of the matches |
| ImageMatch.TemplateMatch | kotonebot/backend/image.py:69-128 | every result reaches the threshold, results come highest score first, a non-positive `max_results` keeps every candidate, a positive one keeps exactly the first that many (or all if fewer) of the candidates sorted by score, and the first result has the best score of all |
| ImageMatch.BestFirst | kotonebot/backend/image.py:124-126 | in a list sorted by descending score no match beats the first |
| ImageMatch.RemoveDuplicates | kotonebot/backend/image.py:57-67 | de-duplication keeps a subset of the matches, never more of them, and always the first |
| ImageMatch.RemoveDuplicatesSubsequence | kotonebot/backend/image.py:57-67 | the kept matches appear in their original order |
| ImageMatch.RemoveDuplicatesSpaced | kotonebot/backend/image.py:57-67 | any two kept matches are at least `offset` apart horizontally |
| ImageMatch.RemoveDuplicatesDropsOnlyNear | kotonebot/backend/image.py:63-65 | a match is dropped only when a kept match lies less than `offset` from it horizontally |
| ImageMatch.RemoveDuplicatesKeepsSpaced | kotonebot/backend/image.py:57-67 | a list already spaced `offset` apart comes back unchanged |
| ImageMatch.RemoveDuplicatesIdempotent | kotonebot/backend/image.py:57-67 | de-duplicating twice is de-duplicating once |
| ImageMatch.RemoveDuplicatesNonPositiveOffset | kotonebot/backend/image.py:64 | with an offset of zero or less nothing is near anything, so nothing is dropped |
| ImageMatch.FindIsBest | kotonebot/backend/image.py:149-158 | `find` returns nothing exactly when no position reaches the threshold, and otherwise a candidate no other candidate outscores |
| ImageMatch.Find | kotonebot/backend/image.py:149-158 | a found match is a candidate: in the score map, at or above the threshold, with the template's size |
| ImageMatch.MasksFor | kotonebot/backend/image.py:168-171 | without masks every template is paired with no mask; otherwise the masks given are used |
| ImageMatch.FirstSome | kotonebot/backend/image.py:172-176 | the first present result, and none only when every result is absent |
| ImageMatch.FindAnyFirstHit | kotonebot/backend/image.py:160-176 | `find_any` returns the result of the first template, in order, that is found, and nothing when none is; `zip` stops at the shorter list |
| ImageMatch.FirstSomeIndex | kotonebot/backend/image.py:172-176 | the first present result sits at an index with only absent results before it |
| ImageMatch.FindEach | kotonebot/backend/image.py:172-173 | one `find` per template and mask pair, in order |
| ImageMatch.Count | kotonebot/backend/image.py:178-194 | the count is at most the number of candidates, equal to it without de-duplication and, with it, to the number of matches `remove_duplicate_matches` keeps of the unlimited search; zero exactly when there is no candidate |
| ImageMatch.CountDeduplicated | kotonebot/backend/image.py:178-194 | de-duplication never raises the count, and leaves it unchanged when the matches are already at least 10 pixels apart |
| ImageMatch.Expect | kotonebot/backend/image.py:196-206 | `expect` fails with `TemplateNotFoundError` carrying the image and template exactly when `find` finds nothing, and otherwise returns what `find` found |
| ImageMatch.CropOf | kotonebot/backend/image.py:142-147 | a crop result carries the match's score, position and size and the image region under the match |
| ImageMatch.FindCrop | kotonebot/backend/image.py:130-147 | one crop per de-duplicated match of the unlimited search, in order |
| Color.UnifyColor | kotonebot/backend/color.py:25-44 | a string without `#` is refused, one whose remainder is not six characters is refused, a `#` and six characters parse exactly when each hex pair parses; a tuple passes exactly when it has three integer channels in `0..255`; any other value is refused |
| Color.HexPairs | kotonebot/backend/color.py:32-34 | parsing hex pairs yields one number per pair |
| Color.HexPairsSpec | kotonebot/backend/color.py:32-34 | the pairs parse exactly when every pair is valid for `int(pair, 16)`, and each number is that pair's value |
| Color.UnifyHexColor | kotonebot/backend/color.py:26-35 | `#RRGGBB` of hex digits gives `(RR, GG, BB)` read in base 16 |
| Color.HexPairsValue | kotonebot/backend/color.py:32-34 | pairs of hex digits parse to `16 * high + low` each |
| Color.UnifyColorRejects | tests/core/test_color.py:21-32 | `''`, `'sdasdf'`, `'000000'`, `'#000'`, `'red'`, a list, an empty or two-element tuple and `(999, 999, -1)` are all refused |
| Color.InRangeFacts | kotonebot/backend/color.py:51-61 | a colour lies in the range from itself to itself, and a range holding any colour has its lower bound below its upper bound on every channel |
| Color.Dist2Bounds | kotonebot/backend/color.py:102-117 | the scaled squared HLS distance of in-range colours is at most the scale of `sqrt(6)`, and zero exactly when lightness and saturation agree and hues agree or are 180 apart |
| Color.RowBest | kotonebot/backend/color.py:129 | the best position in a row, when there is one, lies within the row |
| Color.RowBestSpec | kotonebot/backend/color.py:120-129 | a row has no best position exactly when none is near enough; otherwise the best is near enough, at least as close as any other and strictly closer than any earlier one |
| Color.GridBest | kotonebot/backend/color.py:136-139 | the best position, when there is one, lies within the grid |
| Color.GridBestSpec | kotonebot/backend/color.py:120-141 | the grid has no answer exactly when no pixel is near enough; otherwise the answer is the first pixel in row-major order (`argmin`) among the closest near-enough pixels |
| Color.HlsGrid | kotonebot/backend/color.py:100 | the image converted pixel by pixel, keeping its shape |
| Color.FindRgb | kotonebot/backend/color.py:63-168 | `find_rgb` fails exactly when the colour argument is refused, with the same error; otherwise it answers the nearest-colour search over the whole image or the rectangle, shifted back to image coordinates |
| Color.ExactColorFound | tests/core/test_color.py:7-20 | a pixel of exactly the target colour is always found with a threshold of at most 1 |
| Color.ThresholdAboveOneFindsNothing | kotonebot/backend/color.py:120 | a threshold above 1 accepts no pixel, so nothing is found |
| Color.HexOfCenter | kotonebot/backend/color.py:208-211 | a cluster centre with channels in `[0, 256)` formats as `#` and six hex digits |
| Color.HexOfCenterRoundTrip | kotonebot/backend/color.py:208-211 | the hex string of a centre parses back to its truncated channels in RGB order |
| Color.UnifyHexTriple | kotonebot/backend/color.py:26-35 | `#` followed by three hex pairs parses to those pairs' values |
| Color.DominantColors | kotonebot/backend/color.py:198-214 | one hex colour per cluster, most frequent first, for `min(count, clusters)` clusters |
| Ocr.Message | kotonebot/backend/ocr.py:33-40 | the error message is `Expected text not found: ` followed by the string or the pattern's text, or by the function's `__name__` |
| Ocr.CleanText | kotonebot/backend/ocr.py:68 | after NFKC normalisation every `ą` becomes `a` and every other character is kept, so the text has no `ą` and the normalised length |
| Ocr.BoxRectCorners | kotonebot/backend/ocr.py:69-74 | a text box's rectangle is its top-left corner and the extent to its bottom-right corner; the other two corners play no part |
| Ocr.Recognize | kotonebot/backend/ocr.py:57-76 | no engine result gives no lines; otherwise one cleaned result per recognised line, in order |
| Ocr.FindIn | kotonebot/backend/ocr.py:43-49 | nothing is found exactly when no line matches; otherwise the first line that matches |
| Ocr.LiteralVersusRegex | kotonebot/backend/ocr.py:43-49 | a plain string matches only the whole text, a regex of the same characters any text that starts with them, so the string's matches are among the regex's |
| Ocr.Find | kotonebot/backend/ocr.py:78-87 | without engine output nothing is found; a found result is one of the recognised lines and matches the pattern |
| Ocr.Expect | kotonebot/backend/ocr.py:89-96 | `expect` fails with `TextNotFoundError` carrying the pattern and image exactly when `find` finds nothing, and otherwise returns what `find` found |
| Ocr.FindLiteral | kotonebot/backend/ocr.py:78-87 | a plain string is found exactly when some cleaned line equals it, and then the result's text is that string |
| BootstrapUtil.First | bootstrap/kaa-bootstrap/util.py:91 | `user_configs[0]` succeeds exactly on a non-empty list, tuple or string |
| BootstrapUtil.FirstMisc | bootstrap/kaa-bootstrap/util.py:89-93 | a config that is not a dict fails on `.get`; a config without `user_configs` yields no settings; a `misc` is only read when `user_configs` is truthy |
| BootstrapUtil.UpdateSettingsLogic | bootstrap/kaa-bootstrap/util.py:74-105 | without user configs, or with an empty `misc`, the defaults (check, install, `release`); otherwise checking is on exactly when `check_update` is absent or `startup`, and the other two are read with their defaults |
| BootstrapUtil.FirstUserConfigFound | bootstrap/kaa-bootstrap/util.py:89-91 | a config whose `user_configs` list starts with a given entry makes that entry the first config read |
| BootstrapUtil.OnlyFirstConfigMatters | bootstrap/kaa-bootstrap/util.py:89-105 | two configs with the same first user config give the same update settings |
| BootstrapUtil.SettingsFromMisc | bootstrap/kaa-bootstrap/util.py:92-103 | with a `misc` dict present, each setting is the key's value when present and its default when absent |
| Launcher.GetUpdateSettings | bootstrap/kaa-bootstrap/launcher.py:560-590 | without user configs the launcher checks for and installs updates |
| Launcher.GetUpdateSettingsAgrees | bootstrap/kaa-bootstrap/launcher.py:560-590 | the launcher's own reader fails exactly when `get_update_settings_logic` does and otherwise agrees with it on checking and installing |
| Launcher.DispatchPackageFile | bootstrap/kaa-bootstrap/launcher.py:714-723 | without a positional file nothing changes; the file is refused exactly when its lower-cased name ends in none of `.zip`, `.whl`, `.tar.gz`; a `.zip` fills `--install-from-zip` and any other accepted file `--install-from-package`, but never over an option already given |
| Launcher.DispatchIdempotent | bootstrap/kaa-bootstrap/launcher.py:714-723 | dispatching the positional file a second time changes nothing |
| Launcher.EffectiveUpdateSettings | bootstrap/kaa-bootstrap/launcher.py:738-743 | any explicit install option turns checking and installing off; otherwise the configured settings stand |
| Launcher.PlanInstall | bootstrap/kaa-bootstrap/launcher.py:752-771 | a zip wins over a package file, which wins over a pinned version, and only without all three does the default update path run, each with its own argument |
| Launcher.DefaultPlanKeepsSettings | bootstrap/kaa-bootstrap/launcher.py:768-771 | the default path runs with the update settings it was given |
| Launcher.PositionalFileInstalls | bootstrap/kaa-bootstrap/launcher.py:714-771 | an accepted positional file always leads to a zip or package install, never to the default path |
| Launcher.TrimSeps | bootstrap/kaa-bootstrap/launcher.py:478 | trailing path separators are dropped and no more |
| Launcher.AfterLastSep | bootstrap/kaa-bootstrap/launcher.py:478 | the last component starts just after the last separator |
| Launcher.Name | bootstrap/kaa-bootstrap/launcher.py:478 | a path's name holds no separator and is no longer than the path |
| Launcher.LastIndexBelow | bootstrap/kaa-bootstrap/launcher.py:478 | the index of the last occurrence of a character, or none when it does not occur |
| Launcher.NameSuffix | bootstrap/kaa-bootstrap/launcher.py:478 | a name's suffix is empty or a dot-led tail of the name with no further dot, shorter than the name |
| Launcher.SuffixOfExtension | bootstrap/kaa-bootstrap/launcher.py:427 | a path whose lower-cased text ends in a one-dot extension, with a name longer than it, has that extension as its lower-cased suffix |
| Launcher.DispatchedPackageAccepted | bootstrap/kaa-bootstrap/launcher.py:462-480 | a `.whl` or `.tar.gz` file the launcher dispatches passes `install_ksaa_from_package`'s type check when its name is longer than four characters |
| Launcher.DispatchedZipAccepted | bootstrap/kaa-bootstrap/launcher.py:411-430 | a `.zip` file the launcher dispatches passes `install_ksaa_from_zip`'s type check when its name is longer than four characters |
| Launcher.BareExtensionRefused | bootstrap/kaa-bootstrap/launcher.py:478-479 | `dist/.whl` ends in `.whl` yet has no suffix, so the package installer refuses what the dispatcher accepted |
| Launcher.CheckAdmin | bootstrap/kaa-bootstrap/launcher.py:623-665 | a config that is not a dict fails; the admin check fails only when not an administrator; no user configs pass |
| Launcher.CheckAdminByScreenshotImpl | bootstrap/kaa-bootstrap/launcher.py:641-665 | the admin check fails exactly when the first user config's screenshot method is `windows` and the process is not an administrator |
| Repo.NormalizePreLabel | bootstrap/kaa-bootstrap/repo.py:44-52 | `alpha`/`a` become `a`, `beta`/`b` become `b`, `rc`/`c`/`pre`/`preview` become `rc`, in any case, and every other label is only lower-cased |
| Repo.NormalizePreLabelIdempotent | bootstrap/kaa-bootstrap/repo.py:44-52 | normalising a label twice is normalising it once |
| Repo.NormalizeSpelling | bootstrap/kaa-bootstrap/repo.py:44-52 | every pre-release spelling the version pattern accepts maps to `a`, `b` or `rc`, while `dev` and `post` pass through |
| Repo.Clean | bootstrap/kaa-bootstrap/repo.py:71-72 | the text to parse is the stripped, lower-cased text with its leading run of `v` removed: a suffix of it, preceded only by `v`s, and not starting with `v` |
| Repo.FromGroups | bootstrap/kaa-bootstrap/repo.py:76-102 | a pattern match gives major, minor and patch from the release segment (0 when missing) and exactly one marker: `dev` first, then the normalised pre-release label, then `post`, else none, each with its number or 0 |
| Repo.ReleasePaddingIrrelevant | bootstrap/kaa-bootstrap/repo.py:78-83 | a trailing `.0` release part changes nothing, so `1.2` and `1.2.0` parse alike |
| Repo.DotNumberAt | bootstrap/kaa-bootstrap/repo.py:105 | a `.` and at least one digit are read, and where the digits end is returned |
| Repo.FallbackRelease | bootstrap/kaa-bootstrap/repo.py:105-109 | the fallback reads a release only from text that starts with a digit: the leading digits are the major number, the digits after a following `.` the minor one and those after a second `.` the patch, each 0 when its `.digits` is absent |
| Repo.FirstAlternative | bootstrap/kaa-bootstrap/repo.py:111 | the first alternative, in the pattern's order, that the text starts with |
| Repo.LabelAt | bootstrap/kaa-bootstrap/repo.py:111 | a label is recognised at a position exactly when one of the alternatives starts there, and is that alternative |
| Repo.SearchLabel | bootstrap/kaa-bootstrap/repo.py:111 | `re.search` finds the leftmost position where a label starts, and nothing when there is none |
| Repo.NumberAfter | bootstrap/kaa-bootstrap/repo.py:111-114 | the number after a label, past any whitespace, is the value of the digits there, or 0 when no digit follows |
| Repo.FallbackLabel | bootstrap/kaa-bootstrap/repo.py:111-114 | the fallback's marker is always one the comparison knows, and without any label anywhere the version is a final release numbered 0 |
| Repo.FallbackTagKnown | bootstrap/kaa-bootstrap/repo.py:111-113 | the fallback's normalised marker is one of the labels the comparison orders |
| Repo.FallbackTagSpec | bootstrap/kaa-bootstrap/repo.py:111-113 | the marker is the normalised spelling of the first label found, at the leftmost position where one starts |
| Repo.FallbackNumberSpec | bootstrap/kaa-bootstrap/repo.py:111-114 | the marker's number is the number after that label |
| Repo.FromFallback | bootstrap/kaa-bootstrap/repo.py:104-114 | the version keeps its text; its marker and number are the first label's; without a leading number the release is `0.0.0` |
| Repo.FromFallbackRelease | bootstrap/kaa-bootstrap/repo.py:105-109 | where the simple release pattern matches, it supplies major, minor and patch |
| Repo.Parse | bootstrap/kaa-bootstrap/repo.py:69-114 | the version keeps its text and its marker is one the comparison knows; when the PEP 440 pattern matches the cleaned text the version is the one its groups give (the `dev` marker winning), and otherwise the fallback's |
| Repo.Rank | bootstrap/kaa-bootstrap/repo.py:130-132 | a marker ranks between 0 and 5, and an unknown marker ranks as a final release (4) |
| Repo.LtStrict | bootstrap/kaa-bootstrap/repo.py:116-152 | `<` is irreflexive, asymmetric and transitive, and equal versions are not ordered either way |
| Repo.LtIsKeyOrder | bootstrap/kaa-bootstrap/repo.py:116-152 | for parsed versions `<` is the lexicographic order on (major, minor, patch, rank, number), `==` is equality of that key, and any two are ordered or equal |
| Repo.NormalizePackageName | bootstrap/kaa-bootstrap/repo.py:195-199 | the name keeps its length, every `_`, `.` and `-` becomes `-`, every other character is lower-cased, so no upper-case letter, `_` or `.` remains |
| Repo.NormalizePackageNameIdempotent | bootstrap/kaa-bootstrap/repo.py:195-199 | normalising a normalised name changes nothing |
| Repo.SameNormalizedName | bootstrap/kaa-bootstrap/repo.py:195-199 | two names normalise alike exactly when they agree position by position up to case and with any separator standing for any other |
| Repo.LazyVersion | bootstrap/kaa-bootstrap/repo.py:209 | the lazy version group ends at the first length from which the rest of the name is a wheel or archive tail, and holds no `-` |
| Repo.WheelVersion | bootstrap/kaa-bootstrap/repo.py:208-212 | the main pattern's version is non-empty and holds no `-`, and a name without `-` never matches |
| Repo.WheelVersionSpec | bootstrap/kaa-bootstrap/repo.py:208-212 | the main pattern matches exactly when the name before the first `-` is non-empty and some dash-free text after it is followed by a wheel suffix; the version is then that text, the shortest such |
| Repo.DottedVersionAt | bootstrap/kaa-bootstrap/repo.py:215 | the fallback pattern matches at a `-` and yields a version starting with a digit, at least three characters long |
| Repo.DottedVersionAtSpec | bootstrap/kaa-bootstrap/repo.py:215 | the fallback pattern matches exactly at a `-` followed by digits, a dot and a digit, and yields the text after the dash up to the first character that is neither a letter nor a digit past the numbers it reads |
| Repo.SearchDottedVersion | bootstrap/kaa-bootstrap/repo.py:215-217 | `re.search` finds the leftmost position where the fallback pattern matches, with what it yields there, and nothing only when no position matches |
| Repo.ExtractVersion | bootstrap/kaa-bootstrap/repo.py:202-219 | the main pattern's version when it matches, else the fallback's, else `unknown` |
| Repo.ExtractVersionExample | bootstrap/kaa-bootstrap/repo.py:206 | `beautifulsoup4-4.13.0b2-py3-none-any.whl` gives `4.13.0b2` |
| Repo.ExtractVersionUnknown | bootstrap/kaa-bootstrap/repo.py:202-219 | a file name without `-` has version `unknown` |
| Repo.KeepReleases | bootstrap/kaa-bootstrap/repo.py:270-273 | the kept items are exactly the items that are not pre-releases (all of them when pre-releases are asked for), in their original order |
| Repo.NewerIsStrictOrder | bootstrap/kaa-bootstrap/repo.py:283 | "newer than" is a strict order, so the descending sort is well defined |
| Repo.SortNewestFirst | bootstrap/kaa-bootstrap/repo.py:283 | sorting is a permutation in which no version is below a later one, and links with `==` versions keep their original order (the sort is stable, also with `reverse=True`) |
| Repo.ListVersions | bootstrap/kaa-bootstrap/repo.py:262-285 | the listed versions are the parsed links, without pre-releases unless asked for, newest first, with links of `==` versions in link order |
| Terminal.CharWidth | bootstrap/kaa-bootstrap/terminal.py:61-65 | a character is two columns wide exactly when its East Asian width is `F` or `W`, and one otherwise |
| Terminal.DisplayWidth | bootstrap/kaa-bootstrap/terminal.py:57-66 | a string is at least one and at most two columns per character wide |
| Terminal.DisplayWidthAppend | bootstrap/kaa-bootstrap/terminal.py:57-66 | the width of a concatenation is the sum of the widths |
| Terminal.DisplayWidthPrefix | bootstrap/kaa-bootstrap/terminal.py:57-66 | each further character adds at least one column |
| Terminal.TruncateString | bootstrap/kaa-bootstrap/terminal.py:68-82 | an empty string or a non-positive width gives `""`; otherwise the result is the longest prefix of the string that fits in the width |
| Terminal.Repeat | bootstrap/kaa-bootstrap/terminal.py:122-123 | `c * n` is `n` copies of `c`, and empty for a negative `n` |
| Terminal.RepeatWidth | bootstrap/kaa-bootstrap/terminal.py:122-123 | `n` copies of a one-column character are `n` columns wide |
| Terminal.HeaderLayout | bootstrap/kaa-bootstrap/terminal.py:113-120 | text at least as wide as the terminal gets no separators; otherwise the two separators and the text fill the width exactly, the right separator equal to the left or one longer |
| Terminal.HeaderBody | bootstrap/kaa-bootstrap/terminal.py:113-116 | a padded text at least as wide as the terminal is printed bare |
| Terminal.HeaderFillsWidth | bootstrap/kaa-bootstrap/terminal.py:118-125 | with a one-column rule character, a header narrower than the terminal spans exactly the terminal's width |
| Terminal.HeaderLine | bootstrap/kaa-bootstrap/terminal.py:101-125 | the header line starts with a newline, bold and the colour, and ends with the reset code |
| Terminal.MoveCursorUp | bootstrap/kaa-bootstrap/terminal.py:92-95 | nothing is printed for zero or fewer lines; otherwise `ESC [`, the count in decimal, and `A` |
| Terminal.ResolveStatus | bootstrap/kaa-bootstrap/terminal.py:136-148 | a `success` flag overrides the status (true is success, false is error); otherwise `success`, `error` and `warning` pick their own style and anything else is info |
| Terminal.Symbol | bootstrap/kaa-bootstrap/terminal.py:142-149 | success is a green check mark, error a red cross, warning a yellow warning sign, and info a blue information sign followed by the reset code |
| Terminal.SymbolColourDigit | bootstrap/kaa-bootstrap/terminal.py:142-149 | the four symbols differ in their colour digit, so that one character tells the statuses apart |
| Terminal.StatusLine | bootstrap/kaa-bootstrap/terminal.py:127-151 | the line is two spaces per indent level, `[`, the status's symbol, `] `, then the message followed by the reset code |
| Terminal.StatusLineReadBack | bootstrap/kaa-bootstrap/terminal.py:127-151 | at a given indent, two equal status lines have the same resolved status and the same message |
| TcpForward.Before | tools/tcp_forward.py:15 | `s.split(c)[0]`: the longest prefix without `c`, all of `s` when `c` does not occur |
| TcpForward.PortNumber | tools/tcp_forward.py:16 | a port that is not an integer is refused with the `int()` `ValueError` quoting the text before any `/` |
| TcpForward.ParseAddress | tools/tcp_forward.py:10-20 | with a colon the host is the text before it; without one the host is `localhost`; the only errors are the unpacking and `int()` `ValueError`s |
| TcpForward.FormatAddr | tools/tcp_forward.py:30-32 | the formatted address starts with the host and a colon |
| TcpForward.SplitFirst | tools/tcp_forward.py:15 | the first field of a split is the text before the first separator |
| TcpForward.HostAndPort | tools/tcp_forward.py:12-16 | `host:port[/rest]` with one colon gives that host and port, or the `int()` error when the port is not a number |
| TcpForward.PortOnly | tools/tcp_forward.py:17-20 | `port[/rest]` without a colon gives `localhost` and that port, or the `int()` error |
| TcpForward.SecondColonRejected | tools/tcp_forward.py:13 | a second colon makes the two-way unpacking fail |
| TcpForward.SuffixIgnored | tools/tcp_forward.py:14-19 | anything after a `/` that holds no colon is ignored |
| TcpForward.FormatParses | tools/tcp_forward.py:10-32 | parsing a formatted address with a colon-free host gives the address back |
| TcpForward.PortParses | tools/tcp_forward.py:17-20 | a bare decimal port parses to `localhost` and that port |
| TcpForward.ParseFormats | tools/tcp_forward.py:10-32 | a formatted address followed by `/` and colon-free text parses back to the address |
| Upgrade.Iterate | kotonebot/kaa/config/upgrade.py:337-338 | `map` over the idols succeeds exactly on a list, tuple, string or dict, yielding the characters of a string and the keys of a dict; anything else is a `TypeError` |
| Upgrade.KeptDroppedCount | kotonebot/kaa/config/upgrade.py:337-338 | every idol is either kept (mapped) or dropped, and none is dropped exactly when every idol maps |
| Upgrade.KeptAll | kotonebot/kaa/config/upgrade.py:337-338 | when every idol maps, the new list is the mapped idols in order |
| Upgrade.MessageFoldFrom | kotonebot/kaa/config/upgrade.py:331-336 | the message is empty while nothing is dropped; the first drop adds the header, and each dropped idol adds a `未找到` line, in order |
| Upgrade.FailureMessage | kotonebot/kaa/config/upgrade.py:331-336 | an upgrade that drops nothing reports `''`; otherwise the header followed by one line per dropped idol |
| Upgrade.MapIdols | kotonebot/kaa/config/upgrade.py:164-341 | the v1 and v2 upgrades fail exactly when `options['produce']['idols']` is missing or not iterable, and otherwise store the kept idols there and report the failure message |
| Upgrade.ChainDropsNothing | kotonebot/kaa/config/upgrade.py:337-338 | when the second mapping accepts every output of the first, a second pass drops nothing |
| Upgrade.SecondPassDropsNothing | kotonebot/kaa/config/upgrade.py:343-439 | every idol the v1 upgrade produces is known to the v2 upgrade |
| Upgrade.V3ToV4 | kotonebot/kaa/config/upgrade.py:441-450 | the v3 upgrade fails exactly when the package name is missing, reports `''`, corrects the misspelt `com.bandinamcoent.idolmaster_gakuen` and leaves any other options as they were |
| Upgrade.V3ToV4Frame | kotonebot/kaa/config/upgrade.py:441-450 | nothing outside `start_game` changes |
| Upgrade.V4ToV5 | kotonebot/kaa/config/upgrade.py:452-460 | the v4 upgrade fails exactly when the screenshot method is missing, returns the options untouched with `''`, and sets `backend.type` to `dmm` exactly for `windows` and `remote_windows` |
| Upgrade.V4ToV5Frame | kotonebot/kaa/config/upgrade.py:452-460 | nothing outside `backend` changes |
| Upgrade.RunFrom | kotonebot/kaa/config/upgrade.py:22-48 | a run from version `n` that completes reports one message per step up to 5 |
| Upgrade.StartStep | kotonebot/kaa/config/upgrade.py:25-46 | the loop enters the arm whose number the stored version equals, and none when it equals no number from 1 to 4 |
| Upgrade.StepNeedsOptions | kotonebot/kaa/config/upgrade.py:26-45 | every arm reads `user_config['options']` first, so a user config without options fails with `KeyError('options')` |
| Upgrade.StepCount | kotonebot/kaa/config/upgrade.py:22-48 | at most four steps run, and none exactly when the version is not 1 to 4 |
| Upgrade.UpgradeUserConfig | kotonebot/kaa/config/upgrade.py:22-48 | a version not in 1..4 comes back unchanged with no step run; a completed upgrade ends at 5 with one message per step |
| Upgrade.UpgradeAll | kotonebot/kaa/config/upgrade.py:49-51 | every user config is upgraded from the stored version, and the version written is the last config's result, none being written without configs |
| Upgrade.UpgradeConfig | kotonebot/kaa/config/upgrade.py:10-55 | an upgrade needs `user_configs` and `version` and an iterable config list; without configs the version stays, otherwise it becomes 5 or stays when no step applies |
| Upgrade.AgreeFromV4 | kotonebot/kaa/config/upgrade.py:41-45 | from version 4 on, rebinding `user_config` to the returned options makes no difference |
| Upgrade.AsWrittenStops | kotonebot/kaa/config/upgrade.py:26-40 | as written, after a v1, v2 or v3 step the next arm looks up `options` in the options dict and fails with `KeyError('options')` |
| Upgrade.AsWrittenFailsFromV3 | kotonebot/kaa/config/upgrade.py:36-45 | as written, upgrading a well-formed v3 user config always fails with `KeyError('options')` |
| Upgrade.StepThreeKeepsKeyMissing | kotonebot/kaa/config/upgrade.py:36-40 | the v3 step leaves the options without an `options` key, so the v4 arm cannot find one |
| Upgrade.CorrectedFromV3 | kotonebot/kaa/config/upgrade.py:36-45 | with `user_config` kept bound to the user config, a well-formed v3 config reaches 5 with two empty messages, the package name corrected and a Windows backend set to `dmm` |
| Upgrade.StepThree | kotonebot/kaa/config/upgrade.py:36-40 | the v3 arm succeeds on a well-formed config, reports `''`, stores the corrected options and leaves the backend alone |
| Upgrade.StepFour | kotonebot/kaa/config/upgrade.py:41-45 | the v4 arm succeeds when the screenshot method is present, keeps the options and sets a Windows backend to `dmm` |
| Upgrade.CorrectedSteps | kotonebot/kaa/config/upgrade.py:36-45 | the v3 and then the v4 arm, run on the user config, both succeed and together correct the package name and the backend type |
| Upgrade.CorrectedRun | kotonebot/kaa/config/upgrade.py:22-48 | without rebinding, a run from 3 is the v3 step followed by the v4 step with their messages in order |
| Upgrade.UpgradeFails | kotonebot/kaa/config/upgrade.py:22-48 | a failing step makes the whole user-config upgrade fail with its error |
| Upgrade.UpgradeRuns | kotonebot/kaa/config/upgrade.py:22-48 | a run that completes gives version 5, the run's config and its messages |
| Upgrade.LastStep | kotonebot/kaa/config/upgrade.py:41-48 | from 4 the loop runs the v4 arm once and stops |
| Upgrade.RunEnds | kotonebot/kaa/config/upgrade.py:46-48 | from 5 the loop stops at once with nothing to report |
| PIdols.TableShape | kotonebot/kaa/config/upgrade.py:58-161 | eleven idols with bases 0, 100, ..., 1000, each with fewer than 100 members |
| PIdols.PIdol | kotonebot/kaa/config/upgrade.py:70-161 | a member's value is its idol's base plus its position, inside its idol's block of 100 |
| PIdols.PIdolInjective | kotonebot/kaa/config/upgrade.py:70-161 | no two members of the enumeration share a value |
| PIdols.SearchGroups | kotonebot/kaa/config/upgrade.py:174-336 | the search finds the first case, in source order, that matches, and nothing only when no case matches |
| PIdols.SearchMembers | kotonebot/kaa/config/upgrade.py:174-336 | within one idol, the first member whose case matches |
| PIdols.MapIdolV1 | kotonebot/kaa/config/upgrade.py:172-336 | a `[idol, title...]` list or tuple is mapped to the value of the first case it equals, and nothing when it equals no case |
| PIdols.MapIdolV2 | kotonebot/kaa/config/upgrade.py:349-435 | a value equal (by Python `==`) to a member is mapped to that member's skin id, and nothing when it equals none |
| PIdols.MapIdolV2OfPIdol | kotonebot/kaa/config/upgrade.py:349-435 | every member of the enumeration has a skin id |
| PIdols.V1ThenV2 | kotonebot/kaa/config/upgrade.py:164-439 | an idol the v1 upgrade recognises comes out of the v2 upgrade as the skin id of the member it matched |
| PyValue.IntValue | kotonebot/backend/util.py:18 | a `bool` is an `int`: `True` counts as 1 and `False` as 0 |
| PyValue.Subscript | kotonebot/kaa/config/upgrade.py:337 | `d[k]` succeeds exactly on a dict holding `k`, fails with `KeyError(k)` on a dict without it and with `TypeError` on anything else |
| PyValue.GetOr | bootstrap/kaa-bootstrap/util.py:89 | `d.get(k, default)` succeeds exactly on a dict, giving `d[k]` when present and the default otherwise |
| PyValue.SetKey | kotonebot/kaa/config/upgrade.py:339 | `d[k] = x` succeeds exactly on a dict, after which `d[k]` is `x` |
| PyValue.GetPathSetPath | kotonebot/kaa/config/upgrade.py:337-339 | reading back a nested key just written gives the value written |
| PyValue.GetPathTwo | bootstrap/kaa-bootstrap/util.py:92-93 | two nested lookups that succeed by subscript give the same value through `.get` |
| PyValue.GetPathOne | kotonebot/kaa/config/upgrade.py:337 | a one-key path is a plain subscript |
| PyValue.SubscriptSetKey | kotonebot/kaa/config/upgrade.py:339 | setting one key leaves every other key of the dict as it was |
| PyValue.GetPathSetPathApart | kotonebot/kaa/config/upgrade.py:447-448 | writing under one top-level key leaves every path under another top-level key unchanged |
| PyValue.GetPathSetPathBelow | kotonebot/kaa/config/upgrade.py:458-459 | a write that leaves a child's sub-path alone leaves the full path alone |
| PyValue.GetPathFirstKey | kotonebot/kaa/config/upgrade.py:337 | a path's value depends only on the value under its first key |
| PyValue.GetPathParent | kotonebot/kaa/config/upgrade.py:337-339 | a path that can be read has a dict as its parent |
| PyValue.SetPathDefined | kotonebot/kaa/config/upgrade.py:339 | a nested write succeeds whenever the parent path is a dict |
| PyValue.GetPathAppend | kotonebot/kaa/config/upgrade.py:337 | reading a concatenated path reads the first part, then the second from there |
| Schema.PriorityOf | kotonebot/kaa/config/schema.py:13-20 | `Priority(v)` exists exactly for `v` from -2 to 1 and is the member with that value |
| Schema.PriorityRoundTrip | kotonebot/kaa/config/schema.py:13-20 | building a priority from its own value gives it back |
| Schema.PriorityOrder | kotonebot/kaa/config/schema.py:13-20 | the four priorities in declaration order have strictly decreasing values |
| Schema.ShopItemsByValue | kotonebot/kaa/config/schema.py:32-85 | the shop has 25 items valued -1 to 23 in declaration order |
| Schema.ItemOf | kotonebot/kaa/config/schema.py:32-85 | `DailyMoneyShopItems(v)` exists exactly for `v` from -1 to 23 and has that value |
| Schema.ItemRoundTrip | kotonebot/kaa/config/schema.py:32-85 | building an item from its own value gives it back, and every item is listed |
| Schema.All | kotonebot/kaa/config/schema.py:144-147 | `all()` pairs every item with its settings-page label, in increasing value |
| Schema.AllListsEveryItem | kotonebot/kaa/config/schema.py:144-147 | each item appears in `all()` at the position of its value, with its label |
| Schema.NoteInside | kotonebot/kaa/config/schema.py:149-152 | a name with `Note` strictly inside it, not at its start or end, is a note |
| Schema.NoteAtEnd | kotonebot/kaa/config/schema.py:149-152 | a name ending in `Note` is not a note |
| Schema.NoCapitalN | kotonebot/kaa/config/schema.py:149-152 | a name without `N` is not a note |
| Schema.IsNoteExactly | kotonebot/kaa/config/schema.py:149-152 | the notes are exactly the items valued 3 to 11, the sense, logic and anomaly notes; lesson and veteran notes end in `Note` and are not |
| Schema.IsNoteAt | kotonebot/kaa/config/schema.py:149-157 | the item at position `i` is a note exactly when `i` is 4 to 12, and then it is the `i-4`th note kind |
| Schema.NotesFromAt | kotonebot/kaa/config/schema.py:154-157 | filtering from position `i` on gives the note pairs from the matching point on |
| Schema.NoteItems | kotonebot/kaa/config/schema.py:154-157 | `note_items()` is the nine note kinds with their labels, in declaration order |
| Schema.NoteKindsByValue | kotonebot/kaa/config/schema.py:42-59 | the note kinds are valued 3 to 11 in order |
| Schema.ActionOf | kotonebot/kaa/config/schema.py:267-279 | `ProduceAction(s)` is the action with value `s`, and none exists for any other string |
| Schema.ActionRoundTrip | kotonebot/kaa/config/schema.py:267-279 | building an action from its own value gives it back |
| Schema.DefaultActionsOrderIsPermutation | kotonebot/kaa/config/schema.py:345-355 | the default action order lists every action exactly once |
| Schema.ModeOf | kotonebot/kaa/config/schema.py:296-298 | `RecommendCardDetectionMode(s)` is the mode with value `s`, and none exists for any other string |
| Schema.ModeRoundTrip | kotonebot/kaa/config/schema.py:296-298 | building a detection mode from its own value gives it back |
| Schema.DefaultSelectedNoteIsNote | kotonebot/kaa/config/schema.py:382 | the club reward's default note is one of the notes |
| Schema.UpgradeWritesDefaultPackage | kotonebot/kaa/config/schema.py:416 | the package name the v3 upgrade writes is the schema's default package name |
| ExtractSchema.GetType | tools/db/extract_schema.py:47-63 | lists, booleans (before integers), integers, floats, strings, `None` and dicts map to their schema type one for one; any other value raises `ValueError` naming its type |
| ExtractSchema.AnyOtherType | tools/db/extract_schema.py:82 | the `any(...)` over the tail is false exactly when every item has the expected type, and an unsupported item propagates its error |
| ExtractSchema.Extract | tools/db/extract_schema.py:65-86 | an empty list is an array of null, a list headed by a dict is an array of JSON strings, any other list must be homogeneous (else `ValueError`), and a non-list gets its own type |
| ExtractSchema.EscapeSqlIdentifier | tools/db/extract_schema.py:88-92 | the name is left as it is exactly when its lower-case form is no SQLite keyword and it is alphanumeric; otherwise it is wrapped in double quotes |
| ExtractSchema.EscapeRoundTrip | tools/db/extract_schema.py:88-92 | removing the added quotes gives the name back, and every escaped name is either a safe bare identifier or quoted |
| ExtractSchema.Collect | tools/db/extract_schema.py:121-128 | the field columns are gathered only when every field converts, one column per single-column field in field order |
| ExtractSchema.TypeToSql | tools/db/extract_schema.py:96-115 | a non-expanding field gives one column named after the stripped prefix with its key order; arrays are TEXT, the scalar types follow the mapping, and `object` has no mapping and raises `KeyError` |
| ExtractSchema.Columns | tools/db/extract_schema.py:117-128 | a schema of plain fields yields exactly one column per field, in schema order, named after the field and carrying its key order |
| ExtractSchema.KeyEntries | tools/db/extract_schema.py:123-125 | the key list holds exactly the (order, name) pairs of the columns with a positive key order |
| ExtractSchema.KeyBeforeIsStrict | tools/db/extract_schema.py:132 | comparing (order, name) tuples as Python does is a strict order |
| ExtractSchema.SortedKey | tools/db/extract_schema.py:131-133 | the key columns are a permutation of the key entries sorted by order |
| ExtractSchema.TableLines | tools/db/extract_schema.py:117-134 | one `name type` line per column in order and, exactly when some column belongs to the key, a last line `PRIMARY KEY (...)` naming the key columns in sorted order, separated by `, ` |
| ExtractSchema.KeyNames | tools/db/extract_schema.py:133 | `key_fields` is the column name of each sorted key entry, in that order |
| ExtractSchema.KeyClauseAscending | tools/db/extract_schema.py:130-134 | the key clause lists the key columns in ascending composite-key order |
| ExtractSchema.KeyClauseNames | tools/db/extract_schema.py:121-134 | the key clause names a column exactly when the column has a positive composite-key order |
| ExtractSchema.SchemaToSql | tools/db/extract_schema.py:94-141 | the statement exists exactly when every column converts, and it is `CREATE TABLE IF NOT EXISTS`, the escaped table name and ` (`, then the table lines each on an indented line and separated by commas, then a line `);` |
| ExtractSchema.PrimaryKeyClause | tools/db/extract_schema.py:130-134 | a `PRIMARY KEY` clause is added exactly when some field has a positive composite-key order |
| ExtractSchema.MakeHashable | tools/db/extract_schema.py:260-264 | lists and dicts become their JSON text, and the hashed value is `None` exactly when the value was |
| ExtractSchema.KeyOf | tools/db/extract_schema.py:279 | a row's key tuple has one entry per field of the window |
| ExtractSchema.RowKey | tools/db/extract_schema.py:279 | `item.get` works only on dict rows (an empty window never calls it) and then gives the row's key tuple |
| ExtractSchema.KeysOf | tools/db/extract_schema.py:277-291 | the rows' key tuples, one per row |
| ExtractSchema.ScanIsUnique | tools/db/extract_schema.py:273-291 | the scan over the rows accepts exactly when no key tuple holds `None`, no two tuples are equal, and none was seen before |
| ExtractSchema.ScanFresh | tools/db/extract_schema.py:273-295 | starting from an empty set, a window is accepted exactly when the row tuples are `None`-free and pairwise distinct |
| ExtractSchema.UnseenCons | tools/db/extract_schema.py:287-291 | adding a tuple to the seen set rules out exactly the later rows equal to it |
| ExtractSchema.SearchFrom | tools/db/extract_schema.py:267-270 | a found window lies within the fields and is not before the place the search resumed from |
| ExtractSchema.SearchFromFirst | tools/db/extract_schema.py:267-297 | from any point the search finds a valid window with no valid window between, or reports that none is left |
| ExtractSchema.SearchFromStart | tools/db/extract_schema.py:267-297 | searching from size 1 at offset 0 finds the first valid window in (size, offset) order, or there is none |
| ExtractSchema.FindCompositeKey | tools/db/extract_schema.py:250-297 | no rows or a non-dict first row give the empty key, and dict rows never raise |
| ExtractSchema.CompositeKeyIsFirst | tools/db/extract_schema.py:250-297 | the key is empty exactly when no contiguous window of the first row's fields is unique and `None`-free; otherwise it is the smallest such window, leftmost among equals |
| ExtractSchema.CompositeKeyIsShortest | tools/db/extract_schema.py:267-295 | whenever a window of size k is a valid key, a non-empty key of at most k fields is returned |
| ExtractSchema.CompositeKeyFields | tools/db/extract_schema.py:258-270 | the key's fields are distinct fields of the first row |
| ExtractSchema.ExtractFields | tools/db/extract_schema.py:155-158 | the per-field schemas are built exactly when every value of the first row is supported, and the result stays flat |
| ExtractSchema.ExtractFieldsAppends | tools/db/extract_schema.py:155-158 | with distinct field names, extraction adds one schema per field in the first row's order |
| ExtractSchema.ExtractedCons | tools/db/extract_schema.py:157-158 | each field's schema is the one `extract` gives its value |
| ExtractSchema.SetKeepsFlat | tools/db/extract_schema.py:158 | assigning a non-object schema to a key keeps the schema flat |
| ExtractSchema.SetOrder | tools/db/extract_schema.py:165-166 | setting one field's key order keeps the field list and flatness |
| ExtractSchema.GetSetOrder | tools/db/extract_schema.py:165-166 | only the named field's order changes, and only if that field exists |
| ExtractSchema.SetKeyOrders | tools/db/extract_schema.py:164-166 | numbering the key's fields keeps the field list and flatness |
| ExtractSchema.OrderIn | tools/db/extract_schema.py:164 | a field gets a number exactly when it is in the key |
| ExtractSchema.GetSetKeyOrders | tools/db/extract_schema.py:164-166 | a field in the key gets the number of its last position; any other field is untouched |
| ExtractSchema.OrderInDistinct | tools/db/extract_schema.py:164 | with distinct fields, the j-th field of the key gets number n + j |
| ExtractSchema.KeyedSchema | tools/db/extract_schema.py:164-166 | the j-th key field gets order j + 1, other fields keep theirs, and some field has a positive order exactly when the key is non-empty |
| ExtractSchema.ProcessYamlData | tools/db/extract_schema.py:143-169 | `None` gives an empty schema and statement; anything but a non-empty list, or a non-dict first row, raises its `ValueError`; otherwise the statement is the one built from the schema |
| ExtractSchema.ProcessYamlDataBuilds | tools/db/extract_schema.py:155-166 | for dict rows with supported values, the schema is the first row's extracted fields numbered by the composite key |
| ExtractSchema.ProcessYamlDataKeyed | tools/db/extract_schema.py:143-169 | the schema has the first row's fields in order, the key fields numbered 1..k and the rest unchanged, and the statement has a `PRIMARY KEY` line exactly when a key was found |
| ExtractSchema.KeyColumns | tools/db/extract_schema.py:121-125 | a column belongs to the key exactly when its field does |
| Changelog.TypeAndScope | tools/extract_changelog.py:34-39 | a prefix holding both parentheses splits at its first `(` into the type and the rest with trailing `)` stripped; any other prefix is the type with scope `*` |
| Changelog.StartsWithColon | tools/extract_changelog.py:48-53 | a message starts with `docs:` (or another colon-free word and a colon) exactly when its text before the first `:` is that word |
| Changelog.Classify | tools/extract_changelog.py:30-55 | a message without `:` is filed nowhere, and any other goes to exactly one of the seven categories |
| Changelog.ClassifySpec | tools/extract_changelog.py:36-55 | a type starting with feat, fix or refactor, tested in that order, keeps its scope; any other message is filed under `*` |
| Changelog.FallbackSpec | tools/extract_changelog.py:48-55 | an untyped message goes to docs, test or chore exactly when the text before its first `:` is that word, and to other otherwise |
| Changelog.BucketAdd | tools/extract_changelog.py:43-55 | appending a commit to one category and scope grows that bucket by the commit and leaves every other bucket as it was |
| Changelog.Filed | tools/extract_changelog.py:29-55 | the reference bucket holds only commits of the input classified to that category and scope |
| Changelog.CategorizeFiles | tools/extract_changelog.py:27-56 | every bucket of `categorize_commits` is exactly the input's commits classified there, in input order |
| Changelog.OneBucket | tools/extract_changelog.py:27-56 | a commit lies in a bucket exactly when it is classified to that category and scope, so each `:` commit lands in exactly one |
| Changelog.FiledHas | tools/extract_changelog.py:29-55 | every commit classified to a bucket is in that bucket |
| Changelog.CategoryLabel | tools/extract_changelog.py:61-69 | the seven categories have labels and any other lookup raises `KeyError` |
| Changelog.EntryText | tools/extract_changelog.py:89 | an entry's text exists exactly when the message has a `:` and is what follows the first one, stripped |
| Changelog.EntryLine | tools/extract_changelog.py:89 | an entry line starts with the bracketed category label and the text and ends with the hash in full-width parentheses |
| Changelog.Entries | tools/extract_changelog.py:87-89 | one line per commit of a bucket, and no error for a known category whose commits all have a `:` |
| Changelog.ScopeBlock | tools/extract_changelog.py:84-94 | a scope with entries prints its label with `：`, its entries and an empty line; a scope without entries prints nothing |
| Changelog.Blocks | tools/extract_changelog.py:83-94 | the blocks are printed without error exactly when every scope's entries are |
| Changelog.ChangelogText | tools/extract_changelog.py:58-100 | the changelog is produced exactly when every listed scope's entries are |
| Changelog.ScopeEntriesOk | tools/extract_changelog.py:84-89 | in buckets built from known categories and `:` messages, no scope's entries fail |
| Changelog.CategorizeWellFormed | tools/extract_changelog.py:27-56 | `categorize_commits` only uses known categories and only files messages with a `:` |
| Changelog.ChangelogOfCommits | tools/extract_changelog.py:107-109 | printing the categorised commits never raises |
| Changelog.ListedOnly | tools/extract_changelog.py:83 | keeping only the scopes `scope_map` lists |
| Changelog.GetListedOnly | tools/extract_changelog.py:83-86 | dropping the unlisted scopes changes no listed scope's bucket |
| Changelog.Listed | tools/extract_changelog.py:83-86 | each category keeps its place and only its listed scopes |
| Changelog.ScopeEntriesListed | tools/extract_changelog.py:83-89 | a listed scope's entries do not depend on the unlisted scopes |
| Changelog.UnlistedScopesSilent | tools/extract_changelog.py:83-94 | commits under scopes `scope_map` does not list never reach the output |
| Hotkey.FirstMatch | kotonebot-devtool/src/hooks/useHotkey.ts:39-67 | the loop stops at the first configuration that matches the event, and none before it matches |
| Hotkey.FirstMatchAt | kotonebot-devtool/src/hooks/useHotkey.ts:39-67 | a matching configuration preceded only by non-matching ones is the one that fires |
| Hotkey.HandleKeyDown | kotonebot-devtool/src/hooks/useHotkey.ts:30-68 | a callback runs exactly when some configuration matches, and it is the first matching one's in order; that shortcut prevents the default exactly when it is a combination rather than a single key, and nothing prevents it when no shortcut fires |
| Hotkey.CaseInsensitive | kotonebot-devtool/src/hooks/useHotkey.ts:32-46 | keys that agree in lower case trigger the same hotkey |
| Hotkey.FirstMatchSame | kotonebot-devtool/src/hooks/useHotkey.ts:39-67 | two events matched by the same configurations pick the same one |
| Hotkey.InInputOnlyMarked | kotonebot-devtool/src/hooks/useHotkey.ts:35-43 | inside a text field, no hotkey without `triggerInInput` fires |
| ImageAnnotationPage.ToolOfId | kotonebot-devtool/src/pages/ImageAnnotation/ImageAnnotation.tsx:92-96 | exactly the ids `drag`, `template` and `hintbox` select a tool, each its own |
| ImageAnnotationPage.EditorToolOf | kotonebot-devtool/src/pages/ImageAnnotation/ImageAnnotation.tsx:98-102 | only the drag tool drives the editor's drag tool; the other two draw rectangles |
| ImageAnnotationPage.DefinitionTypeOf | kotonebot-devtool/src/pages/ImageAnnotation/ImageAnnotation.tsx:330-337 | a new annotation gets a definition type exactly under the template or hint-box tool, both of which draw rectangles |
| ImageAnnotationPage.Gcd | kotonebot-devtool/src/pages/ImageAnnotation/ImageAnnotation.tsx:105-114 | Euclid's loop on the absolute values returns the greatest common divisor, zero only for two zeros |
| ImageAnnotationPage.GcdDivides | kotonebot-devtool/src/pages/ImageAnnotation/ImageAnnotation.tsx:105-114 | a non-zero result divides both inputs |
| ImageAnnotationPage.SimplestRatio | kotonebot-devtool/src/pages/ImageAnnotation/ImageAnnotation.tsx:117-122 | the ratio is undefined exactly for a 0×0 image; otherwise it is proportional to width:height, in lowest terms, with positive parts for positive sides |
| ImageAnnotationPage.CoprimeQuotients | kotonebot-devtool/src/pages/ImageAnnotation/ImageAnnotation.tsx:118-120 | dividing both sides by their gcd leaves no common divisor but 1 |
| ImageAnnotationPage.RatioText | kotonebot-devtool/src/pages/ImageAnnotation/ImageAnnotation.tsx:121 | the text is `NaN:NaN` for 0/0 and otherwise splits at its colon into the two parts' decimals |
| ImageAnnotationPage.RatioColon | kotonebot-devtool/src/pages/ImageAnnotation/ImageAnnotation.tsx:121 | the two decimals can be read back from the ratio text |
| ImageAnnotationPage.HandleAnnotationChange | kotonebot-devtool/src/pages/ImageAnnotation/ImageAnnotation.tsx:329-365 | only an addition under a tool with no definition type is refused, with the error toast and no change; every other change marks the page dirty |
| ImageAnnotationPage.AddStoresDefinition | kotonebot-devtool/src/pages/ImageAnnotation/ImageAnnotation.tsx:342-350 | an addition appends the annotation and stores an empty definition of the tool's type under its id |
| ImageAnnotationPage.RemoveDropsAnnotation | kotonebot-devtool/src/pages/ImageAnnotation/ImageAnnotation.tsx:357-363 | a removal drops the annotation; its definition goes and the selection clears only when it was selected |
| ImageAnnotationPage.UpdateKeepsIds | kotonebot-devtool/src/pages/ImageAnnotation/ImageAnnotation.tsx:351-356 | an update keeps the annotation ids in order and the definitions, and refreshes the selection if it is the updated one |
| ImageAnnotationPage.DeleteSelected | kotonebot-devtool/src/pages/ImageAnnotation/ImageAnnotation.tsx:527-541 | the delete key does nothing without a selection; otherwise it removes the selected annotation and its definition and clears the selection |
| ImageAnnotationPage.OrElse | kotonebot-devtool/src/pages/ImageAnnotation/ImageAnnotation.tsx:496-497 | JavaScript `\|\|` keeps the change unless it is missing or empty |
| ImageAnnotationPage.HandleDefinitionChange | kotonebot-devtool/src/pages/ImageAnnotation/ImageAnnotation.tsx:488-504 | an id without a definition throws when its fields are read; otherwise the definitions keep their ids and the annotations their number, and selection and dirtiness are untouched |
| ImageAnnotationPage.DefinitionChangeTip | kotonebot-devtool/src/pages/ImageAnnotation/ImageAnnotation.tsx:495-503 | the annotation's tip shows the new display name and name, each falling back to the stored one, and its shape stays |
| ImageAnnotationPage.ToolIndex | kotonebot-devtool/src/pages/ImageAnnotation/ImageAnnotation.tsx:506-526 | each tool has a single-key hotkey bound to selecting it |
| ImageAnnotationPage.SaveShortcut | kotonebot-devtool/src/pages/ImageAnnotation/ImageAnnotation.tsx:507-511 | Ctrl+S outside a text field saves and prevents the browser default |
| ImageAnnotationPage.ToolShortcut | kotonebot-devtool/src/pages/ImageAnnotation/ImageAnnotation.tsx:512-526 | V, T or B alone outside a text field selects that tool without preventing the default |
| ImageAnnotationPage.NoShortcut | kotonebot-devtool/src/pages/ImageAnnotation/ImageAnnotation.tsx:506-542 | inside a text field, or with a tool key pressed with modifiers other than Ctrl alone, no hotkey fires |
| ImageEditor.Initial | kotonebot-devtool/src/components/ImageEditor/ImageEditor.tsx:111-117 | the editor opens at the origin with the initial scale |
| ImageEditor.Round | kotonebot-devtool/src/components/ImageEditor/ImageEditor.tsx:129-130 | `Math.round` gives the integer within half a unit, halves rounding up |
| ImageEditor.ContainerToImage | kotonebot-devtool/src/components/ImageEditor/ImageEditor.tsx:127-132 | a container point maps to whole image pixels |
| ImageEditor.RectContainerToImage | kotonebot-devtool/src/components/ImageEditor/ImageEditor.tsx:162-169 | a rectangle converts corner by corner to image coordinates |
| ImageEditor.RectImageToContainer | kotonebot-devtool/src/components/ImageEditor/ImageEditor.tsx:149-156 | a rectangle converts corner by corner to container coordinates |
| ImageEditor.RoundWhole | kotonebot-devtool/src/components/ImageEditor/ImageEditor.tsx:129-130 | rounding a whole number leaves it unchanged |
| ImageEditor.ImageRoundTrip | kotonebot-devtool/src/components/ImageEditor/ImageEditor.tsx:127-143 | an image pixel shown in the container and read back is the same pixel |
| ImageEditor.AxisRoundTrip | kotonebot-devtool/src/components/ImageEditor/ImageEditor.tsx:129-141 | along one axis, a whole image coordinate survives the trip to the container and back |
| ImageEditor.ContainerError | kotonebot-devtool/src/components/ImageEditor/ImageEditor.tsx:127-143 | a container point read as a pixel and shown again moves by at most half a scaled pixel per axis |
| ImageEditor.AxisError | kotonebot-devtool/src/components/ImageEditor/ImageEditor.tsx:129-141 | along one axis the round trip from the container errs by at most half the scale |
| ImageEditor.ContainerMonotone | kotonebot-devtool/src/components/ImageEditor/ImageEditor.tsx:127-132 | at a positive scale, a point further right or down never maps to a pixel further left or up |
| ImageEditor.AxisMonotone | kotonebot-devtool/src/components/ImageEditor/ImageEditor.tsx:129-130 | the per-axis conversion keeps order at a positive scale |
| ImageEditor.RoundMonotone | kotonebot-devtool/src/components/ImageEditor/ImageEditor.tsx:129-130 | `Math.round` keeps order |
| ImageEditor.Wheel | kotonebot-devtool/src/components/ImageEditor/ImageEditor.tsx:223-230 | scrolling up zooms in by 10% and anything else zooms out by 10%, the scale stays within 0.1 to 10, and the position stays |
| ImageEditor.Reset | kotonebot-devtool/src/components/ImageEditor/ImageEditor.tsx:234-239 | reset returns the view to its opening state |
| ImageEditor.SetScale | kotonebot-devtool/src/components/ImageEditor/ImageEditor.tsx:240-245 | after `setScale`, `getScale` reports the new scale and the position is kept |
| ImageEditor.QueryAnnotation | kotonebot-devtool/src/components/ImageEditor/ImageEditor.tsx:201-209 | the answer is a shown annotation with that id, or the error "Annotation not found" when no annotation has it |
| ImageEditor.QueryFinds | kotonebot-devtool/src/components/ImageEditor/ImageEditor.tsx:201-209 | the query succeeds exactly when an annotation has the id and returns the first such one |
| ImageMeta.AddDefinition | kotonebot-devtool/src/hooks/useImageMetaData.tsx:65-69 | adding a definition keeps the annotations and keys it by its annotation id, appended when new |
| ImageMeta.AddDefinitionGet | kotonebot-devtool/src/hooks/useImageMetaData.tsx:65-69 | after adding, the definition is found under its annotation id and nothing else changes |
| ImageMeta.UpdateDefinition | kotonebot-devtool/src/hooks/useImageMetaData.tsx:70-74 | `Object.assign` on a missing definition throws a `TypeError`; otherwise the keys and annotations are kept |
| ImageMeta.UpdateDefinitionGet | kotonebot-devtool/src/hooks/useImageMetaData.tsx:70-74 | each field given in the change replaces the stored one, the others are kept, and other definitions are untouched |
| ImageMeta.RemoveDefinition | kotonebot-devtool/src/hooks/useImageMetaData.tsx:75-79 | after removal no definition has the id and the annotations are kept |
| ImageMeta.RemoveDefinitionGet | kotonebot-devtool/src/hooks/useImageMetaData.tsx:75-79 | removal affects only the named definition |
| ImageMeta.FindAnnotation | kotonebot-devtool/src/hooks/useImageMetaData.tsx:83-85 | `find` returns the first annotation with the id, or nothing when none has it |
| ImageMeta.AddAnnotation | kotonebot-devtool/src/hooks/useImageMetaData.tsx:86-91 | the annotation is appended after the existing ones |
| ImageMeta.UpdateAnnotation | kotonebot-devtool/src/hooks/useImageMetaData.tsx:92-99 | an update keeps the annotation ids and their order and the definitions |
| ImageMeta.UpdateAnnotationFirst | kotonebot-devtool/src/hooks/useImageMetaData.tsx:92-99 | only the first annotation with the id is patched; with none the data are unchanged |
| ImageMeta.WithoutId | kotonebot-devtool/src/hooks/useImageMetaData.tsx:102 | the filter keeps exactly the annotations with another id |
| ImageMeta.WithoutIdIsFilter | kotonebot-devtool/src/hooks/useImageMetaData.tsx:102 | removal is `Array.filter` with the test `a.id !== id`: the annotations with another id, in their original order |
| ImageMeta.WithoutIdAppend | kotonebot-devtool/src/hooks/useImageMetaData.tsx:102 | removal from a concatenation is the concatenation of the removals, and a single annotation is dropped exactly when it has the id |
| ImageMeta.WithoutIdAbsent | kotonebot-devtool/src/hooks/useImageMetaData.tsx:102 | filtering out an id no annotation has changes nothing |
| ImageMeta.RemoveAnnotation | kotonebot-devtool/src/hooks/useImageMetaData.tsx:100-104 | after removal no annotation has the id and the definitions are kept |
| ImageMeta.RemoveAnnotationIdempotent | kotonebot-devtool/src/hooks/useImageMetaData.tsx:100-104 | removing twice is the same as removing once |
| ImageMeta.Clear | kotonebot-devtool/src/hooks/useImageMetaData.tsx:107-112 | after clearing, `isEmpty` holds |
| ImageMeta.Load | kotonebot-devtool/src/hooks/useImageMetaData.tsx:114-123 | a part missing from the loaded data is kept |
| ImageMeta.LoadAndEmpty | kotonebot-devtool/src/hooks/useImageMetaData.tsx:114-136 | `isEmpty` means no definitions and no annotations, loading complete data replaces everything, loading nothing changes nothing, loading twice is loading once, and an added annotation makes the data non-empty |
| ImageMeta.TypeOfName | kotonebot-devtool/src/hooks/useImageMetaData.tsx:5 | each definition type is read back from its JSON name |
| ImageMeta.PublicEntries | kotonebot-devtool/src/hooks/useImageMetaData.tsx:43-48 | the replacer keeps only keys not starting with `_`, and keeps everything when there are none |
| ImageMeta.StripPrivateClean | kotonebot-devtool/src/hooks/useImageMetaData.tsx:42-50 | no `_` key survives serialisation at any depth |
| ImageMeta.StripPrivateKeeps | kotonebot-devtool/src/hooks/useImageMetaData.tsx:42-50 | a value without `_` keys is serialised as it is |
| ImageMeta.StripPrivateIdempotent | kotonebot-devtool/src/hooks/useImageMetaData.tsx:42-50 | dropping `_` keys twice is dropping them once |
| ImageMeta.DefinitionRoundTrip | kotonebot-devtool/src/hooks/useImageMetaData.tsx:38-50 | a definition written as JSON is read back as itself |
| ImageMeta.ShapeRoundTrip | kotonebot-devtool/src/hooks/useImageMetaData.tsx:38-50 | an annotation's shape written as JSON is read back as itself |
| ImageMeta.AnnotationRoundTrip | kotonebot-devtool/src/hooks/useImageMetaData.tsx:38-50 | an annotation written as JSON is read back as itself |
| ImageMeta.DefinitionsRoundTrip | kotonebot-devtool/src/hooks/useImageMetaData.tsx:38-50 | the definitions map written as JSON is read back as itself |
| ImageMeta.AnnotationsRoundTrip | kotonebot-devtool/src/hooks/useImageMetaData.tsx:38-50 | the annotation list written as JSON is read back as itself |
| ImageMeta.MetaRoundTrip | kotonebot-devtool/src/hooks/useImageMetaData.tsx:38-50 | the whole meta data written as JSON is read back as itself |
| ImageMeta.Untipped | kotonebot-devtool/src/hooks/useImageMetaData.tsx:43-48 | the meta data as serialised: every annotation without its `_tip`, all else kept |
| ImageMeta.StripAnnotation | kotonebot-devtool/src/hooks/useImageMetaData.tsx:43-48 | serialising an annotation drops exactly its `_tip` |
| ImageMeta.SerialiseRoundTrip | kotonebot-devtool/src/hooks/useImageMetaData.tsx:38-50 | `fromString(toString(m))` gives `m` with the tips dropped, when no definition id starts with `_` |
| ImgTags.TagsSpelled | kotonebot/backend/debug/web/util.js:12 | the character tests for the tags agree with the literal `[img]` and `[/img]` |
| ImgTags.CloseFrom | kotonebot/backend/debug/web/util.js:12 | the lazy `.*?` ends at a position inside the text from which `[/img]` fits |
| ImgTags.CloseFromSpec | kotonebot/backend/debug/web/util.js:12 | the tag closes at the nearest `[/img]` with no line break before it, and fails when every later `[/img]` is past a line break |
| ImgTags.MatchAt | kotonebot/backend/debug/web/util.js:12 | a match needs the text to open with `[img]` and close within it |
| ImgTags.DefaultUrl | kotonebot/backend/debug/web/util.js:9 | the default callback puts the key after `/api/read_memory?key=` |
| ImgTags.PanelUrl | kotonebot-devtool/src/pages/DumpViewer/InfoPanel.tsx:69-74 | a key in the image map gives its mapped URL; otherwise the memory route on the debug host |
| ImgTags.PanelDetails | kotonebot-devtool/src/pages/DumpViewer/InfoPanel.tsx:53-60 | the details panel renders the details (or nothing) with the panel's callback, as `parseImgTags` does the same as `render` |
| ImgTags.NoTagUnchanged | kotonebot/backend/debug/web/util.js:7-17 | text in which no tag matches anywhere is returned unchanged |
| ImgTags.PlainPrefix | kotonebot/backend/debug/web/util.js:12 | text without `[` is copied and the rest rendered after it |
| ImgTags.CloseAfterKey | kotonebot/backend/debug/web/util.js:12 | for a key without `[` or line breaks, the tag closes right after the key |
| ImgTags.TagPrefix | kotonebot/backend/debug/web/util.js:12-14 | a tag around such a key becomes the `<img>` element for the callback's URL, then the rest is rendered |
| ImgTags.RenderSource | kotonebot/backend/debug/web/util.js:7-17 | a document of plain text and tags renders to the text with each tag replaced by its image element |
| ImgTags.BreakStops | kotonebot/backend/debug/web/util.js:12 | a line break before any `[` means the tag cannot close |
| ImgTags.LineBreakBlocks | kotonebot/backend/debug/web/util.js:12 | a tag whose content spans a line break is left as it is |
| ImgTags.CloseTagUnchanged | kotonebot/backend/debug/web/util.js:12 | a lone `[/img]` is not replaced |
| FormModal.Names | kotonebot-devtool/src/hooks/useFormModal.tsx:27-29 | the field names, one per field in order |
| FormModal.InitialValue | kotonebot-devtool/src/hooks/useFormModal.tsx:25-31 | the initial data have exactly the field names as keys, each holding some field's default or the empty string |
| FormModal.InitialValueLast | kotonebot-devtool/src/hooks/useFormModal.tsx:27-29 | of several fields with one name, the last one's default (or the empty string) is that name's initial value |
| FormModal.InitialStep | kotonebot-devtool/src/hooks/useFormModal.tsx:27-29 | the loop's last field writes its own name's default and leaves every other name's initial value as it was |
| FormModal.InitialIsLastDefault | kotonebot-devtool/src/hooks/useFormModal.tsx:25-31 | the initial value of a name is what a backward scan for the last field of that name finds |
| FormModal.LastDefaultFound | kotonebot-devtool/src/hooks/useFormModal.tsx:25-31 | the backward scan finds a default exactly for the field names, and it is the default of some field of that name |
| FormModal.LastDefaultAt | kotonebot-devtool/src/hooks/useFormModal.tsx:27-29 | a field with no later field of its name supplies the value the backward scan finds |
| FormModal.Reset | kotonebot-devtool/src/hooks/useFormModal.tsx:36-43 | resetting restores the initial data and clears the errors |
| FormModal.Change | kotonebot-devtool/src/hooks/useFormModal.tsx:51-61 | the field takes the new value, its non-empty error is cleared, and no other field or error changes |
| FormModal.FieldError | kotonebot-devtool/src/hooks/useFormModal.tsx:69-87 | an empty value fails exactly a required field; a non-empty one fails on a validator's message or a false verdict; without a validator only required emptiness fails |
| FormModal.FailsLast | kotonebot-devtool/src/hooks/useFormModal.tsx:69-87 | a name has an error after the loop exactly when it had one before the last field or the last field is it and fails |
| FormModal.ErrorOf | kotonebot-devtool/src/hooks/useFormModal.tsx:67-87 | a name has an error exactly when a field of that name fails, and the error is that field's |
| FormModal.ErrorsStep | kotonebot-devtool/src/hooks/useFormModal.tsx:69-87 | the loop's last field sets its own name's error when it fails and leaves every other name's error as it was |
| FormModal.ErrorOfLast | kotonebot-devtool/src/hooks/useFormModal.tsx:69-87 | of several failing fields with one name, the error of the last one is reported |
| FormModal.ErrorsIsLastError | kotonebot-devtool/src/hooks/useFormModal.tsx:69-87 | the error recorded for a name is what a backward scan for the last failing field of that name finds |
| FormModal.LastErrorFound | kotonebot-devtool/src/hooks/useFormModal.tsx:69-87 | the backward scan finds an error exactly when some field of the name fails, and it is that field's error |
| FormModal.LastErrorAt | kotonebot-devtool/src/hooks/useFormModal.tsx:69-87 | a failing field with no later failing field of its name supplies the error the scan finds |
| FormModal.Submit | kotonebot-devtool/src/hooks/useFormModal.tsx:63-96 | the data are submitted and the form reset exactly when no field fails; otherwise the errors are shown and there is at least one |
| FormModal.ValidatorSkippedWhenEmpty | kotonebot-devtool/src/hooks/useFormModal.tsx:79 | an empty value never reaches the validator |
| FormModal.RequiredEmptyReported | kotonebot-devtool/src/hooks/useFormModal.tsx:73-76 | an empty required field is reported as required |
| FormModal.NothingToCheck | kotonebot-devtool/src/hooks/useFormModal.tsx:63-96 | a form without required fields or validators always submits |
| FormModal.FreshFormFails | kotonebot-devtool/src/hooks/useFormModal.tsx:25-31 | submitting an untouched form flags exactly the required fields without a default |
| FormModal.ShowModal | kotonebot-devtool/src/hooks/useFormModal.tsx:165-170 | showing the modal opens it with a pending promise |
| FormModal.Hide | kotonebot-devtool/src/hooks/useFormModal.tsx:149-155 | hiding closes the modal and resolves a pending promise with `null`, at most once |
| FormModal.Deliver | kotonebot-devtool/src/hooks/useFormModal.tsx:157-163 | submitting closes the modal and resolves a pending promise with the data |
| FormModal.Round | kotonebot-devtool/src/hooks/useFormModal.tsx:149-170 | a shown modal resolves once, with the data on a valid submission or `null` on hide, and never again after |
| RectBox.SourcesAsWritten | kotonebot-devtool/src/components/ImageEditor/RectBox.tsx:257-287 | the move area is always rendered, and the edge and corner handles exactly in resize mode |
| RectBox.Sources | kotonebot-devtool/src/components/ImageEditor/RectBox.tsx:69-76 | as the mode's documentation promises: none mode accepts no drag, and the other modes accept what they render |
| RectBox.TransformedCorners | kotonebot-devtool/src/components/ImageEditor/RectBox.tsx:160-198 | each drag source moves exactly the coordinates it grabs, by the mouse's offset since the press |
| RectBox.TransformedCompose | kotonebot-devtool/src/components/ImageEditor/RectBox.tsx:160-198 | two drags from the same handle add up, no offset changes nothing, and dragging back undoes a drag |
| RectBox.MoveKeepsSize | kotonebot-devtool/src/components/ImageEditor/RectBox.tsx:193-198 | moving keeps the box's size; a top edge drag keeps its width and a left edge drag its height |
| RectBox.Press | kotonebot-devtool/src/components/ImageEditor/RectBox.tsx:143-154 | a press starts a drag from its handle with the box as both the original and the current rectangle |
| RectBox.MouseDownAsWritten | kotonebot-devtool/src/components/ImageEditor/RectBox.tsx:143-154 | a press on a rendered handle starts a drag; elsewhere nothing changes |
| RectBox.MouseDown | kotonebot-devtool/src/components/ImageEditor/RectBox.tsx:143-154 | a press starts a drag exactly on a handle the mode allows, and agrees with the code outside none mode |
| RectBox.MouseMove | kotonebot-devtool/src/components/ImageEditor/RectBox.tsx:156-203 | outside a drag nothing happens; during one the transformed box is stored and reported |
| RectBox.MouseUp | kotonebot-devtool/src/components/ImageEditor/RectBox.tsx:205-217 | releasing a drag reports the last box and clears the drag; otherwise nothing happens |
| RectBox.LastMoveWins | kotonebot-devtool/src/components/ImageEditor/RectBox.tsx:156-203 | only the mouse's latest position matters, since each move starts from the original box |
| RectBox.Gesture | kotonebot-devtool/src/components/ImageEditor/RectBox.tsx:143-225 | press, move and release report the box transformed by the whole offset, end idle, and let clicks through only afterwards |
| RectBox.ClickReportsSameBox | kotonebot-devtool/src/components/ImageEditor/RectBox.tsx:143-217 | pressing and releasing without moving reports the box unchanged |
| RectBox.NoneModeMovesAsWritten | kotonebot-devtool/src/components/ImageEditor/RectBox.tsx:257-262 | in none mode, dragging the move area still moves the box |
| RectBox.NoneModeFixed | kotonebot-devtool/src/components/ImageEditor/RectBox.tsx:69-76 | in none mode, no press starts a drag, so no move or release reports a box |
| RectTool.Local | kotonebot-devtool/src/components/ImageEditor/tools/RectTool.tsx:17-20 | a client position relative to the container's corner, absent when the container is |
| RectTool.MouseDown | kotonebot-devtool/src/components/ImageEditor/tools/RectTool.tsx:15-25 | a press starts drawing and puts both corners at the mouse, or keeps them when the container is missing |
| RectTool.MouseMove | kotonebot-devtool/src/components/ImageEditor/tools/RectTool.tsx:28-35 | a move sets only the second corner to the mouse |
| RectTool.Normalised | kotonebot-devtool/src/components/ImageEditor/tools/RectTool.tsx:40-43 | the box spans both corners with ordered coordinates, each taken from one of them |
| RectTool.NormalisedSymmetric | kotonebot-devtool/src/components/ImageEditor/tools/RectTool.tsx:40-43 | the order of the two corners does not matter |
| RectTool.DrawnAnnotation | kotonebot-devtool/src/components/ImageEditor/tools/RectTool.tsx:49-56 | the new annotation is the normalised box in image coordinates, without a tip |
| RectTool.DrawnInOrder | kotonebot-devtool/src/components/ImageEditor/tools/RectTool.tsx:40-56 | at a positive scale, the annotation's corners stay ordered in image pixels |
| RectTool.MouseUp | kotonebot-devtool/src/components/ImageEditor/tools/RectTool.tsx:38-63 | without both corners nothing happens; otherwise drawing ends and an annotation is added exactly when both sides are at least 10 pixels |
| RectTool.LegacyMouseUp | kotonebot-devtool/src/components/ImageEditor/RectTool.tsx:38-56 | the older tool adds the normalised box for every release with both corners, however small |
| RectTool.GateOnlyFilters | kotonebot-devtool/src/components/ImageEditor/tools/RectTool.tsx:45-59 | the new tool adds what the old one did, except for boxes with a side under 10 pixels |
| RectTool.Gesture | kotonebot-devtool/src/components/ImageEditor/tools/RectTool.tsx:15-63 | a press, move and release add the box from press to release exactly when it is at least 10 pixels each way |
| ResizePanel.Initial | kotonebot-devtool/src/hooks/useResizePanel.ts:10-15 | the panel opens at the default width, not being dragged |
| ResizePanel.Start | kotonebot-devtool/src/hooks/useResizePanel.ts:21-28 | a press remembers the mouse and the width and starts a drag |
| ResizePanel.Move | kotonebot-devtool/src/hooks/useResizePanel.ts:30-38 | outside a drag nothing happens; during one the width is the starting width plus the leftward travel, clamped to the bounds with the maximum winning, and reported |
| ResizePanel.End | kotonebot-devtool/src/hooks/useResizePanel.ts:40-44 | releasing ends the drag and keeps the width |
| ResizePanel.Toggle | kotonebot-devtool/src/hooks/useResizePanel.ts:46-50 | a collapsed panel opens at the default width, any other collapses, and the new width is reported |
| ResizePanel.MovePathIndependent | kotonebot-devtool/src/hooks/useResizePanel.ts:30-38 | only where the mouse is now matters, not the path it took |
| ResizePanel.MoveLeftWidens | kotonebot-devtool/src/hooks/useResizePanel.ts:30-38 | the further left the mouse, the wider the panel |
| ResizePanel.ClickKeepsWidth | kotonebot-devtool/src/hooks/useResizePanel.ts:21-44 | a press and release keep the width, and later moves do nothing |
| ResizePanel.StillDragKeepsWidth | kotonebot-devtool/src/hooks/useResizePanel.ts:21-38 | pressing and moving to the same spot keeps a width that is within the bounds |
| ResizePanel.ToggleTwice | kotonebot-devtool/src/hooks/useResizePanel.ts:46-50 | toggling twice returns to collapsed or to the default width, and to the same panel when it was one of those |
| ImageUtils.CalculateImageDimensions | kotonebot-devtool/src/utils/imageUtils.ts:10-40 | the image is scaled uniformly by at most 1 to fit the container, unscaled exactly when it already fits, and otherwise touching the container on the limiting side |
| ImageUtils.WiderFits | kotonebot-devtool/src/utils/imageUtils.ts:22-27 | an image relatively wider than the container, shrunk to its width, fits its height |
| ImageUtils.WiderUnscaledFits | kotonebot-devtool/src/utils/imageUtils.ts:22-27 | a relatively wider image no wider than the container is no taller either |
| ImageUtils.TallerFits | kotonebot-devtool/src/utils/imageUtils.ts:29-36 | a relatively taller image shrunk to the container's height fits its width |
| ImageUtils.TallerUnscaledFits | kotonebot-devtool/src/utils/imageUtils.ts:29-36 | a relatively taller image no taller than the container is no wider either |
| ImageUtils.CalculateZoom | kotonebot-devtool/src/utils/imageUtils.ts:42-51 | the proposed scale `current * (1 - delta * 0.001)` is kept when it lies within the bounds, replaced by the maximum above it and by the minimum below it; the result never exceeds the maximum (which wins a conflict), and no scroll keeps a scale within them |
| ImageUtils.CalculateZoomDefault | kotonebot-devtool/src/utils/imageUtils.ts:42-46 | with the default bounds the scale stays between 0.1 and 5, and an in-range proposal is kept |
| ImageUtils.ZoomMonotone | kotonebot-devtool/src/utils/imageUtils.ts:42-51 | scrolling further down never zooms in further |
| ImageUtils.GetImageUrl | kotonebot-devtool/src/utils/imageUtils.ts:53-62 | the URL is the base, the memory or file route, then the encoded key or path |
| ImageUtils.RouteAt | kotonebot-devtool/src/utils/imageUtils.ts:53-62 | the letter after `/api/read_` tells the memory route from the file route |
| ImageUtils.UrlsDistinct | kotonebot-devtool/src/utils/imageUtils.ts:53-62 | with an injective encoding, different images never share a URL |
| EditorRegistry.RegisterTool | kotonebot-devtool/src/components/ImageEditor/core/registry.ts:7-9 | registering keeps the overlays and appends a new tool name, or keeps the names when it replaces one |
| EditorRegistry.GetTool | kotonebot-devtool/src/components/ImageEditor/core/registry.ts:11-13 | a tool is found exactly when its name is registered |
| EditorRegistry.RegisterThenGet | kotonebot-devtool/src/components/ImageEditor/core/registry.ts:7-13 | a registered tool is found under its name and other names are unaffected |
| EditorRegistry.RegisterOverlay | kotonebot-devtool/src/components/ImageEditor/core/registry.ts:15-17 | registering keeps the tools and appends a new overlay name, or keeps the names when it replaces one |
| EditorRegistry.RegisterOverlayStores | kotonebot-devtool/src/components/ImageEditor/core/registry.ts:15-17 | a registered overlay is stored under its name and every other name keeps its overlay |
| EditorRegistry.RegisteredOverlayListed | kotonebot-devtool/src/components/ImageEditor/core/registry.ts:15-22 | a registered overlay is among the overlays `getOverlays` lists |
| EditorRegistry.ZBeforeOrder | kotonebot-devtool/src/components/ImageEditor/core/registry.ts:19-22 | the comparator is a strict order, and overlays with one `zIndex` are tied |
| EditorRegistry.GetOverlays | kotonebot-devtool/src/components/ImageEditor/core/registry.ts:19-22 | every registered overlay once, lowest `zIndex` first, with ties in registration order |
| EditorRegistry.OrderedRegistration | kotonebot-devtool/src/components/ImageEditor/core/registry.ts:19-22 | overlays registered in ascending `zIndex` come back in registration order |
| Text.SplitOnce | tools/extract_changelog.py:33 | `str.split(':', 1)` fails to give two parts exactly when the separator is absent, and otherwise cuts at its first occurrence |
| Text.Split | tools/tcp_forward.py:13-15 | `str.split(c)` gives at least one part, none containing the separator, that join back to the text; one part exactly when the separator is absent |
| Text.RStripChar | tools/extract_changelog.py:36 | `rstrip(')')` removes exactly the trailing run of that character |
| Text.StripSpace | tools/extract_changelog.py:89 | `strip()` leaves text with no whitespace at either end, and keeps text that has none at its ends unchanged |
| Text.StripSpaceSlice | tools/extract_changelog.py:89 | the stripped text is a slice of the input, and everything before and after that slice is whitespace |
| Text.Lower | tools/db/extract_schema.py:90 | `lower()` maps each character to its lower-case form, keeping the length |
| Text.LowerIdempotent | tools/db/extract_schema.py:90 | lower-casing twice is lower-casing once |
| Text.DecimalRoundTrip | kotonebot-devtool/src/pages/ImageAnnotation/ImageAnnotation.tsx:121 | a whole number printed in decimal reads back as itself |
| Text.PyIntDigits | tools/tcp_forward.py:16 | `int()` of a run of digits is the number they denote |
| Text.PyIntRejects | tools/tcp_forward.py:16 | `int()` refuses an empty or blank text, a bare sign and a doubled underscore |
| Assoc.Set | kotonebot-devtool/src/components/ImageEditor/core/registry.ts:8 | `Map.set` keeps the key order, appending a new key at the end |
| Assoc.GetSet | kotonebot-devtool/src/components/ImageEditor/core/registry.ts:8-12 | after `set`, `get` finds the new value under its key and nothing else changes |
| Sorting.SortByStable | kotonebot-devtool/src/components/ImageEditor/core/registry.ts:20-21 | `Array.prototype.sort` is stable: elements tied under the comparator keep their relative order |

## Left out

- File and process I/O: reading and writing `config.json` and its backups, YAML files, SQLite, git, pip, the network, sockets and logging. Only the decisions around them are modelled.
- OpenCV (`matchTemplate`, colour-space conversion, k-means), the OCR engine, Unicode NFKC normalisation, the East Asian Width table and the PEP 440 regular expression. Each is an input of the model: a score map, a converted pixel grid, the engine's raw lines, a width class, or captured groups.
- `fuzz` in kotonebot/backend/util.py is not modelled: it delegates to the `thefuzz` library.
- `generate_python_models`, `create_sqlite_database` and `insert_data_to_sqlite` in tools/db/extract_schema.py are left out. They produce code text from a Jinja template or write to SQLite.
- `json.dumps`, `str()` of a value in f-strings, `encodeURIComponent` and `uuid.v4` are parameters. The properties that need them to be injective say so.
- BackendUtil.IsRect, BackendUtil.IsRectSpec: the model represents lists and tuples but no other `typing.Sequence` type. A `range`, `bytes`, `bytearray` or `collections.deque` of four ints is `Opaque` in the model and never counts as a rect, although `isinstance(rect, typing.Sequence)` accepts it in the source.
- Text.PyInt: accepts ASCII digits only, where Python's `int()` also accepts other Unicode decimal digits. Likewise `\d` in the version patterns is read as an ASCII digit.
- ExtractSchema.MakeHashable: an object that is not a JSON value, such as a YAML date, is known only by its type name, so two such objects of one type compare equal. Python compares them by value.
- TcpForward.PortNumber: the text quoted in `int()`'s error is wrapped in single quotes without `repr`'s escaping or its switch to double quotes.
- TcpForward.ParseAddress: the unpacking error's message omits the count of parts found, which newer Python versions add.
- Text.Lower: lower-casing, `isalnum()` and `strip()` are modelled on ASCII letters, digits and spaces only, not the full Unicode tables.
- ImageUtils.CalculateImageDimensions: requires positive image and container sides. The JavaScript code would return `NaN` or `Infinity` otherwise, and the model does not represent non-finite numbers.
- ImageEditor.ContainerToImage: requires a non-zero scale, for the same reason.
- RectTool.MouseUp, RectTool.LegacyMouseUp: require a non-zero scale only when a box is converted, that is with both corners set (and, for `MouseUp`, past the 10-pixel gate); the other releases convert nothing.
- Floating point: numbers are exact reals, so rounding error in scale products is not modelled.
- React rendering, DOM events, toasts, cursor and text-selection styling, file dialogs and the property grid. Events are inputs, and component state is a value passed in and returned.
- Key order of the form data and errors: a JavaScript object lists integer-like keys such as `"0"` first, in ascending order, before the other keys in insertion order; the model keeps every name in insertion order.
- FormModal.ShowModal: calling `showModal` again while a promise is pending replaces the resolver, and the earlier promise never settles. The model only records that a promise is pending.
- FormModal.Submit: a validator that returns the empty string blocks submission (the key is present in the new errors) but shows no message. The model keeps this behaviour as written.
- ImageMatch.RemoveDuplicates: the code de-duplicates by the x offset only. A footprint-overlap de-duplication or a colour verification step is not part of the code, and the model follows the code.
- Launcher.SuffixOfExtension: `PurePath` is modelled only as far as the suffix checks need: the last path component and its last extension.
- Repo.ListVersions: the version list fetched from the package index is an input.

## Findings

| source | as written | input that shows it | evidently intended | confidence | as-written member | corrected member |
|---|---|---|---|---|---|---|
| kotonebot/kaa/config/upgrade.py:22-45 | each step rebinds `user_config` to the returned options, so the next step reads `user_config['options']` from the options dict | a user config at version 3 whose options have no `options` key: the v3→v4 step succeeds, then v4→v5 raises `KeyError('options')` | every step reads the full user config and writes the new options back into it, so a v1–v3 config reaches v5 | not executed | Upgrade.AsWrittenFailsFromV3 | Upgrade.CorrectedFromV3 |
| kotonebot-devtool/src/components/ImageEditor/RectBox.tsx:69-76 | the move area is rendered and starts a drag in every mode, including `none` (lines 257-262) | a box in `none` mode, pressed on its body at x0 and moved to x1 ≠ x0: `onTransform` reports a moved box | in `none` mode nothing starts a drag, as the prop's documentation says | not executed | RectBox.NoneModeMovesAsWritten | RectBox.NoneModeFixed |

=== FILE: assoc.dfy ===
/**
 * Insertion-ordered dictionaries: a Python `dict`, a JavaScript object with
 * string keys, or a JavaScript `Map`, as a sequence of key/value pairs.
 * Assigning an existing key keeps its position; a new key goes last.
 */
module Assoc {
  import opened Wrappers

  type Dict<K, V> = seq<(K, V)>

  function Keys<K, V>(d: Dict<K, V>): (r: seq<K>)
    ensures |r| == |d|
    ensures forall i :: 0 <= i < |d| ==> r[i] == d[i].0
  {
    if |d| == 0 then [] else [d[0].0] + Keys(d[1..])
  }

  function Values<K, V>(d: Dict<K, V>): (r: seq<V>)
    ensures |r| == |d|
    ensures forall i :: 0 <= i < |d| ==> r[i] == d[i].1
  {
    if |d| == 0 then [] else [d[0].1] + Values(d[1..])
  }

  /** No key occurs twice. */
  predicate DistinctKeys<K(==), V>(d: Dict<K, V>)
  {
    forall i, j :: 0 <= i < j < |d| ==> d[i].0 != d[j].0
  }

  /** The value stored under `k` (its first entry). */
  function Get<K(==), V>(d: Dict<K, V>, k: K): (r: Option<V>)
    ensures r.None? <==> k !in Keys(d)
    ensures r.Some? ==> exists i :: 0 <= i < |d| && d[i].0 == k && d[i].1 == r.value
  {
    if |d| == 0 then None
    else if d[0].0 == k then Some(d[0].1)
    else
      var r := Get(d[1..], k);
      assert Keys(d) == [d[0].0] + Keys(d[1..]);
      r
  }

  /** `d[k] = v`: replaces the first entry with key `k` in place, or appends. */
  function Set<K(==), V>(d: Dict<K, V>, k: K, v: V): (r: Dict<K, V>)
    ensures k in Keys(d) ==> |r| == |d| && Keys(r) == Keys(d)
    ensures k !in Keys(d) ==> r == d + [(k, v)]
  {
    if |d| == 0 then [(k, v)]
    else if d[0].0 == k then [(k, v)] + d[1..]
    else
      assert Keys(d) == [d[0].0] + Keys(d[1..]);
      [d[0]] + Set(d[1..], k, v)
  }

  /** After `d[k] = v`, `k` maps to `v` and every other key keeps its value. */
  lemma {:induction false} GetSet<K, V>(d: Dict<K, V>, k: K, v: V, k': K)
    ensures Get(Set(d, k, v), k') == if k' == k then Some(v) else Get(d, k')
  {
    if |d| > 0 && d[0].0 != k {
      GetSet(d[1..], k, v, k');
      assert Set(d, k, v)[1..] == Set(d[1..], k, v);
    }
  }

  lemma SetKeepsDistinct<K, V>(d: Dict<K, V>, k: K, v: V)
    requires DistinctKeys(d)
    ensures DistinctKeys(Set(d, k, v))
  {
    var r := Set(d, k, v);
    if k in Keys(d) {
      forall i, j | 0 <= i < j < |r| ensures r[i].0 != r[j].0 {
        assert Keys(r)[i] == Keys(d)[i] && Keys(r)[j] == Keys(d)[j];
      }
    }
  }

  /** `delete d[k]`: every entry with key `k` dropped, the rest in order. */
  function Remove<K(==), V>(d: Dict<K, V>, k: K): (r: Dict<K, V>)
    ensures k !in Keys(r)
    ensures forall i :: 0 <= i < |r| ==> r[i].0 in Keys(d) && r[i].0 != k
    ensures |r| <= |d|
    ensures k !in Keys(d) ==> r == d
  {
    if |d| == 0 then []
    else
      assert Keys(d) == [d[0].0] + Keys(d[1..]);
      var rest := Remove(d[1..], k);
      if d[0].0 == k then rest
      else
        var r := [d[0]] + rest;
        assert Keys(r) == [d[0].0] + Keys(rest);
        r
  }

  /** After `delete d[k]`, `k` is absent and every other key keeps its value. */
  lemma {:induction false} GetRemove<K, V>(d: Dict<K, V>, k: K, k': K)
    ensures Get(Remove(d, k), k') == if k' == k then None else Get(d, k')
  {
    if |d| > 0 {
      GetRemove(d[1..], k, k');
      if d[0].0 != k {
        assert Remove(d, k)[1..] == Remove(d[1..], k);
      }
    }
  }

  lemma {:induction false} RemoveKeepsDistinct<K, V>(d: Dict<K, V>, k: K)
    requires DistinctKeys(d)
    ensures DistinctKeys(Remove(d, k))
  {
    if |d| > 0 {
      assert DistinctKeys(d[1..]);
      RemoveKeepsDistinct(d[1..], k);
      var rest := Remove(d[1..], k);
      if d[0].0 != k {
        var r := Remove(d, k);
        assert r == [d[0]] + rest;
        forall j | 0 < j < |r| ensures r[0].0 != r[j].0 {
          assert Keys(rest)[j - 1] == r[j].0;
          assert r[j].0 in Keys(d[1..]);
        }
      }
    }
  }
}

=== FILE: backend_util.dfy ===
/**
 * Helpers of kotonebot/backend/util.py: the rect test, the string
 * matchers handed to OCR, and cropping an image by fractions of its size.
 */
module BackendUtil {
  import opened Text
  import opened Numeric
  import opened PyValue
  import opened StrMatch
  import Mat

  /**
   * `is_rect` on the values the model represents: a list or tuple of exactly
   * four ints (`bool` counts as `int`). Other sequence types are `Opaque` here.
   */
  predicate IsRect(v: Value)
  {
    (v.List? || v.Tuple?) && |Items(v)| == 4 && forall i :: 0 <= i < 4 ==> IsInt(Items(v)[i])
  }

  function Items(v: Value): seq<Value>
    requires v.List? || v.Tuple?
  {
    if v.List? then v.items else v.elems
  }

  /** `is_rect` element by element, among the values the model represents: a list or a tuple of four items, each an `int` or a `bool`. */
  lemma IsRectSpec(v: Value)
    ensures IsRect(v) <==>
      || (v.List? && |v.items| == 4 && forall i :: 0 <= i < 4 ==> v.items[i].Int? || v.items[i].Bool?)
      || (v.Tuple? && |v.elems| == 4 && forall i :: 0 <= i < 4 ==> v.elems[i].Int? || v.elems[i].Bool?)
  {
  }

  /** A few answers of `is_rect`: four ints in a list or tuple qualify; strings, dicts, floats and other lengths do not. */
  lemma IsRectExamples()
    ensures IsRect(List([Int(0), Int(0), Int(10), Int(10)]))
    ensures IsRect(Tuple([Int(1), Bool(true), Int(-3), Int(4)]))
    ensures !IsRect(Tuple([Int(0), Int(0), Int(10)]))
    ensures !IsRect(List([Int(0), Int(0), Float(1.5), Int(10)]))
    ensures !IsRect(Str("abcd"))
    ensures !IsRect(Dict([]))
  {
    var v := List([Int(0), Int(0), Float(1.5), Int(10)]);
    assert Items(v)[2] == Float(1.5);
  }

  /** `regex(r)`: a predicate true of the strings on which `re.match(r, _)` finds a match. */
  function RegexMatcher(m: ReMatch): (f: string -> bool)
    ensures forall s :: f(s) <==> Matches(m, s)
  {
    s => m(s).Some?
  }

  /** For a pattern without assertions, `regex(r)` holds exactly when some prefix of the text is matched by `r` in full. */
  lemma RegexMatcherByPrefix(lang: Language, m: ReMatch, s: string)
    requires DecidedByPrefix(lang, m)
    ensures RegexMatcher(m)(s) <==> exists k :: 0 <= k <= |s| && lang(s[..k])
  {
  }

  /** For a pattern of plain characters, `regex(r)` is a prefix test, not a substring test. */
  lemma RegexMatcherLiteral(t: string, s: string)
    ensures RegexMatcher(LiteralMatch(t))(s) <==> StartsWith(s, t)
  {
  }

  /** `contains(t)`: a predicate true of the strings holding `t` as a substring. */
  function ContainsMatcher(t: string): (f: string -> bool)
    ensures forall s :: f(s) <==> Contains(s, t)
  {
    s => Contains(s, t)
  }

  /** The substring test finds `t` wherever it occurs, and fails when `t` is longer than the text. */
  lemma ContainsMatcherFinds(s: string, t: string, i: nat)
    ensures i + |t| <= |s| && s[i..i + |t|] == t ==> ContainsMatcher(t)(s)
    ensures |t| > |s| ==> !ContainsMatcher(t)(s)
  {
    if i + |t| <= |s| && s[i..i + |t|] == t {
      assert s[i..][..|t|] == s[i..i + |t|];
      assert StartsWith(s[i..], t);
    }
  }

  /** The pixel index `int(n * f)` of a fraction `f` of a length `n`. */
  function Px(n: nat, f: real): (r: int)
    ensures 0.0 <= f <= 1.0 ==> 0 <= r <= n
  {
    assert 0.0 <= f <= 1.0 ==> n as real * f <= n as real * 1.0;
    Trunc(n as real * f)
  }

  /** Fractions in order give indices in order. */
  lemma PxMonotonic(n: nat, f: real, g: real)
    requires 0.0 <= f <= g
    ensures Px(n, f) <= Px(n, g)
  {
    ScaleMonotonic(n as real, f, g);
    TruncMonotonic(n as real * f, n as real * g);
  }

  lemma ScaleMonotonic(a: real, f: real, g: real)
    requires 0.0 <= a && 0.0 <= f <= g
    ensures 0.0 <= a * f <= a * g
  {
    assert a * g - a * f == a * (g - f);
  }

  /** Fractions `0 <= f <= g <= 1` give indices `0 <= Px(n, f) <= Px(n, g) <= n`. */
  lemma PxRange(n: nat, f: real, g: real)
    ensures 0.0 <= f <= g <= 1.0 ==> 0 <= Px(n, f) <= Px(n, g) <= n
  {
    if 0.0 <= f <= g <= 1.0 {
      PxMonotonic(n, f, g);
    }
  }

  /** `crop`: `img[int(h*y1):int(h*y2), int(w*x1):int(w*x2)]`. */
  function Crop<P>(img: Mat.Mat<P>, x1: real, y1: real, x2: real, y2: real): (r: Mat.Mat<P>)
    requires img.Valid()
    ensures r.Valid()
    ensures 0.0 <= x1 <= x2 <= 1.0 && 0.0 <= y1 <= y2 <= 1.0 ==>
      && r.width == Px(img.width, x2) - Px(img.width, x1)
      && r.Height() == Px(img.Height(), y2) - Px(img.Height(), y1)
      && forall y, x :: 0 <= y < r.Height() && 0 <= x < r.width ==>
           r.rows[y][x] == img.rows[Px(img.Height(), y1) + y][Px(img.width, x1) + x]
  {
    PxRange(img.width, x1, x2);
    PxRange(img.Height(), y1, y2);
    Mat.Crop(img, Px(img.Height(), y1), Px(img.Height(), y2), Px(img.width, x1), Px(img.width, x2))
  }

  /** `crop_y`: the rows `int(h*y1):int(h*y2)` at full width. */
  function CropY<P>(img: Mat.Mat<P>, y1: real, y2: real): (r: Mat.Mat<P>)
    requires img.Valid()
    ensures r.Valid() && r.width == img.width
    ensures 0.0 <= y1 <= y2 <= 1.0 ==>
      && r.Height() == Px(img.Height(), y2) - Px(img.Height(), y1)
      && forall y :: 0 <= y < r.Height() ==> r.rows[y] == img.rows[Px(img.Height(), y1) + y]
  {
    PxRange(img.Height(), y1, y2);
    var r := Mat.Crop(img, Px(img.Height(), y1), Px(img.Height(), y2), 0, img.width);
    assert forall y :: 0 <= y < r.Height() ==> r.rows[y] == img.rows[Mat.SliceRange(img.Height(), Px(img.Height(), y1), Px(img.Height(), y2)).0 + y] by {
      forall y | 0 <= y < r.Height()
        ensures r.rows[y] == img.rows[Mat.SliceRange(img.Height(), Px(img.Height(), y1), Px(img.Height(), y2)).0 + y]
      {
        var src := img.rows[Mat.SliceRange(img.Height(), Px(img.Height(), y1), Px(img.Height(), y2)).0 + y];
        assert |r.rows[y]| == |src|;
        assert forall x :: 0 <= x < |src| ==> r.rows[y][x] == src[x];
      }
    }
    r
  }

  /** `crop_x`: the columns `int(w*x1):int(w*x2)` of every row. */
  function CropX<P>(img: Mat.Mat<P>, x1: real, x2: real): (r: Mat.Mat<P>)
    requires img.Valid()
    ensures r.Valid() && r.Height() == img.Height()
    ensures 0.0 <= x1 <= x2 <= 1.0 ==>
      && r.width == Px(img.width, x2) - Px(img.width, x1)
      && forall y :: 0 <= y < r.Height() ==> r.rows[y] == img.rows[y][Px(img.width, x1)..Px(img.width, x2)]
  {
    PxRange(img.width, x1, x2);
    Mat.Crop(img, 0, img.Height(), Px(img.width, x1), Px(img.width, x2))
  }

  /** The documented example: a 10x10 image cropped to 0.2-0.8 both ways is 6x6. */
  lemma CropExample<P>(img: Mat.Mat<P>)
    requires img.Valid() && img.width == 10 && img.Height() == 10
    ensures Crop(img, 0.2, 0.2, 0.8, 0.8).width == 6
    ensures Crop(img, 0.2, 0.2, 0.8, 0.8).Height() == 6
  {
    assert Px(10, 0.2) == 2 && Px(10, 0.8) == 8;
  }

  /** `cropper(x1, y1, x2, y2)`: `crop` with the fractions fixed. */
  function Cropper<P(!new)>(x1: real, y1: real, x2: real, y2: real): (f: Mat.Mat<P> --> Mat.Mat<P>)
    ensures forall m: Mat.Mat<P> :: m.Valid() ==> f.requires(m) && f(m) == Crop(m, x1, y1, x2, y2)
  {
    (m: Mat.Mat<P>) requires m.Valid() => Crop(m, x1, y1, x2, y2)
  }

  /** `cropper_y(y1, y2)`: `crop_y` with the fractions fixed. */
  function CropperY<P(!new)>(y1: real, y2: real): (f: Mat.Mat<P> --> Mat.Mat<P>)
    ensures forall m: Mat.Mat<P> :: m.Valid() ==> f.requires(m) && f(m) == CropY(m, y1, y2)
  {
    (m: Mat.Mat<P>) requires m.Valid() => CropY(m, y1, y2)
  }

  /** `cropper_x(x1, x2)`: `crop_x` with the fractions fixed. */
  function CropperX<P(!new)>(x1: real, x2: real): (f: Mat.Mat<P> --> Mat.Mat<P>)
    ensures forall m: Mat.Mat<P> :: m.Valid() ==> f.requires(m) && f(m) == CropX(m, x1, x2)
  {
    (m: Mat.Mat<P>) requires m.Valid() => CropX(m, x1, x2)
  }
}

=== FILE: bootstrap_util.dfy ===
/**
 * Update settings as the launcher reads them from the configuration file
 * (bootstrap/kaa-bootstrap/util.py): only the `misc` options of the first
 * user config are consulted, and every missing key has a default.
 *
 * The configuration is the loaded JSON document, a `PyValue.Value`; a
 * value of the wrong shape makes the Python code raise, which the model
 * returns as an error.
 */
module BootstrapUtil {
  import opened Wrappers
  import opened PyValue
  import Assoc

  /** `(check_update, auto_install_update, update_channel)`; the last two are copied from the file as they are. */
  datatype UpdateSettings = UpdateSettings(checkUpdate: bool, autoInstallUpdate: Value, updateChannel: Value)

  const Defaults: UpdateSettings := UpdateSettings(true, Bool(true), Str("release"))

  /** `v[0]`: lists, tuples and strings are indexed; a dict looks up the key `0`, which a JSON object never has. */
  function First(v: Value): (r: Result<Value, PyError>)
    ensures r.Ok? <==> (v.List? && |v.items| > 0) || (v.Tuple? && |v.elems| > 0) || (v.Str? && |v.s| > 0)
  {
    match v
    case List(items) => if |items| > 0 then Ok(items[0]) else Err(IndexError)
    case Tuple(elems) => if |elems| > 0 then Ok(elems[0]) else Err(IndexError)
    case Str(s) => if |s| > 0 then Ok(Str(s[..1])) else Err(IndexError)
    case Dict(_) => Err(KeyError("0"))
    case _ => Err(TypeError)
  }

  /**
   * `user_configs = config.get("user_configs", [])` and, when that is
   * truthy, `user_configs[0].get("options", {}).get("misc", {})`; `None`
   * stands for a falsy `user_configs`.
   */
  function FirstMisc(config: Value): (r: Result<Option<Value>, PyError>)
    ensures !config.Dict? ==> r == Err(AttributeError)
    ensures config.Dict? && "user_configs" !in Assoc.Keys(config.entries) ==> r == Ok(None)
    ensures r.Ok? && r.value.Some? ==> config.Dict? && Truthy(Subscript(config, "user_configs").value)
  {
    match GetOr(config, "user_configs", List([]))
    case Err(e) => Err(e)
    case Ok(ucs) =>
      if !Truthy(ucs) then Ok(None)
      else
        match First(ucs)
        case Err(e) => Err(e)
        case Ok(first) =>
          match GetOr(first, "options", Dict([]))
          case Err(e) => Err(e)
          case Ok(options) =>
            match GetOr(options, "misc", Dict([]))
            case Err(e) => Err(e)
            case Ok(misc) => Ok(Some(misc))
  }

  /** `get_update_settings_logic`. */
  function UpdateSettingsLogic(config: Value): (r: Result<UpdateSettings, PyError>)
    ensures !config.Dict? ==> r == Err(AttributeError)
    ensures FirstMisc(config) == Ok(None) ==> r == Ok(Defaults)
    ensures FirstMisc(config) == Ok(Some(Dict([]))) ==> r == Ok(Defaults)
    ensures r.Ok? && FirstMisc(config).Ok? && FirstMisc(config).value.Some? ==>
      var misc := FirstMisc(config).value.value;
      && misc.Dict?
      && (r.value.checkUpdate <==> Assoc.Get(misc.entries, "check_update") in {None, Some(Str("startup"))})
      && r.value.autoInstallUpdate == Assoc.Get(misc.entries, "auto_install_update").GetOr(Bool(true))
      && r.value.updateChannel == Assoc.Get(misc.entries, "update_channel").GetOr(Str("release"))
  {
    match FirstMisc(config)
    case Err(e) => Err(e)
    case Ok(None) => Ok(Defaults)
    case Ok(Some(misc)) =>
      match GetOr(misc, "check_update", Str("startup"))
      case Err(e) => Err(e)
      case Ok(setting) =>
        Ok(UpdateSettings(
          EqualsStr(setting, "startup"),
          GetOr(misc, "auto_install_update", Bool(true)).value,
          GetOr(misc, "update_channel", Str("release")).value))
  }

  /** A JSON object holding `user_configs` as a list whose first element is `first`. */
  predicate FirstUserConfig(config: Value, first: Value)
  {
    && config.Dict?
    && Subscript(config, "user_configs").Ok?
    && var ucs := Subscript(config, "user_configs").value;
       ucs.List? && |ucs.items| > 0 && ucs.items[0] == first
  }

  /** The lookups that lead to the first user config all succeed. */
  lemma FirstUserConfigFound(config: Value, first: Value)
    requires FirstUserConfig(config, first)
    ensures var ucs := Subscript(config, "user_configs").value;
      GetOr(config, "user_configs", List([])) == Ok(ucs) && Truthy(ucs) && First(ucs) == Ok(first)
  {
  }

  /** Only the first user config is consulted: configs agreeing on it get the same settings, whatever else they hold. */
  lemma OnlyFirstConfigMatters(c1: Value, c2: Value, first: Value)
    requires FirstUserConfig(c1, first) && FirstUserConfig(c2, first)
    ensures UpdateSettingsLogic(c1) == UpdateSettingsLogic(c2)
  {
    assert FirstMisc(c1) == FirstMisc(c2);
  }

  /**
   * With `options.misc` present as an object in the first user config, each
   * setting is read from it by key: `check_update` holds iff that key is
   * missing or says "startup", and the other two are its values or their
   * defaults.
   */
  lemma SettingsFromMisc(config: Value, first: Value, misc: Value)
    requires FirstUserConfig(config, first)
    requires GetPath(first, ["options", "misc"]) == Ok(misc) && misc.Dict?
    ensures UpdateSettingsLogic(config).Ok?
    ensures UpdateSettingsLogic(config).value.checkUpdate <==>
      (Subscript(misc, "check_update").Err? || Subscript(misc, "check_update") == Ok(Str("startup")))
    ensures Subscript(misc, "auto_install_update").Ok? ==>
      UpdateSettingsLogic(config).value.autoInstallUpdate == Subscript(misc, "auto_install_update").value
    ensures Subscript(misc, "auto_install_update").Err? ==> UpdateSettingsLogic(config).value.autoInstallUpdate == Bool(true)
    ensures Subscript(misc, "update_channel").Ok? ==>
      UpdateSettingsLogic(config).value.updateChannel == Subscript(misc, "update_channel").value
    ensures Subscript(misc, "update_channel").Err? ==> UpdateSettingsLogic(config).value.updateChannel == Str("release")
  {
    FirstUserConfigFound(config, first);
    GetPathTwo(first, "options", "misc", misc, Dict([]), Dict([]));
    assert FirstMisc(config) == Ok(Some(misc));
  }
}

=== FILE: changelog.dfy ===
/**
 * The changelog generator (`tools/extract_changelog.py`): commit messages
 * in the conventional-commit style are filed into category and scope
 * buckets, and the changelog lists the buckets scope by scope. Reading the
 * commits from git and writing the result out are left out.
 */
module Changelog {
  import opened Wrappers
  import opened Text
  import opened PyValue
  import Assoc

  /** `Commit`: a message and its abbreviated hash. */
  datatype Commit = Commit(message: string, hash: string)

  /** `categories`: category, then scope, then the commits in order; both dict levels keep first-use order. */
  type Buckets = Assoc.Dict<string, Assoc.Dict<string, seq<Commit>>>

  /** The categories `categorize_commits` files under. */
  const Categories: seq<string> := ["feat", "fix", "refactor", "docs", "test", "chore", "other"]

  // ---------------------------------------------------------------------
  // Categorising
  // ---------------------------------------------------------------------

  /**
   * The type and scope of the text before the first ':'. With both
   * parentheses present the type ends at the first '(' and the scope is the
   * rest with its trailing ')' dropped; otherwise the scope is '*'.
   */
  function TypeAndScope(prefix: string): (r: (string, string))
    ensures !('(' in prefix && ')' in prefix) ==> r == (prefix, "*")
    ensures '(' in prefix && ')' in prefix ==>
      && |r.0| < |prefix| && prefix[|r.0|] == '(' && '(' !in r.0
      && r.1 == RStripChar(prefix[|r.0| + 1..], ')')
  {
    if '(' in prefix && ')' in prefix then
      var (t, scope) := SplitOnce(prefix, '(').value;
      assert prefix[|t|] == '(' && prefix[|t| + 1..] == scope by {
        assert prefix == t + ['('] + scope;
      }
      (t, RStripChar(scope, ')'))
    else (prefix, "*")
  }

  /** The message's text before its first ':'. */
  function Prefix(msg: string): string
    requires ':' in msg
  {
    SplitOnce(msg, ':').value.0
  }

  /** `msg` starts with `p` followed by ':' exactly when `p` is its whole prefix, for a `p` without ':'. */
  lemma StartsWithColon(msg: string, p: string)
    requires ':' in msg && ':' !in p
    ensures StartsWith(msg, p + ":") <==> Prefix(msg) == p
  {
    var (a, b) := SplitOnce(msg, ':').value;
    assert msg == a + [':'] + b;
    if StartsWith(msg, p + ":") {
      assert msg[..|p|] == p;
      IndexOfAt(msg, ':', |p|);
    }
    if a == p {
      assert msg[..|p| + 1] == p + ":";
    }
  }

  /**
   * The bucket `categorize_commits` files a message under, or `None` for a
   * message without ':'. A type starting with feat, fix or refactor (tested
   * in that order) keeps its scope; every other message goes to
   * `Fallback`, under '*'.
   */
  function Classify(msg: string): (r: Option<(string, string)>)
    ensures r.None? <==> ':' !in msg
    ensures r.Some? ==> r.value.0 in Categories
  {
    if ':' !in msg then None
    else
      var (t, scope) := TypeAndScope(Prefix(msg));
      if StartsWith(t, "feat") then Some(("feat", scope))
      else if StartsWith(t, "fix") then Some(("fix", scope))
      else if StartsWith(t, "refactor") then Some(("refactor", scope))
      else Some((Fallback(msg), "*"))
  }

  /** Only the messages starting with `docs:`, `test:` and `chore:` have untyped buckets of their own; the rest are `other`. */
  function Fallback(msg: string): (c: string)
    ensures c == "docs" || c == "test" || c == "chore" || c == "other"
  {
    if StartsWith(msg, "docs:") then "docs"
    else if StartsWith(msg, "test:") then "test"
    else if StartsWith(msg, "chore:") then "chore"
    else "other"
  }

  /** docs, test and chore are chosen exactly when the text before the first ':' is the category's name. */
  lemma FallbackSpec(msg: string)
    requires ':' in msg
    ensures Fallback(msg) == "docs" <==> Prefix(msg) == "docs"
    ensures Fallback(msg) == "test" <==> Prefix(msg) == "test"
    ensures Fallback(msg) == "chore" <==> Prefix(msg) == "chore"
  {
    StartsWithColon(msg, "docs");
    StartsWithColon(msg, "test");
    StartsWithColon(msg, "chore");
  }

  /**
   * The category in terms of the type and the scope: the three typed
   * categories keep the scope, tested in the order feat, fix, refactor;
   * anything else is filed under '*' by `Fallback`.
   */
  lemma ClassifySpec(msg: string)
    requires ':' in msg
    ensures var r := Classify(msg).value;
      var (t, scope) := TypeAndScope(Prefix(msg));
      && (StartsWith(t, "feat") ==> r == ("feat", scope))
      && (!StartsWith(t, "feat") && StartsWith(t, "fix") ==> r == ("fix", scope))
      && (!StartsWith(t, "feat") && !StartsWith(t, "fix") && StartsWith(t, "refactor") ==> r == ("refactor", scope))
      && (!StartsWith(t, "feat") && !StartsWith(t, "fix") && !StartsWith(t, "refactor") ==> r == (Fallback(msg), "*"))
  {
  }

  /** The commits in bucket `(c, s)`, or none when the bucket was never created. */
  function Bucket(b: Buckets, c: string, s: string): seq<Commit>
  {
    match Assoc.Get(b, c)
    case None => []
    case Some(inner) =>
      match Assoc.Get(inner, s)
      case None => []
      case Some(cs) => cs
  }

  /** `categories[c][s].append(x)` on the nested `defaultdict`. */
  function Add(b: Buckets, c: string, s: string, x: Commit): Buckets
  {
    var inner := match Assoc.Get(b, c) case None => [] case Some(d) => d;
    Assoc.Set(b, c, Assoc.Set(inner, s, Bucket(b, c, s) + [x]))
  }

  /** Appending to one bucket extends that bucket by the commit and leaves every other bucket alone. */
  lemma BucketAdd(b: Buckets, c: string, s: string, x: Commit, c2: string, s2: string)
    ensures Bucket(Add(b, c, s, x), c2, s2) == Bucket(b, c2, s2) + (if c2 == c && s2 == s then [x] else [])
  {
    var inner := match Assoc.Get(b, c) case None => [] case Some(d) => d;
    var inner' := Assoc.Set(inner, s, Bucket(b, c, s) + [x]);
    Assoc.GetSet(b, c, inner', c2);
    Assoc.GetSet(inner, s, Bucket(b, c, s) + [x], s2);
  }

  /** `categorize_commits`: every commit in order, filed under its bucket; commits without ':' are skipped. */
  function Categorize(commits: seq<Commit>): Buckets
  {
    if |commits| == 0 then []
    else
      var last := commits[|commits| - 1];
      var b := Categorize(commits[..|commits| - 1]);
      match Classify(last.message)
      case None => b
      case Some((c, s)) => Add(b, c, s, last)
  }

  /** The commits that belong in bucket `(c, s)`, in order. */
  function Filed(commits: seq<Commit>, c: string, s: string): (r: seq<Commit>)
    ensures forall x :: x in r ==> x in commits && Classify(x.message) == Some((c, s))
  {
    if |commits| == 0 then []
    else
      var last := commits[|commits| - 1];
      var before := Filed(commits[..|commits| - 1], c, s);
      if Classify(last.message) == Some((c, s)) then before + [last] else before
  }

  /** Each bucket holds exactly the commits that belong in it, in their original order. */
  lemma {:induction false} CategorizeFiles(commits: seq<Commit>, c: string, s: string)
    ensures Bucket(Categorize(commits), c, s) == Filed(commits, c, s)
  {
    if |commits| > 0 {
      var init := commits[..|commits| - 1];
      var last := commits[|commits| - 1];
      CategorizeFiles(init, c, s);
      match Classify(last.message)
      case None =>
      case Some((c1, s1)) =>
        BucketAdd(Categorize(init), c1, s1, last, c, s);
    }
  }

  /**
   * A commit with ':' lands in the bucket `Classify` names and in no other;
   * a commit without ':' lands in none.
   */
  lemma OneBucket(commits: seq<Commit>, x: Commit, c: string, s: string)
    requires x in commits
    ensures x in Bucket(Categorize(commits), c, s) <==> Classify(x.message) == Some((c, s))
  {
    CategorizeFiles(commits, c, s);
    if Classify(x.message) == Some((c, s)) {
      FiledHas(commits, x, c, s);
    }
  }

  lemma {:induction false} FiledHas(commits: seq<Commit>, x: Commit, c: string, s: string)
    requires x in commits && Classify(x.message) == Some((c, s))
    ensures x in Filed(commits, c, s)
  {
    var init := commits[..|commits| - 1];
    var last := commits[|commits| - 1];
    var before := Filed(init, c, s);
    if x == last {
      assert Filed(commits, c, s) == before + [last];
    } else {
      assert x in init by {
        assert commits == init + [last];
      }
      FiledHas(init, x, c, s);
      assert Filed(commits, c, s) == before + [last] || Filed(commits, c, s) == before;
    }
  }

  // ---------------------------------------------------------------------
  // Printing
  // ---------------------------------------------------------------------

  /** The scopes `print_changelog` lists, in `scope_map` order. */
  const ScopeOrder: seq<string> := ["task", "ui", "core", "devtool", "bootstrap", "launcher", "*"]

  /** `scope_map`: the heading for each listed scope. */
  function ScopeLabel(s: string): string
    requires s in ScopeOrder
  {
    if s == "task" then "脚本"
    else if s == "ui" then "界面"
    else if s == "core" then "框架"
    else if s == "devtool" then "开发工具"
    else if s == "bootstrap" || s == "launcher" then "启动器"
    else "其他"
  }

  /** `category_map`; an unknown category raises `KeyError`. */
  function CategoryLabel(c: string): (r: Result<string, PyError>)
    ensures r.Ok? <==> c in Categories
    ensures r.Err? ==> r.error == KeyError(c)
  {
    if c == "feat" then Ok("新增")
    else if c == "fix" then Ok("修复")
    else if c == "refactor" then Ok("重构")
    else if c == "docs" then Ok("文档")
    else if c == "test" then Ok("单测")
    else if c == "chore" || c == "other" then Ok("其他")
    else Err(KeyError(c))
  }

  /** `commit.message.split(':', 1)[1].strip()`; a message without ':' raises `IndexError`. */
  function EntryText(x: Commit): (r: Result<string, PyError>)
    ensures r.Ok? <==> ':' in x.message
    ensures r.Ok? ==> r.value == StripSpace(SplitOnce(x.message, ':').value.1)
  {
    match SplitOnce(x.message, ':')
    case None => Err(IndexError)
    case Some((_, rest)) => Ok(StripSpace(rest))
  }

  /** One changelog line: `* [label] text（#hash）`. */
  function EntryLine(name: string, text: string, hash: string): (r: string)
    ensures StartsWith(r, "* [" + name + "] " + text)
    ensures EndsWith(r, "（#" + hash + "）")
  {
    var head := "* [" + name + "] " + text;
    var tail := "（#" + hash + "）";
    assert (head + tail)[..|head|] == head;
    assert (head + tail)[|head + tail| - |tail|..] == tail;
    head + tail
  }

  /** The lines for the commits of one non-empty bucket of category `c`. */
  function Entries(c: string, cs: seq<Commit>): (r: Result<seq<string>, PyError>)
    ensures r.Ok? ==> |r.value| == |cs|
    ensures (c in Categories && forall i :: 0 <= i < |cs| ==> ':' in cs[i].message) ==> r.Ok?
  {
    if |cs| == 0 then Ok([])
    else
      var name :- CategoryLabel(c);
      var text :- EntryText(cs[0]);
      var more :- Entries(c, cs[1..]);
      Ok([EntryLine(name, text, cs[0].hash)] + more)
  }

  /** The entries for scope `s`: category by category in first-use order, each bucket in commit order. */
  function ScopeEntries(b: Buckets, s: string): (r: Result<seq<string>, PyError>)
  {
    if |b| == 0 then Ok([])
    else
      var (c, scopes) := b[0];
      var here :- match Assoc.Get(scopes, s)
        case Some(cs) => Entries(c, cs)
        case None => Ok([]);
      var more :- ScopeEntries(b[1..], s);
      Ok(here + more)
  }

  /** The block for one scope: its heading, its entries and a blank line, or nothing when it has no entries. */
  function ScopeBlock(b: Buckets, s: string): (r: Result<seq<string>, PyError>)
    requires s in ScopeOrder
    ensures r.Ok? <==> ScopeEntries(b, s).Ok?
    ensures r.Ok? ==> (r.value == [] <==> ScopeEntries(b, s).value == [])
    ensures r.Ok? && r.value != [] ==>
      && |r.value| == |ScopeEntries(b, s).value| + 2
      && r.value[0] == ScopeLabel(s) + "："
      && r.value[1..|r.value| - 1] == ScopeEntries(b, s).value
      && r.value[|r.value| - 1] == ""
  {
    var entries :- ScopeEntries(b, s);
    if |entries| == 0 then Ok([])
    else
      var r := [ScopeLabel(s) + "："] + entries + [""];
      assert r[1..|r| - 1] == entries;
      Ok(r)
  }

  /** The blocks of `scopes` in order. */
  function Blocks(b: Buckets, scopes: seq<string>): (r: Result<seq<string>, PyError>)
    requires forall i :: 0 <= i < |scopes| ==> scopes[i] in ScopeOrder
    ensures r.Ok? <==> forall i :: 0 <= i < |scopes| ==> ScopeEntries(b, scopes[i]).Ok?
  {
    if |scopes| == 0 then Ok([])
    else
      assert forall i :: 1 <= i < |scopes| ==> scopes[i] == scopes[1..][i - 1];
      var first :- ScopeBlock(b, scopes[0]);
      var more :- Blocks(b, scopes[1..]);
      Ok(first + more)
  }

  /** `print_changelog`'s text: the blocks of the listed scopes, joined by newlines. */
  function ChangelogText(b: Buckets): (r: Result<string, PyError>)
    ensures r.Ok? <==> forall i :: 0 <= i < |ScopeOrder| ==> ScopeEntries(b, ScopeOrder[i]).Ok?
  {
    var lines :- Blocks(b, ScopeOrder);
    Ok(Join(lines, "\n"))
  }

  // ---------------------------------------------------------------------
  // What printing needs of the buckets
  // ---------------------------------------------------------------------

  /** Every category is a known one and every filed message has a ':'. */
  predicate WellFormed(b: Buckets)
  {
    forall i :: 0 <= i < |b| ==> b[i].0 in Categories && Filled(b[i].1)
  }

  /** Every message filed in a category's scopes has a ':'. */
  predicate Filled(scopes: Assoc.Dict<string, seq<Commit>>)
  {
    forall j, k :: 0 <= j < |scopes| && 0 <= k < |scopes[j].1| ==> ':' in scopes[j].1[k].message
  }

  /** On well-formed buckets every scope's entries print without error. */
  lemma {:induction false} ScopeEntriesOk(b: Buckets, s: string)
    requires WellFormed(b)
    ensures ScopeEntries(b, s).Ok?
  {
    if |b| > 0 {
      var (c, scopes) := b[0];
      assert WellFormed(b[1..]) by {
        assert forall i :: 0 <= i < |b[1..]| ==> b[1..][i] == b[i + 1];
      }
      ScopeEntriesOk(b[1..], s);
      match Assoc.Get(scopes, s)
      case None =>
      case Some(cs) =>
        var j :| 0 <= j < |scopes| && scopes[j].0 == s && scopes[j].1 == cs;
        assert forall k :: 0 <= k < |cs| ==> ':' in cs[k].message;
    }
  }

  /** Replacing or appending a scope whose messages all have ':' keeps a category filled. */
  lemma {:induction false} SetFilled(d: Assoc.Dict<string, seq<Commit>>, s: string, cs: seq<Commit>)
    requires Filled(d) && forall k :: 0 <= k < |cs| ==> ':' in cs[k].message
    ensures Filled(Assoc.Set(d, s, cs))
  {
    if |d| > 0 && d[0].0 != s {
      assert Filled(d[1..]) by {
        assert forall j :: 0 <= j < |d[1..]| ==> d[1..][j] == d[j + 1];
      }
      SetFilled(d[1..], s, cs);
      var r := Assoc.Set(d, s, cs);
      assert r == [d[0]] + Assoc.Set(d[1..], s, cs);
      assert forall j :: 1 <= j < |r| ==> r[j] == Assoc.Set(d[1..], s, cs)[j - 1];
    }
  }

  /** Replacing or appending a known, filled category keeps the buckets well formed. */
  lemma {:induction false} SetWellFormed(b: Buckets, c: string, scopes: Assoc.Dict<string, seq<Commit>>)
    requires WellFormed(b) && c in Categories && Filled(scopes)
    ensures WellFormed(Assoc.Set(b, c, scopes))
  {
    if |b| > 0 && b[0].0 != c {
      assert WellFormed(b[1..]) by {
        assert forall j :: 0 <= j < |b[1..]| ==> b[1..][j] == b[j + 1];
      }
      SetWellFormed(b[1..], c, scopes);
      var r := Assoc.Set(b, c, scopes);
      assert r == [b[0]] + Assoc.Set(b[1..], c, scopes);
      assert forall j :: 1 <= j < |r| ==> r[j] == Assoc.Set(b[1..], c, scopes)[j - 1];
    }
  }

  /** A category of well-formed buckets is filled. */
  lemma GetWellFormed(b: Buckets, c: string)
    requires WellFormed(b) && Assoc.Get(b, c).Some?
    ensures Filled(Assoc.Get(b, c).value)
  {
    var i :| 0 <= i < |b| && b[i].0 == c && b[i].1 == Assoc.Get(b, c).value;
  }

  /** Every message in a scope of a filled category has a ':'. */
  lemma GetFilled(d: Assoc.Dict<string, seq<Commit>>, s: string)
    requires Filled(d) && Assoc.Get(d, s).Some?
    ensures forall k :: 0 <= k < |Assoc.Get(d, s).value| ==> ':' in Assoc.Get(d, s).value[k].message
  {
    var j :| 0 <= j < |d| && d[j].0 == s && d[j].1 == Assoc.Get(d, s).value;
  }

  /** Filing a message with ':' under a known category keeps the buckets well formed. */
  lemma AddWellFormed(b: Buckets, c: string, s: string, x: Commit)
    requires WellFormed(b) && c in Categories && ':' in x.message
    ensures WellFormed(Add(b, c, s, x))
  {
    var inner := match Assoc.Get(b, c) case None => [] case Some(d) => d;
    if Assoc.Get(b, c).Some? {
      GetWellFormed(b, c);
    }
    var before := Bucket(b, c, s);
    if Assoc.Get(inner, s).Some? {
      GetFilled(inner, s);
    }
    assert forall k :: 0 <= k < |before| ==> ':' in before[k].message;
    var cs := before + [x];
    SetFilled(inner, s, cs);
    SetWellFormed(b, c, Assoc.Set(inner, s, cs));
  }

  /** `categorize_commits` only builds buckets that print. */
  lemma {:induction false} CategorizeWellFormed(commits: seq<Commit>)
    ensures WellFormed(Categorize(commits))
  {
    if |commits| > 0 {
      var last := commits[|commits| - 1];
      CategorizeWellFormed(commits[..|commits| - 1]);
      match Classify(last.message)
      case None =>
      case Some((c, s)) =>
        AddWellFormed(Categorize(commits[..|commits| - 1]), c, s, last);
    }
  }

  /** The changelog of any list of commits prints without error. */
  lemma ChangelogOfCommits(commits: seq<Commit>)
    ensures ChangelogText(Categorize(commits)).Ok?
  {
    CategorizeWellFormed(commits);
    forall i | 0 <= i < |ScopeOrder| ensures ScopeEntries(Categorize(commits), ScopeOrder[i]).Ok? {
      ScopeEntriesOk(Categorize(commits), ScopeOrder[i]);
    }
  }

  // ---------------------------------------------------------------------
  // Unlisted scopes
  // ---------------------------------------------------------------------

  /** A category's scopes with only the listed ones kept. */
  function ListedOnly(scopes: Assoc.Dict<string, seq<Commit>>): (r: Assoc.Dict<string, seq<Commit>>)
    ensures forall j :: 0 <= j < |r| ==> r[j].0 in ScopeOrder
  {
    if |scopes| == 0 then []
    else
      var rest := ListedOnly(scopes[1..]);
      if scopes[0].0 in ScopeOrder then [scopes[0]] + rest else rest
  }

  /** Dropping unlisted scopes does not change what a listed scope looks up. */
  lemma {:induction false} GetListedOnly(scopes: Assoc.Dict<string, seq<Commit>>, s: string)
    requires s in ScopeOrder
    ensures Assoc.Get(ListedOnly(scopes), s) == Assoc.Get(scopes, s)
  {
    if |scopes| > 0 {
      GetListedOnly(scopes[1..], s);
      if scopes[0].0 in ScopeOrder {
        assert ([scopes[0]] + ListedOnly(scopes[1..]))[1..] == ListedOnly(scopes[1..]);
      }
    }
  }

  /** The buckets with every unlisted scope dropped from every category. */
  function Listed(b: Buckets): (r: Buckets)
    ensures |r| == |b|
    ensures forall i :: 0 <= i < |b| ==> r[i] == (b[i].0, ListedOnly(b[i].1))
  {
    seq(|b|, i requires 0 <= i < |b| => (b[i].0, ListedOnly(b[i].1)))
  }

  /** A listed scope's entries do not depend on the unlisted scopes. */
  lemma {:induction false} ScopeEntriesListed(b: Buckets, s: string)
    requires s in ScopeOrder
    ensures ScopeEntries(Listed(b), s) == ScopeEntries(b, s)
  {
    if |b| > 0 {
      GetListedOnly(b[0].1, s);
      assert Listed(b)[1..] == Listed(b[1..]);
      ScopeEntriesListed(b[1..], s);
    }
  }

  /** Scopes missing from `scope_map` are never printed: dropping them leaves the changelog as it was. */
  lemma {:induction false} UnlistedScopesSilent(b: Buckets, scopes: seq<string>)
    requires forall i :: 0 <= i < |scopes| ==> scopes[i] in ScopeOrder
    ensures Blocks(Listed(b), scopes) == Blocks(b, scopes)
  {
    if |scopes| > 0 {
      ScopeEntriesListed(b, scopes[0]);
      assert forall i :: 1 <= i < |scopes| ==> scopes[i] == scopes[1..][i - 1];
      UnlistedScopesSilent(b, scopes[1..]);
    }
  }
}

=== FILE: color.dfy ===
/**
 * Colour helpers (kotonebot/backend/color.py): parsing a colour argument,
 * the HSB range test, the nearest-colour search of `find_rgb` and the
 * hex formatting of `dominant_color`. OpenCV's colour-space conversion
 * and k-means clustering are inputs of the model.
 */
module Color {
  import opened Wrappers
  import opened Text
  import opened PyValue
  import opened Mat
  import opened Numeric

  type Rgb = (int, int, int)

  /** The `ValueError`s `_unify_color` raises. */
  datatype ColorError =
    | MissingHash        // "Hex color string must start with #"
    | NotSixDigits       // "Hex color string must be 6 digits"
    | BadHexDigits       // raised by int(..., 16)
    | InvalidFormat      // "Invalid color format"

  /** A channel as a tuple element: an `int` (or `bool`) between 0 and 255. */
  predicate IsChannel(v: Value)
  {
    IsInt(v) && 0 <= IntValue(v) <= 255
  }

  /**
   * `_unify_color`: `#RRGGBB` becomes the three numbers its hex pairs
   * denote (each parsed by `int(pair, 16)`); a tuple of three channel
   * values passes through; anything else is rejected.
   */
  function UnifyColor(color: Value): (r: Result<Rgb, ColorError>)
    ensures color.Str? && !StartsWith(color.s, "#") ==> r == Err(MissingHash)
    ensures color.Str? && StartsWith(color.s, "#") && |color.s| != 7 ==> r == Err(NotSixDigits)
    ensures color.Str? && |color.s| == 7 && color.s[0] == '#' ==>
      (r.Ok? <==> forall k :: 0 <= k < 3 ==> PyInt(PairAt(color.s[1..], k), 16).Some?)
    ensures color.Tuple? ==>
      (r.Ok? <==> |color.elems| == 3 && forall i :: 0 <= i < 3 ==> IsChannel(color.elems[i]))
    ensures color.Tuple? && r.Ok? ==>
      r.value == (IntValue(color.elems[0]), IntValue(color.elems[1]), IntValue(color.elems[2]))
    ensures !color.Str? && !color.Tuple? ==> r == Err(InvalidFormat)
  {
    match color
    case Str(s) =>
      if !StartsWith(s, "#") then Err(MissingHash)
      else
        var hex := s[1..];
        if |hex| != 6 then Err(NotSixDigits)
        else
          HexPairsSpec(hex);
          (match HexTriple(hex)
           case Some(c) => Ok(c)
           case None => Err(BadHexDigits))
    case Tuple(elems) =>
      if |elems| == 3 && IsChannel(elems[0]) && IsChannel(elems[1]) && IsChannel(elems[2]) then
        Ok((IntValue(elems[0]), IntValue(elems[1]), IntValue(elems[2])))
      else Err(InvalidFormat)
    case _ => Err(InvalidFormat)
  }

  /** `int(pair, 16)` of each two-character slice in turn; `None` as soon as one raises. */
  function HexPairs(hex: string): (r: Option<seq<int>>)
    requires |hex| % 2 == 0
    ensures r.Some? ==> |r.value| == |hex| / 2
  {
    if |hex| == 0 then Some([])
    else
      match PyInt(hex[..2], 16)
      case None => None
      case Some(v) =>
        match HexPairs(hex[2..])
        case None => None
        case Some(vs) => Some([v] + vs)
  }

  /** `hex[2k:2k+2]`. */
  function PairAt(hex: string, k: nat): (p: string)
    requires 2 * k + 2 <= |hex|
    ensures |p| == 2 && p[0] == hex[2 * k] && p[1] == hex[2 * k + 1]
  {
    hex[2 * k..2 * k + 2]
  }

  lemma PairAtShift(hex: string, k: nat)
    requires 2 * k + 4 <= |hex|
    ensures PairAt(hex[2..], k) == PairAt(hex, k + 1)
  {
  }

  /** The pairs parse exactly when every slice `hex[2k:2k+2]` does, to the values those slices give. */
  lemma {:induction false} HexPairsSpec(hex: string)
    requires |hex| % 2 == 0
    ensures HexPairs(hex).Some? <==> forall k :: 0 <= k < |hex| / 2 ==> PyInt(PairAt(hex, k), 16).Some?
    ensures HexPairs(hex).Some? ==>
      forall k :: 0 <= k < |hex| / 2 ==> HexPairs(hex).value[k] == PyInt(PairAt(hex, k), 16).value
  {
    if |hex| > 0 {
      var rest := hex[2..];
      HexPairsSpec(rest);
      HexPairsStep(hex);
      ShiftedPairs(hex);
      if HexPairs(hex).Some? {
        var vs := HexPairs(hex).value;
        forall k | 0 <= k < |hex| / 2
          ensures vs[k] == PyInt(PairAt(hex, k), 16).value
        {
          if k > 0 {
            assert vs[k] == HexPairs(rest).value[k - 1];
          }
        }
      } else if PyInt(PairAt(hex, 0), 16).Some? {
        var k :| 0 <= k < |rest| / 2 && PyInt(PairAt(rest, k), 16).None?;
        assert PyInt(PairAt(hex, k + 1), 16).None?;
      }
    }
  }

  /** One step of `HexPairs`: the first pair, then the rest. */
  lemma HexPairsStep(hex: string)
    requires |hex| % 2 == 0 && |hex| > 0
    ensures HexPairs(hex).Some? <==> PyInt(PairAt(hex, 0), 16).Some? && HexPairs(hex[2..]).Some?
    ensures HexPairs(hex).Some? ==> HexPairs(hex).value == [PyInt(PairAt(hex, 0), 16).value] + HexPairs(hex[2..]).value
  {
    assert hex[..2] == PairAt(hex, 0);
  }

  /** Dropping the first pair shifts the pair indices by one. */
  lemma ShiftedPairs(hex: string)
    requires |hex| % 2 == 0 && |hex| > 0
    ensures forall k :: 1 <= k < |hex| / 2 ==> PyInt(PairAt(hex[2..], k - 1), 16) == PyInt(PairAt(hex, k), 16)
  {
    forall k | 1 <= k < |hex| / 2
      ensures PyInt(PairAt(hex[2..], k - 1), 16) == PyInt(PairAt(hex, k), 16)
    {
      PairAtShift(hex, k - 1);
    }
  }

  /** The three `int(pair, 16)` of six hex characters, `None` when one of them raises. */
  function HexTriple(hex: string): (r: Option<Rgb>)
    requires |hex| == 6
  {
    match HexPairs(hex)
    case None => None
    case Some(vs) => Some((vs[0], vs[1], vs[2]))
  }

  /** A well-formed `#rrggbb` string parses to the bytes its pairs denote, each within 0..255. */
  lemma {:induction false} UnifyHexColor(s: string)
    requires |s| == 7 && s[0] == '#'
    requires forall i :: 1 <= i < 7 ==> IsDigitIn(s[i], 16)
    ensures UnifyColor(Str(s)).Ok?
    ensures UnifyColor(Str(s)).value.0 == DigitValue(s[1]) * 16 + DigitValue(s[2])
    ensures UnifyColor(Str(s)).value.1 == DigitValue(s[3]) * 16 + DigitValue(s[4])
    ensures UnifyColor(Str(s)).value.2 == DigitValue(s[5]) * 16 + DigitValue(s[6])
  {
    var hex := s[1..];
    assert StartsWith(s, "#") by {
      assert s[..1] == "#";
    }
    assert forall i :: 0 <= i < 6 ==> hex[i] == s[i + 1];
    HexPairsValue(hex);
    var vs := HexPairs(hex).value;
    assert vs[0] == DigitValue(s[1]) * 16 + DigitValue(s[2]);
    assert vs[1] == DigitValue(s[3]) * 16 + DigitValue(s[4]);
    assert vs[2] == DigitValue(s[5]) * 16 + DigitValue(s[6]);
    assert HexTriple(hex) == Some((vs[0], vs[1], vs[2]));
    assert StartsWith(s, "#") && |hex| == 6;
    assert UnifyColor(Str(s)) == Ok((vs[0], vs[1], vs[2]));
  }

  /** Hex digits only: every pair parses, to the value of its two digits. */
  lemma HexPairsValue(hex: string)
    requires |hex| % 2 == 0
    requires forall i :: 0 <= i < |hex| ==> IsDigitIn(hex[i], 16)
    ensures HexPairs(hex).Some?
    ensures forall k :: 0 <= k < |hex| / 2 ==>
      HexPairs(hex).value[k] == DigitValue(hex[2 * k]) * 16 + DigitValue(hex[2 * k + 1])
  {
    forall k | 0 <= k < |hex| / 2
      ensures PyInt(PairAt(hex, k), 16) == Some(DigitValue(hex[2 * k]) * 16 + DigitValue(hex[2 * k + 1]))
    {
      HexPairAt(hex, k);
    }
    HexPairsSpec(hex);
  }

  lemma HexPairAt(hex: string, k: nat)
    requires 2 * k + 2 <= |hex| && IsDigitIn(hex[2 * k], 16) && IsDigitIn(hex[2 * k + 1], 16)
    ensures PyInt(PairAt(hex, k), 16) == Some(DigitValue(hex[2 * k]) * 16 + DigitValue(hex[2 * k + 1]))
  {
    var p := PairAt(hex, k);
    HexPairValue(p);
  }

  lemma TwoDigits(a: char, b: char)
    requires IsDigitIn(a, 16) && IsDigitIn(b, 16)
    ensures PyInt([a, b], 16) == Some(DigitValue(a) * 16 + DigitValue(b))
  {
    HexPairValue([a, b]);
  }

  /** The examples the tests reject: the empty string, strings without `#`, short strings, lists and wrong tuples. */
  lemma UnifyColorRejects()
    ensures UnifyColor(Str("")).Err? && UnifyColor(Str("sdasdf")).Err? && UnifyColor(Str("000000")).Err?
    ensures UnifyColor(Str("#000")).Err? && UnifyColor(Str("red")).Err?
    ensures UnifyColor(List([Int(1), Int(2), Int(3)])).Err?
    ensures UnifyColor(Tuple([])).Err? && UnifyColor(Tuple([Int(0), Int(0)])).Err?
    ensures UnifyColor(Tuple([Int(999), Int(999), Int(-1)])).Err?
  {
    NoHash("sdasdf");
    NoHash("000000");
    NoHash("red");
    assert "#000"[..1] == "#";
  }

  lemma NoHash(s: string)
    requires |s| > 0 && s[0] != '#'
    ensures !StartsWith(s, "#")
  {
    assert s[..1][0] == s[0];
  }

  /** An HSB colour `(h, s, b)`. */
  type Hsb = (int, int, int)

  /** `in_range`: each component lies between the matching bounds, inclusive. */
  predicate InRange(color: Hsb, range: (Hsb, Hsb))
  {
    var (h, s, b) := color;
    var ((h1, s1, b1), (h2, s2, b2)) := range;
    h1 <= h <= h2 && s1 <= s <= s2 && b1 <= b <= b2
  }

  /** A colour is in its own one-point range, and a range containing anything has ordered bounds. */
  lemma InRangeFacts(color: Hsb, range: (Hsb, Hsb))
    ensures InRange(color, (color, color))
    ensures InRange(color, range) ==>
      range.0.0 <= range.1.0 && range.0.1 <= range.1.1 && range.0.2 <= range.1.2
  {
  }

  // ---------------------------------------------------------------------
  // find_rgb
  // ---------------------------------------------------------------------

  /** OpenCV's HLS triple: hue 0-180, lightness and saturation 0-255. */
  datatype Hls = Hls(h: int, l: int, s: int)

  /** `cv2.cvtColor(..., COLOR_BGR2HLS)` for one BGR pixel. */
  type HlsOf = Pixel -> Hls

  function Sq(x: int): nat { x * x }

  /** The hue difference the short way round OpenCV's 180-degree hue circle. */
  function HueGap(p: Hls, t: Hls): int
  {
    var dh := Abs(p.h - t.h);
    if dh <= 180 - dh then dh else 180 - dh
  }

  /**
   * `find_rgb`'s squared distance `((2·h/90)² + (l/255)² + (s/255)²) / 6`,
   * multiplied by `DistScale`: over the common denominator
   * `6 · 585225` the hue term weighs 289 and the others 9 each.
   */
  function Dist2(p: Hls, t: Hls): nat
  {
    289 * Sq(HueGap(p, t)) + 9 * Sq(p.l - t.l) + 9 * Sq(p.s - t.s)
  }

  /** `Dist2` is the squared distance times this constant. */
  const DistScale: nat := 3511350

  predicate InHlsRange(p: Hls)
  {
    0 <= p.h <= 180 && 0 <= p.l <= 255 && 0 <= p.s <= 255
  }

  /**
   * For OpenCV values the distance is at most 1, and it is 0 exactly for
   * the same lightness and saturation and a hue that is the same or
   * differs by the full circle.
   */
  lemma {:induction false} Dist2Bounds(p: Hls, t: Hls)
    requires InHlsRange(p) && InHlsRange(t)
    ensures Dist2(p, t) <= DistScale
    ensures Dist2(p, t) == 0 <==> p.l == t.l && p.s == t.s && (p.h == t.h || Abs(p.h - t.h) == 180)
  {
    var g := HueGap(p, t);
    assert 0 <= g <= 90;
    SqFacts(g, 90);
    SqFacts(Abs(p.l - t.l), 255);
    SqFacts(Abs(p.s - t.s), 255);
    assert Sq(p.l - t.l) == Sq(Abs(p.l - t.l));
    assert Sq(p.s - t.s) == Sq(Abs(p.s - t.s));
  }

  lemma SqFacts(a: int, b: int)
    requires 0 <= a <= b
    ensures Sq(a) <= Sq(b)
    ensures Sq(a) == 0 <==> a == 0
  {
    assert a * a <= a * b;
    assert a * b <= b * b;
    if a > 0 {
      assert a * a >= a;
    }
  }

  /**
   * `dist <= 1 - threshold`, compared on squares: both sides are
   * non-negative whenever the test can hold, and the square root is
   * monotonic.
   */
  predicate Near(p: Hls, t: Hls, threshold: real)
  {
    threshold <= 1.0 && Dist2(p, t) as real <= DistScale as real * (1.0 - threshold) * (1.0 - threshold)
  }

  /** The first nearest candidate of `row` at column `x0` or later. */
  function RowBest(row: seq<Hls>, t: Hls, threshold: real, x0: nat): (r: Option<nat>)
    requires x0 <= |row|
    ensures r.Some? ==> x0 <= r.value < |row|
    decreases |row| - x0
  {
    if x0 == |row| then None
    else
      var rest := RowBest(row, t, threshold, x0 + 1);
      if !Near(row[x0], t, threshold) then rest
      else if rest.None? || Dist2(row[x0], t) <= Dist2(row[rest.value], t) then Some(x0)
      else rest
  }

  /** The row search finds a candidate exactly when there is one, the nearest and, among equals, the leftmost. */
  lemma {:induction false} RowBestSpec(row: seq<Hls>, t: Hls, threshold: real, x0: nat)
    requires x0 <= |row|
    ensures var r := RowBest(row, t, threshold, x0);
      && (r.None? <==> forall x :: x0 <= x < |row| ==> !Near(row[x], t, threshold))
      && (r.Some? ==> Near(row[r.value], t, threshold))
      && (r.Some? ==> forall x :: x0 <= x < |row| && Near(row[x], t, threshold) ==> Dist2(row[r.value], t) <= Dist2(row[x], t))
      && (r.Some? ==> forall x :: x0 <= x < r.value && Near(row[x], t, threshold) ==> Dist2(row[r.value], t) < Dist2(row[x], t))
    decreases |row| - x0
  {
    if x0 < |row| {
      RowBestSpec(row, t, threshold, x0 + 1);
    }
  }

  /** The first nearest candidate of rows `y0` and later, in row-major order. */
  function GridBest(grid: seq<seq<Hls>>, t: Hls, threshold: real, y0: nat): (r: Option<(nat, nat)>)
    requires y0 <= |grid|
    ensures r.Some? ==> y0 <= r.value.1 < |grid| && r.value.0 < |grid[r.value.1]|
    decreases |grid| - y0
  {
    if y0 == |grid| then None
    else
      var here := RowBest(grid[y0], t, threshold, 0);
      var rest := GridBest(grid, t, threshold, y0 + 1);
      match here
      case None => rest
      case Some(x) =>
        if rest.None? || Dist2(grid[y0][x], t) <= Dist2(grid[rest.value.1][rest.value.0], t) then Some((x, y0))
        else rest
  }

  /** Rows `y0` and later hold no candidate. */
  predicate NoNearFrom(grid: seq<seq<Hls>>, t: Hls, threshold: real, y0: nat)
  {
    forall y, x :: y0 <= y < |grid| && 0 <= x < |grid[y]| ==> !Near(grid[y][x], t, threshold)
  }

  /** `(x, y)` is nearest among rows `y0` and later, and strictly nearer than every earlier candidate there. */
  predicate FirstNearestFrom(grid: seq<seq<Hls>>, t: Hls, threshold: real, y0: nat, x: nat, y: nat)
  {
    && y0 <= y < |grid| && x < |grid[y]| && Near(grid[y][x], t, threshold)
    && (forall y', x' :: y0 <= y' < |grid| && 0 <= x' < |grid[y']| && Near(grid[y'][x'], t, threshold) ==>
          Dist2(grid[y][x], t) <= Dist2(grid[y'][x'], t))
    && (forall y', x' ::
          (y0 <= y' < |grid| && 0 <= x' < |grid[y']| && (y' < y || (y' == y && x' < x)) && Near(grid[y'][x'], t, threshold))
          ==> Dist2(grid[y][x], t) < Dist2(grid[y'][x'], t))
  }

  lemma {:induction false} GridBestSpec(grid: seq<seq<Hls>>, t: Hls, threshold: real, y0: nat)
    requires y0 <= |grid|
    ensures var r := GridBest(grid, t, threshold, y0);
      && (r.None? <==> NoNearFrom(grid, t, threshold, y0))
      && (r.Some? ==> FirstNearestFrom(grid, t, threshold, y0, r.value.0, r.value.1))
    decreases |grid| - y0
  {
    if y0 < |grid| {
      GridBestSpec(grid, t, threshold, y0 + 1);
      RowBestSpec(grid[y0], t, threshold, 0);
      var r := GridBest(grid, t, threshold, y0);
      var rest := GridBest(grid, t, threshold, y0 + 1);
      if r.Some? {
        var (x, y) := r.value;
        forall y', x' | y0 <= y' < |grid| && 0 <= x' < |grid[y']| && Near(grid[y'][x'], t, threshold)
          ensures Dist2(grid[y][x], t) <= Dist2(grid[y'][x'], t)
        {
        }
      }
    }
  }

  /** The HLS value of every pixel. */
  function HlsGrid(image: Mat<Pixel>, hlsOf: HlsOf): (g: seq<seq<Hls>>)
    ensures |g| == |image.rows|
    ensures forall y :: 0 <= y < |g| ==> |g[y]| == |image.rows[y]|
    ensures forall y, x :: 0 <= y < |g| && 0 <= x < |g[y]| ==> g[y][x] == hlsOf(image.rows[y][x])
  {
    seq(|image.rows|, y requires 0 <= y < |image.rows| =>
      seq(|image.rows[y]|, x requires 0 <= x < |image.rows[y]| => hlsOf(image.rows[y][x])))
  }

  /** The HLS grid `find_rgb` searches: the whole image, or `image[y:y+h, x:x+w]`. */
  function SearchGrid(image: Mat<Pixel>, hlsOf: HlsOf, rect: Option<(int, int, int, int)>): seq<seq<Hls>>
    requires image.Valid()
  {
    match rect
    case None => HlsGrid(image, hlsOf)
    case Some((x, y, w, h)) => HlsGrid(Crop(image, y, y + h, x, x + w), hlsOf)
  }

  /** Where column 0 and row 0 of the searched grid lie in the image's coordinates. */
  function SearchOrigin(rect: Option<(int, int, int, int)>): (int, int)
  {
    match rect
    case None => (0, 0)
    case Some((x, y, _, _)) => (x, y)
  }

  /**
   * `r` answers the search of `grid`, whose origin is `(ox, oy)`: nothing
   * when no pixel is near enough, otherwise the first nearest one, moved
   * by the origin.
   */
  predicate AnswersSearch(grid: seq<seq<Hls>>, t: Hls, threshold: real, ox: int, oy: int, r: Option<(int, int)>)
  {
    && (r.None? <==> NoNearFrom(grid, t, threshold, 0))
    && (r.Some? ==>
          var dx := r.value.0 - ox;
          var dy := r.value.1 - oy;
          dx >= 0 && dy >= 0 && FirstNearestFrom(grid, t, threshold, 0, dx, dy))
  }

  /**
   * `find_rgb`: the position of the pixel nearest to `color` among those
   * within `1 - threshold`, searched in `image[y:y+h, x:x+w]` when a rect
   * is given (the result is then `(x + column, y + row)` of the slice).
   * Pixels are BGR; the target is converted as the BGR pixel `[b, g, r]`.
   */
  function FindRgb(image: Mat<Pixel>, color: Value, hlsOf: HlsOf,
                   rect: Option<(int, int, int, int)> := None, threshold: real := 0.95): (r: Result<Option<(int, int)>, ColorError>)
    requires image.Valid()
    ensures r.Err? <==> UnifyColor(color).Err?
    ensures r.Err? ==> r.error == UnifyColor(color).error
    ensures r.Ok? ==>
      var (cr, cg, cb) := UnifyColor(color).value;
      AnswersSearch(SearchGrid(image, hlsOf, rect), hlsOf([cb, cg, cr]), threshold,
                    SearchOrigin(rect).0, SearchOrigin(rect).1, r.value)
  {
    match UnifyColor(color)
    case Err(e) => Err(e)
    case Ok((cr, cg, cb)) =>
      var t := hlsOf([cb, cg, cr]);
      var g := SearchGrid(image, hlsOf, rect);
      var (ox, oy) := SearchOrigin(rect);
      GridBestSpec(g, t, threshold, 0);
      (match GridBest(g, t, threshold, 0)
       case None => Ok(None)
       case Some((px, py)) => Ok(Some((ox + px, oy + py))))
  }

  /** A pixel of exactly the target colour is always found when `threshold <= 1`. */
  lemma {:induction false} ExactColorFound(grid: seq<seq<Hls>>, t: Hls, threshold: real, x: nat, y: nat)
    requires y < |grid| && x < |grid[y]| && grid[y][x] == t && threshold <= 1.0
    ensures GridBest(grid, t, threshold, 0).Some?
  {
    assert Dist2(t, t) == 0;
    assert Near(grid[y][x], t, threshold);
    GridBestSpec(grid, t, threshold, 0);
  }

  /** With `threshold > 1` nothing is ever near enough. */
  lemma {:induction false} ThresholdAboveOneFindsNothing(grid: seq<seq<Hls>>, t: Hls, threshold: real)
    requires threshold > 1.0
    ensures GridBest(grid, t, threshold, 0).None?
  {
    GridBestSpec(grid, t, threshold, 0);
  }

  // ---------------------------------------------------------------------
  // dominant_color
  // ---------------------------------------------------------------------

  /** `f'#{r:02x}{g:02x}{b:02x}'` of a BGR cluster centre, each channel truncated by `int()`. */
  function HexOfCenter(center: (real, real, real)): (r: string)
    ensures var (b, g, rr) := center;
      0.0 <= b < 256.0 && 0.0 <= g < 256.0 && 0.0 <= rr < 256.0 ==>
        |r| == 7 && r[0] == '#' && forall i :: 1 <= i < 7 ==> IsDigitIn(r[i], 16)
  {
    var (b, g, rr) := center;
    "#" + Hex02(Trunc(rr)) + Hex02(Trunc(g)) + Hex02(Trunc(b))
  }

  /** The hex string of a centre parses back to its truncated channels. */
  lemma {:induction false} HexOfCenterRoundTrip(center: (real, real, real))
    requires 0.0 <= center.0 < 256.0 && 0.0 <= center.1 < 256.0 && 0.0 <= center.2 < 256.0
    ensures UnifyColor(Str(HexOfCenter(center))).Ok?
    ensures UnifyColor(Str(HexOfCenter(center))).value == (Trunc(center.2), Trunc(center.1), Trunc(center.0))
  {
    var (b, g, rr) := center;
    var hr, hg, hb := Hex02(Trunc(rr)), Hex02(Trunc(g)), Hex02(Trunc(b));
    UnifyHexTriple(hr, hg, hb);
    assert HexOfCenter(center) == "#" + hr + hg + hb;
  }

  /** `#` and three hex pairs parse to the three bytes the pairs denote. */
  lemma UnifyHexTriple(hr: string, hg: string, hb: string)
    requires |hr| == 2 && IsDigitIn(hr[0], 16) && IsDigitIn(hr[1], 16)
    requires |hg| == 2 && IsDigitIn(hg[0], 16) && IsDigitIn(hg[1], 16)
    requires |hb| == 2 && IsDigitIn(hb[0], 16) && IsDigitIn(hb[1], 16)
    ensures UnifyColor(Str("#" + hr + hg + hb)) == Ok((
      DigitValue(hr[0]) * 16 + DigitValue(hr[1]),
      DigitValue(hg[0]) * 16 + DigitValue(hg[1]),
      DigitValue(hb[0]) * 16 + DigitValue(hb[1])))
  {
    var s := "#" + hr + hg + hb;
    HexTripleLayout(hr, hg, hb);
    UnifyHexColor(s);
    TripleOfPairs(UnifyColor(Str(s)), s, hr, hg, hb);
  }

  /** The parsed bytes of `s`, read back through the three pairs it is made of. */
  lemma TripleOfPairs(r: Result<Rgb, ColorError>, s: string, hr: string, hg: string, hb: string)
    requires |s| == 7 && |hr| == 2 && |hg| == 2 && |hb| == 2
    requires s[1] == hr[0] && s[2] == hr[1] && s[3] == hg[0] && s[4] == hg[1] && s[5] == hb[0] && s[6] == hb[1]
    requires r.Ok?
    requires r.value.0 == DigitValue(s[1]) * 16 + DigitValue(s[2])
    requires r.value.1 == DigitValue(s[3]) * 16 + DigitValue(s[4])
    requires r.value.2 == DigitValue(s[5]) * 16 + DigitValue(s[6])
    ensures r == Ok((
      DigitValue(hr[0]) * 16 + DigitValue(hr[1]),
      DigitValue(hg[0]) * 16 + DigitValue(hg[1]),
      DigitValue(hb[0]) * 16 + DigitValue(hb[1])))
  {
  }

  /** Where the characters of `#` and three pairs sit. */
  lemma HexTripleLayout(hr: string, hg: string, hb: string)
    requires |hr| == 2 && IsDigitIn(hr[0], 16) && IsDigitIn(hr[1], 16)
    requires |hg| == 2 && IsDigitIn(hg[0], 16) && IsDigitIn(hg[1], 16)
    requires |hb| == 2 && IsDigitIn(hb[0], 16) && IsDigitIn(hb[1], 16)
    ensures var s := "#" + hr + hg + hb;
      && |s| == 7 && s[0] == '#'
      && s[1] == hr[0] && s[2] == hr[1] && s[3] == hg[0] && s[4] == hg[1] && s[5] == hb[0] && s[6] == hb[1]
      && forall i :: 1 <= i < 7 ==> IsDigitIn(s[i], 16)
  {
    var s := "#" + hr + hg + hb;
    assert s[1] == hr[0] && s[2] == hr[1];
    assert s[3] == hg[0] && s[4] == hg[1];
    assert s[5] == hb[0] && s[6] == hb[1];
    forall i | 1 <= i < 7 ensures IsDigitIn(s[i], 16) {
    }
  }

  /**
   * `dominant_color` after clustering: the `palette` of BGR centres and
   * `order`, the centre indices by descending cluster size as
   * `(-counts).argsort()` gives them; the first `min(count, len(order))`
   * centres as hex strings.
   */
  function DominantColors(palette: seq<(real, real, real)>, order: seq<nat>, count: int := 1): (r: seq<string>)
    requires forall i :: 0 <= i < |order| ==> order[i] < |palette|
    ensures |r| == if count < 0 then 0 else if count < |order| then count else |order|
    ensures forall i :: 0 <= i < |r| ==> r[i] == HexOfCenter(palette[order[i]])
  {
    var n := if count < 0 then 0 else if count < |order| then count else |order|;
    seq(n, i requires 0 <= i < n => HexOfCenter(palette[order[i]]))
  }
}

=== FILE: editor_types.dfy ===
/**
 * The image editor's geometry and annotations
 * (`kotonebot-devtool/src/components/ImageEditor/types.ts`), shared by the
 * devtool modules. Coordinates are JavaScript numbers, modelled as reals.
 */
module EditorTypes {
  import opened Wrappers

  datatype Point = Point(x: real, y: real)

  /** Two corners; nothing forces `x1 <= x2` or `y1 <= y2`. */
  datatype RectPoints = RectPoints(x1: real, y1: real, x2: real, y2: real)

  /** The `type`/`data` pair of an annotation. */
  datatype Shape = Rect(rect: RectPoints) | At(point: Point)

  /** An annotation; `tip` is the `_tip` label shown above a rectangle, rendered to its text. */
  datatype Annotation = Annotation(id: string, shape: Shape, tip: Option<string>)

  /** The editor's tools. */
  datatype Tool = Drag | RectTool | PointTool

  /** Exceptions the modelled script code throws. */
  datatype ScriptError =
    | TypeError
    | Error(message: string)

  /** The smaller and the larger of two numbers (`Math.min`, `Math.max`). */
  function Min(a: real, b: real): (r: real)
    ensures r <= a && r <= b && (r == a || r == b)
  {
    if a <= b then a else b
  }

  function Max(a: real, b: real): (r: real)
    ensures r >= a && r >= b && (r == a || r == b)
  {
    if a >= b then a else b
  }

  /** `Math.abs`. */
  function Abs(a: real): (r: real)
    ensures r >= 0.0 && (r == a || r == -a)
  {
    if a < 0.0 then -a else a
  }
}

=== FILE: extract_schema.dfy ===
/**
 * The schema extractor for the game's master data (`tools/db/extract_schema.py`):
 * it infers a column type for every field of the first row of a YAML table,
 * looks for the shortest run of adjacent fields that identifies every row,
 * and renders a SQLite `CREATE TABLE` statement with that run as the
 * composite primary key.
 *
 * Values are the loaded YAML document as `PyValue.Value`s. `json.dumps`
 * (used to make lists and dicts hashable) is a parameter.
 */
module ExtractSchema {
  import opened Wrappers
  import opened Text
  import opened PyValue
  import Assoc
  import Sorting

  // ---------------------------------------------------------------------
  // Column types
  // ---------------------------------------------------------------------

  /** `SchemaDataType`. */
  datatype DataType = Array | Boolean | Integer | Number | String | Null | Object | JsonString

  /**
   * A field's schema; `properties` lists the sub-fields of an `object`. The
   * code only tests `properties` for truth, so its default `None` and an
   * empty dict are both the empty sequence here.
   */
  datatype Schema = Schema(
    kind: DataType,
    arrayType: Option<DataType>,
    properties: seq<(string, Schema)>,
    isPrimaryKey: bool,
    compositeKeyOrder: int)

  /** `Schema(type=kind)` with every other field at its default. */
  function Plain(kind: DataType): Schema
  {
    Schema(kind, None, [], false, 0)
  }

  /** `Schema(type='array', array_type=t)`. */
  function ArrayOf(t: DataType): Schema
  {
    Schema(Array, Some(t), [], false, 0)
  }

  /** `type(v).__name__`. */
  function TypeName(v: Value): string
  {
    match v
    case PyNone => "NoneType"
    case Bool(_) => "bool"
    case Int(_) => "int"
    case Float(_) => "float"
    case Str(_) => "str"
    case List(_) => "list"
    case Tuple(_) => "tuple"
    case Dict(_) => "dict"
    case Opaque(name) => name
  }

  /**
   * `get_type`: the column type of a value. A boolean is a `boolean`, not an
   * `integer`, although Python's `bool` is a subclass of `int`; a dict is
   * stored as a JSON string; a tuple or any other object is rejected.
   */
  function GetType(v: Value): (r: Result<DataType, PyError>)
    ensures r.Err? <==> v.Tuple? || v.Opaque?
    ensures r.Err? ==> r.error == ValueError("不支持的类型: " + TypeName(v))
    ensures r == Ok(Array) <==> v.List?
    ensures r == Ok(Boolean) <==> v.Bool?
    ensures r == Ok(Integer) <==> v.Int?
    ensures r == Ok(Number) <==> v.Float?
    ensures r == Ok(String) <==> v.Str?
    ensures r == Ok(Null) <==> v.PyNone?
    ensures r == Ok(JsonString) <==> v.Dict?
  {
    match v
    case List(_) => Ok(Array)
    case Bool(_) => Ok(Boolean)
    case Int(_) => Ok(Integer)
    case Float(_) => Ok(Number)
    case Str(_) => Ok(String)
    case PyNone => Ok(Null)
    case Dict(_) => Ok(JsonString)
    case _ => Err(ValueError("不支持的类型: " + TypeName(v)))
  }

  const MixedArrayMessage: string := "数组元素类型必须一致"

  /**
   * `any(get_type(item) != t for item in items)`: scans in order, so the
   * first item whose type cannot be determined raises before any later
   * mismatch is seen.
   */
  function AnyOtherType(items: seq<Value>, t: DataType): (r: Result<bool, PyError>)
    ensures r == Ok(false) <==> forall i :: 0 <= i < |items| ==> GetType(items[i]) == Ok(t)
    ensures r.Err? ==> exists i :: 0 <= i < |items| && GetType(items[i]) == Err(r.error)
  {
    if |items| == 0 then Ok(false)
    else
      match GetType(items[0])
      case Err(e) => Err(e)
      case Ok(u) =>
        if u != t then Ok(true)
        else
          var rest := AnyOtherType(items[1..], t);
          assert forall i :: 1 <= i < |items| ==> items[i] == items[1..][i - 1];
          rest
  }

  /** Every item has the same type as the first. */
  predicate Homogeneous(items: seq<Value>)
  {
    forall i :: 0 <= i < |items| ==> GetType(items[i]) == GetType(items[0])
  }

  /** A field that is not an `object` and not part of a composite key: what `extract` builds. */
  predicate Leaf(s: Schema)
  {
    s.kind != Object && s.compositeKeyOrder == 0
  }

  /**
   * `extract`: the schema of one field value. An empty list is an array of
   * nulls, a list starting with a dict an array of JSON strings whatever
   * follows, and any other list must hold values of one type.
   */
  function Extract(v: Value): (r: Result<Schema, PyError>)
    ensures !v.List? ==> (r.Ok? <==> GetType(v).Ok?)
    ensures !v.List? && r.Ok? ==> r.value == Plain(GetType(v).value)
    ensures v.List? && |v.items| == 0 ==> r == Ok(ArrayOf(Null))
    ensures v.List? && |v.items| > 0 && v.items[0].Dict? ==> r == Ok(ArrayOf(JsonString))
    ensures v.List? && |v.items| > 0 && !v.items[0].Dict? ==>
      && (r.Ok? <==> (GetType(v.items[0]).Ok? && Homogeneous(v.items)))
      && (r.Ok? ==> r.value == ArrayOf(GetType(v.items[0]).value))
    ensures r.Err? ==> r.error.ValueError?
    ensures r.Ok? ==> Leaf(r.value)
  {
    if v.List? then
      var items := v.items;
      if |items| == 0 then Ok(ArrayOf(Null))
      else if items[0].Dict? then Ok(ArrayOf(JsonString))
      else
        var t :- GetType(items[0]);
        var mixed :- AnyOtherType(items[1..], t);
        assert forall i :: 1 <= i < |items| ==> items[i] == items[1..][i - 1];
        if mixed then Err(ValueError(MixedArrayMessage)) else Ok(ArrayOf(t))
    else
      var t :- GetType(v);
      Ok(Plain(t))
  }

  // ---------------------------------------------------------------------
  // Identifiers
  // ---------------------------------------------------------------------

  /** `SQL_KEYWORDS`, all lower case. */
  const SqlKeywords: set<string> := {
    "abort", "action", "add", "after", "all", "alter", "analyze", "and", "as", "asc", "attach",
    "autoincrement", "before", "begin", "between", "by", "cascade", "case", "cast", "check",
    "collate", "column", "commit", "conflict", "constraint", "create", "cross", "current_date",
    "current_time", "current_timestamp", "database", "default", "deferrable", "deferred", "delete",
    "desc", "detach", "distinct", "drop", "each", "else", "end", "escape", "except", "exclusive",
    "exists", "explain", "fail", "for", "foreign", "from", "full", "glob", "group", "having", "if",
    "ignore", "immediate", "in", "index", "indexed", "initially", "inner", "insert", "instead",
    "intersect", "into", "is", "isnull", "join", "key", "left", "like", "limit", "match",
    "natural", "no", "not", "notnull", "null", "of", "offset", "on", "or", "order", "outer",
    "plan", "pragma", "primary", "query", "raise", "recursive", "references", "regexp", "reindex",
    "release", "rename", "replace", "restrict", "right", "rollback", "row", "savepoint", "select",
    "set", "table", "temp", "temporary", "then", "to", "transaction", "trigger", "union", "unique",
    "update", "using", "vacuum", "values", "view", "virtual", "when", "where", "with", "without"
  }

  /**
   * `escape_sql_identifier`: a name is double-quoted when its lower-case form
   * is a keyword or it is not alphanumeric (the empty name included), and
   * left as it is otherwise.
   */
  function EscapeSqlIdentifier(name: string): (r: string)
    ensures r == name <==> Lower(name) !in SqlKeywords && IsAlnum(name)
    ensures r != name ==> r == "\"" + name + "\""
  {
    if Lower(name) in SqlKeywords || !IsAlnum(name) then "\"" + name + "\"" else name
  }

  /** Removes one pair of surrounding double quotes, if present. */
  function Unquote(s: string): string
  {
    if |s| >= 2 && s[0] == '"' && s[|s| - 1] == '"' then s[1..|s| - 1] else s
  }

  /**
   * An escaped identifier is either a bare alphanumeric non-keyword or the
   * name in double quotes, and removing the quotes gives the name back.
   */
  lemma EscapeRoundTrip(name: string)
    ensures Unquote(EscapeSqlIdentifier(name)) == name
    ensures var r := EscapeSqlIdentifier(name);
      (IsAlnum(r) && Lower(r) !in SqlKeywords) || (r[0] == '"' && r[|r| - 1] == '"')
  {
    var r := EscapeSqlIdentifier(name);
    if r == name && |name| >= 2 {
      assert IsAlnumChar(name[0]);
    }
  }

  // ---------------------------------------------------------------------
  // CREATE TABLE
  // ---------------------------------------------------------------------

  /** A column: its escaped name, SQL type, and place in the composite key (0 for none). */
  datatype Column = Column(name: string, sqlType: string, keyOrder: int)

  /** `type_mapping`; it has no entry for `object`, and `array` is handled before it is consulted. */
  function SqlType(k: DataType): Option<string>
  {
    match k
    case Boolean => Some("INTEGER")
    case Integer => Some("INTEGER")
    case Number => Some("REAL")
    case String => Some("TEXT")
    case JsonString => Some("TEXT")
    case Null => Some("TEXT")
    case _ => None
  }

  /** An `object` with a non-empty `properties` dict, whose sub-fields become columns of their own. */
  predicate Expands(s: Schema)
  {
    s.kind == Object && |s.properties| > 0
  }

  /** The column name for the field path `prefix`: trailing underscores dropped, then escaped. */
  function ColumnName(prefix: string): string
  {
    EscapeSqlIdentifier(RStripChar(prefix, '_'))
  }

  /** The first error among `rs`, or all their columns in order. */
  function Collect(rs: seq<Result<seq<Column>, PyError>>): (r: Result<seq<Column>, PyError>)
    ensures r.Ok? <==> forall i :: 0 <= i < |rs| ==> rs[i].Ok?
    ensures (forall i :: 0 <= i < |rs| ==> rs[i].Ok? && |rs[i].value| == 1) ==>
      |r.value| == |rs| && forall i :: 0 <= i < |rs| ==> r.value[i] == rs[i].value[0]
  {
    if |rs| == 0 then Ok([])
    else
      assert forall i :: 1 <= i < |rs| ==> rs[i] == rs[1..][i - 1];
      match rs[0]
      case Err(e) => Err(e)
      case Ok(cs) =>
        match Collect(rs[1..])
        case Err(e) => Err(e)
        case Ok(more) => Ok(cs + more)
  }

  /**
   * `_type_to_sql`: the columns of a field whose path, joined by '_', is
   * `prefix`. A field that does not expand gives one column named after its
   * path and carrying its key order; an `object` that does not expand has
   * no SQL type and raises `KeyError`.
   */
  function TypeToSql(s: Schema, prefix: string): (r: Result<seq<Column>, PyError>)
    ensures !Expands(s) ==> (r.Ok? <==> s.kind != Object)
    ensures !Expands(s) && s.kind == Object ==> r == Err(KeyError("object"))
    ensures !Expands(s) && r.Ok? ==>
      && |r.value| == 1
      && r.value[0].name == ColumnName(prefix)
      && r.value[0].keyOrder == s.compositeKeyOrder
      && r.value[0].sqlType == (if s.kind == Array then "TEXT" else SqlType(s.kind).value)
    decreases s
  {
    if Expands(s) then
      var ps := s.properties;
      Collect(seq(|ps|, i requires 0 <= i < |ps| => TypeToSql(ps[i].1, prefix + ps[i].0 + "_")))
    else if s.kind == Array then
      Ok([Column(ColumnName(prefix), "TEXT", s.compositeKeyOrder)])
    else
      match SqlType(s.kind)
      case None => Err(KeyError("object"))
      case Some(t) => Ok([Column(ColumnName(prefix), t, s.compositeKeyOrder)])
  }

  /** No top-level field is an `object`: the only kind of schema `process_yaml_data` builds. */
  predicate Flat(schema: seq<(string, Schema)>)
  {
    forall i :: 0 <= i < |schema| ==> schema[i].1.kind != Object
  }

  /**
   * The columns of all top-level fields in schema order. For a flat schema
   * there is exactly one column per field, named after the field with its
   * trailing underscores dropped.
   */
  function Columns(schema: seq<(string, Schema)>): (r: Result<seq<Column>, PyError>)
    ensures Flat(schema) ==> r.Ok? && |r.value| == |schema|
    ensures Flat(schema) ==> forall i :: 0 <= i < |schema| ==>
      && r.value[i].name == ColumnName(schema[i].0 + "_")
      && r.value[i].keyOrder == schema[i].1.compositeKeyOrder
  {
    Collect(seq(|schema|, i requires 0 <= i < |schema| => TypeToSql(schema[i].1, schema[i].0 + "_")))
  }

  /** The `(composite_key_order, name)` pairs of the columns with a positive order, in column order. */
  function KeyEntries(cols: seq<Column>): (r: seq<(int, string)>)
    ensures forall e :: e in r <==> exists i :: 0 <= i < |cols| && cols[i].keyOrder > 0 && e == (cols[i].keyOrder, cols[i].name)
    ensures |r| > 0 <==> exists i :: 0 <= i < |cols| && cols[i].keyOrder > 0
  {
    if |cols| == 0 then []
    else
      assert forall i :: 1 <= i < |cols| ==> cols[i] == cols[1..][i - 1];
      (if cols[0].keyOrder > 0 then [(cols[0].keyOrder, cols[0].name)] else []) + KeyEntries(cols[1..])
  }

  /** Python's order on `(int, str)` tuples. */
  predicate KeyBefore(a: (int, string), b: (int, string))
  {
    a.0 < b.0 || (a.0 == b.0 && StrLess(a.1, b.1))
  }

  lemma KeyBeforeIsStrict()
    ensures Sorting.StrictOrder(KeyBefore)
  {
    forall a: (int, string) ensures !KeyBefore(a, a) {
      StrLessIrreflexive(a.1);
    }
    forall a: (int, string), b: (int, string), c: (int, string) | KeyBefore(a, b) && KeyBefore(b, c)
      ensures KeyBefore(a, c)
    {
      if a.0 == b.0 && b.0 == c.0 {
        StrLessTransitive(a.1, b.1, c.1);
      }
    }
  }

  /** `composite_key_fields.sort()`: the key entries, ordered by key order and then by name. */
  function SortedKey(cols: seq<Column>): (r: seq<(int, string)>)
    ensures multiset(r) == multiset(KeyEntries(cols))
    ensures Sorting.SortedBy(r, KeyBefore)
  {
    KeyBeforeIsStrict();
    Sorting.SortBySorted(KeyEntries(cols), KeyBefore);
    Sorting.SortBy(KeyEntries(cols), KeyBefore)
  }

  /** The column names of key entries, in the entries' order. */
  function KeyNames(key: seq<(int, string)>): (r: seq<string>)
    ensures |r| == |key| && forall i :: 0 <= i < |key| ==> r[i] == key[i].1
  {
    seq(|key|, i requires 0 <= i < |key| => key[i].1)
  }

  /**
   * The lines between the parentheses: one per column, then, if there is a
   * key, the clause naming the key columns in `SortedKey` order, that is by
   * key order and then by name.
   */
  function TableLines(cols: seq<Column>): (r: seq<string>)
    ensures |r| == |cols| + 1 <==> exists i :: 0 <= i < |cols| && cols[i].keyOrder > 0
    ensures |r| == |cols| || |r| == |cols| + 1
    ensures forall i :: 0 <= i < |cols| ==> r[i] == cols[i].name + " " + cols[i].sqlType
    ensures |r| == |cols| + 1 ==> r[|cols|] == "PRIMARY KEY (" + Join(KeyNames(SortedKey(cols)), ", ") + ")"
  {
    var key := SortedKey(cols);
    var defs := seq(|cols|, i requires 0 <= i < |cols| => cols[i].name + " " + cols[i].sqlType);
    if |key| == 0 then defs
    else defs + ["PRIMARY KEY (" + Join(KeyNames(key), ", ") + ")"]
  }

  /** The key clause lists the key columns in ascending key order. */
  lemma KeyClauseAscending(cols: seq<Column>)
    ensures var key := SortedKey(cols);
      forall i, j :: 0 <= i < j < |key| ==> key[i].0 <= key[j].0
  {
    var key := SortedKey(cols);
    forall i, j | 0 <= i < j < |key| ensures key[i].0 <= key[j].0 {
      assert !KeyBefore(key[j], key[i]);
    }
  }

  /** The key clause names exactly the columns with a positive key order. */
  lemma KeyClauseNames(cols: seq<Column>, n: string)
    ensures n in KeyNames(SortedKey(cols)) <==> exists i :: 0 <= i < |cols| && cols[i].keyOrder > 0 && n == cols[i].name
  {
    EntryNames(cols, SortedKey(cols), n);
  }

  /** Any reordering of the key entries names the same columns. */
  lemma EntryNames(cols: seq<Column>, key: seq<(int, string)>, n: string)
    requires multiset(key) == multiset(KeyEntries(cols))
    ensures n in KeyNames(key) <==> exists i :: 0 <= i < |cols| && cols[i].keyOrder > 0 && n == cols[i].name
  {
    if n in KeyNames(key) {
      NamedEntryIsKey(cols, key, n);
    }
    if exists i :: 0 <= i < |cols| && cols[i].keyOrder > 0 && n == cols[i].name {
      var i :| 0 <= i < |cols| && cols[i].keyOrder > 0 && n == cols[i].name;
      KeyIsNamed(cols, key, i);
    }
  }

  lemma NamedEntryIsKey(cols: seq<Column>, key: seq<(int, string)>, n: string)
    requires multiset(key) == multiset(KeyEntries(cols))
    requires n in KeyNames(key)
    ensures exists i :: 0 <= i < |cols| && cols[i].keyOrder > 0 && n == cols[i].name
  {
    var k :| 0 <= k < |key| && KeyNames(key)[k] == n;
    SameElements(KeyEntries(cols), key, key[k]);
    var i :| 0 <= i < |cols| && cols[i].keyOrder > 0 && key[k] == (cols[i].keyOrder, cols[i].name);
  }

  lemma KeyIsNamed(cols: seq<Column>, key: seq<(int, string)>, i: nat)
    requires multiset(key) == multiset(KeyEntries(cols))
    requires i < |cols| && cols[i].keyOrder > 0
    ensures cols[i].name in KeyNames(key)
  {
    var e := (cols[i].keyOrder, cols[i].name);
    KeyEntryIn(cols, i);
    SameElements(key, KeyEntries(cols), e);
    var k :| 0 <= k < |key| && key[k] == e;
    assert KeyNames(key)[k] == cols[i].name;
  }

  /** A column with a positive key order has its entry among the key entries. */
  lemma {:induction false} KeyEntryIn(cols: seq<Column>, i: nat)
    requires i < |cols| && cols[i].keyOrder > 0
    ensures (cols[i].keyOrder, cols[i].name) in KeyEntries(cols)
  {
    var head := if cols[0].keyOrder > 0 then [(cols[0].keyOrder, cols[0].name)] else [];
    assert KeyEntries(cols) == head + KeyEntries(cols[1..]);
    if i > 0 {
      KeyEntryIn(cols[1..], i - 1);
      assert cols[1..][i - 1] == cols[i];
    }
  }

  /** Sequences with the same multiset hold the same elements. */
  lemma SameElements<T>(a: seq<T>, b: seq<T>, x: T)
    requires multiset(a) == multiset(b) && x in b
    ensures x in a
  {
    assert x in multiset(b);
  }

  /** `schema_to_sql`: the header, the table lines joined by `,` and an indented line break, and the closing `);`. */
  function SchemaToSql(schema: seq<(string, Schema)>, tableName: string): (r: Result<string, PyError>)
    ensures r.Ok? <==> Columns(schema).Ok?
    ensures r.Ok? ==> StartsWith(r.value, "CREATE TABLE IF NOT EXISTS " + EscapeSqlIdentifier(tableName) + " (\n    ")
    ensures r.Ok? ==> (r.value ==
      "CREATE TABLE IF NOT EXISTS " + EscapeSqlIdentifier(tableName) + " (\n    "
        + Join(TableLines(Columns(schema).value), ",\n    ") + "\n);")
  {
    var cols :- Columns(schema);
    var head := "CREATE TABLE IF NOT EXISTS " + EscapeSqlIdentifier(tableName) + " (\n    ";
    var r := head + Join(TableLines(cols), ",\n    ") + "\n);";
    assert r[..|head|] == head;
    Ok(r)
  }

  // ---------------------------------------------------------------------
  // Composite key
  // ---------------------------------------------------------------------

  /** `json.dumps(v, sort_keys=True)`, which the model takes as given. */
  type Dumps = Value -> string

  /**
   * A value after `make_hashable`, up to Python's `==`: numbers (booleans
   * included) by numeric value, strings by content, a list or dict as the
   * string `json.dumps` makes of it, anything else as itself.
   *
   * A tuple compares element by element, as in Python. An object of any
   * other type is known to the model only by its type name, so two such
   * objects of the same type count as equal. The model keeps no value for
   * them because the code never reads one; YAML dates are the usual case.
   */
  datatype Hashed = HNone | HNum(x: real) | HStr(s: string) | HOther(v: Value)

  /** `make_hashable`; only `None` becomes the `None` the key search rejects. */
  function MakeHashable(v: Value, dumps: Dumps): (h: Hashed)
    ensures h == HNone <==> v.PyNone?
    ensures v.List? || v.Dict? ==> h == HStr(dumps(v))
  {
    match v
    case PyNone => HNone
    case Bool(b) => HNum(if b then 1.0 else 0.0)
    case Int(i) => HNum(i as real)
    case Float(f) => HNum(f)
    case Str(t) => HStr(t)
    case List(_) => HStr(dumps(v))
    case Dict(_) => HStr(dumps(v))
    case _ => HOther(v)
  }

  /** `row.get(f)`. */
  function Field(row: Value, f: string): Value
    requires row.Dict?
  {
    match Assoc.Get(row.entries, f)
    case Some(x) => x
    case None => PyNone
  }

  /** The tuple of a dict row on `fields`. */
  function KeyOf(row: Value, fields: seq<string>, dumps: Dumps): (r: seq<Hashed>)
    requires row.Dict?
    ensures |r| == |fields|
  {
    seq(|fields|, j requires 0 <= j < |fields| => MakeHashable(Field(row, fields[j]), dumps))
  }

  /**
   * `tuple(make_hashable(item.get(field)) for field in fields)`: calling
   * `.get` on a row that is not a dict raises `AttributeError`, unless there
   * is no field to read.
   */
  function RowKey(row: Value, fields: seq<string>, dumps: Dumps): (r: Result<seq<Hashed>, PyError>)
    ensures r.Ok? <==> row.Dict? || |fields| == 0
    ensures row.Dict? ==> r == Ok(KeyOf(row, fields, dumps))
  {
    if |fields| == 0 then Ok([])
    else if !row.Dict? then Err(AttributeError)
    else Ok(KeyOf(row, fields, dumps))
  }

  predicate AllDicts(rows: seq<Value>)
  {
    forall i :: 0 <= i < |rows| ==> rows[i].Dict?
  }

  /** The key tuples of dict rows. */
  function KeysOf(rows: seq<Value>, fields: seq<string>, dumps: Dumps): (r: seq<seq<Hashed>>)
    requires AllDicts(rows)
    ensures |r| == |rows|
  {
    seq(|rows|, i requires 0 <= i < |rows| => KeyOf(rows[i], fields, dumps))
  }

  /** No tuple holds a `None` and no two tuples are equal. */
  predicate UniqueNonNull(ks: seq<seq<Hashed>>)
  {
    && (forall i :: 0 <= i < |ks| ==> HNone !in ks[i])
    && (forall i, j :: 0 <= i < j < |ks| ==> ks[i] != ks[j])
  }

  lemma UniqueCons(c: seq<Hashed>, ks: seq<seq<Hashed>>)
    ensures UniqueNonNull([c] + ks) <==>
      HNone !in c && UniqueNonNull(ks) && forall i :: 0 <= i < |ks| ==> ks[i] != c
  {
    var all := [c] + ks;
    assert all[0] == c;
    assert forall i :: 0 <= i < |ks| ==> all[i + 1] == ks[i];
    if UniqueNonNull(all) {
      forall i, j | 0 <= i < j < |ks| ensures ks[i] != ks[j] {
        assert all[i + 1] != all[j + 1];
      }
      forall i | 0 <= i < |ks| ensures ks[i] != c && HNone !in ks[i] {
        assert all[0] != all[i + 1];
      }
    }
    if HNone !in c && UniqueNonNull(ks) && forall i :: 0 <= i < |ks| ==> ks[i] != c {
      forall i, j | 0 <= i < j < |all| ensures all[i] != all[j] {
        if i > 0 {
          assert all[i] == ks[i - 1] && all[j] == ks[j - 1];
        }
      }
    }
  }

  /**
   * The scan of `find_composite_key` over the rows for one run of fields:
   * false at the first row with a `None` or with a tuple already seen.
   */
  function Scan(rows: seq<Value>, fields: seq<string>, seen: seq<seq<Hashed>>, dumps: Dumps): Result<bool, PyError>
  {
    if |rows| == 0 then Ok(true)
    else
      var c :- RowKey(rows[0], fields, dumps);
      if HNone in c then Ok(false)
      else if c in seen then Ok(false)
      else Scan(rows[1..], fields, seen + [c], dumps)
  }

  /** No tuple of `ks` is among `seen`. */
  predicate Unseen(ks: seq<seq<Hashed>>, seen: seq<seq<Hashed>>)
  {
    forall i :: 0 <= i < |ks| ==> ks[i] !in seen
  }

  /** On dict rows the scan succeeds, and it says whether the tuples are unique, `None`-free and unseen. */
  lemma {:induction false} ScanIsUnique(rows: seq<Value>, fields: seq<string>, seen: seq<seq<Hashed>>, dumps: Dumps)
    requires AllDicts(rows)
    ensures Scan(rows, fields, seen, dumps) ==
      Ok(UniqueNonNull(KeysOf(rows, fields, dumps)) && Unseen(KeysOf(rows, fields, dumps), seen))
    decreases |rows|
  {
    if |rows| > 0 {
      var ks := KeysOf(rows, fields, dumps);
      var c := KeyOf(rows[0], fields, dumps);
      assert ks[0] == c;
      var rest := rows[1..];
      assert AllDicts(rest);
      var ks' := KeysOf(rest, fields, dumps);
      assert forall i :: 0 <= i < |ks'| ==> ks'[i] == ks[i + 1];
      assert ks == [c] + ks';
      UniqueCons(c, ks');
      UnseenCons(c, ks', seen);
      if HNone !in c && c !in seen {
        assert Scan(rows, fields, seen, dumps) == Scan(rest, fields, seen + [c], dumps);
        ScanIsUnique(rest, fields, seen + [c], dumps);
      }
    }
  }

  lemma UnseenCons(c: seq<Hashed>, ks: seq<seq<Hashed>>, seen: seq<seq<Hashed>>)
    ensures Unseen([c] + ks, seen) <==> c !in seen && Unseen(ks, seen)
    ensures Unseen(ks, seen + [c]) <==> Unseen(ks, seen) && forall i :: 0 <= i < |ks| ==> ks[i] != c
  {
    var all := [c] + ks;
    assert all[0] == c;
    assert forall i :: 0 <= i < |ks| ==> all[i + 1] == ks[i];
  }

  /** The scan from an empty set of seen tuples, on dict rows. */
  lemma ScanFresh(rows: seq<Value>, fields: seq<string>, dumps: Dumps)
    ensures AllDicts(rows) ==> Scan(rows, fields, [], dumps) == Ok(UniqueNonNull(KeysOf(rows, fields, dumps)))
  {
    if AllDicts(rows) {
      ScanIsUnique(rows, fields, [], dumps);
    }
  }

  /** `fields[i:i+k]` is a run of `k >= 1` adjacent fields among `n`. */
  predicate Window(n: nat, k: nat, i: nat)
  {
    1 <= k && i + k <= n
  }

  /** The run `fields[i:i+k]` identifies every row. */
  predicate ValidKey(rows: seq<Value>, fields: seq<string>, k: nat, i: nat, dumps: Dumps)
    requires AllDicts(rows)
  {
    Window(|fields|, k, i) && UniqueNonNull(KeysOf(rows, fields[i..i + k], dumps))
  }

  /** The search order of `find_composite_key`: shorter runs first, then runs further left. */
  predicate Before(k1: nat, i1: nat, k2: nat, i2: nat)
  {
    k1 < k2 || (k1 == k2 && i1 < i2)
  }

  /** No run from `(k, i)` on in the search order, and before `(k', i')`, is a key. */
  ghost predicate NoKeyBetween(rows: seq<Value>, fields: seq<string>, k: nat, i: nat, k': nat, i': nat, dumps: Dumps)
    requires AllDicts(rows)
  {
    forall k2: nat, i2: nat :: !Before(k2, i2, k, i) && Before(k2, i2, k', i') ==> !ValidKey(rows, fields, k2, i2, dumps)
  }

  /** No run from `(k, i)` on in the search order is a key. */
  ghost predicate NoKeyFrom(rows: seq<Value>, fields: seq<string>, k: nat, i: nat, dumps: Dumps)
    requires AllDicts(rows)
  {
    forall k2: nat, i2: nat :: !Before(k2, i2, k, i) ==> !ValidKey(rows, fields, k2, i2, dumps)
  }

  /** The two loops of `find_composite_key` from size `k` and start `i` on: the first run that is a key. */
  function SearchFrom(rows: seq<Value>, fields: seq<string>, k: nat, i: nat, dumps: Dumps): (r: Result<Option<(nat, nat)>, PyError>)
    requires 1 <= k
    ensures r.Ok? && r.value.Some? ==> Window(|fields|, r.value.value.0, r.value.value.1)
    ensures r.Ok? && r.value.Some? ==> !Before(r.value.value.0, r.value.value.1, k, i)
    decreases |fields| + 1 - k, |fields| + 1 - i
  {
    if k > |fields| then Ok(None)
    else if i + k > |fields| then SearchFrom(rows, fields, k + 1, 0, dumps)
    else
      var ok :- Scan(rows, fields[i..i + k], [], dumps);
      if ok then Ok(Some((k, i))) else SearchFrom(rows, fields, k, i + 1, dumps)
  }

  /**
   * On dict rows the search succeeds and finds the first key from `(k, i)`
   * on in the search order, or reports that there is none.
   */
  lemma {:induction false} SearchFromFirst(rows: seq<Value>, fields: seq<string>, k: nat, i: nat, dumps: Dumps)
    requires 1 <= k && AllDicts(rows)
    ensures SearchFrom(rows, fields, k, i, dumps).Ok?
    ensures var r := SearchFrom(rows, fields, k, i, dumps).value;
      && (r.Some? ==> ValidKey(rows, fields, r.value.0, r.value.1, dumps))
      && (r.Some? ==> NoKeyBetween(rows, fields, k, i, r.value.0, r.value.1, dumps))
      && (r.None? ==> NoKeyFrom(rows, fields, k, i, dumps))
    decreases |fields| + 1 - k, |fields| + 1 - i
  {
    var n := |fields|;
    if k > n {
      assert NoKeyFrom(rows, fields, k, i, dumps) by {
        forall k2: nat, i2: nat | !Before(k2, i2, k, i) ensures !ValidKey(rows, fields, k2, i2, dumps) {
          assert !Window(n, k2, i2);
        }
      }
    } else if i + k > n {
      SearchFromFirst(rows, fields, k + 1, 0, dumps);
      var r := SearchFrom(rows, fields, k + 1, 0, dumps).value;
      forall k2: nat, i2: nat | !Before(k2, i2, k, i) && Before(k2, i2, k + 1, 0)
        ensures !ValidKey(rows, fields, k2, i2, dumps)
      {
        assert !Window(n, k2, i2);
      }
      if r.Some? {
        assert NoKeyBetween(rows, fields, k, i, r.value.0, r.value.1, dumps);
      }
    } else {
      ScanFresh(rows, fields[i..i + k], dumps);
      if !ValidKey(rows, fields, k, i, dumps) {
        SearchFromFirst(rows, fields, k, i + 1, dumps);
        var r := SearchFrom(rows, fields, k, i + 1, dumps).value;
        assert SearchFrom(rows, fields, k, i, dumps).value == r;
        if r.Some? {
          assert NoKeyBetween(rows, fields, k, i, r.value.0, r.value.1, dumps);
        }
      }
    }
  }

  /** No run of the fields is a key. */
  ghost predicate NoKey(rows: seq<Value>, fields: seq<string>, dumps: Dumps)
    requires AllDicts(rows)
  {
    forall k: nat, i: nat :: !ValidKey(rows, fields, k, i, dumps)
  }

  /** The run `fields[i..i + k]` is a key, and no run before it in the search order is. */
  ghost predicate FirstKey(rows: seq<Value>, fields: seq<string>, k: nat, i: nat, dumps: Dumps)
    requires AllDicts(rows)
  {
    && ValidKey(rows, fields, k, i, dumps)
    && forall k2: nat, i2: nat :: Before(k2, i2, k, i) ==> !ValidKey(rows, fields, k2, i2, dumps)
  }

  /** The search from the start, stated without the search order's starting point. */
  lemma SearchFromStart(rows: seq<Value>, fields: seq<string>, dumps: Dumps)
    ensures AllDicts(rows) ==> SearchFrom(rows, fields, 1, 0, dumps).Ok?
    ensures AllDicts(rows) && SearchFrom(rows, fields, 1, 0, dumps).Ok? ==>
      var r := SearchFrom(rows, fields, 1, 0, dumps).value;
      && (r.None? ==> NoKey(rows, fields, dumps))
      && (r.Some? ==> FirstKey(rows, fields, r.value.0, r.value.1, dumps))
  {
    if AllDicts(rows) {
      SearchFromFirst(rows, fields, 1, 0, dumps);
      forall k2: nat, i2: nat | Before(k2, i2, 1, 0) ensures !ValidKey(rows, fields, k2, i2, dumps) {
        assert k2 == 0;
      }
    }
  }

  /**
   * `find_composite_key`: `[]` when there are no rows or the first is not a
   * dict; otherwise the first run of the first row's fields, shortest first
   * and then leftmost, on which every row has a value other than `None` and
   * no two rows agree, or `[]` when no run qualifies.
   */
  function FindCompositeKey(rows: seq<Value>, dumps: Dumps): (r: Result<seq<string>, PyError>)
    ensures |rows| == 0 || !rows[0].Dict? ==> r == Ok([])
    ensures AllDicts(rows) ==> r.Ok?
  {
    if |rows| == 0 || !rows[0].Dict? then Ok([])
    else
      var fields := Assoc.Keys(rows[0].entries);
      SearchFromStart(rows, fields, dumps);
      var w :- SearchFrom(rows, fields, 1, 0, dumps);
      if w.None? then Ok([])
      else
        var (k, i) := w.value;
        Ok(fields[i..i + k])
  }

  /**
   * On dict rows the key found is the first run of the first row's fields in
   * the search order that is a key, and `[]` exactly when no run is.
   */
  lemma CompositeKeyIsFirst(rows: seq<Value>, dumps: Dumps)
    requires |rows| > 0 && AllDicts(rows)
    ensures var r := FindCompositeKey(rows, dumps).value;
      var fields := Assoc.Keys(rows[0].entries);
      && (r == [] <==> NoKey(rows, fields, dumps))
      && (r != [] ==> exists i: nat :: FirstKey(rows, fields, |r|, i, dumps) && r == fields[i..i + |r|])
  {
    var fields := Assoc.Keys(rows[0].entries);
    SearchFromStart(rows, fields, dumps);
    var w := SearchFrom(rows, fields, 1, 0, dumps).value;
    var r := FindCompositeKey(rows, dumps).value;
    if w.Some? {
      var (k, i) := w.value;
      assert r == fields[i..i + k];
      KeyFound(rows, fields, k, i, dumps, r);
    } else {
      assert r == [];
    }
  }

  /** The run a search finds is non-empty, so some key exists, and it is that run. */
  lemma KeyFound(rows: seq<Value>, fields: seq<string>, k: nat, i: nat, dumps: Dumps, r: seq<string>)
    requires AllDicts(rows) && FirstKey(rows, fields, k, i, dumps) && r == fields[i..i + k]
    ensures r != [] && !NoKey(rows, fields, dumps)
    ensures exists i': nat :: FirstKey(rows, fields, |r|, i', dumps) && r == fields[i'..i' + |r|]
  {
    assert |r| == k;
    assert ValidKey(rows, fields, k, i, dumps);
  }

  /** No strictly shorter run of fields than the key found is unique and `None`-free. */
  lemma CompositeKeyIsShortest(rows: seq<Value>, dumps: Dumps, k: nat, i: nat)
    requires |rows| > 0 && AllDicts(rows)
    requires ValidKey(rows, Assoc.Keys(rows[0].entries), k, i, dumps)
    ensures FindCompositeKey(rows, dumps).Ok?
    ensures 0 < |FindCompositeKey(rows, dumps).value| <= k
  {
    CompositeKeyIsFirst(rows, dumps);
    var r := FindCompositeKey(rows, dumps).value;
    var fields := Assoc.Keys(rows[0].entries);
    assert !NoKey(rows, fields, dumps);
    var i0: nat :| FirstKey(rows, fields, |r|, i0, dumps);
  }

  // ---------------------------------------------------------------------
  // A whole table
  // ---------------------------------------------------------------------

  /** Every value of the row has a schema. */
  predicate ExtractsAll(entries: seq<(string, Value)>)
  {
    forall i :: 0 <= i < |entries| ==> Extract(entries[i].1).Ok?
  }

  /** Each field of the row paired with its schema, in row order. */
  function Extracted(entries: seq<(string, Value)>): (r: seq<(string, Schema)>)
    requires ExtractsAll(entries)
  {
    seq(|entries|, i requires 0 <= i < |entries| => (entries[i].0, Extract(entries[i].1).value))
  }

  /** Replacing or appending a non-object entry keeps a schema flat. */
  lemma {:induction false} SetKeepsFlat(d: seq<(string, Schema)>, k: string, s: Schema)
    ensures Flat(d) && s.kind != Object ==> Flat(Assoc.Set(d, k, s))
  {
    if Flat(d) && s.kind != Object && |d| > 0 && d[0].0 != k {
      assert Flat(d[1..]) by {
        assert forall i :: 0 <= i < |d[1..]| ==> d[1..][i] == d[i + 1];
      }
      SetKeepsFlat(d[1..], k, s);
      var r := Assoc.Set(d, k, s);
      assert r == [d[0]] + Assoc.Set(d[1..], k, s);
      assert forall i :: 1 <= i < |r| ==> r[i] == Assoc.Set(d[1..], k, s)[i - 1];
    }
  }

  /**
   * The first loop of `process_yaml_data`: `schema[key] = extract(value)`
   * for each entry of the row in order, on top of `acc`. The first value
   * without a schema stops it with `ValueError`.
   */
  function ExtractFields(entries: seq<(string, Value)>, acc: seq<(string, Schema)>): (r: Result<seq<(string, Schema)>, PyError>)
    ensures r.Ok? <==> ExtractsAll(entries)
    ensures r.Err? ==> r.error.ValueError?
    ensures r.Ok? && Flat(acc) ==> Flat(r.value)
    decreases |entries|
  {
    if |entries| == 0 then Ok(acc)
    else
      assert forall i :: 1 <= i < |entries| ==> entries[i] == entries[1..][i - 1];
      var e := entries[0];
      match Extract(e.1)
      case Err(err) => Err(err)
      case Ok(t) =>
        SetKeepsFlat(acc, e.0, t);
        ExtractFields(entries[1..], Assoc.Set(acc, e.0, t))
  }

  lemma ExtractedCons(entries: seq<(string, Value)>)
    requires |entries| > 0 && ExtractsAll(entries)
    ensures ExtractsAll(entries[1..])
    ensures Extracted(entries) == [(entries[0].0, Extract(entries[0].1).value)] + Extracted(entries[1..])
  {
    assert forall i :: 0 <= i < |entries[1..]| ==> entries[1..][i] == entries[i + 1];
  }

  lemma AppendCons<T>(a: seq<T>, x: T, b: seq<T>)
    ensures a + ([x] + b) == (a + [x]) + b
  {
  }

  /**
   * When the row's keys are distinct and new to `acc`, the loop appends each
   * field with its schema, in row order.
   */
  lemma {:induction false} ExtractFieldsAppends(entries: seq<(string, Value)>, acc: seq<(string, Schema)>)
    requires ExtractsAll(entries) && Assoc.DistinctKeys(entries)
    requires forall i :: 0 <= i < |entries| ==> entries[i].0 !in Assoc.Keys(acc)
    ensures ExtractFields(entries, acc) == Ok(acc + Extracted(entries))
    decreases |entries|
  {
    if |entries| > 0 {
      var e := entries[0];
      var rest := entries[1..];
      var t := Extract(e.1).value;
      var acc' := acc + [(e.0, t)];
      assert Assoc.Set(acc, e.0, t) == acc';
      assert Assoc.Keys(acc') == Assoc.Keys(acc) + [e.0];
      ExtractedCons(entries);
      forall i | 0 <= i < |rest| ensures rest[i].0 !in Assoc.Keys(acc') {
        assert rest[i] == entries[i + 1];
      }
      ExtractFieldsAppends(rest, acc');
      AppendCons(acc, (e.0, t), Extracted(rest));
    } else {
      assert acc + Extracted(entries) == acc;
    }
  }

  /** No field name occurs twice. */
  predicate DistinctNames(key: seq<string>)
  {
    forall a, b :: 0 <= a < b < |key| ==> key[a] != key[b]
  }

  /** `schema[f]` with its composite key order set to `n`, if the schema has `f`. */
  function SetOrder(schema: seq<(string, Schema)>, f: string, n: int): (r: seq<(string, Schema)>)
    ensures Assoc.Keys(r) == Assoc.Keys(schema)
    ensures Flat(schema) ==> Flat(r)
  {
    match Assoc.Get(schema, f)
    case None => schema
    case Some(s) =>
      SetKeepsFlat(schema, f, s.(compositeKeyOrder := n));
      Assoc.Set(schema, f, s.(compositeKeyOrder := n))
  }

  /** A looked-up field schema with its composite key order set to `n`. */
  function WithOrder(o: Option<Schema>, n: int): Option<Schema>
  {
    match o
    case None => None
    case Some(s) => Some(s.(compositeKeyOrder := n))
  }

  /** What `SetOrder` leaves under each name. */
  lemma GetSetOrder(schema: seq<(string, Schema)>, f: string, n: int, g: string)
    ensures Assoc.Get(SetOrder(schema, f, n), g) == if g == f then WithOrder(Assoc.Get(schema, f), n) else Assoc.Get(schema, g)
  {
    if Assoc.Get(schema, f).Some? {
      Assoc.GetSet(schema, f, Assoc.Get(schema, f).value.(compositeKeyOrder := n), g);
    }
  }

  /**
   * The second loop of `process_yaml_data`: the field `key[j]` gets
   * composite key order `n + j`, where the schema has it.
   */
  function SetKeyOrders(schema: seq<(string, Schema)>, key: seq<string>, n: int): (r: seq<(string, Schema)>)
    ensures Assoc.Keys(r) == Assoc.Keys(schema)
    ensures Flat(schema) ==> Flat(r)
    decreases |key|
  {
    if |key| == 0 then schema
    else SetKeyOrders(SetOrder(schema, key[0], n), key[1..], n + 1)
  }

  /** The order the loop gives `f` counting `key` from `n`: its last position, as later assignments win. */
  function OrderIn(key: seq<string>, f: string, n: int): (r: Option<int>)
    ensures r.None? <==> f !in key
    decreases |key|
  {
    if |key| == 0 then None
    else
      match OrderIn(key[1..], f, n + 1)
      case Some(m) => Some(m)
      case None => if key[0] == f then Some(n) else None
  }

  /** A field outside the key keeps its schema; a key field gets the order of its last position. */
  lemma {:induction false} GetSetKeyOrders(schema: seq<(string, Schema)>, key: seq<string>, n: int, f: string)
    ensures Assoc.Get(SetKeyOrders(schema, key, n), f) ==
      match OrderIn(key, f, n)
      case None => Assoc.Get(schema, f)
      case Some(m) => WithOrder(Assoc.Get(schema, f), m)
    decreases |key|
  {
    if |key| > 0 {
      var next := SetOrder(schema, key[0], n);
      GetSetKeyOrders(next, key[1..], n + 1, f);
      GetSetOrder(schema, key[0], n, f);
    }
  }

  lemma DistinctTail(key: seq<string>)
    requires |key| > 0 && DistinctNames(key)
    ensures key[0] !in key[1..] && DistinctNames(key[1..])
  {
    assert forall a :: 0 <= a < |key[1..]| ==> key[1..][a] == key[a + 1];
  }

  /** In a key without repeats, the field at position `j` gets order `n + j`. */
  lemma {:induction false} OrderInDistinct(key: seq<string>, n: int, j: nat)
    requires j < |key| && DistinctNames(key)
    ensures OrderIn(key, key[j], n) == Some(n + j)
    decreases |key|
  {
    DistinctTail(key);
    var rest := key[1..];
    if j == 0 {
      assert OrderIn(rest, key[0], n + 1).None?;
    } else {
      assert rest[j - 1] == key[j];
      OrderInDistinct(rest, n + 1, j - 1);
    }
  }

  const NonEmptyArrayMessage: string := "YAML 数据必须包含非空数组"
  const FirstRowMessage: string := "YAML 数据的第一个元素必须是对象"

  /**
   * `process_yaml_data`: nothing for a `None` document; otherwise the table
   * must be a non-empty list whose first row is a dict. The schema has one
   * field per entry of the first row, the composite key's fields numbered
   * from 1, and the SQL is the schema's `CREATE TABLE` statement.
   */
  function ProcessYamlData(data: Value, tableName: string, dumps: Dumps): (r: Result<(seq<(string, Schema)>, string), PyError>)
    ensures data.PyNone? ==> r == Ok(([], ""))
    ensures !data.PyNone? && !(data.List? && |data.items| > 0) ==> r == Err(ValueError(NonEmptyArrayMessage))
    ensures data.List? && |data.items| > 0 && !data.items[0].Dict? ==> r == Err(ValueError(FirstRowMessage))
    ensures r.Ok? && !data.PyNone? ==> Flat(r.value.0) && SchemaToSql(r.value.0, tableName) == Ok(r.value.1)
  {
    if data.PyNone? then Ok(([], ""))
    else if !data.List? || |data.items| == 0 then Err(ValueError(NonEmptyArrayMessage))
    else if !data.items[0].Dict? then Err(ValueError(FirstRowMessage))
    else
      var schema :- ExtractFields(data.items[0].entries, []);
      var key :- FindCompositeKey(data.items, dumps);
      var keyed := SetKeyOrders(schema, key, 1);
      var sql :- SchemaToSql(keyed, tableName);
      Ok((keyed, sql))
  }

  /** A key found among the fields of a dict without repeated keys has no repeats, and every name in it is a field. */
  lemma CompositeKeyFields(rows: seq<Value>, dumps: Dumps)
    requires |rows| > 0 && AllDicts(rows) && Assoc.DistinctKeys(rows[0].entries)
    ensures var key := FindCompositeKey(rows, dumps).value;
      && DistinctNames(key)
      && forall j :: 0 <= j < |key| ==> key[j] in Assoc.Keys(rows[0].entries)
  {
    CompositeKeyIsFirst(rows, dumps);
    var key := FindCompositeKey(rows, dumps).value;
    var fields := Assoc.Keys(rows[0].entries);
    if key != [] {
      var i: nat :| FirstKey(rows, fields, |key|, i, dumps) && key == fields[i..i + |key|];
      assert Window(|fields|, |key|, i);
      KeysDistinct(rows[0].entries);
      WindowDistinct(fields, i, |key|);
    }
  }

  lemma KeysDistinct(d: Assoc.Dict<string, Value>)
    requires Assoc.DistinctKeys(d)
    ensures DistinctNames(Assoc.Keys(d))
  {
  }

  /** A window of a list without repeats has no repeats and holds only the list's elements. */
  lemma WindowDistinct(fields: seq<string>, i: nat, m: nat)
    requires i + m <= |fields| && DistinctNames(fields)
    ensures DistinctNames(fields[i..i + m])
    ensures forall x :: x in fields[i..i + m] ==> x in fields
  {
    var w := fields[i..i + m];
    forall a, b | 0 <= a < b < m ensures w[a] != w[b] {
      assert w[a] == fields[i + a] && w[b] == fields[i + b];
    }
    forall x | x in w ensures x in fields {
      var j :| 0 <= j < m && w[j] == x;
      assert w[j] == fields[i + j];
    }
  }

  /**
   * Numbering a key without repeats over unkeyed fields: `key[j]` gets
   * order `j + 1`, every other field keeps its schema, and some field has a
   * positive order exactly when the key is not empty.
   */
  lemma KeyedSchema(base: seq<(string, Schema)>, key: seq<string>)
    requires forall i :: 0 <= i < |base| ==> base[i].1.compositeKeyOrder == 0
    requires DistinctNames(key) && forall j :: 0 <= j < |key| ==> key[j] in Assoc.Keys(base)
    ensures var s := SetKeyOrders(base, key, 1);
      && (forall j :: 0 <= j < |key| ==> Assoc.Get(s, key[j]) == WithOrder(Assoc.Get(base, key[j]), j + 1))
      && (forall f :: f !in key ==> Assoc.Get(s, f) == Assoc.Get(base, f))
      && ((exists i :: 0 <= i < |s| && s[i].1.compositeKeyOrder > 0) <==> key != [])
  {
    var s := SetKeyOrders(base, key, 1);
    forall j | 0 <= j < |key| ensures Assoc.Get(s, key[j]) == WithOrder(Assoc.Get(base, key[j]), j + 1) {
      GetSetKeyOrders(base, key, 1, key[j]);
      OrderInDistinct(key, 1, j);
    }
    forall f | f !in key ensures Assoc.Get(s, f) == Assoc.Get(base, f) {
      GetSetKeyOrders(base, key, 1, f);
    }
    if key != [] {
      var g := Assoc.Get(s, key[0]);
      assert g == WithOrder(Assoc.Get(base, key[0]), 1);
      assert g.Some? && g.value.compositeKeyOrder == 1;
    } else {
      assert s == base;
    }
  }

  /**
   * On a table of dict rows whose first row has distinct keys and values of
   * supported types, `process_yaml_data` succeeds: the schema lists the
   * first row's fields in order, the composite key's `j`-th field has order
   * `j + 1`, every other field keeps the schema `extract` gave it, and the
   * statement ends in a `PRIMARY KEY` clause exactly when a key was found.
   */
  lemma ProcessYamlDataKeyed(data: Value, tableName: string, dumps: Dumps)
    requires data.List? && |data.items| > 0 && AllDicts(data.items)
    requires Assoc.DistinctKeys(data.items[0].entries) && ExtractsAll(data.items[0].entries)
    ensures ProcessYamlData(data, tableName, dumps).Ok?
    ensures var schema := ProcessYamlData(data, tableName, dumps).value.0;
      var entries := data.items[0].entries;
      var key := FindCompositeKey(data.items, dumps).value;
      && Assoc.Keys(schema) == Assoc.Keys(entries)
      && (forall j :: 0 <= j < |key| ==> Assoc.Get(schema, key[j]) == WithOrder(Assoc.Get(Extracted(entries), key[j]), j + 1))
      && (forall f :: f !in key ==> Assoc.Get(schema, f) == Assoc.Get(Extracted(entries), f))
      && (|TableLines(Columns(schema).value)| == |schema| + 1 <==> key != [])
  {
    var rows := data.items;
    var entries := rows[0].entries;
    var base := Extracted(entries);
    var key := FindCompositeKey(rows, dumps).value;
    ProcessYamlDataBuilds(data, tableName, dumps);
    CompositeKeyFields(rows, dumps);
    KeyedSchema(base, key);
    PrimaryKeyClause(SetKeyOrders(base, key, 1));
  }

  /** On such a table the schema is the extracted fields with the key numbered. */
  lemma ProcessYamlDataBuilds(data: Value, tableName: string, dumps: Dumps)
    requires data.List? && |data.items| > 0 && AllDicts(data.items)
    requires Assoc.DistinctKeys(data.items[0].entries) && ExtractsAll(data.items[0].entries)
    ensures var entries := data.items[0].entries;
      && Assoc.Keys(Extracted(entries)) == Assoc.Keys(entries)
      && (forall i :: 0 <= i < |entries| ==> Extracted(entries)[i].1.compositeKeyOrder == 0)
      && Flat(Extracted(entries))
      && ProcessYamlData(data, tableName, dumps).Ok?
      && ProcessYamlData(data, tableName, dumps).value.0 ==
           SetKeyOrders(Extracted(entries), FindCompositeKey(data.items, dumps).value, 1)
  {
    var entries := data.items[0].entries;
    var base := Extracted(entries);
    ExtractFieldsAppends(entries, []);
    assert [] + base == base;
    assert Assoc.Keys(base) == Assoc.Keys(entries);
  }

  /** The statement has a `PRIMARY KEY` line exactly when some field of a flat schema has a positive order. */
  lemma PrimaryKeyClause(schema: seq<(string, Schema)>)
    requires Flat(schema)
    ensures |TableLines(Columns(schema).value)| == |schema| + 1 <==>
      exists i :: 0 <= i < |schema| && schema[i].1.compositeKeyOrder > 0
  {
    KeyColumns(schema, Columns(schema).value);
  }

  lemma KeyColumns(schema: seq<(string, Schema)>, cols: seq<Column>)
    requires |cols| == |schema|
    requires forall i :: 0 <= i < |schema| ==> cols[i].keyOrder == schema[i].1.compositeKeyOrder
    ensures (exists i :: 0 <= i < |cols| && cols[i].keyOrder > 0) <==>
      exists i :: 0 <= i < |schema| && schema[i].1.compositeKeyOrder > 0
  {
  }
}

=== FILE: form_modal.dfy ===
/**
 * The devtool's form dialog (`kotonebot-devtool/src/hooks/useFormModal.tsx`):
 * the initial values of the fields, editing a field, validation on submit,
 * and the promise `useFormModal` hands out, which is resolved with the
 * submitted values or with `null` when the dialog is dismissed.
 *
 * A field's validator is a parameter; its input type, label and
 * placeholder only affect rendering and are not modelled.
 */
module FormModal {
  import opened Wrappers
  import Assoc

  /** What a validator returns: `true`/`false`, or an error message. */
  datatype Verdict = Valid(ok: bool) | Message(text: string)

  datatype FormField = FormField(
    name: string,
    required: bool,
    defaultValue: Option<string>,
    validator: Option<string -> Verdict>)

  /**
   * The values by field name and the errors by field name, in insertion
   * order. A JavaScript object keeps that order for names that are not
   * integer-like; names such as `"0"` it lists first, in ascending order,
   * which the model does not reproduce.
   */
  datatype FormState = FormState(data: Assoc.Dict<string, string>, errors: Assoc.Dict<string, string>)

  const RequiredMessage := "此字段为必填项"
  const InvalidMessage := "输入值无效"

  /** `formData[name]`, where an absent field reads like the empty string (both are falsy). */
  function Value(data: Assoc.Dict<string, string>, name: string): string
  {
    Assoc.Get(data, name).GetOr("")
  }

  /** The fields' names, in order. */
  function Names(fields: seq<FormField>): (r: seq<string>)
    ensures |r| == |fields|
    ensures forall i :: 0 <= i < |fields| ==> r[i] == fields[i].name
  {
    seq(|fields|, i requires 0 <= i < |fields| => fields[i].name)
  }

  /** A field's initial value: its default, or the empty string. */
  function DefaultOf(f: FormField): string
  {
    f.defaultValue.GetOr("")
  }

  /**
   * The initial values: each field's default, or the empty string; a
   * later field with the same name overwrites an earlier one in place.
   */
  function InitialData(fields: seq<FormField>): Assoc.Dict<string, string>
  {
    if |fields| == 0 then []
    else
      var f := fields[|fields| - 1];
      Assoc.Set(InitialData(fields[..|fields| - 1]), f.name, DefaultOf(f))
  }

  /** One step of the `forEach`: the last field's default replaces its name's value. */
  lemma InitialStep(fields: seq<FormField>, k: string)
    requires |fields| > 0
    ensures var f := fields[|fields| - 1];
      Assoc.Get(InitialData(fields), k) ==
        if f.name == k then Some(DefaultOf(f)) else Assoc.Get(InitialData(fields[..|fields| - 1]), k)
  {
    var f := fields[|fields| - 1];
    Assoc.GetSet(InitialData(fields[..|fields| - 1]), f.name, DefaultOf(f), k);
  }

  /** The default of the last field named `k`, found by scanning back from the end. */
  function LastDefault(fields: seq<FormField>, k: string): Option<string>
  {
    if |fields| == 0 then None
    else if fields[|fields| - 1].name == k then Some(DefaultOf(fields[|fields| - 1]))
    else LastDefault(fields[..|fields| - 1], k)
  }

  /** The initial value of a name is the default of the last field of that name. */
  lemma {:induction false} InitialIsLastDefault(fields: seq<FormField>, k: string)
    ensures Assoc.Get(InitialData(fields), k) == LastDefault(fields, k)
  {
    if |fields| > 0 {
      InitialStep(fields, k);
      InitialIsLastDefault(fields[..|fields| - 1], k);
    }
  }

  /** The scan finds a default exactly for the fields' names, and it is one of those fields' defaults. */
  lemma {:induction false} LastDefaultFound(fields: seq<FormField>, k: string)
    ensures LastDefault(fields, k).Some? <==> k in Names(fields)
    ensures k in Names(fields) ==>
      exists i :: 0 <= i < |fields| && fields[i].name == k && LastDefault(fields, k) == Some(DefaultOf(fields[i]))
  {
    if |fields| > 0 {
      var n := |fields| - 1;
      var init := fields[..n];
      LastDefaultFound(init, k);
      assert Names(fields) == Names(init) + [fields[n].name];
      if fields[n].name != k && k in Names(init) {
        var i :| 0 <= i < |init| && init[i].name == k && LastDefault(init, k) == Some(DefaultOf(init[i]));
        assert fields[i] == init[i];
      }
    }
  }

  /** The scan stops at the last field of the name. */
  lemma {:induction false} LastDefaultAt(fields: seq<FormField>, k: string, i: nat)
    requires i < |fields| && fields[i].name == k
    requires forall j :: i < j < |fields| ==> fields[j].name != k
    ensures LastDefault(fields, k) == Some(DefaultOf(fields[i]))
  {
    var n := |fields| - 1;
    if i < n {
      var init := fields[..n];
      assert fields[n].name != k;
      assert init[i] == fields[i];
      assert forall j :: i < j < |init| ==> init[j] == fields[j];
      LastDefaultAt(init, k, i);
    }
  }

  /** Every field's name has an initial value, the default of a field of that name, and no other name has one. */
  lemma InitialValue(fields: seq<FormField>, k: string)
    ensures Assoc.Get(InitialData(fields), k).Some? <==> k in Names(fields)
    ensures k in Names(fields) ==>
      exists i :: 0 <= i < |fields| && fields[i].name == k && Value(InitialData(fields), k) == DefaultOf(fields[i])
  {
    InitialIsLastDefault(fields, k);
    LastDefaultFound(fields, k);
  }

  /** Of several fields with one name, the last one's default is the initial value (`forEach` assigns in order). */
  lemma InitialValueLast(fields: seq<FormField>, k: string, i: nat)
    requires i < |fields| && fields[i].name == k
    requires forall j :: i < j < |fields| ==> fields[j].name != k
    ensures Assoc.Get(InitialData(fields), k) == Some(DefaultOf(fields[i]))
  {
    InitialIsLastDefault(fields, k);
    LastDefaultAt(fields, k, i);
  }

  /** `resetForm`: back to the initial values with no errors. */
  function Reset(fields: seq<FormField>): (st: FormState)
    ensures st.errors == []
    ensures st.data == InitialData(fields)
  {
    FormState(InitialData(fields), [])
  }

  /**
   * `handleChange`: the field takes the new value, and its error is
   * cleared, but only when that error is a non-empty message.
   */
  function Change(st: FormState, name: string, value: string): (r: FormState)
    ensures Value(r.data, name) == value
    ensures Assoc.Get(r.errors, name).None? || Assoc.Get(r.errors, name) == Some("")
    ensures Assoc.Get(st.errors, name) == Some("") ==> r.errors == st.errors
    ensures forall k :: k != name ==> Assoc.Get(r.data, k) == Assoc.Get(st.data, k) && Assoc.Get(r.errors, k) == Assoc.Get(st.errors, k)
  {
    var data := Assoc.Set(st.data, name, value);
    var errors := match Assoc.Get(st.errors, name)
      case Some(m) => if m != "" then Assoc.Remove(st.errors, name) else st.errors
      case None => st.errors;
    forall k ensures Assoc.Get(data, k) == if k == name then Some(value) else Assoc.Get(st.data, k) {
      Assoc.GetSet(st.data, name, value, k);
    }
    forall k ensures Assoc.Get(Assoc.Remove(st.errors, name), k) == if k == name then None else Assoc.Get(st.errors, k) {
      Assoc.GetRemove(st.errors, name, k);
    }
    FormState(data, errors)
  }

  /**
   * The error one field gets on submit: an empty required field is
   * reported as required; a non-empty value goes to the validator, whose
   * message is the error, or whose `false` is reported as invalid.
   */
  function FieldError(f: FormField, value: string): (r: Option<string>)
    ensures value == "" ==> (r.Some? <==> f.required) && (r.Some? ==> r.value == RequiredMessage)
    ensures f.validator.None? ==> (r.Some? <==> f.required && value == "")
    ensures value != "" && f.validator.Some? ==>
      match f.validator.value(value)
      case Valid(ok) => r == (if ok then None else Some(InvalidMessage))
      case Message(m) => r == Some(m)
  {
    if f.required && value == "" then Some(RequiredMessage)
    else if f.validator.Some? && value != "" then
      match f.validator.value(value)
      case Message(m) => Some(m)
      case Valid(ok) => if ok then None else Some(InvalidMessage)
    else None
  }

  /** Whether some field named `k` gets an error. */
  ghost predicate Fails(fields: seq<FormField>, data: Assoc.Dict<string, string>, k: string)
  {
    exists i :: 0 <= i < |fields| && fields[i].name == k && FieldError(fields[i], Value(data, fields[i].name)).Some?
  }

  /** The errors `handleSubmit` collects, field by field in order; a later field of the same name overwrites in place. */
  function Errors(fields: seq<FormField>, data: Assoc.Dict<string, string>): Assoc.Dict<string, string>
  {
    if |fields| == 0 then []
    else
      var f := fields[|fields| - 1];
      var prev := Errors(fields[..|fields| - 1], data);
      match FieldError(f, Value(data, f.name))
      case None => prev
      case Some(m) => Assoc.Set(prev, f.name, m)
  }

  /** A name fails in a list of fields when it fails before the last field or at the last one. */
  lemma FailsLast(fields: seq<FormField>, data: Assoc.Dict<string, string>, k: string)
    requires |fields| > 0
    ensures var f := fields[|fields| - 1];
            Fails(fields, data, k) <==> Fails(fields[..|fields| - 1], data, k) || (f.name == k && FieldError(f, Value(data, k)).Some?)
  {
    var n := |fields| - 1;
    var init := fields[..n];
    if Fails(init, data, k) {
      var i :| 0 <= i < |init| && init[i].name == k && FieldError(init[i], Value(data, init[i].name)).Some?;
      assert fields[i] == init[i];
    }
  }

  /** The last field decides the error of its own name when it fails, and leaves every other error as it was. */
  lemma ErrorsStep(fields: seq<FormField>, data: Assoc.Dict<string, string>, k: string)
    requires |fields| > 0
    ensures var f := fields[|fields| - 1];
      Assoc.Get(Errors(fields, data), k) ==
        if f.name == k && FieldError(f, Value(data, k)).Some? then FieldError(f, Value(data, k))
        else Assoc.Get(Errors(fields[..|fields| - 1], data), k)
  {
    var n := |fields| - 1;
    var f, init := fields[n], fields[..n];
    var e := FieldError(f, Value(data, f.name));
    if e.Some? {
      Assoc.GetSet(Errors(init, data), f.name, e.value, k);
    }
  }

  /** The error of the last failing field named `k`, found by scanning back from the end. */
  function LastError(fields: seq<FormField>, data: Assoc.Dict<string, string>, k: string): Option<string>
  {
    if |fields| == 0 then None
    else
      var f := fields[|fields| - 1];
      if f.name == k && FieldError(f, Value(data, k)).Some? then FieldError(f, Value(data, k))
      else LastError(fields[..|fields| - 1], data, k)
  }

  /** The error shown for a name is the last failing field's of that name. */
  lemma {:induction false} ErrorsIsLastError(fields: seq<FormField>, data: Assoc.Dict<string, string>, k: string)
    ensures Assoc.Get(Errors(fields, data), k) == LastError(fields, data, k)
  {
    if |fields| > 0 {
      ErrorsStep(fields, data, k);
      ErrorsIsLastError(fields[..|fields| - 1], data, k);
    }
  }

  /** The scan finds an error exactly for a failing name, and it is the error of a failing field of that name. */
  lemma {:induction false} LastErrorFound(fields: seq<FormField>, data: Assoc.Dict<string, string>, k: string)
    ensures LastError(fields, data, k).Some? <==> Fails(fields, data, k)
    ensures Fails(fields, data, k) ==>
      exists i :: 0 <= i < |fields| && fields[i].name == k && FieldError(fields[i], Value(data, k)) == LastError(fields, data, k)
  {
    if |fields| > 0 {
      var n := |fields| - 1;
      var f, init := fields[n], fields[..n];
      LastErrorFound(init, data, k);
      FailsLast(fields, data, k);
      if !(f.name == k && FieldError(f, Value(data, k)).Some?) && Fails(init, data, k) {
        var i :| 0 <= i < |init| && init[i].name == k && FieldError(init[i], Value(data, k)) == LastError(init, data, k);
        assert fields[i] == init[i];
      }
    }
  }

  /** The scan stops at the last failing field of the name. */
  lemma {:induction false} LastErrorAt(fields: seq<FormField>, data: Assoc.Dict<string, string>, k: string, i: nat)
    requires i < |fields| && fields[i].name == k && FieldError(fields[i], Value(data, k)).Some?
    requires forall j :: i < j < |fields| && fields[j].name == k ==> FieldError(fields[j], Value(data, k)).None?
    ensures LastError(fields, data, k) == FieldError(fields[i], Value(data, k))
  {
    var n := |fields| - 1;
    if i < n {
      var init := fields[..n];
      assert init[i] == fields[i];
      assert forall j :: i < j < |init| ==> init[j] == fields[j];
      LastErrorAt(init, data, k, i);
    }
  }

  /** A name is listed among the errors exactly when some field of that name fails, with the message of one that does. */
  lemma ErrorOf(fields: seq<FormField>, data: Assoc.Dict<string, string>, k: string)
    ensures Assoc.Get(Errors(fields, data), k).Some? <==> Fails(fields, data, k)
    ensures Fails(fields, data, k) ==>
      exists i :: 0 <= i < |fields| && fields[i].name == k && FieldError(fields[i], Value(data, k)) == Assoc.Get(Errors(fields, data), k)
  {
    ErrorsIsLastError(fields, data, k);
    LastErrorFound(fields, data, k);
  }

  /** Of several failing fields with one name, the last one's error is reported (`forEach` assigns in order). */
  lemma ErrorOfLast(fields: seq<FormField>, data: Assoc.Dict<string, string>, k: string, i: nat)
    requires i < |fields| && fields[i].name == k && FieldError(fields[i], Value(data, k)).Some?
    requires forall j :: i < j < |fields| && fields[j].name == k ==> FieldError(fields[j], Value(data, k)).None?
    ensures Assoc.Get(Errors(fields, data), k) == FieldError(fields[i], Value(data, k))
  {
    ErrorsIsLastError(fields, data, k);
    LastErrorAt(fields, data, k, i);
  }

  /**
   * `handleSubmit`: with no errors the values are handed over and the form
   * is reset; otherwise the errors are shown and nothing is handed over.
   */
  function Submit(fields: seq<FormField>, st: FormState): (r: (FormState, Option<Assoc.Dict<string, string>>))
    ensures r.1.Some? <==> forall i :: 0 <= i < |fields| ==> FieldError(fields[i], Value(st.data, fields[i].name)).None?
    ensures r.1.Some? ==> r.1.value == st.data && r.0 == Reset(fields)
    ensures r.1.None? ==> r.0 == st.(errors := Errors(fields, st.data)) && |r.0.errors| > 0
  {
    var errors := Errors(fields, st.data);
    if |errors| > 0 then
      var k := errors[0].0;
      assert Assoc.Keys(errors)[0] == k;
      ErrorOf(fields, st.data, k);
      (st.(errors := errors), None)
    else
      forall i | 0 <= i < |fields| ensures FieldError(fields[i], Value(st.data, fields[i].name)).None? {
        ErrorOf(fields, st.data, fields[i].name);
      }
      (Reset(fields), Some(st.data))
  }

  /** The validator is never consulted for an empty value. */
  lemma ValidatorSkippedWhenEmpty(f: FormField, v: Option<string -> Verdict>)
    ensures FieldError(f.(validator := v), "") == FieldError(f, "")
  {
  }

  /** A required field left empty blocks the submission and is reported as required, whatever other fields say. */
  lemma RequiredEmptyReported(fields: seq<FormField>, data: Assoc.Dict<string, string>, i: nat)
    requires i < |fields| && fields[i].required && Value(data, fields[i].name) == ""
    ensures Assoc.Get(Errors(fields, data), fields[i].name) == Some(RequiredMessage)
  {
    ErrorOf(fields, data, fields[i].name);
  }

  /** With no required field and no validator, every submission goes through with the values as they are. */
  lemma NothingToCheck(fields: seq<FormField>, st: FormState)
    requires forall i :: 0 <= i < |fields| ==> !fields[i].required && fields[i].validator.None?
    ensures Submit(fields, st) == (Reset(fields), Some(st.data))
  {
  }

  /** With distinct names and no validators, a fresh form fails exactly on the required fields that have no non-empty default. */
  lemma FreshFormFails(fields: seq<FormField>, i: nat)
    requires i < |fields|
    requires forall j :: 0 <= j < |fields| ==> fields[j].validator.None?
    requires forall j, l :: 0 <= j < l < |fields| ==> fields[j].name != fields[l].name
    ensures Assoc.Get(Errors(fields, InitialData(fields)), fields[i].name).Some? <==>
      fields[i].required && DefaultOf(fields[i]) == ""
  {
    var d, k := InitialData(fields), fields[i].name;
    InitialValue(fields, k);
    assert k == Names(fields)[i];
    var j :| 0 <= j < |fields| && fields[j].name == k && Value(d, k) == DefaultOf(fields[j]);
    assert j == i;
    ErrorOf(fields, d, k);
    if Fails(fields, d, k) {
      var l :| 0 <= l < |fields| && fields[l].name == k && FieldError(fields[l], Value(d, fields[l].name)).Some?;
      assert l == i;
    }
  }

  // ---------------------------------------------------------------------
  // The promise `useFormModal` hands out
  // ---------------------------------------------------------------------

  /** Whether the dialog is shown, and whether a caller waits on the promise (`resolveRef`). */
  datatype Host = Host(show: bool, pending: bool)

  const Hidden := Host(false, false)

  /** What the waiting caller gets, if it is resolved now: `None` for `null`, or the submitted values. */
  type Resolution = Option<Option<Assoc.Dict<string, string>>>

  /** `show`: the dialog opens and a new promise waits; a promise still waiting is never resolved. */
  function ShowModal(h: Host): (r: Host)
    ensures r.show && r.pending
  {
    Host(true, true)
  }

  /** `handleHide`: the dialog closes and a waiting caller gets `null`. */
  function Hide(h: Host): (r: (Host, Resolution))
    ensures r.0 == Hidden
    ensures r.1.Some? <==> h.pending
    ensures r.1.Some? ==> r.1.value.None?
  {
    (Hidden, if h.pending then Some(None) else None)
  }

  /** `handleSubmit`: the dialog closes and a waiting caller gets the values. */
  function Deliver(h: Host, data: Assoc.Dict<string, string>): (r: (Host, Resolution))
    ensures r.0 == Hidden
    ensures r.1.Some? <==> h.pending
    ensures r.1.Some? ==> r.1.value == Some(data)
  {
    (Hidden, if h.pending then Some(Some(data)) else None)
  }

  /**
   * The dialog's round: submitting hands the values to the caller when
   * they pass validation, and closing resolves it with `null`; either way
   * it is resolved once, and a second close resolves nothing.
   */
  lemma Round(fields: seq<FormField>, h: Host, st: FormState)
    ensures var shown := ShowModal(h);
            var sub := Submit(fields, st);
            && (sub.1.Some? ==> Deliver(shown, sub.1.value).1 == Some(Some(st.data)))
            && Hide(shown).1 == Some(None)
            && Hide(Hide(shown).0).1.None?
            && (sub.1.Some? ==> Hide(Deliver(shown, sub.1.value).0).1.None?)
  {
  }
}

=== FILE: hotkey.dfy ===
/**
 * Keyboard shortcuts (`kotonebot-devtool/src/hooks/useHotkey.ts`): a key
 * press runs the first configured shortcut it matches, and only shortcuts
 * with modifiers suppress the browser's default action.
 *
 * What a shortcut does is an action value of the caller's choosing.
 */
module Hotkey {
  import opened Wrappers
  import opened Text

  /** A `HotkeyConfig`; absent flags are `false`. */
  datatype Config<A> = Config(key: string, ctrl: bool, shift: bool, alt: bool, single: bool, triggerInInput: bool, action: A)

  /** A `keydown`: the key's name, the modifiers held, and whether focus is in a text field. */
  datatype KeyEvent = KeyEvent(key: string, ctrl: bool, shift: bool, alt: bool, inInput: bool)

  predicate NoModifiers(e: KeyEvent)
  {
    !e.ctrl && !e.shift && !e.alt
  }

  /** Whether shortcut `h` fires for `e`, read from the loop's three `continue`s and its two calls. */
  predicate Matches<A>(h: Config<A>, e: KeyEvent)
  {
    && (!e.inInput || h.triggerInInput)
    && Lower(e.key) == Lower(h.key)
    && (if h.single then NoModifiers(e)
        else e.ctrl == h.ctrl && e.shift == h.shift && e.alt == h.alt)
  }

  /** The index of the first shortcut that fires. */
  function FirstMatch<A>(hs: seq<Config<A>>, e: KeyEvent): (r: Option<nat>)
    ensures r.Some? ==> r.value < |hs| && Matches(hs[r.value], e)
    ensures r.Some? ==> forall j :: 0 <= j < r.value ==> !Matches(hs[j], e)
    ensures r.None? ==> forall j :: 0 <= j < |hs| ==> !Matches(hs[j], e)
  {
    if |hs| == 0 then None
    else if Matches(hs[0], e) then Some(0)
    else
      match FirstMatch(hs[1..], e)
      case None => None
      case Some(i) => Some(i + 1)
  }

  /** The first shortcut that fires is the one before which none does. */
  lemma FirstMatchAt<A>(hs: seq<Config<A>>, e: KeyEvent, i: nat)
    requires i < |hs| && Matches(hs[i], e)
    requires forall j :: 0 <= j < i ==> !Matches(hs[j], e)
    ensures FirstMatch(hs, e) == Some(i)
  {
  }

  /** What `handleKeyDown` does: the action run, if any, and whether the default is prevented. */
  datatype Outcome<A> = Outcome(action: Option<A>, preventDefault: bool)

  /** `handleKeyDown`: the loop returns at the first shortcut that fires, running its action. */
  function HandleKeyDown<A>(hs: seq<Config<A>>, e: KeyEvent): (r: Outcome<A>)
    ensures r.action.None? ==> !r.preventDefault
    ensures r.action.Some? <==> exists j :: 0 <= j < |hs| && Matches(hs[j], e)
    ensures r.action.Some? ==>
      exists j :: 0 <= j < |hs| && Matches(hs[j], e) && (forall k :: 0 <= k < j ==> !Matches(hs[k], e)) &&
        r == Outcome(Some(hs[j].action), !hs[j].single)
  {
    match FirstMatch(hs, e)
    case None => Outcome(None, false)
    case Some(i) => Outcome(Some(hs[i].action), !hs[i].single)
  }

  /** Key names compare without regard to ASCII case. */
  lemma CaseInsensitive<A>(hs: seq<Config<A>>, e: KeyEvent, k: string)
    requires Lower(k) == Lower(e.key)
    ensures HandleKeyDown(hs, e.(key := k)) == HandleKeyDown(hs, e)
  {
    assert forall j :: 0 <= j < |hs| ==> (Matches(hs[j], e.(key := k)) <==> Matches(hs[j], e));
    FirstMatchSame(hs, e.(key := k), e);
  }

  /** Two events every shortcut treats alike pick the same one. */
  lemma {:induction false} FirstMatchSame<A>(hs: seq<Config<A>>, e: KeyEvent, f: KeyEvent)
    requires forall j :: 0 <= j < |hs| ==> (Matches(hs[j], e) <==> Matches(hs[j], f))
    ensures FirstMatch(hs, e) == FirstMatch(hs, f)
  {
    if |hs| > 0 && !Matches(hs[0], e) {
      assert forall j :: 0 <= j < |hs[1..]| ==> hs[1..][j] == hs[j + 1];
      FirstMatchSame(hs[1..], e, f);
    }
  }

  /** In a text field only shortcuts marked `triggerInInput` fire. */
  lemma InInputOnlyMarked<A>(hs: seq<Config<A>>, e: KeyEvent)
    requires e.inInput && forall j :: 0 <= j < |hs| ==> !hs[j].triggerInInput
    ensures HandleKeyDown(hs, e) == Outcome(None, false)
  {
  }
}

=== FILE: image.dfy ===
/**
 * Template matching (kotonebot/backend/image.py): OpenCV's score map is
 * an input; the model covers what the code does with it — thresholding,
 * row-major collection, the stable sort by score, truncation, the
 * x-offset de-duplication and the wrappers built on top of them.
 */
module ImageMatch {
  import opened Wrappers
  import opened Mat
  import opened Numeric
  import Sorting

  /** One match: the score, the top-left corner, and the template's width and height. */
  datatype MatchResult = MatchResult(score: real, x: int, y: int, w: int, h: int)
  {
    /** `(x, y, w, h)`. */
    function Rect(): (r: (int, int, int, int))
      ensures r.0 == x && r.1 == y && r.2 == w && r.3 == h
    {
      (x, y, w, h)
    }

    /** The corner opposite the position. */
    function RightBottom(): (r: (int, int))
      ensures r.0 - x == w && r.1 - y == h
    {
      (x + w, y + h)
    }
  }

  /** A match together with the part of the image it covers. */
  datatype CropResult = CropResult(score: real, x: int, y: int, w: int, h: int, image: Mat<Pixel>)

  /** Raised by `Expect` when nothing matches. */
  datatype TemplateNotFound = TemplateNotFound(image: Mat<Pixel>, template: Mat<Pixel>)

  /** `TM_CCORR_NORMED` (with a mask) or `TM_CCOEFF_NORMED` (without). */
  datatype Method = CcorrNormed | CcoeffNormed

  /** One score per template position, indexed `[y][x]`. */
  type Scores = seq<seq<real>>

  /** `cv2.matchTemplate(image, template, method, mask=...)`. */
  type Kernel = (Method, Mat<Pixel>, Mat<Pixel>, Option<Mat<Pixel>>) -> Scores

  /** `cv2.threshold(mask, 127, 255, THRESH_BINARY)`: every channel above 127 becomes 255, the rest 0. */
  function BinarizeMask(mask: Mat<Pixel>): (r: Mat<Pixel>)
    ensures r.width == mask.width && r.Height() == mask.Height()
    ensures forall y :: 0 <= y < r.Height() ==> |r.rows[y]| == |mask.rows[y]|
    ensures forall y, x :: 0 <= y < r.Height() && 0 <= x < |r.rows[y]| ==>
      |r.rows[y][x]| == |mask.rows[y][x]|
      && forall c :: 0 <= c < |r.rows[y][x]| ==>
        r.rows[y][x][c] == (if mask.rows[y][x][c] > 127 then 255 else 0)
  {
    Mat(mask.width, seq(|mask.rows|, y requires 0 <= y < |mask.rows| =>
      seq(|mask.rows[y]|, x requires 0 <= x < |mask.rows[y]| =>
        seq(|mask.rows[y][x]|, c requires 0 <= c < |mask.rows[y][x]| =>
          if mask.rows[y][x][c] > 127 then 255 else 0))))
  }

  /** The score map the code asks OpenCV for: masked matching needs `TM_CCORR_NORMED`. */
  function ScoreMap(kernel: Kernel, image: Mat<Pixel>, template: Mat<Pixel>, mask: Option<Mat<Pixel>>): (r: Scores)
    ensures mask.None? ==> r == kernel(CcoeffNormed, image, template, None)
    ensures mask.Some? ==> r == kernel(CcorrNormed, image, template, Some(BinarizeMask(mask.value)))
  {
    match mask
    case None => kernel(CcoeffNormed, image, template, None)
    case Some(m) => kernel(CcorrNormed, image, template, Some(BinarizeMask(m)))
  }

  /** A position reaching the threshold, with its score and the template size. */
  predicate IsCandidate(m: MatchResult, scores: Scores, threshold: real, w: int, h: int)
  {
    && 0 <= m.y < |scores| && 0 <= m.x < |scores[m.y]|
    && m.score == scores[m.y][m.x] && scores[m.y][m.x] >= threshold
    && m.w == w && m.h == h
  }

  /** Row-major position order: `(y, x)` compared lexicographically. */
  predicate Before(a: MatchResult, b: MatchResult)
  {
    a.y < b.y || (a.y == b.y && a.x < b.x)
  }

  /** The candidates of row `y` from column `x0` on, left to right. */
  function RowCandidates(scores: Scores, y: nat, x0: nat, threshold: real, w: int, h: int): (r: seq<MatchResult>)
    requires y < |scores| && x0 <= |scores[y]|
    ensures forall m :: m in r <==> IsCandidate(m, scores, threshold, w, h) && m.y == y && m.x >= x0
    ensures forall i, j :: 0 <= i < j < |r| ==> r[i].y == y && r[i].x < r[j].x
    decreases |scores[y]| - x0
  {
    if x0 == |scores[y]| then []
    else
      var rest := RowCandidates(scores, y, x0 + 1, threshold, w, h);
      if scores[y][x0] >= threshold then [MatchResult(scores[y][x0], x0, y, w, h)] + rest else rest
  }

  /**
   * `zip(*np.where(result >= threshold))` from row `y0` on: every
   * position whose score reaches the threshold, in row-major order.
   */
  function Candidates(scores: Scores, threshold: real, w: int, h: int, y0: nat := 0): (r: seq<MatchResult>)
    requires y0 <= |scores|
    ensures forall m :: m in r <==> IsCandidate(m, scores, threshold, w, h) && m.y >= y0
    ensures forall i, j :: 0 <= i < j < |r| ==> Before(r[i], r[j])
    decreases |scores| - y0
  {
    if y0 == |scores| then []
    else
      var row := RowCandidates(scores, y0, 0, threshold, w, h);
      var rest := Candidates(scores, threshold, w, h, y0 + 1);
      assert forall i :: 0 <= i < |row| ==> row[i] in row && row[i].y == y0;
      assert forall j :: 0 <= j < |rest| ==> rest[j] in rest && rest[j].y > y0;
      row + rest
  }

  /** Higher scores come first. */
  predicate HigherScore(a: MatchResult, b: MatchResult)
  {
    a.score > b.score
  }

  /** `matches.sort(key=lambda x: x.score, reverse=True)`. */
  function SortByScore(ms: seq<MatchResult>): (r: seq<MatchResult>)
    ensures multiset(r) == multiset(ms)
    ensures forall i, j :: 0 <= i < j < |r| ==> r[i].score >= r[j].score
  {
    Sorting.SortBySorted(ms, HigherScore);
    Sorting.SortBy(ms, HigherScore)
  }

  /**
   * `template_match`: the candidates sorted by descending score, cut to
   * `max_results` when it is positive. `transparent` is accepted and
   * never read.
   */
  function TemplateMatch(kernel: Kernel, template: Mat<Pixel>, image: Mat<Pixel>,
                         mask: Option<Mat<Pixel>> := None, transparent: bool := false,
                         threshold: real := 0.8, maxResults: int := 5): (r: seq<MatchResult>)
    requires template.Valid()
    ensures var all := Candidates(ScoreMap(kernel, image, template, mask), threshold, template.width, template.Height());
      && (forall m :: m in r ==> IsCandidate(m, ScoreMap(kernel, image, template, mask), threshold, template.width, template.Height()))
      && (forall i, j :: 0 <= i < j < |r| ==> r[i].score >= r[j].score)
      && (maxResults <= 0 ==> multiset(r) == multiset(all))
      && (maxResults > 0 ==> |r| == if maxResults < |all| then maxResults else |all|)
      && (maxResults > 0 ==> r == SortByScore(all)[..|r|])
      && (|r| > 0 ==> forall m :: m in all ==> m.score <= r[0].score)
      && (|r| == 0 <==> |all| == 0)
  {
    var scores := ScoreMap(kernel, image, template, mask);
    var all := Candidates(scores, threshold, template.width, template.Height());
    var sorted := SortByScore(all);
    SameMembers(sorted, all);
    BestFirst(sorted);
    if maxResults > 0 then Sorting.Take(sorted, maxResults) else sorted
  }

  lemma SameMembers(a: seq<MatchResult>, b: seq<MatchResult>)
    requires multiset(a) == multiset(b)
    ensures forall m :: m in a <==> m in b
  {
    forall m ensures m in a <==> m in b {
      assert m in a <==> multiset(a)[m] > 0;
      assert m in b <==> multiset(b)[m] > 0;
    }
  }

  lemma BestFirst(s: seq<MatchResult>)
    requires forall i, j :: 0 <= i < j < |s| ==> s[i].score >= s[j].score
    ensures |s| > 0 ==> forall m :: m in s ==> m.score <= s[0].score
  {
    if |s| > 0 {
      forall m | m in s ensures m.score <= s[0].score {
        var i :| 0 <= i < |s| && s[i] == m;
      }
    }
  }

  // ---------------------------------------------------------------------
  // De-duplication by horizontal distance
  // ---------------------------------------------------------------------

  /** Some kept match lies less than `offset` pixels away horizontally. */
  predicate NearAny(m: MatchResult, kept: seq<MatchResult>, offset: int)
  {
    exists r :: r in kept && Abs(m.x - r.x) < offset
  }

  /**
   * `_remove_duplicate_matches`: walks the matches in order and keeps one
   * unless an already kept match is horizontally closer than `offset`;
   * the vertical distance is not compared.
   */
  function RemoveDuplicates(ms: seq<MatchResult>, offset: int := 10): (r: seq<MatchResult>)
    ensures |r| <= |ms|
    ensures forall m :: m in r ==> m in ms
    ensures |ms| > 0 ==> |r| > 0 && r[0] == ms[0]
  {
    if |ms| == 0 then []
    else
      var kept := RemoveDuplicates(ms[..|ms| - 1], offset);
      var m := ms[|ms| - 1];
      assert forall k :: k in kept ==> k in ms[..|ms| - 1];
      if NearAny(m, kept, offset) then kept else kept + [m]
  }

  /** Kept matches are pairwise at least `offset` apart horizontally. */
  predicate Spaced(ms: seq<MatchResult>, offset: int)
  {
    forall i, j :: 0 <= i < j < |ms| ==> Abs(ms[i].x - ms[j].x) >= offset
  }

  /** `a` occurs in `b` in order, possibly with gaps. */
  predicate IsSubsequence(a: seq<MatchResult>, b: seq<MatchResult>)
    decreases |b|
  {
    if |a| == 0 then true
    else if |b| == 0 then false
    else if a[|a| - 1] == b[|b| - 1] then IsSubsequence(a[..|a| - 1], b[..|b| - 1])
    else IsSubsequence(a, b[..|b| - 1])
  }

  lemma {:induction false} SubsequenceDropLast(a: seq<MatchResult>, b: seq<MatchResult>)
    requires |a| > 0 && IsSubsequence(a, b)
    ensures IsSubsequence(a[..|a| - 1], b)
    decreases |b|, 0
  {
    if a[|a| - 1] == b[|b| - 1] {
      SubsequenceExtend(a[..|a| - 1], b[..|b| - 1], b[|b| - 1]);
      assert b[..|b| - 1] + [b[|b| - 1]] == b;
    } else {
      SubsequenceDropLast(a, b[..|b| - 1]);
      SubsequenceExtend(a[..|a| - 1], b[..|b| - 1], b[|b| - 1]);
      assert b[..|b| - 1] + [b[|b| - 1]] == b;
    }
  }

  lemma {:induction false} SubsequenceExtend(a: seq<MatchResult>, b: seq<MatchResult>, x: MatchResult)
    requires IsSubsequence(a, b)
    ensures IsSubsequence(a, b + [x])
    decreases |b|, 1
  {
    if |a| > 0 {
      assert (b + [x])[..|b|] == b;
      if a[|a| - 1] == x {
        SubsequenceDropLast(a, b);
      }
    }
  }

  /** The kept matches are the input with some matches left out, in input order. */
  lemma {:induction false} RemoveDuplicatesSubsequence(ms: seq<MatchResult>, offset: int)
    ensures IsSubsequence(RemoveDuplicates(ms, offset), ms)
  {
    if |ms| > 0 {
      var p := ms[..|ms| - 1];
      var m := ms[|ms| - 1];
      var kept := RemoveDuplicates(p, offset);
      RemoveDuplicatesSubsequence(p, offset);
      assert p + [m] == ms;
      if NearAny(m, kept, offset) {
        SubsequenceExtend(kept, p, m);
      } else {
        assert (kept + [m])[..|kept|] == kept;
      }
    }
  }

  /** No two kept matches are closer than `offset` horizontally. */
  lemma {:induction false} RemoveDuplicatesSpaced(ms: seq<MatchResult>, offset: int)
    ensures Spaced(RemoveDuplicates(ms, offset), offset)
  {
    if |ms| > 0 {
      RemoveDuplicatesSpaced(ms[..|ms| - 1], offset);
      var kept := RemoveDuplicates(ms[..|ms| - 1], offset);
      var m := ms[|ms| - 1];
      if !NearAny(m, kept, offset) {
        var r := kept + [m];
        forall i, j | 0 <= i < j < |r| ensures Abs(r[i].x - r[j].x) >= offset {
          if j == |kept| {
            assert r[i] in kept;
          } else {
            assert r[i] == kept[i] && r[j] == kept[j];
          }
        }
      }
    }
  }

  /** A match is dropped only because a kept match is horizontally closer than `offset`. */
  lemma {:induction false} RemoveDuplicatesDropsOnlyNear(ms: seq<MatchResult>, offset: int)
    ensures forall m :: m in ms ==> m in RemoveDuplicates(ms, offset) || NearAny(m, RemoveDuplicates(ms, offset), offset)
  {
    if |ms| > 0 {
      var p := ms[..|ms| - 1];
      RemoveDuplicatesDropsOnlyNear(p, offset);
      var kept := RemoveDuplicates(p, offset);
      var r := RemoveDuplicates(ms, offset);
      forall m | m in ms ensures m in r || NearAny(m, r, offset) {
        if m in p {
          if m in kept {
            assert m in r;
          } else {
            var k :| k in kept && Abs(m.x - k.x) < offset;
            assert k in r;
          }
        }
      }
    }
  }

  /** Matches already spaced `offset` apart are all kept. */
  lemma {:induction false} RemoveDuplicatesKeepsSpaced(ms: seq<MatchResult>, offset: int)
    requires Spaced(ms, offset)
    ensures RemoveDuplicates(ms, offset) == ms
  {
    if |ms| > 0 {
      var p := ms[..|ms| - 1];
      SpacedPrefix(ms, offset);
      RemoveDuplicatesKeepsSpaced(p, offset);
      LastNotNear(ms, offset);
      assert p + [ms[|ms| - 1]] == ms;
    }
  }

  lemma SpacedPrefix(ms: seq<MatchResult>, offset: int)
    requires Spaced(ms, offset) && |ms| > 0
    ensures Spaced(ms[..|ms| - 1], offset)
  {
    var p := ms[..|ms| - 1];
    forall i, j | 0 <= i < j < |p| ensures Abs(p[i].x - p[j].x) >= offset {
      assert p[i] == ms[i] && p[j] == ms[j];
    }
  }

  /** In a spaced list the last match is near none of those before it. */
  lemma LastNotNear(ms: seq<MatchResult>, offset: int)
    requires Spaced(ms, offset) && |ms| > 0
    ensures !NearAny(ms[|ms| - 1], ms[..|ms| - 1], offset)
  {
    var p := ms[..|ms| - 1];
    var m := ms[|ms| - 1];
    forall k | k in p ensures Abs(m.x - k.x) >= offset {
      var i :| 0 <= i < |p| && p[i] == k;
      assert ms[i] == k;
      assert Abs(ms[i].x - ms[|ms| - 1].x) >= offset;
    }
  }

  /** Removing duplicates twice removes nothing more. */
  lemma RemoveDuplicatesIdempotent(ms: seq<MatchResult>, offset: int)
    ensures RemoveDuplicates(RemoveDuplicates(ms, offset), offset) == RemoveDuplicates(ms, offset)
  {
    RemoveDuplicatesSpaced(ms, offset);
    RemoveDuplicatesKeepsSpaced(RemoveDuplicates(ms, offset), offset);
  }

  /** With a non-positive offset nothing counts as a duplicate. */
  lemma RemoveDuplicatesNonPositiveOffset(ms: seq<MatchResult>, offset: int)
    requires offset <= 0
    ensures RemoveDuplicates(ms, offset) == ms
  {
    assert Spaced(ms, offset);
    RemoveDuplicatesKeepsSpaced(ms, offset);
  }

  // ---------------------------------------------------------------------
  // find, find_any, count, expect, find_crop
  // ---------------------------------------------------------------------

  /** `find`: the first of all matches (`max_results=-1`), or `None`. */
  function Find(kernel: Kernel, image: Mat<Pixel>, template: Mat<Pixel>, mask: Option<Mat<Pixel>> := None,
                transparent: bool := false, threshold: real := 0.8): (r: Option<MatchResult>)
    requires template.Valid()
    ensures r.Some? ==> IsCandidate(r.value, ScoreMap(kernel, image, template, mask), threshold, template.width, template.Height())
  {
    var ms := TemplateMatch(kernel, template, image, mask, transparent, threshold, -1);
    if |ms| > 0 then
      assert ms[0] in ms;
      Some(ms[0])
    else None
  }

  /** `find` fails exactly when no position reaches the threshold, and otherwise returns a best-scoring one. */
  lemma FindIsBest(kernel: Kernel, image: Mat<Pixel>, template: Mat<Pixel>, mask: Option<Mat<Pixel>>,
                   transparent: bool, threshold: real)
    requires template.Valid()
    ensures var r := Find(kernel, image, template, mask, transparent, threshold);
      var all := Candidates(ScoreMap(kernel, image, template, mask), threshold, template.width, template.Height());
      && (r.None? <==> |all| == 0)
      && (r.Some? ==> r.value in all && forall m :: m in all ==> m.score <= r.value.score)
  {
    var ms := TemplateMatch(kernel, template, image, mask, transparent, threshold, -1);
    if |ms| > 0 {
      assert ms[0] in multiset(ms);
    }
  }

  /** The masks `find_any` pairs with the templates: `[None] * len(templates)` by default. */
  function MasksFor(templates: seq<Mat<Pixel>>, masks: Option<seq<Option<Mat<Pixel>>>>): (r: seq<Option<Mat<Pixel>>>)
    ensures masks.None? ==> |r| == |templates| && forall i :: 0 <= i < |r| ==> r[i].None?
    ensures masks.Some? ==> r == masks.value
  {
    if masks.Some? then masks.value else seq(|templates|, _ => None)
  }

  /** The first present value, scanning from index `i`. */
  function FirstSome(rs: seq<Option<MatchResult>>, i: nat := 0): (r: Option<MatchResult>)
    ensures r.None? <==> forall k :: i <= k < |rs| ==> rs[k].None?
    ensures r.Some? ==> exists k :: i <= k < |rs| && rs[k] == r && forall j :: i <= j < k ==> rs[j].None?
    decreases |rs| - i
  {
    if i >= |rs| then None
    else if rs[i].Some? then rs[i]
    else FirstSome(rs, i + 1)
  }

  /**
   * `find_any`: the result of the first template (paired with its mask,
   * `zip` stopping at the shorter list) that matches at all.
   */
  function FindAny(kernel: Kernel, image: Mat<Pixel>, templates: seq<Mat<Pixel>>,
                   masks: Option<seq<Option<Mat<Pixel>>>> := None, transparent: bool := false,
                   threshold: real := 0.8): Option<MatchResult>
    requires forall k :: 0 <= k < |templates| ==> templates[k].Valid()
  {
    var ms := MasksFor(templates, masks);
    var n := if |templates| < |ms| then |templates| else |ms|;
    FirstSome(FindEach(kernel, image, templates, ms, transparent, threshold, n))
  }

  /**
   * `find_any` is empty iff no paired template matches; otherwise it is the
   * result of the first pair that does (`FindEach` holds `find` of each pair).
   */
  lemma FindAnyFirstHit(kernel: Kernel, image: Mat<Pixel>, templates: seq<Mat<Pixel>>,
                        masks: Option<seq<Option<Mat<Pixel>>>>, transparent: bool, threshold: real)
    requires forall k :: 0 <= k < |templates| ==> templates[k].Valid()
    ensures var r := FindAny(kernel, image, templates, masks, transparent, threshold);
      var ms := MasksFor(templates, masks);
      var n := if |templates| < |ms| then |templates| else |ms|;
      var rs := FindEach(kernel, image, templates, ms, transparent, threshold, n);
      && (r.None? <==> forall k :: 0 <= k < n ==> rs[k].None?)
      && (r.Some? ==> exists k :: 0 <= k < n && r == rs[k] && forall j :: 0 <= j < k ==> rs[j].None?)
  {
    var ms := MasksFor(templates, masks);
    var n := if |templates| < |ms| then |templates| else |ms|;
    var rs := FindEach(kernel, image, templates, ms, transparent, threshold, n);
    assert FindAny(kernel, image, templates, masks, transparent, threshold) == FirstSome(rs);
    FirstSomeIndex(rs);
  }

  lemma FirstSomeIndex(rs: seq<Option<MatchResult>>)
    ensures FirstSome(rs).Some? ==> exists k :: 0 <= k < |rs| && rs[k] == FirstSome(rs) && forall j :: 0 <= j < k ==> rs[j].None?
    ensures FirstSome(rs).None? <==> forall k :: 0 <= k < |rs| ==> rs[k].None?
  {
  }

  /** The `find` result of each of the first `n` template/mask pairs. */
  function FindEach(kernel: Kernel, image: Mat<Pixel>, templates: seq<Mat<Pixel>>,
                    ms: seq<Option<Mat<Pixel>>>, transparent: bool, threshold: real, n: nat): (rs: seq<Option<MatchResult>>)
    requires n <= |templates| && n <= |ms|
    requires forall k :: 0 <= k < |templates| ==> templates[k].Valid()
    ensures |rs| == n
    ensures forall k :: 0 <= k < n ==> rs[k] == Find(kernel, image, templates[k], ms[k], transparent, threshold)
  {
    seq(n, k requires 0 <= k < n => Find(kernel, image, templates[k], ms[k], transparent, threshold))
  }

  /** `count`: how many matches there are, de-duplicated unless asked not to. */
  function Count(kernel: Kernel, image: Mat<Pixel>, template: Mat<Pixel>, mask: Option<Mat<Pixel>> := None,
                 transparent: bool := false, threshold: real := 0.9, removeDuplicate: bool := true): (r: nat)
    requires template.Valid()
    ensures var all := Candidates(ScoreMap(kernel, image, template, mask), threshold, template.width, template.Height());
      && r <= |all|
      && (!removeDuplicate ==> r == |all|)
      && (removeDuplicate ==> r == |RemoveDuplicates(TemplateMatch(kernel, template, image, mask, transparent, threshold, -1))|)
      && (r == 0 <==> |all| == 0)
  {
    var ms := TemplateMatch(kernel, template, image, mask, transparent, threshold, -1);
    assert |ms| == |Candidates(ScoreMap(kernel, image, template, mask), threshold, template.width, template.Height())| by {
      var all := Candidates(ScoreMap(kernel, image, template, mask), threshold, template.width, template.Height());
      assert |multiset(ms)| == |multiset(all)|;
    }
    if removeDuplicate then |RemoveDuplicates(ms)| else |ms|
  }

  /**
   * De-duplication never adds to the count, and it removes nothing when the
   * matches already lie at least 10 pixels apart horizontally.
   */
  lemma CountDeduplicated(kernel: Kernel, image: Mat<Pixel>, template: Mat<Pixel>, mask: Option<Mat<Pixel>>,
                          transparent: bool, threshold: real)
    requires template.Valid()
    ensures Count(kernel, image, template, mask, transparent, threshold, true)
         <= Count(kernel, image, template, mask, transparent, threshold, false)
    ensures Spaced(TemplateMatch(kernel, template, image, mask, transparent, threshold, -1), 10) ==>
      Count(kernel, image, template, mask, transparent, threshold, true)
        == Count(kernel, image, template, mask, transparent, threshold, false)
  {
    var ms := TemplateMatch(kernel, template, image, mask, transparent, threshold, -1);
    if Spaced(ms, 10) {
      RemoveDuplicatesKeepsSpaced(ms, 10);
    }
  }

  /** `expect`: `find`, raising `TemplateNotFoundError` when it finds nothing. */
  function Expect(kernel: Kernel, image: Mat<Pixel>, template: Mat<Pixel>, mask: Option<Mat<Pixel>> := None,
                  transparent: bool := false, threshold: real := 0.9): (r: Result<MatchResult, TemplateNotFound>)
    requires template.Valid()
    ensures r.Err? <==> Find(kernel, image, template, mask, transparent, threshold).None?
    ensures r.Ok? ==> Some(r.value) == Find(kernel, image, template, mask, transparent, threshold)
    ensures r.Err? ==> r.error == TemplateNotFound(image, template)
  {
    match Find(kernel, image, template, mask, transparent, threshold)
    case Some(m) => Ok(m)
    case None => Err(TemplateNotFound(image, template))
  }

  /** A match with the image region `image[y:y+h, x:x+w]` it covers. */
  function CropOf(image: Mat<Pixel>, m: MatchResult): (r: CropResult)
    requires image.Valid()
    ensures (r.score, r.x, r.y, r.w, r.h) == (m.score, m.x, m.y, m.w, m.h)
    ensures r.image == Crop(image, m.y, m.y + m.h, m.x, m.x + m.w)
  {
    CropResult(m.score, m.x, m.y, m.w, m.h, Crop(image, m.y, m.y + m.h, m.x, m.x + m.w))
  }

  /** `find_crop`: every de-duplicated match of all matches, with the region it covers. */
  function FindCrop(kernel: Kernel, image: Mat<Pixel>, template: Mat<Pixel>, mask: Option<Mat<Pixel>> := None,
                    transparent: bool := false, threshold: real := 0.8): (r: seq<CropResult>)
    requires template.Valid() && image.Valid()
    ensures var kept := RemoveDuplicates(TemplateMatch(kernel, template, image, mask, transparent, threshold, -1));
      |r| == |kept| && forall i :: 0 <= i < |r| ==> r[i] == CropOf(image, kept[i])
  {
    var kept := RemoveDuplicates(TemplateMatch(kernel, template, image, mask, transparent, threshold, -1));
    seq(|kept|, i requires 0 <= i < |kept| => CropOf(image, kept[i]))
  }
}

=== FILE: image_annotation.dfy ===
/**
 * The image-annotation page (`kotonebot-devtool/src/pages/ImageAnnotation/ImageAnnotation.tsx`):
 * its tools, the aspect ratio shown for the open image, and how editor
 * events and property edits change the metadata store and the selection.
 *
 * File dialogs, the property grid's rendering and toasts other than the
 * one for an unknown annotation type are not modelled.
 */
module ImageAnnotationPage {
  import opened Wrappers
  import opened Text
  import opened EditorTypes
  import opened ImageMeta
  import Assoc
  import Hotkey

  // ---------------------------------------------------------------------
  // Tools
  // ---------------------------------------------------------------------

  datatype PageTool = DragTool | TemplateTool | HintBoxTool

  /** `STR_TO_TOOL[id]`; an unknown id reads as `undefined`. */
  function ToolOfId(id: string): (r: Option<PageTool>)
    ensures r == Some(DragTool) <==> id == "drag"
    ensures r == Some(TemplateTool) <==> id == "template"
    ensures r == Some(HintBoxTool) <==> id == "hintbox"
  {
    if id == "drag" then Some(DragTool)
    else if id == "template" then Some(TemplateTool)
    else if id == "hintbox" then Some(HintBoxTool)
    else None
  }

  /** `TOOL_TO_EDITOR_TOOL`: both drawing tools draw rectangles. */
  function EditorToolOf(t: PageTool): (r: Tool)
    ensures r == Drag <==> t == DragTool
    ensures r != PointTool
  {
    match t
    case DragTool => Drag
    case TemplateTool => RectTool
    case HintBoxTool => RectTool
  }

  /** The definition type an annotation drawn with the tool gets, if any. */
  function DefinitionTypeOf(t: Option<PageTool>): (r: Option<DefinitionType>)
    ensures r.Some? <==> t == Some(TemplateTool) || t == Some(HintBoxTool)
    ensures r.Some? ==> EditorToolOf(t.value) == RectTool
  {
    match t
    case Some(TemplateTool) => Some(Template)
    case Some(HintBoxTool) => Some(HintBox)
    case _ => None
  }

  // ---------------------------------------------------------------------
  // The aspect ratio: gcd and the simplest ratio
  // ---------------------------------------------------------------------

  /** `d` divides `n`. */
  predicate Divides(d: int, n: int)
  {
    d > 0 && n % d == 0
  }

  /** The common divisors of `a` and `b` are exactly the divisors of `g`. */
  ghost predicate IsGcd(g: nat, a: int, b: int)
  {
    forall d :: Divides(d, a) && Divides(d, b) <==> Divides(d, g)
  }

  /** The sign facts of a product with a positive factor. */
  lemma {:induction false} MulSign(a: int, b: int)
    requires a > 0
    ensures b >= 1 ==> a * b >= a
    ensures b <= -1 ==> a * b <= -a
    decreases if b < 0 then -b else b
  {
    if b >= 1 {
      assert a * b == a * (b - 1) + a;
      if b > 1 { MulSign(a, b - 1); }
    } else if b <= -1 {
      assert a * b == a * (b + 1) - a;
      if b < -1 { MulSign(a, b + 1); }
    }
  }

  /** A positive factor cancels. */
  lemma CancelLeft(g: int, x: int, y: int)
    requires g > 0 && g * x == g * y
    ensures x == y
  {
    assert g * (x - y) == 0;
    MulSign(g, x - y);
  }

  /** A multiple of `d` leaves no remainder. */
  lemma ModOfMultiple(n: int, d: int, q: int)
    requires d > 0 && n == d * q
    ensures Divides(d, n)
  {
    var r, k := n % d, q - n / d;
    assert d * k == r by {
      assert n == d * (n / d) + r;
      assert d * k == d * q - d * (n / d);
    }
    MulSign(d, k);
  }

  /** A divisor of `b` divides `a` exactly when it divides `a % b`. */
  lemma ModStep(a: int, b: int, d: int)
    requires b > 0 && Divides(d, b)
    ensures Divides(d, a) <==> Divides(d, a % b)
  {
    var q := a / b;
    var kb := b / d;
    assert b == d * kb;
    assert a == b * q + a % b;
    assert b * q == d * (kb * q);
    if Divides(d, a) {
      var ka := a / d;
      assert a == d * ka;
      assert a % b == d * (ka - kb * q);
      ModOfMultiple(a % b, d, ka - kb * q);
    }
    if Divides(d, a % b) {
      var kr := (a % b) / d;
      assert a % b == d * kr;
      assert a == d * (kb * q + kr);
      ModOfMultiple(a, d, kb * q + kr);
    }
  }

  /** A number and its absolute value have the same divisors. */
  lemma DividesAbs(d: int, n: int)
    ensures Divides(d, n) <==> Divides(d, if n < 0 then -n else n)
  {
    if d > 0 && n < 0 {
      if Divides(d, n) {
        assert n == d * (n / d);
        ModOfMultiple(-n, d, -(n / d));
      }
      if Divides(d, -n) {
        assert -n == d * ((-n) / d);
        ModOfMultiple(n, d, -((-n) / d));
      }
    }
  }

  /** `gcd`: Euclid's algorithm on the absolute values, as the page writes it. */
  method Gcd(a0: int, b0: int) returns (g: nat)
    ensures IsGcd(g, a0, b0)
    ensures g == 0 <==> a0 == 0 && b0 == 0
  {
    var a: nat := if a0 < 0 then -a0 else a0;
    var b: nat := if b0 < 0 then -b0 else b0;
    forall d ensures Divides(d, a0) <==> Divides(d, a) {
      DividesAbs(d, a0);
    }
    forall d ensures Divides(d, b0) <==> Divides(d, b) {
      DividesAbs(d, b0);
    }
    while b != 0
      invariant forall d :: Divides(d, a0) && Divides(d, b0) <==> Divides(d, a) && Divides(d, b)
      invariant a == 0 && b == 0 <==> a0 == 0 && b0 == 0
      decreases b
    {
      forall d | Divides(d, b) ensures Divides(d, a) <==> Divides(d, a % b) {
        ModStep(a, b, d);
      }
      a, b := b, a % b;
    }
    g := a;
  }

  /** The divisors of `g` determine it: `g` is the one divisor of itself every other one divides. */
  lemma GcdDivides(g: nat, a: int, b: int)
    requires IsGcd(g, a, b) && g > 0
    ensures Divides(g, a) && Divides(g, b)
  {
    assert Divides(g, g);
  }

  /** `(d * k) / d == k`. */
  lemma ExactQuotient(n: int, d: int)
    requires Divides(d, n)
    ensures n == d * (n / d)
  {
  }

  /**
   * `getSimplestRatio`: `width / g` and `height / g`; when both are 0 the
   * page shows `NaN:NaN`, here `None`.
   */
  method SimplestRatio(w: nat, h: nat) returns (r: Option<(nat, nat)>)
    ensures r.None? <==> w == 0 && h == 0
    ensures r.Some? ==> r.value.0 * h == r.value.1 * w
    ensures r.Some? ==> forall d :: Divides(d, r.value.0) && Divides(d, r.value.1) ==> d == 1
    ensures r.Some? && w > 0 ==> r.value.0 > 0
    ensures r.Some? && h > 0 ==> r.value.1 > 0
  {
    var g := Gcd(w, h);
    if g == 0 {
      return None;
    }
    GcdDivides(g, w, h);
    var p, q := w / g, h / g;
    ExactQuotient(w, g);
    ExactQuotient(h, g);
    assert p * h == q * w by {
      assert p * h == p * (g * q);
      assert q * w == q * (g * p);
    }
    forall d | Divides(d, p) && Divides(d, q) ensures d == 1 {
      CoprimeQuotients(w, h, g, d);
    }
    r := Some((p, q));
  }

  /** `n == g * p` and `p == d * k` make `d * g` a divisor of `n`. */
  lemma ScaledDivisor(n: int, g: int, p: int, d: int, k: int)
    requires g > 0 && d > 0 && n == g * p && p == d * k
    ensures Divides(d * g, n)
  {
    assert n == (d * g) * k;
    assert d * g > 0 by { MulSign(g, d); }
    ModOfMultiple(n, d * g, k);
  }

  /** A positive factor of 1 is 1. */
  lemma UnitFactor(d: int, m: int)
    requires d > 0 && d * m == 1
    ensures d == 1
  {
    MulSign(d, m);
  }

  /** A common divisor `d` of `w/g` and `h/g` makes `d*g` a common divisor of `w` and `h`, so `d == 1`. */
  lemma CoprimeQuotients(w: nat, h: nat, g: nat, d: int)
    requires IsGcd(g, w, h) && g > 0 && Divides(g, w) && Divides(g, h)
    requires Divides(d, w / g) && Divides(d, h / g)
    ensures d == 1
  {
    var p, q := w / g, h / g;
    ExactQuotient(w, g);
    ExactQuotient(h, g);
    ExactQuotient(p, d);
    ExactQuotient(q, d);
    ScaledDivisor(w, g, p, d, p / d);
    ScaledDivisor(h, g, q, d, q / d);
    assert Divides(d * g, g);
    var m := g / (d * g);
    ExactQuotient(g, d * g);
    assert g * 1 == g * (d * m) by {
      assert g == (d * g) * m;
    }
    CancelLeft(g, 1, d * m);
    UnitFactor(d, m);
  }

  /** `${simpleWidth}:${simpleHeight}`. */
  function RatioText(r: Option<(nat, nat)>): (t: string)
    ensures r.None? ==> t == "NaN:NaN"
    ensures r.Some? ==> SplitOnce(t, ':') == Some((IntToDecimal(r.value.0), IntToDecimal(r.value.1)))
  {
    match r
    case None => "NaN:NaN"
    case Some((p, q)) =>
      RatioColon(p, q);
      IntToDecimal(p) + ":" + IntToDecimal(q)
  }

  lemma RatioColon(p: nat, q: nat)
    ensures SplitOnce(IntToDecimal(p) + ":" + IntToDecimal(q), ':') == Some((IntToDecimal(p), IntToDecimal(q)))
  {
    assert forall k :: 0 <= k < |IntToDecimal(p)| ==> IsDigit(NatDigits(p, 10)[k]);
    SplitOnceAt(IntToDecimal(p), IntToDecimal(q), ':');
  }

  // ---------------------------------------------------------------------
  // Editor events
  // ---------------------------------------------------------------------

  /** What the page keeps: the store, the selected annotation, the unsaved-changes flag. */
  datatype PageState = PageState(meta: Meta, selected: Option<Annotation>, dirty: bool)

  datatype ChangeKind = Added | Updated | Removed

  /** An `AnnotationChangedEvent`; only its kind and annotation are read. */
  datatype ChangeEvent = ChangeEvent(kind: ChangeKind, annotation: Annotation)

  const UnknownTypeMessage := "无法识别的标注类型"

  /** The definition the page creates for a new annotation: empty names, no hint rectangle. */
  function NewDefinition(t: DefinitionType, id: string): Definition
  {
    Definition("", "", t, id, Some(false))
  }

  /** `selectedAnnotation?.id === id`. */
  predicate IsSelected(s: PageState, id: string)
  {
    s.selected.Some? && s.selected.value.id == id
  }

  /**
   * `handleAnnotationChange`: the new state and the error toast shown, if
   * any. An annotation drawn while no drawing tool is current is refused.
   */
  function HandleAnnotationChange(s: PageState, tool: Option<PageTool>, e: ChangeEvent): (r: (PageState, Option<string>))
    ensures r.1.Some? <==> e.kind == Added && DefinitionTypeOf(tool).None?
    ensures r.1.Some? ==> r.0 == s && r.1.value == UnknownTypeMessage
    ensures r.1.None? ==> r.0.dirty
  {
    var a := e.annotation;
    match e.kind
    case Added =>
      (match DefinitionTypeOf(tool)
       case None => (s, Some(UnknownTypeMessage))
       case Some(t) =>
         var m := AddDefinition(AddAnnotation(s.meta, a), NewDefinition(t, a.id));
         (PageState(m, s.selected, true), None))
    case Updated =>
      var m := UpdateAnnotation(s.meta, AsPatch(a));
      (PageState(m, if IsSelected(s, a.id) then Some(a) else s.selected, true), None)
    case Removed =>
      var m := RemoveAnnotation(s.meta, a.id);
      if IsSelected(s, a.id) then (PageState(RemoveDefinition(m, a.id), None, true), None)
      else (PageState(m, s.selected, true), None)
  }

  /** An added annotation goes last, with a fresh empty definition of the tool's type under its id. */
  lemma AddStoresDefinition(s: PageState, t: PageTool, a: Annotation)
    requires t != DragTool
    ensures var r := HandleAnnotationChange(s, Some(t), ChangeEvent(Added, a)).0;
            && r.meta.annotations == s.meta.annotations + [a]
            && Assoc.Get(r.meta.definitions, a.id) == Some(NewDefinition(DefinitionTypeOf(Some(t)).value, a.id))
            && r.selected == s.selected
  {
    AddDefinitionGet(AddAnnotation(s.meta, a), NewDefinition(DefinitionTypeOf(Some(t)).value, a.id), a.id);
  }

  /**
   * Removing drops every annotation with the id; its definition goes too
   * only when it was the selected one, and then nothing is selected.
   */
  lemma RemoveDropsAnnotation(s: PageState, a: Annotation, tool: Option<PageTool>)
    ensures var r := HandleAnnotationChange(s, tool, ChangeEvent(Removed, a)).0;
            && FindAnnotation(r.meta.annotations, a.id).None?
            && (IsSelected(s, a.id) ==> r.selected.None? && a.id !in Assoc.Keys(r.meta.definitions))
            && (!IsSelected(s, a.id) ==> r.selected == s.selected && r.meta.definitions == s.meta.definitions)
  {
  }

  /** An update keeps the list's ids and length, and the selection follows the updated annotation. */
  lemma UpdateKeepsIds(s: PageState, a: Annotation, tool: Option<PageTool>)
    ensures var r := HandleAnnotationChange(s, tool, ChangeEvent(Updated, a)).0;
            && |r.meta.annotations| == |s.meta.annotations|
            && (forall j :: 0 <= j < |r.meta.annotations| ==> r.meta.annotations[j].id == s.meta.annotations[j].id)
            && (IsSelected(s, a.id) ==> r.selected == Some(a))
            && r.meta.definitions == s.meta.definitions
  {
  }

  /** The delete hotkey: removes the selected annotation, if any, and clears the selection. */
  function DeleteSelected(s: PageState, tool: Option<PageTool>): (r: PageState)
    ensures s.selected.None? ==> r == s
    ensures s.selected.Some? ==> r.selected.None? && r.dirty
    ensures s.selected.Some? ==> FindAnnotation(r.meta.annotations, s.selected.value.id).None?
    ensures s.selected.Some? ==> s.selected.value.id !in Assoc.Keys(r.meta.definitions)
  {
    match s.selected
    case None => s
    case Some(a) =>
      RemoveDropsAnnotation(s, a, tool);
      HandleAnnotationChange(s, tool, ChangeEvent(Removed, a)).0.(selected := None)
  }

  // ---------------------------------------------------------------------
  // Property edits
  // ---------------------------------------------------------------------

  /** `a || b` on strings: the empty string is falsy. */
  function OrElse(a: Option<string>, b: string): (r: string)
    ensures a.Some? && a.value != "" ==> r == a.value
    ensures a.None? || a.value == "" ==> r == b
  {
    if a.Some? && a.value != "" then a.value else b
  }

  /** The tip shown over an annotation: `displayName (name)`. */
  function TipText(displayName: string, name: string): string
  {
    displayName + " (" + name + ")"
  }

  /**
   * `handleDefinitionChange`: the definition takes the edited fields, and
   * the annotation's tip shows the edited names, falling back to the old
   * ones where an edit is absent or empty. A missing definition throws.
   */
  function HandleDefinitionChange(s: PageState, id: string, p: DefinitionPatch): (r: Result<PageState, ScriptError>)
    ensures r.Err? <==> id !in Assoc.Keys(s.meta.definitions)
    ensures r.Ok? ==> r.value.selected == s.selected && r.value.dirty == s.dirty
    ensures r.Ok? ==> Assoc.Keys(r.value.meta.definitions) == Assoc.Keys(s.meta.definitions)
    ensures r.Ok? ==> |r.value.meta.annotations| == |s.meta.annotations|
  {
    match UpdateDefinition(s.meta, id, p)
    case Err(e) => Err(e)
    case Ok(m) =>
      var prev := Assoc.Get(s.meta.definitions, id).value;
      var tip := TipText(OrElse(p.displayName, prev.displayName), OrElse(p.name, prev.name));
      Ok(s.(meta := UpdateAnnotation(m, AnnotationPatch(id, None, Some(tip)))))
  }

  /** After an edit, the first annotation with the id carries the new tip and keeps its shape. */
  lemma DefinitionChangeTip(s: PageState, id: string, p: DefinitionPatch)
    requires id in Assoc.Keys(s.meta.definitions)
    requires FindAnnotation(s.meta.annotations, id).Some?
    ensures var i := FindAnnotation(s.meta.annotations, id).value;
            var d := Assoc.Get(s.meta.definitions, id).value;
            var a := HandleDefinitionChange(s, id, p).value.meta.annotations[i];
            && a.tip == Some(TipText(OrElse(p.displayName, d.displayName), OrElse(p.name, d.name)))
            && a.shape == s.meta.annotations[i].shape
            && a.id == id
  {
    var m := UpdateDefinition(s.meta, id, p).value;
    assert m.annotations == s.meta.annotations;
  }

  // ---------------------------------------------------------------------
  // Shortcuts
  // ---------------------------------------------------------------------

  /** What the page's shortcuts do: save, pick a tool, delete the selection. */
  datatype PageAction = Save | SetTool(tool: PageTool) | DeleteSelection

  /** The page's `useHotkey` table, in order. */
  function PageHotkeys(): seq<Hotkey.Config<PageAction>>
  {
    [ Hotkey.Config("s", true, false, false, false, false, Save),
      Hotkey.Config("v", false, false, false, true, false, SetTool(DragTool)),
      Hotkey.Config("t", false, false, false, true, false, SetTool(TemplateTool)),
      Hotkey.Config("b", false, false, false, true, false, SetTool(HintBoxTool)),
      Hotkey.Config("delete", false, false, false, true, false, DeleteSelection) ]
  }

  /** The letter a tool's shortcut is bound to. */
  function ToolKey(t: PageTool): string
  {
    match t
    case DragTool => "v"
    case TemplateTool => "t"
    case HintBoxTool => "b"
  }

  lemma LowerFixed(k: string)
    requires forall i :: 0 <= i < |k| ==> 'a' <= k[i] <= 'z'
    ensures Lower(k) == k
  {
  }

  /** The index of a tool's entry in the table. */
  function ToolIndex(t: PageTool): (i: nat)
    ensures i < |PageHotkeys()| && PageHotkeys()[i].action == SetTool(t) && PageHotkeys()[i].key == ToolKey(t)
  {
    match t
    case DragTool => 1
    case TemplateTool => 2
    case HintBoxTool => 3
  }

  /** Ctrl+S saves and keeps the browser from saving the page. */
  lemma SaveShortcut(e: Hotkey.KeyEvent)
    requires !e.inInput && Lower(e.key) == "s" && e.ctrl && !e.shift && !e.alt
    ensures Hotkey.HandleKeyDown(PageHotkeys(), e) == Hotkey.Outcome(Some(Save), true)
  {
    LowerFixed("s");
    Hotkey.FirstMatchAt(PageHotkeys(), e, 0);
  }

  /** A tool's letter alone picks the tool and leaves the browser's default alone. */
  lemma ToolShortcut(e: Hotkey.KeyEvent, t: PageTool)
    requires !e.inInput && Lower(e.key) == ToolKey(t) && Hotkey.NoModifiers(e)
    ensures Hotkey.HandleKeyDown(PageHotkeys(), e) == Hotkey.Outcome(Some(SetTool(t)), false)
  {
    var hs := PageHotkeys();
    LowerFixed("s");
    LowerFixed(ToolKey(t));
    forall j | 0 <= j < ToolIndex(t) ensures !Hotkey.Matches(hs[j], e) {
      if j > 0 {
        LowerFixed(hs[j].key);
        assert hs[j].key[0] != ToolKey(t)[0];
      }
    }
    Hotkey.FirstMatchAt(hs, e, ToolIndex(t));
  }

  /** With a modifier held, a tool's letter does nothing; in a text field no shortcut fires. */
  lemma NoShortcut(e: Hotkey.KeyEvent, t: PageTool)
    requires e.inInput || (Lower(e.key) == ToolKey(t) && !Hotkey.NoModifiers(e) && !(e.ctrl && !e.shift && !e.alt))
    ensures Hotkey.HandleKeyDown(PageHotkeys(), e).action.None?
  {
    var hs := PageHotkeys();
    forall j | 0 <= j < |hs| ensures !Hotkey.Matches(hs[j], e) {
      if !e.inInput && !hs[j].single {
        LowerFixed("s");
        LowerFixed(ToolKey(t));
        assert "s"[0] != ToolKey(t)[0];
      }
    }
  }
}

=== FILE: image_editor.dfy ===
/**
 * The image editor's view (`kotonebot-devtool/src/components/ImageEditor/ImageEditor.tsx`):
 * its scale and offset, the conversions between container and image
 * coordinates the tools use, wheel zoom, the imperative `reset`/`setScale`
 * handle, and the lookup of an annotation by id.
 */
module ImageEditor {
  import opened Wrappers
  import opened EditorTypes
  import ImageMeta

  /** The part of the editor state the conversions read. */
  datatype View = View(scale: real, position: Point)

  /** The scale a fresh editor starts with when none is given. */
  const DefaultInitialScale: real := 1.0

  const Origin := Point(0.0, 0.0)

  function Initial(initialScale: real): (v: View)
    ensures v.position == Origin && v.scale == initialScale
  {
    View(initialScale, Origin)
  }

  // ---------------------------------------------------------------------
  // Conversions
  // ---------------------------------------------------------------------

  /** `Math.round`: to the nearest integer, halves upwards. */
  function Round(x: real): (r: int)
    ensures x - 0.5 < r as real <= x + 0.5
  {
    (x + 0.5).Floor
  }

  /** One axis of `posContainer2Image`: undo the offset and the scale, then round to a whole pixel. */
  function AxisToImage(c: real, offset: real, scale: real): real
    requires scale != 0.0
  {
    Round((c - offset) / scale) as real
  }

  /** One axis of `posImage2Container`. */
  function AxisToContainer(i: real, offset: real, scale: real): real
  {
    i * scale + offset
  }

  /** `posContainer2Image`. */
  function ContainerToImage(v: View, p: Point): (r: Point)
    requires v.scale != 0.0
    ensures r.x.Floor as real == r.x && r.y.Floor as real == r.y
  {
    Point(AxisToImage(p.x, v.position.x, v.scale), AxisToImage(p.y, v.position.y, v.scale))
  }

  /** `posImage2Container`. */
  function ImageToContainer(v: View, p: Point): Point
  {
    Point(AxisToContainer(p.x, v.position.x, v.scale), AxisToContainer(p.y, v.position.y, v.scale))
  }

  /** `rectContainer2Image`: both corners, each on its own. */
  function RectContainerToImage(v: View, r: RectPoints): (q: RectPoints)
    requires v.scale != 0.0
    ensures Point(q.x1, q.y1) == ContainerToImage(v, Point(r.x1, r.y1))
    ensures Point(q.x2, q.y2) == ContainerToImage(v, Point(r.x2, r.y2))
  {
    var a := ContainerToImage(v, Point(r.x1, r.y1));
    var b := ContainerToImage(v, Point(r.x2, r.y2));
    RectPoints(a.x, a.y, b.x, b.y)
  }

  /** `rectImage2Container`. */
  function RectImageToContainer(v: View, r: RectPoints): (q: RectPoints)
    ensures Point(q.x1, q.y1) == ImageToContainer(v, Point(r.x1, r.y1))
    ensures Point(q.x2, q.y2) == ImageToContainer(v, Point(r.x2, r.y2))
  {
    var a := ImageToContainer(v, Point(r.x1, r.y1));
    var b := ImageToContainer(v, Point(r.x2, r.y2));
    RectPoints(a.x, a.y, b.x, b.y)
  }

  /** A point on whole pixels. */
  predicate Integral(p: Point)
  {
    p.x.Floor as real == p.x && p.y.Floor as real == p.y
  }

  lemma RoundWhole(n: int)
    ensures Round(n as real) == n
  {
  }

  /** An image pixel shown in the container converts back to itself. */
  lemma ImageRoundTrip(v: View, p: Point)
    requires v.scale != 0.0 && Integral(p)
    ensures ContainerToImage(v, ImageToContainer(v, p)) == p
  {
    AxisRoundTrip(p.x.Floor, v.position.x, v.scale);
    AxisRoundTrip(p.y.Floor, v.position.y, v.scale);
  }

  lemma AxisRoundTrip(n: int, offset: real, scale: real)
    requires scale != 0.0
    ensures AxisToImage(AxisToContainer(n as real, offset, scale), offset, scale) == n as real
  {
    assert (AxisToContainer(n as real, offset, scale) - offset) / scale == n as real;
    RoundWhole(n);
  }

  /** At a positive scale, converting to the image and back moves a container point by at most half a pixel of the image. */
  lemma ContainerError(v: View, c: Point)
    requires v.scale > 0.0
    ensures var back := ImageToContainer(v, ContainerToImage(v, c));
            && Abs(back.x - c.x) <= v.scale / 2.0
            && Abs(back.y - c.y) <= v.scale / 2.0
  {
    AxisError(c.x, v.position.x, v.scale);
    AxisError(c.y, v.position.y, v.scale);
  }

  lemma AxisError(c: real, offset: real, s: real)
    requires s > 0.0
    ensures Abs(AxisToContainer(AxisToImage(c, offset, s), offset, s) - c) <= s / 2.0
  {
    var t := (c - offset) / s;
    var e := Round(t) as real - t;
    assert -0.5 <= e <= 0.5;
    assert t * s == c - offset;
    assert AxisToContainer(AxisToImage(c, offset, s), offset, s) - c == e * s;
    assert -0.5 * s <= e * s <= 0.5 * s;
  }

  /** At a positive scale the conversion keeps the order of coordinates. */
  lemma ContainerMonotone(v: View, a: Point, b: Point)
    requires v.scale > 0.0 && a.x <= b.x && a.y <= b.y
    ensures ContainerToImage(v, a).x <= ContainerToImage(v, b).x
    ensures ContainerToImage(v, a).y <= ContainerToImage(v, b).y
  {
    AxisMonotone(a.x, b.x, v.position.x, v.scale);
    AxisMonotone(a.y, b.y, v.position.y, v.scale);
  }

  lemma AxisMonotone(a: real, b: real, offset: real, s: real)
    requires s > 0.0 && a <= b
    ensures AxisToImage(a, offset, s) <= AxisToImage(b, offset, s)
  {
    var x, y := (a - offset) / s, (b - offset) / s;
    assert x <= y by {
      assert x * s == a - offset && y * s == b - offset;
      assert (y - x) * s == b - a;
    }
    RoundMonotone(x, y);
  }

  lemma RoundMonotone(x: real, y: real)
    requires x <= y
    ensures Round(x) <= Round(y)
  {
  }

  // ---------------------------------------------------------------------
  // Zoom and the imperative handle
  // ---------------------------------------------------------------------

  const MinScale: real := 0.1
  const MaxScale: real := 10.0

  /** `handleWheel`: scroll up zooms in by 10 %, anything else out by 10 %, within [0.1, 10]. */
  function Wheel(v: View, deltaY: real): (r: View)
    ensures r.position == v.position
    ensures MinScale <= r.scale <= MaxScale
    ensures MinScale <= v.scale <= MaxScale && deltaY < 0.0 ==> r.scale >= v.scale
    ensures MinScale <= v.scale <= MaxScale && deltaY >= 0.0 ==> r.scale <= v.scale
    ensures deltaY < 0.0 && MinScale <= v.scale * 1.1 <= MaxScale ==> r.scale == v.scale * 1.1
    ensures deltaY >= 0.0 && MinScale <= v.scale * 0.9 <= MaxScale ==> r.scale == v.scale * 0.9
  {
    var change := if -deltaY > 0.0 then 1.1 else 0.9;
    v.(scale := Max(MinScale, Min(MaxScale, v.scale * change)))
  }

  /** `reset`: back to the initial scale with no offset. */
  function Reset(v: View, initialScale: real): (r: View)
    ensures r == Initial(initialScale)
  {
    View(initialScale, Origin)
  }

  /** `setScale`: only the scale changes; `getScale` reads it back. */
  function SetScale(v: View, s: real): (r: View)
    ensures r.position == v.position && GetScale(r) == s
  {
    v.(scale := s)
  }

  function GetScale(v: View): real
  {
    v.scale
  }

  // ---------------------------------------------------------------------
  // Looking an annotation up
  // ---------------------------------------------------------------------

  function NotFoundMessage(id: string): string
  {
    "Annotation not found: " + id
  }

  /** `queryAnnotation`: the first annotation with the id, or an `Error`. */
  function QueryAnnotation(anns: seq<Annotation>, id: string): (r: Result<Annotation, ScriptError>)
    ensures r.Ok? ==> r.value in anns && r.value.id == id
    ensures r.Err? ==> r.error == Error(NotFoundMessage(id)) && forall j :: 0 <= j < |anns| ==> anns[j].id != id
    decreases |anns|
  {
    if |anns| == 0 then Err(Error(NotFoundMessage(id)))
    else if anns[0].id == id then Ok(anns[0])
    else QueryAnnotation(anns[1..], id)
  }

  /** The lookup agrees with the store's own search for the first annotation with the id. */
  lemma {:induction false} QueryFinds(anns: seq<Annotation>, id: string)
    ensures QueryAnnotation(anns, id).Ok? <==> ImageMeta.FindAnnotation(anns, id).Some?
    ensures QueryAnnotation(anns, id).Ok? ==> QueryAnnotation(anns, id).value == anns[ImageMeta.FindAnnotation(anns, id).value]
    decreases |anns|
  {
    if |anns| > 0 && anns[0].id != id {
      QueryFinds(anns[1..], id);
    }
  }
}

=== FILE: image_meta.dfy ===
/**
 * The image-annotation metadata store (`kotonebot-devtool/src/hooks/useImageMetaData.tsx`):
 * definitions keyed by annotation id, the list of annotations, and the
 * operations the hook hands out. `toString` serialises with a replacer that
 * drops every key starting with '_'; the model works on the JSON tree that
 * `JSON.stringify` writes and `JSON.parse` reads back.
 */
module ImageMeta {
  import opened Wrappers
  import opened EditorTypes
  import opened PyValue
  import Assoc
  import Sorting

  datatype DefinitionType = Template | Ocr | Color | HintBox | HintPoint

  /** A definition; `useHintRect` is present on template definitions and on those the page creates. */
  datatype Definition = Definition(
    name: string,
    displayName: string,
    kind: DefinitionType,
    annotationId: string,
    useHintRect: Option<bool>)

  type Definitions = Assoc.Dict<string, Definition>

  datatype Meta = Meta(definitions: Definitions, annotations: seq<Annotation>)

  /** The store's initial value when no data is passed in. */
  const Empty := Meta([], [])

  // ---------------------------------------------------------------------
  // Definitions
  // ---------------------------------------------------------------------

  /** `Definitions.add`: stores `d` under its annotation id. */
  function AddDefinition(m: Meta, d: Definition): (r: Meta)
    ensures r.annotations == m.annotations
    ensures Assoc.Keys(r.definitions) == Assoc.Keys(m.definitions)
         || Assoc.Keys(r.definitions) == Assoc.Keys(m.definitions) + [d.annotationId]
  {
    Meta(Assoc.Set(m.definitions, d.annotationId, d), m.annotations)
  }

  /** The fields `Definitions.update` may carry besides the annotation id; `None` is an absent key. */
  datatype DefinitionPatch = DefinitionPatch(
    name: Option<string>,
    displayName: Option<string>,
    kind: Option<DefinitionType>,
    useHintRect: Option<bool>)

  /** `Object.assign(d, {...patch, annotationId: id})`. */
  function Patched(d: Definition, id: string, p: DefinitionPatch): Definition
  {
    Definition(
      p.name.GetOr(d.name),
      p.displayName.GetOr(d.displayName),
      p.kind.GetOr(d.kind),
      id,
      if p.useHintRect.Some? then p.useHintRect else d.useHintRect)
  }

  /** `Definitions.update`: `Object.assign` on a missing definition throws a `TypeError`. */
  function UpdateDefinition(m: Meta, id: string, p: DefinitionPatch): (r: Result<Meta, ScriptError>)
    ensures r.Err? <==> id !in Assoc.Keys(m.definitions)
    ensures r.Err? ==> r.error == ScriptError.TypeError
    ensures r.Ok? ==> r.value.annotations == m.annotations
    ensures r.Ok? ==> Assoc.Keys(r.value.definitions) == Assoc.Keys(m.definitions)
  {
    match Assoc.Get(m.definitions, id)
    case None => Err(ScriptError.TypeError)
    case Some(d) => Ok(Meta(Assoc.Set(m.definitions, id, Patched(d, id, p)), m.annotations))
  }

  /** `Definitions.remove`: `delete definitions[id]`. */
  function RemoveDefinition(m: Meta, id: string): (r: Meta)
    ensures r.annotations == m.annotations
    ensures id !in Assoc.Keys(r.definitions)
  {
    Meta(Assoc.Remove(m.definitions, id), m.annotations)
  }

  /** Adding stores the definition and leaves every other id as it was. */
  lemma AddDefinitionGet(m: Meta, d: Definition, k: string)
    ensures Assoc.Get(AddDefinition(m, d).definitions, k)
         == if k == d.annotationId then Some(d) else Assoc.Get(m.definitions, k)
  {
    Assoc.GetSet(m.definitions, d.annotationId, d, k);
  }

  /**
   * Updating overwrites exactly the fields the patch carries, keeps the
   * others, and leaves every other definition as it was.
   */
  lemma UpdateDefinitionGet(m: Meta, id: string, p: DefinitionPatch, k: string)
    requires id in Assoc.Keys(m.definitions)
    ensures var d := Assoc.Get(m.definitions, id).value;
            var e := Assoc.Get(UpdateDefinition(m, id, p).value.definitions, id).value;
            && (p.name.Some? ==> e.name == p.name.value) && (p.name.None? ==> e.name == d.name)
            && (p.displayName.Some? ==> e.displayName == p.displayName.value)
            && (p.displayName.None? ==> e.displayName == d.displayName)
            && (p.kind.Some? ==> e.kind == p.kind.value) && (p.kind.None? ==> e.kind == d.kind)
            && (p.useHintRect.Some? ==> e.useHintRect == p.useHintRect)
            && (p.useHintRect.None? ==> e.useHintRect == d.useHintRect)
            && e.annotationId == id
    ensures k != id ==> Assoc.Get(UpdateDefinition(m, id, p).value.definitions, k) == Assoc.Get(m.definitions, k)
  {
    var d := Assoc.Get(m.definitions, id).value;
    Assoc.GetSet(m.definitions, id, Patched(d, id, p), id);
    Assoc.GetSet(m.definitions, id, Patched(d, id, p), k);
  }

  /** Removing drops exactly that id. */
  lemma RemoveDefinitionGet(m: Meta, id: string, k: string)
    ensures Assoc.Get(RemoveDefinition(m, id).definitions, k) == if k == id then None else Assoc.Get(m.definitions, k)
  {
    Assoc.GetRemove(m.definitions, id, k);
  }

  // ---------------------------------------------------------------------
  // Annotations
  // ---------------------------------------------------------------------

  /** The index `annotations.find(a => a.id === id)` stops at. */
  function FindAnnotation(anns: seq<Annotation>, id: string): (r: Option<nat>)
    ensures r.Some? ==> r.value < |anns| && anns[r.value].id == id
    ensures r.Some? ==> forall j :: 0 <= j < r.value ==> anns[j].id != id
    ensures r.None? ==> forall j :: 0 <= j < |anns| ==> anns[j].id != id
  {
    if |anns| == 0 then None
    else if anns[0].id == id then Some(0)
    else
      match FindAnnotation(anns[1..], id)
      case None => None
      case Some(i) => Some(i + 1)
  }

  /** `Annotations.add`: appended last. */
  function AddAnnotation(m: Meta, a: Annotation): (r: Meta)
    ensures r.definitions == m.definitions
    ensures |r.annotations| == |m.annotations| + 1 && r.annotations[|m.annotations|] == a
    ensures r.annotations[..|m.annotations|] == m.annotations
  {
    Meta(m.definitions, m.annotations + [a])
  }

  /** What `Annotations.update` receives: the id, and the other fields when present. */
  datatype AnnotationPatch = AnnotationPatch(id: string, shape: Option<Shape>, tip: Option<string>)

  /** A whole annotation passed as a patch: its `_tip`, when absent, is not assigned. */
  function AsPatch(a: Annotation): AnnotationPatch
  {
    AnnotationPatch(a.id, Some(a.shape), a.tip)
  }

  function ApplyPatch(a: Annotation, p: AnnotationPatch): Annotation
  {
    Annotation(p.id, p.shape.GetOr(a.shape), if p.tip.Some? then p.tip else a.tip)
  }

  /** `Annotations.update`: `Object.assign` on the first annotation with the id; nothing when there is none. */
  function UpdateAnnotation(m: Meta, p: AnnotationPatch): (r: Meta)
    ensures r.definitions == m.definitions
    ensures |r.annotations| == |m.annotations|
    ensures forall j :: 0 <= j < |r.annotations| ==> r.annotations[j].id == m.annotations[j].id
  {
    match FindAnnotation(m.annotations, p.id)
    case None => m
    case Some(i) => Meta(m.definitions, m.annotations[i := ApplyPatch(m.annotations[i], p)])
  }

  /** `annotations.filter(a => a.id !== id)`. */
  function WithoutId(anns: seq<Annotation>, id: string): (r: seq<Annotation>)
    ensures |r| <= |anns|
    ensures forall j :: 0 <= j < |r| ==> r[j].id != id && r[j] in anns
    ensures forall j :: 0 <= j < |anns| && anns[j].id != id ==> anns[j] in r
  {
    if |anns| == 0 then []
    else
      var rest := WithoutId(anns[1..], id);
      if anns[0].id == id then
        assert forall j :: 0 < j < |anns| ==> anns[j] == anns[1..][j - 1];
        rest
      else
        assert forall j :: 0 < j < |anns| ==> anns[j] == anns[1..][j - 1];
        [anns[0]] + rest
  }

  /** The test `a.id !== id`. */
  function OtherId(id: string): Annotation -> bool
  {
    (a: Annotation) => a.id != id
  }

  /** Removal is the order-keeping filter of the annotations with another id. */
  lemma {:induction false} WithoutIdIsFilter(anns: seq<Annotation>, id: string)
    ensures WithoutId(anns, id) == Sorting.Filter(anns, OtherId(id))
  {
    if |anns| > 0 {
      WithoutIdIsFilter(anns[1..], id);
    }
  }

  /** Removal works piece by piece: an annotation stays, in place, exactly when its id differs. */
  lemma WithoutIdAppend(a: seq<Annotation>, b: seq<Annotation>, id: string)
    ensures WithoutId(a + b, id) == WithoutId(a, id) + WithoutId(b, id)
    ensures forall x: Annotation :: WithoutId([x], id) == if x.id == id then [] else [x]
  {
    WithoutIdIsFilter(a + b, id);
    WithoutIdIsFilter(a, id);
    WithoutIdIsFilter(b, id);
    Sorting.FilterAppend(a, b, OtherId(id));
  }

  /** `Annotations.remove`. */
  function RemoveAnnotation(m: Meta, id: string): (r: Meta)
    ensures r.definitions == m.definitions
    ensures FindAnnotation(r.annotations, id).None?
  {
    Meta(m.definitions, WithoutId(m.annotations, id))
  }

  /** Only the first annotation with the id takes the patch; every other one is unchanged. */
  lemma UpdateAnnotationFirst(m: Meta, p: AnnotationPatch)
    ensures FindAnnotation(m.annotations, p.id).None? ==> UpdateAnnotation(m, p) == m
    ensures FindAnnotation(m.annotations, p.id).Some? ==>
      var i := FindAnnotation(m.annotations, p.id).value;
      && UpdateAnnotation(m, p).annotations[i] == ApplyPatch(m.annotations[i], p)
      && (forall j :: 0 <= j < |m.annotations| && j != i ==> UpdateAnnotation(m, p).annotations[j] == m.annotations[j])
  {
  }

  /** Removing an id that is not there changes nothing, and removing twice is removing once. */
  lemma {:induction false} WithoutIdAbsent(anns: seq<Annotation>, id: string)
    requires forall j :: 0 <= j < |anns| ==> anns[j].id != id
    ensures WithoutId(anns, id) == anns
  {
    if |anns| > 0 {
      WithoutIdAbsent(anns[1..], id);
    }
  }

  lemma RemoveAnnotationIdempotent(m: Meta, id: string)
    ensures RemoveAnnotation(RemoveAnnotation(m, id), id) == RemoveAnnotation(m, id)
  {
    WithoutIdAbsent(WithoutId(m.annotations, id), id);
  }

  // ---------------------------------------------------------------------
  // Clearing, loading, emptiness
  // ---------------------------------------------------------------------

  /** `isEmpty()`: no annotation and no definition key. */
  predicate IsEmpty(m: Meta)
  {
    |m.annotations| == 0 && |Assoc.Keys(m.definitions)| == 0
  }

  /** `clear()`. */
  function Clear(m: Meta): (r: Meta)
    ensures IsEmpty(r)
  {
    Empty
  }

  /** What `load` receives: either part may be absent. */
  datatype MetaPatch = MetaPatch(definitions: Option<Definitions>, annotations: Option<seq<Annotation>>)

  /** `load(data)`: each part present in `data` replaces the store's, copied in order. */
  function Load(m: Meta, p: MetaPatch): (r: Meta)
    ensures p.definitions.None? ==> r.definitions == m.definitions
    ensures p.annotations.None? ==> r.annotations == m.annotations
  {
    Meta(p.definitions.GetOr(m.definitions), p.annotations.GetOr(m.annotations))
  }

  /** The empty store is the only empty one; a full load ignores what was there; loading twice is loading once. */
  lemma LoadAndEmpty(m: Meta, m': Meta, p: MetaPatch)
    ensures IsEmpty(m) <==> m == Empty
    ensures Load(m, MetaPatch(Some(m'.definitions), Some(m'.annotations))) == m'
    ensures Load(m, MetaPatch(None, None)) == m
    ensures Load(Load(m, p), p) == Load(m, p)
    ensures !IsEmpty(AddAnnotation(m, AnnotationOf(m')))
  {
  }

  /** Any annotation, to state that adding one makes the store non-empty. */
  function AnnotationOf(m: Meta): Annotation
  {
    if |m.annotations| > 0 then m.annotations[0] else Annotation("", At(Point(0.0, 0.0)), None)
  }

  // ---------------------------------------------------------------------
  // Serialisation: the JSON tree `toString` writes
  // ---------------------------------------------------------------------

  function TypeName(t: DefinitionType): string
  {
    match t
    case Template => "template"
    case Ocr => "ocr"
    case Color => "color"
    case HintBox => "hint-box"
    case HintPoint => "hint-point"
  }

  function TypeOfName(s: string): (r: Option<DefinitionType>)
    ensures forall t :: s == TypeName(t) ==> r == Some(t)
  {
    if s == "template" then Some(Template)
    else if s == "ocr" then Some(Ocr)
    else if s == "color" then Some(Color)
    else if s == "hint-box" then Some(HintBox)
    else if s == "hint-point" then Some(HintPoint)
    else None
  }

  function DefinitionJson(d: Definition): Value
  {
    Dict([("name", Str(d.name)), ("displayName", Str(d.displayName)), ("type", Str(TypeName(d.kind))),
          ("annotationId", Str(d.annotationId))]
         + (if d.useHintRect.Some? then [("useHintRect", Bool(d.useHintRect.value))] else []))
  }

  function ShapeJson(s: Shape): (string, Value)
  {
    match s
    case Rect(r) =>
      ("rect", Dict([("x1", Float(r.x1)), ("y1", Float(r.y1)), ("x2", Float(r.x2)), ("y2", Float(r.y2))]))
    case At(p) => ("point", Dict([("x", Float(p.x)), ("y", Float(p.y))]))
  }

  function AnnotationJson(a: Annotation): Value
  {
    var (kind, data) := ShapeJson(a.shape);
    Dict([("id", Str(a.id)), ("type", Str(kind)), ("data", data)]
         + (if a.tip.Some? then [("_tip", Str(a.tip.value))] else []))
  }

  function DefinitionEntries(defs: Definitions): seq<(string, Value)>
  {
    seq(|defs|, i requires 0 <= i < |defs| => (defs[i].0, DefinitionJson(defs[i].1)))
  }

  function AnnotationItems(anns: seq<Annotation>): seq<Value>
  {
    seq(|anns|, i requires 0 <= i < |anns| => AnnotationJson(anns[i]))
  }

  /** The store as a JSON tree, before the replacer runs. */
  function MetaJson(m: Meta): Value
  {
    Dict([("definitions", Dict(DefinitionEntries(m.definitions))),
          ("annotations", List(AnnotationItems(m.annotations)))])
  }

  /** `key.startsWith('_')`. */
  predicate Private(key: string)
  {
    |key| > 0 && key[0] == '_'
  }

  /** The entries whose key is not private, in order. */
  function PublicEntries(es: seq<(string, Value)>): (r: seq<(string, Value)>)
    ensures forall i :: 0 <= i < |r| ==> !Private(r[i].0) && r[i] in es
    ensures (forall i :: 0 <= i < |es| ==> !Private(es[i].0)) ==> r == es
  {
    if |es| == 0 then []
    else
      var rest := PublicEntries(es[1..]);
      if Private(es[0].0) then rest else [es[0]] + rest
  }

  /** The tree `JSON.stringify` writes with the replacer that drops keys starting with '_'. */
  function StripPrivate(v: Value): Value
  {
    match v
    case List(items) => List(seq(|items|, i requires 0 <= i < |items| => StripPrivate(items[i])))
    case Tuple(items) => Tuple(seq(|items|, i requires 0 <= i < |items| => StripPrivate(items[i])))
    case Dict(es) => Dict(PublicEntries(seq(|es|, i requires 0 <= i < |es| => (es[i].0, StripPrivate(es[i].1)))))
    case _ => v
  }

  /** No key starting with '_' anywhere in the tree. */
  ghost predicate NoPrivate(v: Value)
  {
    match v
    case List(items) => forall i :: 0 <= i < |items| ==> NoPrivate(items[i])
    case Tuple(items) => forall i :: 0 <= i < |items| ==> NoPrivate(items[i])
    case Dict(es) => forall i :: 0 <= i < |es| ==> !Private(es[i].0) && NoPrivate(es[i].1)
    case _ => true
  }

  /** The replacer leaves no private key anywhere. */
  lemma {:induction false} StripPrivateClean(v: Value)
    ensures NoPrivate(StripPrivate(v))
  {
    match v
    case List(items) =>
      forall i | 0 <= i < |items| ensures NoPrivate(StripPrivate(items[i])) {
        StripPrivateClean(items[i]);
      }
    case Tuple(items) =>
      forall i | 0 <= i < |items| ensures NoPrivate(StripPrivate(items[i])) {
        StripPrivateClean(items[i]);
      }
    case Dict(es) =>
      var es' := seq(|es|, i requires 0 <= i < |es| => (es[i].0, StripPrivate(es[i].1)));
      forall i | 0 <= i < |es| ensures NoPrivate(es'[i].1) {
        StripPrivateClean(es[i].1);
      }
      var r := PublicEntries(es');
      forall i | 0 <= i < |r| ensures !Private(r[i].0) && NoPrivate(r[i].1) {
        var j :| 0 <= j < |es'| && es'[j] == r[i];
      }
    case _ =>
  }

  /** A tree without private keys is written as it is. */
  lemma {:induction false} StripPrivateKeeps(v: Value)
    requires NoPrivate(v)
    ensures StripPrivate(v) == v
  {
    match v
    case List(items) =>
      forall i | 0 <= i < |items| ensures StripPrivate(items[i]) == items[i] {
        StripPrivateKeeps(items[i]);
      }
    case Tuple(items) =>
      forall i | 0 <= i < |items| ensures StripPrivate(items[i]) == items[i] {
        StripPrivateKeeps(items[i]);
      }
    case Dict(es) =>
      var es' := seq(|es|, i requires 0 <= i < |es| => (es[i].0, StripPrivate(es[i].1)));
      forall i | 0 <= i < |es| ensures es'[i] == es[i] {
        StripPrivateKeeps(es[i].1);
      }
      assert es' == es;
    case _ =>
  }

  /** Running the replacer twice is running it once. */
  lemma StripPrivateIdempotent(v: Value)
    ensures StripPrivate(StripPrivate(v)) == StripPrivate(v)
  {
    StripPrivateClean(v);
    StripPrivateKeeps(StripPrivate(v));
  }

  // ---------------------------------------------------------------------
  // Reading the tree back: `fromString(toString(m))`
  // ---------------------------------------------------------------------

  /** Property access on a parsed object: the value under `k`, if any. */
  function Field(es: seq<(string, Value)>, k: string): Option<Value>
  {
    if |es| == 0 then None else if es[0].0 == k then Some(es[0].1) else Field(es[1..], k)
  }

  function StrAt(es: seq<(string, Value)>, k: string): Option<string>
  {
    match Field(es, k)
    case Some(Str(s)) => Some(s)
    case _ => None
  }

  function NumAt(es: seq<(string, Value)>, k: string): Option<real>
  {
    match Field(es, k)
    case Some(Float(f)) => Some(f)
    case _ => None
  }

  /** A parsed definition object; `None` when a field is missing or of the wrong type. */
  function DefinitionOf(v: Value): Option<Definition>
  {
    if v.Dict? && StrAt(v.entries, "name").Some? && StrAt(v.entries, "displayName").Some?
       && StrAt(v.entries, "type").Some? && TypeOfName(StrAt(v.entries, "type").value).Some?
       && StrAt(v.entries, "annotationId").Some? then
      var d := Definition(StrAt(v.entries, "name").value, StrAt(v.entries, "displayName").value,
                          TypeOfName(StrAt(v.entries, "type").value).value, StrAt(v.entries, "annotationId").value, None);
      match Field(v.entries, "useHintRect")
      case None => Some(d)
      case Some(Bool(b)) => Some(d.(useHintRect := Some(b)))
      case _ => None
    else None
  }

  function ShapeOf(kind: string, data: Value): Option<Shape>
  {
    if !data.Dict? then None
    else if kind == "rect" && NumAt(data.entries, "x1").Some? && NumAt(data.entries, "y1").Some?
            && NumAt(data.entries, "x2").Some? && NumAt(data.entries, "y2").Some? then
      Some(Rect(RectPoints(NumAt(data.entries, "x1").value, NumAt(data.entries, "y1").value,
                           NumAt(data.entries, "x2").value, NumAt(data.entries, "y2").value)))
    else if kind == "point" && NumAt(data.entries, "x").Some? && NumAt(data.entries, "y").Some? then
      Some(At(Point(NumAt(data.entries, "x").value, NumAt(data.entries, "y").value)))
    else None
  }

  /** A parsed annotation object; a `_tip` is read back when one is there. */
  function AnnotationOfJson(v: Value): Option<Annotation>
  {
    if v.Dict? && StrAt(v.entries, "id").Some? && StrAt(v.entries, "type").Some? && Field(v.entries, "data").Some?
       && ShapeOf(StrAt(v.entries, "type").value, Field(v.entries, "data").value).Some? then
      Some(Annotation(StrAt(v.entries, "id").value,
                      ShapeOf(StrAt(v.entries, "type").value, Field(v.entries, "data").value).value,
                      StrAt(v.entries, "_tip")))
    else None
  }

  function DefinitionsOf(es: seq<(string, Value)>): Option<Definitions>
  {
    if |es| == 0 then Some([])
    else match (DefinitionOf(es[0].1), DefinitionsOf(es[1..]))
      case (Some(d), Some(rest)) => Some([(es[0].0, d)] + rest)
      case _ => None
  }

  function AnnotationsOf(items: seq<Value>): Option<seq<Annotation>>
  {
    if |items| == 0 then Some([])
    else match (AnnotationOfJson(items[0]), AnnotationsOf(items[1..]))
      case (Some(a), Some(rest)) => Some([a] + rest)
      case _ => None
  }

  /** The parsed document as `ImageMetaData`. */
  function MetaOf(v: Value): Option<Meta>
  {
    if v.Dict? && Field(v.entries, "definitions").Some? && Field(v.entries, "definitions").value.Dict?
       && Field(v.entries, "annotations").Some? && Field(v.entries, "annotations").value.List? then
      match (DefinitionsOf(Field(v.entries, "definitions").value.entries),
             AnnotationsOf(Field(v.entries, "annotations").value.items))
      case (Some(ds), Some(anns)) => Some(Meta(ds, anns))
      case _ => None
    else None
  }

  /** The value of the first entry with a key. */
  lemma {:induction false} FieldAt(es: seq<(string, Value)>, i: nat)
    requires i < |es| && forall j :: 0 <= j < i ==> es[j].0 != es[i].0
    ensures Field(es, es[i].0) == Some(es[i].1)
  {
    if i > 0 {
      FieldAt(es[1..], i - 1);
    }
  }

  lemma {:induction false} FieldAbsent(es: seq<(string, Value)>, k: string)
    requires forall j :: 0 <= j < |es| ==> es[j].0 != k
    ensures Field(es, k) == None
  {
    if |es| > 0 {
      FieldAbsent(es[1..], k);
    }
  }

  lemma {:induction false} DefinitionRoundTrip(d: Definition)
    ensures DefinitionOf(DefinitionJson(d)) == Some(d)
  {
    var es := DefinitionJson(d).entries;
    assert "type"[0] != "name"[0];
    assert "useHintRect"[0] != "displayName"[0];
    FieldAt(es, 0);
    FieldAt(es, 1);
    FieldAt(es, 2);
    FieldAt(es, 3);
    if d.useHintRect.Some? {
      FieldAt(es, 4);
    } else {
      FieldAbsent(es, "useHintRect");
    }
  }

  lemma {:induction false} ShapeRoundTrip(sh: Shape)
    ensures ShapeOf(ShapeJson(sh).0, ShapeJson(sh).1) == Some(sh)
  {
    var es := ShapeJson(sh).1.entries;
    match sh
    case Rect(r) =>
      assert "x1"[0] != "y1"[0] && "x1"[1] != "x2"[1] && "y1"[1] != "y2"[1] && "x2"[0] != "y2"[0];
      FieldAt(es, 0);
      FieldAt(es, 1);
      FieldAt(es, 2);
      FieldAt(es, 3);
    case At(p) =>
      assert "x"[0] != "y"[0];
      FieldAt(es, 0);
      FieldAt(es, 1);
  }

  lemma {:induction false} AnnotationRoundTrip(a: Annotation)
    ensures AnnotationOfJson(AnnotationJson(a)) == Some(a)
  {
    var es := AnnotationJson(a).entries;
    assert "type"[0] != "data"[0] && "_tip"[0] != "type"[0] && "_tip"[0] != "data"[0];
    FieldAt(es, 0);
    FieldAt(es, 1);
    FieldAt(es, 2);
    ShapeRoundTrip(a.shape);
    if a.tip.Some? {
      FieldAt(es, 3);
    } else {
      FieldAbsent(es, "_tip");
    }
  }

  lemma {:induction false} DefinitionsRoundTrip(defs: Definitions)
    ensures DefinitionsOf(DefinitionEntries(defs)) == Some(defs)
  {
    if |defs| > 0 {
      DefinitionRoundTrip(defs[0].1);
      DefinitionsRoundTrip(defs[1..]);
      assert DefinitionEntries(defs)[1..] == DefinitionEntries(defs[1..]);
      assert [defs[0]] + defs[1..] == defs;
    }
  }

  lemma {:induction false} AnnotationsRoundTrip(anns: seq<Annotation>)
    ensures AnnotationsOf(AnnotationItems(anns)) == Some(anns)
  {
    if |anns| > 0 {
      AnnotationRoundTrip(anns[0]);
      AnnotationsRoundTrip(anns[1..]);
      assert AnnotationItems(anns)[1..] == AnnotationItems(anns[1..]);
      assert [anns[0]] + anns[1..] == anns;
    }
  }

  /** Parsing the tree of a store gives the store back. */
  lemma {:induction false} MetaRoundTrip(m: Meta)
    ensures MetaOf(MetaJson(m)) == Some(m)
  {
    DefinitionsRoundTrip(m.definitions);
    AnnotationsRoundTrip(m.annotations);
    assert "definitions"[0] != "annotations"[0];
    FieldAt(MetaJson(m).entries, 0);
    FieldAt(MetaJson(m).entries, 1);
  }

  /** The store with every `_tip` dropped. */
  function Untipped(m: Meta): (r: Meta)
    ensures r.definitions == m.definitions && |r.annotations| == |m.annotations|
    ensures forall i :: 0 <= i < |r.annotations| ==> r.annotations[i] == m.annotations[i].(tip := None)
  {
    Meta(m.definitions, seq(|m.annotations|, i requires 0 <= i < |m.annotations| => m.annotations[i].(tip := None)))
  }

  /** No definition is stored under a key starting with '_'. */
  predicate PublicIds(m: Meta)
  {
    forall i :: 0 <= i < |m.definitions| ==> !Private(m.definitions[i].0)
  }

  lemma PublicEntriesCons(e: (string, Value), es: seq<(string, Value)>)
    ensures PublicEntries([e] + es) == if Private(e.0) then PublicEntries(es) else [e] + PublicEntries(es)
  {
    assert ([e] + es)[1..] == es;
  }

  /** The entries of a dict with the replacer applied to each value. */
  function StripEntries(es: seq<(string, Value)>): seq<(string, Value)>
  {
    seq(|es|, i requires 0 <= i < |es| => (es[i].0, StripPrivate(es[i].1)))
  }

  lemma StripDict(es: seq<(string, Value)>)
    ensures StripPrivate(Dict(es)) == Dict(PublicEntries(StripEntries(es)))
  {
  }

  lemma StripEntriesCons(e: (string, Value), es: seq<(string, Value)>)
    ensures StripEntries([e] + es) == [(e.0, StripPrivate(e.1))] + StripEntries(es)
  {
  }

  /** The replacer removes an annotation's `_tip` and nothing else. */
  lemma {:induction false} StripAnnotation(a: Annotation)
    ensures StripPrivate(AnnotationJson(a)) == AnnotationJson(a.(tip := None))
  {
    var (kind, data) := ShapeJson(a.shape);
    assert NoPrivate(data);
    StripPrivateKeeps(data);
    var e0, e1, e2 := ("id", Str(a.id)), ("type", Str(kind)), ("data", data);
    var tail := if a.tip.Some? then [("_tip", Str(a.tip.value))] else [];
    assert AnnotationJson(a) == Dict([e0] + ([e1] + ([e2] + tail)));
    assert AnnotationJson(a.(tip := None)) == Dict([e0] + ([e1] + ([e2] + [])));
    StripDict([e0] + ([e1] + ([e2] + tail)));
    StripEntriesCons(e0, [e1] + ([e2] + tail));
    StripEntriesCons(e1, [e2] + tail);
    StripEntriesCons(e2, tail);
    assert StripPrivate(e0.1) == e0.1 && StripPrivate(e1.1) == e1.1;
    assert PublicEntries(StripEntries(tail)) == [] by {
      if a.tip.Some? {
        StripEntriesCons(tail[0], []);
        PublicEntriesCons((tail[0].0, StripPrivate(tail[0].1)), []);
      }
    }
    PublicEntriesCons(e2, StripEntries(tail));
    PublicEntriesCons(e1, [e2] + StripEntries(tail));
    PublicEntriesCons(e0, [e1] + ([e2] + StripEntries(tail)));
  }

  /**
   * `fromString(toString(m))`: with no definition stored under a private key,
   * the replacer writes the store minus its tips, and that is what is read back.
   */
  lemma {:induction false} SerialiseRoundTrip(m: Meta)
    requires PublicIds(m)
    ensures StripPrivate(MetaJson(m)) == MetaJson(Untipped(m))
    ensures MetaOf(StripPrivate(MetaJson(m))) == Some(Untipped(m))
  {
    var defs := Dict(DefinitionEntries(m.definitions));
    var anns := List(AnnotationItems(m.annotations));
    var anns' := List(AnnotationItems(Untipped(m).annotations));
    StripDefinitions(m);
    StripAnnotations(m);
    StripTop(defs, anns, anns');
    MetaRoundTrip(Untipped(m));
  }

  /** The replacer on the top-level object: both keys are public. */
  lemma StripTop(defs: Value, anns: Value, anns': Value)
    requires StripPrivate(defs) == defs && StripPrivate(anns) == anns'
    ensures StripPrivate(Dict([("definitions", defs), ("annotations", anns)]))
         == Dict([("definitions", defs), ("annotations", anns')])
  {
    var e0, e1 := ("definitions", defs), ("annotations", anns);
    var es := [e0] + [e1];
    assert PublicEntries(StripEntries(es)) == [e0] + [(e1.0, anns')] by {
      StripEntriesCons(e0, [e1]);
      StripEntriesCons(e1, []);
      PublicEntriesCons((e1.0, anns'), []);
      PublicEntriesCons(e0, [(e1.0, anns')]);
    }
    StripDict(es);
    assert [e0, e1] == es;
  }

  lemma StripDefinitions(m: Meta)
    requires PublicIds(m)
    ensures StripPrivate(Dict(DefinitionEntries(m.definitions))) == Dict(DefinitionEntries(m.definitions))
  {
    assert NoPrivate(Dict(DefinitionEntries(m.definitions))) by {
      forall i | 0 <= i < |m.definitions| ensures NoPrivate(DefinitionJson(m.definitions[i].1)) {
        DefinitionClean(m.definitions[i].1);
      }
    }
    StripPrivateKeeps(Dict(DefinitionEntries(m.definitions)));
  }

  lemma StripAnnotations(m: Meta)
    ensures StripPrivate(List(AnnotationItems(m.annotations))) == List(AnnotationItems(Untipped(m).annotations))
  {
    forall i | 0 <= i < |m.annotations|
      ensures StripPrivate(AnnotationItems(m.annotations)[i]) == AnnotationItems(Untipped(m).annotations)[i]
    {
      StripAnnotation(m.annotations[i]);
    }
  }

  lemma DefinitionClean(d: Definition)
    ensures NoPrivate(DefinitionJson(d))
  {
  }
}

=== FILE: image_utils.dfy ===
/**
 * Image helpers of the devtool (`kotonebot-devtool/src/utils/imageUtils.ts`):
 * fitting an image into a container, wheel zoom, and the URLs images are
 * read from. `encodeURIComponent` is a parameter.
 */
module ImageUtils {
  import opened Text
  import opened EditorTypes

  datatype Dimensions = Dimensions(width: real, height: real, scale: real)

  /**
   * `calculateImageDimensions`: an image larger than the container is
   * scaled down along the side that limits it; a smaller one stays as it is.
   */
  function CalculateImageDimensions(imageWidth: real, imageHeight: real, containerWidth: real, containerHeight: real): (d: Dimensions)
    requires imageWidth > 0.0 && imageHeight > 0.0 && containerWidth > 0.0 && containerHeight > 0.0
    ensures 0.0 < d.scale <= 1.0
    ensures d.width == imageWidth * d.scale && d.height == imageHeight * d.scale
    ensures d.width <= containerWidth && d.height <= containerHeight
    ensures d.scale == 1.0 <==> imageWidth <= containerWidth && imageHeight <= containerHeight
    ensures d.scale < 1.0 ==> d.width == containerWidth || d.height == containerHeight
  {
    var imageRatio := imageWidth / imageHeight;
    var containerRatio := containerWidth / containerHeight;
    if imageRatio > containerRatio then
      if imageWidth > containerWidth then
        var scale := containerWidth / imageWidth;
        WiderFits(imageWidth, imageHeight, containerWidth, containerHeight);
        Dimensions(containerWidth, imageHeight * scale, scale)
      else
        WiderUnscaledFits(imageWidth, imageHeight, containerWidth, containerHeight);
        Dimensions(imageWidth, imageHeight, 1.0)
    else
      if imageHeight > containerHeight then
        var scale := containerHeight / imageHeight;
        TallerFits(imageWidth, imageHeight, containerWidth, containerHeight);
        Dimensions(imageWidth * scale, containerHeight, scale)
      else
        TallerUnscaledFits(imageWidth, imageHeight, containerWidth, containerHeight);
        Dimensions(imageWidth, imageHeight, 1.0)
  }

  /** Cross-multiplying the aspect ratios. */
  lemma RatioCross(iw: real, ih: real, cw: real, ch: real)
    requires iw > 0.0 && ih > 0.0 && cw > 0.0 && ch > 0.0
    ensures iw / ih > cw / ch <==> iw * ch > cw * ih
  {
    var a, b := iw / ih, cw / ch;
    assert a * ih == iw && b * ch == cw;
    assert iw * ch - cw * ih == (a - b) * (ih * ch);
    PositiveProduct(a - b, ih * ch);
  }

  /** With a positive factor, a product has the sign of the other factor. */
  lemma PositiveProduct(x: real, y: real)
    requires y > 0.0
    ensures x * y > 0.0 <==> x > 0.0
  {
    if x > 0.0 {
      assert x * y > 0.0;
    } else {
      assert x * y <= 0.0;
    }
  }

  /** A side of `a` shrunk by `c / a` from `b` is no longer than `d` when `b * c <= d * a`. */
  lemma ScaledSide(a: real, b: real, c: real, d: real)
    requires a > 0.0 && b * c <= d * a
    ensures b * (c / a) <= d
  {
    var q := c / a;
    assert q * a == c;
    assert (d - b * q) * a == d * a - b * c;
    PositiveProduct(d - b * q, a);
  }

  /** A scale of a smaller over a larger positive length lies strictly between 0 and 1. */
  lemma ScaleBelowOne(c: real, a: real)
    requires 0.0 < c < a
    ensures 0.0 < c / a < 1.0
  {
    var q := c / a;
    assert q * a == c;
    PositiveProduct(q, a);
    assert (1.0 - q) * a == a - c;
    PositiveProduct(1.0 - q, a);
  }

  /** A wider image shrunk to the container's width is no taller than the container. */
  lemma WiderFits(iw: real, ih: real, cw: real, ch: real)
    requires iw > 0.0 && ih > 0.0 && cw > 0.0 && ch > 0.0
    requires iw / ih > cw / ch && iw > cw
    ensures ih * (cw / iw) <= ch && 0.0 < cw / iw < 1.0
  {
    RatioCross(iw, ih, cw, ch);
    ScaledSide(iw, ih, cw, ch);
    ScaleBelowOne(cw, iw);
  }

  lemma WiderUnscaledFits(iw: real, ih: real, cw: real, ch: real)
    requires iw > 0.0 && ih > 0.0 && cw > 0.0 && ch > 0.0
    requires iw / ih > cw / ch && iw <= cw
    ensures ih <= ch
  {
    RatioCross(iw, ih, cw, ch);
    assert cw * ch >= iw * ch;
    assert cw * ih < cw * ch;
  }

  /** A taller image shrunk to the container's height is no wider than the container. */
  lemma TallerFits(iw: real, ih: real, cw: real, ch: real)
    requires iw > 0.0 && ih > 0.0 && cw > 0.0 && ch > 0.0
    requires iw / ih <= cw / ch && ih > ch
    ensures iw * (ch / ih) <= cw && 0.0 < ch / ih < 1.0
  {
    RatioCross(iw, ih, cw, ch);
    ScaledSide(ih, iw, ch, cw);
    ScaleBelowOne(ch, ih);
  }

  lemma TallerUnscaledFits(iw: real, ih: real, cw: real, ch: real)
    requires iw > 0.0 && ih > 0.0 && cw > 0.0 && ch > 0.0
    requires iw / ih <= cw / ch && ih <= ch
    ensures iw <= cw
  {
    RatioCross(iw, ih, cw, ch);
    assert cw * ih <= cw * ch;
    assert iw * ch <= cw * ch;
  }

  const ZoomSensitivity: real := 0.001
  const DefaultMinScale: real := 0.1
  const DefaultMaxScale: real := 5.0

  /** `calculateZoom`: a wheel delta shrinks or grows the scale proportionally, clamped (the maximum wins a conflict). */
  function CalculateZoom(currentScale: real, delta: real, minScale: real, maxScale: real): (r: real)
    ensures r <= maxScale
    ensures minScale <= maxScale ==> minScale <= r
    ensures minScale <= currentScale <= maxScale && delta == 0.0 ==> r == currentScale
    ensures var proposed := currentScale * (1.0 - delta * 0.001);
      && (minScale <= proposed <= maxScale ==> r == proposed)
      && (proposed > maxScale ==> r == maxScale)
      && (proposed < minScale <= maxScale ==> r == minScale)
  {
    var newScale := currentScale * (1.0 - delta * ZoomSensitivity);
    Min(Max(newScale, minScale), maxScale)
  }

  /** `calculateZoom` with its default bounds: the scale stays between a tenth and five times. */
  function CalculateZoomDefault(currentScale: real, delta: real): (r: real)
    ensures DefaultMinScale <= r <= DefaultMaxScale
    ensures 0.1 <= currentScale * (1.0 - delta * 0.001) <= 5.0 ==> r == currentScale * (1.0 - delta * 0.001)
  {
    CalculateZoom(currentScale, delta, DefaultMinScale, DefaultMaxScale)
  }

  /** Scrolling further down never zooms in further. */
  lemma ZoomMonotone(currentScale: real, d1: real, d2: real, minScale: real, maxScale: real)
    requires currentScale >= 0.0 && d1 <= d2
    ensures CalculateZoom(currentScale, d2, minScale, maxScale) <= CalculateZoom(currentScale, d1, minScale, maxScale)
  {
    var n1, n2 := currentScale * (1.0 - d1 * ZoomSensitivity), currentScale * (1.0 - d2 * ZoomSensitivity);
    assert n1 - n2 == currentScale * ((d2 - d1) * ZoomSensitivity);
    assert currentScale * ((d2 - d1) * ZoomSensitivity) >= 0.0;
    assert n2 <= n1;
  }

  /** Where an image is read from. */
  datatype Source = Memory | File

  function Route(kind: Source): string
  {
    match kind
    case Memory => "/api/read_memory?key="
    case File => "/api/read_file?path="
  }

  /** `getImageUrl`: the route for the source, then the encoded path. */
  function GetImageUrl(kind: Source, path: string, baseUrl: string, encode: string -> string): (url: string)
    ensures StartsWith(url, baseUrl + Route(kind))
    ensures url[|baseUrl + Route(kind)|..] == encode(path)
  {
    var prefix := baseUrl + Route(kind);
    assert (prefix + encode(path))[..|prefix|] == prefix;
    prefix + encode(path)
  }

  /** The character after `/api/read_` tells the two routes apart. */
  lemma RouteAt(u: string, baseUrl: string, kind: Source)
    requires StartsWith(u, baseUrl + Route(kind))
    ensures |baseUrl| + 10 < |u|
    ensures u[|baseUrl| + 10] == (if kind == Memory then 'm' else 'f')
  {
    var prefix := baseUrl + Route(kind);
    assert u[|baseUrl| + 10] == u[..|prefix|][|baseUrl| + 10] == prefix[|baseUrl| + 10];
  }

  /** With an injective encoding, different images never share a URL. */
  lemma UrlsDistinct(k1: Source, p1: string, k2: Source, p2: string, baseUrl: string, encode: string -> string)
    requires forall a, b :: encode(a) == encode(b) ==> a == b
    requires GetImageUrl(k1, p1, baseUrl, encode) == GetImageUrl(k2, p2, baseUrl, encode)
    ensures k1 == k2 && p1 == p2
  {
    var u := GetImageUrl(k1, p1, baseUrl, encode);
    RouteAt(u, baseUrl, k1);
    RouteAt(u, baseUrl, k2);
    assert encode(p1) == u[|baseUrl + Route(k1)|..] == encode(p2);
  }
}

=== FILE: img_tags.dfy ===
/**
 * Rendering `[img]key[/img]` tags in debug text as HTML images
 * (`render` in `kotonebot/backend/debug/web/util.js` and `parseImgTags` in
 * `kotonebot-devtool/src/pages/DumpViewer/InfoPanel.tsx`): the global,
 * lazy pattern `\[img\](.*?)\[\/img\]` replaced by an `<img>` element
 * whose source the callback makes of the key.
 *
 * The replacement is written as a left-to-right scan: at each position
 * either a tag starts and closes at the nearest `[/img]` on the same line,
 * or the character is copied.
 */
module ImgTags {
  import opened Wrappers
  import opened Text
  import Assoc

  const OpenTag := "[img]"
  const CloseTag := "[/img]"

  /** The characters `.` does not match in a JavaScript regular expression. */
  predicate IsLineTerminator(c: char)
  {
    c == '\n' || c == '\r' || c == '\U{2028}' || c == '\U{2029}'
  }

  /** The element a key becomes; the URL is inserted as it is. */
  function ImgElement(url: string): string
  {
    "<img src=\"" + url + "\" alt=\"image\">"
  }

  /** `[img]` at the start of `s`, character by character. */
  predicate OpensTag(s: string)
  {
    |s| >= 5 && s[0] == '[' && s[1] == 'i' && s[2] == 'm' && s[3] == 'g' && s[4] == ']'
  }

  /** `[/img]` at position `j` of `s`, character by character. */
  predicate ClosesAt(s: string, j: nat)
  {
    j + 6 <= |s| && s[j] == '[' && s[j + 1] == '/' && s[j + 2] == 'i' && s[j + 3] == 'm' && s[j + 4] == 'g' && s[j + 5] == ']'
  }

  lemma TagsSpelled(s: string, j: nat)
    requires j <= |s|
    ensures OpensTag(s) <==> StartsWith(s, OpenTag)
    ensures ClosesAt(s, j) <==> StartsWith(s[j..], CloseTag)
  {
    if StartsWith(s, OpenTag) {
      assert forall i :: 0 <= i < 5 ==> s[i] == s[..5][i];
    }
    if StartsWith(s[j..], CloseTag) {
      assert forall i :: 0 <= i < 6 ==> s[j + i] == s[j..][..6][i];
    }
    if ClosesAt(s, j) {
      assert s[j..][..6] == CloseTag;
    }
  }

  /** From position `j`, the nearest `[/img]` with no line terminator before it. */
  function CloseFrom(s: string, j: nat): (r: Option<nat>)
    requires j <= |s|
    ensures r.Some? ==> j <= r.value && r.value + |CloseTag| <= |s|
    decreases |s| - j
  {
    if ClosesAt(s, j) then Some(j)
    else if j == |s| || IsLineTerminator(s[j]) then None
    else CloseFrom(s, j + 1)
  }

  /**
   * The lazy `(.*?)`: the match closes at an `[/img]` with no line
   * terminator and no earlier `[/img]` before it; and when none is found,
   * every `[/img]` further on has a line terminator in the way.
   */
  lemma {:induction false} CloseFromSpec(s: string, j: nat)
    requires j <= |s|
    ensures var r := CloseFrom(s, j);
            && (r.Some? ==> ClosesAt(s, r.value))
            && (r.Some? ==> forall t :: j <= t < r.value ==> !IsLineTerminator(s[t]) && !ClosesAt(s, t))
            && (r.None? ==> forall t :: j <= t <= |s| && ClosesAt(s, t) ==> exists u :: j <= u < t && IsLineTerminator(s[u]))
    decreases |s| - j
  {
    if !ClosesAt(s, j) && j < |s| && !IsLineTerminator(s[j]) {
      CloseFromSpec(s, j + 1);
    }
  }

  /** Where the tag that opens at the start of `s` closes, if one does. */
  function MatchAt(s: string): (r: Option<nat>)
    ensures r.Some? ==> OpensTag(s) && |OpenTag| <= r.value && r.value + |CloseTag| <= |s|
  {
    if OpensTag(s) then CloseFrom(s, |OpenTag|) else None
  }

  /** `text.replace(/\[img\](.*?)\[\/img\]/g, ...)` with the callback `url`. */
  function Render(s: string, url: string -> string): string
    decreases |s|
  {
    if |s| == 0 then ""
    else
      match MatchAt(s)
      case Some(j) => ImgElement(url(s[|OpenTag|..j])) + Render(s[j + |CloseTag|..], url)
      case None => [s[0]] + Render(s[1..], url)
  }

  /** `render`'s and `parseImgTags`'s default callback. */
  function DefaultUrl(k: string): (r: string)
    ensures StartsWith(r, "/api/read_memory?key=") && r[|"/api/read_memory?key="|..] == k
  {
    assert ("/api/read_memory?key=" + k)[..|"/api/read_memory?key="|] == "/api/read_memory?key=";
    "/api/read_memory?key=" + k
  }

  /** `InfoPanel`'s callback: the image map's entry for the key, or the debug server on `host`. */
  function PanelUrl(imagesMap: Option<Assoc.Dict<string, string>>, host: string, k: string): (r: string)
    ensures imagesMap.Some? && Assoc.Get(imagesMap.value, k).Some? ==> r == Assoc.Get(imagesMap.value, k).value
    ensures imagesMap.None? || Assoc.Get(imagesMap.value, k).None? ==> r == "http://" + host + DefaultUrl(k)
  {
    var fallback := "http://" + host + "/api/read_memory?key=" + k;
    match imagesMap
    case None => fallback
    case Some(m) =>
      match Assoc.Get(m, k)
      case Some(u) => u
      case None => fallback
  }

  /** What `InfoPanel` shows for its details: nothing when they are absent or empty. */
  function PanelDetails(details: Option<string>, imagesMap: Option<Assoc.Dict<string, string>>, host: string): (r: string)
    ensures r == Render(details.GetOr(""), (k: string) => PanelUrl(imagesMap, host, k))
  {
    match details
    case None => ""
    case Some(d) => if d == "" then "" else Render(d, (k: string) => PanelUrl(imagesMap, host, k))
  }

  // ---------------------------------------------------------------------
  // What the rendering does
  // ---------------------------------------------------------------------

  /** Text with no tag anywhere is left as it is. */
  lemma {:induction false} NoTagUnchanged(s: string, url: string -> string)
    requires forall i :: 0 <= i < |s| ==> MatchAt(s[i..]).None?
    ensures Render(s, url) == s
  {
    if |s| > 0 {
      assert MatchAt(s[0..]).None?;
      assert s[0..] == s;
      forall i | 0 <= i < |s[1..]| ensures MatchAt(s[1..][i..]).None? {
        assert s[1..][i..] == s[i + 1..];
      }
      NoTagUnchanged(s[1..], url);
    }
  }

  /** No `[` anywhere in `s`. */
  predicate NoBracket(s: string)
  {
    forall i :: 0 <= i < |s| ==> s[i] != '['
  }

  /** A character that opens no tag is copied. */
  lemma CopyStep(a: string, b: string, url: string -> string)
    requires |a| > 0 && a[0] != '['
    ensures Render(a + b, url) == [a[0]] + Render(a[1..] + b, url)
  {
    var s := a + b;
    assert s[0] == a[0] && s[1..] == a[1..] + b;
  }

  /** Text without `[` is copied until the rest begins. */
  lemma {:induction false} PlainPrefix(a: string, b: string, url: string -> string)
    requires NoBracket(a)
    ensures Render(a + b, url) == a + Render(b, url)
  {
    if |a| == 0 {
      assert a + b == b;
    } else {
      var t := a[1..];
      assert a == [a[0]] + t;
      CopyStep(a, b, url);
      PlainPrefix(t, b, url);
    }
  }

  /** The tag around a key with no `[` and no line break closes where the key ends. */
  lemma {:induction false} CloseAfterKey(s: string, k: string, j: nat)
    requires NoBracket(k) && forall i :: 0 <= i < |k| ==> !IsLineTerminator(k[i])
    requires j <= |k| && |OpenTag| + |k| + |CloseTag| <= |s|
    requires s[|OpenTag|..|OpenTag| + |k|] == k
    requires s[|OpenTag| + |k|..|OpenTag| + |k| + |CloseTag|] == CloseTag
    ensures CloseFrom(s, |OpenTag| + j) == Some(|OpenTag| + |k|)
    decreases |k| - j
  {
    var p := |OpenTag| + j;
    if j < |k| {
      assert s[p] == k[j];
      CloseAfterKey(s, k, j + 1);
    } else {
      assert s[p..][..|CloseTag|] == s[p..p + |CloseTag|];
      TagsSpelled(s, p);
    }
  }

  /** A tag at the front becomes the element for its key, and the rest is rendered after it. */
  lemma TagPrefix(k: string, b: string, url: string -> string)
    requires NoBracket(k) && forall i :: 0 <= i < |k| ==> !IsLineTerminator(k[i])
    ensures Render(OpenTag + k + CloseTag + b, url) == ImgElement(url(k)) + Render(b, url)
  {
    var s := OpenTag + k + CloseTag + b;
    var e := |OpenTag| + |k|;
    assert s[|OpenTag|..e] == k;
    assert s[e..e + |CloseTag|] == CloseTag;
    assert s[..|OpenTag|] == OpenTag;
    TagsSpelled(s, 0);
    CloseAfterKey(s, k, 0);
    assert s[e + |CloseTag|..] == b;
  }

  /** One text piece of a document: plain text, or an image by key. */
  datatype Piece = Plain(text: string) | Image(key: string)

  /** Plain text without `[`, and keys without `[` or line breaks. */
  predicate WellFormed(doc: seq<Piece>)
  {
    forall i :: 0 <= i < |doc| ==>
      match doc[i]
      case Plain(t) => NoBracket(t)
      case Image(k) => NoBracket(k) && forall i :: 0 <= i < |k| ==> !IsLineTerminator(k[i])
  }

  /** The document written with tags. */
  function Source(doc: seq<Piece>): string
  {
    if |doc| == 0 then ""
    else
      (match doc[0]
       case Plain(t) => t
       case Image(k) => OpenTag + k + CloseTag) + Source(doc[1..])
  }

  /** The document as HTML, each image's source made by `url`. */
  function Html(doc: seq<Piece>, url: string -> string): string
  {
    if |doc| == 0 then ""
    else
      (match doc[0]
       case Plain(t) => t
       case Image(k) => ImgElement(url(k))) + Html(doc[1..], url)
  }

  /** Rendering a well-formed document's tagged text gives its HTML. */
  lemma {:induction false} RenderSource(doc: seq<Piece>, url: string -> string)
    requires WellFormed(doc)
    ensures Render(Source(doc), url) == Html(doc, url)
  {
    if |doc| > 0 {
      assert WellFormed(doc[1..]) by {
        forall i | 0 <= i < |doc[1..]| ensures doc[1..][i] == doc[i + 1] { }
      }
      RenderSource(doc[1..], url);
      match doc[0]
      case Plain(t) =>
        PlainPrefix(t, Source(doc[1..]), url);
      case Image(k) =>
        assert OpenTag + k + CloseTag + Source(doc[1..]) == Source(doc);
        TagPrefix(k, Source(doc[1..]), url);
    }
  }

  /** Scanning for `[/img]` stops at a line break reached before any `[`. */
  lemma {:induction false} BreakStops(s: string, j: nat, n: nat)
    requires j <= n < |s| && IsLineTerminator(s[n])
    requires forall t :: j <= t < n ==> s[t] != '['
    ensures CloseFrom(s, j).None?
    decreases n - j
  {
    if j < n && !IsLineTerminator(s[j]) {
      BreakStops(s, j + 1, n);
    }
  }

  lemma NoBracketAppend(x: string, y: string)
    requires NoBracket(x) && NoBracket(y)
    ensures NoBracket(x + y)
  {
    forall i | 0 <= i < |x + y| ensures (x + y)[i] != '[' {
      if i >= |x| {
        assert (x + y)[i] == y[i - |x|];
      }
    }
  }

  /** A line break inside a tag stops it from matching: the text stays as written. */
  lemma LineBreakBlocks(a: string, b: string, url: string -> string)
    requires NoBracket(a) && NoBracket(b)
    ensures var s := OpenTag + a + "\n" + b + CloseTag;
            Render(s, url) == s
  {
    var m := "img]" + a + "\n" + b;
    var s := OpenTag + a + "\n" + b + CloseTag;
    assert s == "[" + m + CloseTag;
    var nl := |OpenTag| + |a|;
    assert s[nl] == '\n';
    assert OpensTag(s);
    forall t | |OpenTag| <= t < nl ensures s[t] != '[' {
      assert s[t] == a[t - |OpenTag|];
    }
    BreakStops(s, |OpenTag|, nl);
    assert s[1..] == m + CloseTag;
    NoBracketAppend("img]", a);
    NoBracketAppend("img]" + a, "\n");
    NoBracketAppend("img]" + a + "\n", b);
    PlainPrefix(m, CloseTag, url);
    CloseTagUnchanged(url);
  }

  lemma CloseTagUnchanged(url: string -> string)
    ensures Render(CloseTag, url) == CloseTag
  {
    PlainPrefix("/img]", "", url);
    assert "/img]" + "" == "/img]";
    assert !OpensTag(CloseTag);
  }
}

=== FILE: launcher.dfy ===
/**
 * Decisions of the launcher's main flow (bootstrap/kaa-bootstrap/launcher.py):
 * the update settings it reads, the positional package file and which
 * install option it fills, the install step chosen, the file-type checks
 * of the two package installers, and the administrator check for Windows
 * screenshots.
 *
 * Installing, restarting and printing are side effects the model leaves
 * out; it states which branch is taken and with what arguments.
 */
module Launcher {
  import opened Wrappers
  import opened Text
  import opened PyValue
  import BootstrapUtil

  // ---------------------------------------------------------------------
  // Update settings
  // ---------------------------------------------------------------------

  /** `get_update_settings`: `(check_update, auto_install_update)`, the channel not read. */
  function GetUpdateSettings(config: Value): (r: Result<(bool, Value), PyError>)
    ensures BootstrapUtil.FirstMisc(config) == Ok(None) ==> r == Ok((true, Bool(true)))
  {
    match BootstrapUtil.FirstMisc(config)
    case Err(e) => Err(e)
    case Ok(None) => Ok((true, Bool(true)))
    case Ok(Some(misc)) =>
      match GetOr(misc, "check_update", Str("startup"))
      case Err(e) => Err(e)
      case Ok(setting) => Ok((EqualsStr(setting, "startup"), GetOr(misc, "auto_install_update", Bool(true)).value))
  }

  /** The launcher's own reader agrees with `get_update_settings_logic` on the two settings both read. */
  lemma GetUpdateSettingsAgrees(config: Value)
    ensures GetUpdateSettings(config).Ok? <==> BootstrapUtil.UpdateSettingsLogic(config).Ok?
    ensures GetUpdateSettings(config).Ok? ==>
      var s := BootstrapUtil.UpdateSettingsLogic(config).value;
      GetUpdateSettings(config).value == (s.checkUpdate, s.autoInstallUpdate)
  {
  }

  // ---------------------------------------------------------------------
  // Command line
  // ---------------------------------------------------------------------

  /** The parsed arguments; an absent option is `None`. */
  datatype Args = Args(
    packageFile: Option<string>,
    installVersion: Option<string>,
    installFromZip: Option<string>,
    installFromPackage: Option<string>)

  /** An option counts as given when it is present and non-empty (Python truthiness of `str | None`). */
  predicate Given(o: Option<string>)
  {
    o.Some? && |o.value| > 0
  }

  /**
   * The positional package file of `main_launch`: a `.zip` fills
   * `install_from_zip` and a `.whl` or `.tar.gz` fills
   * `install_from_package`, in either case only when that option is not
   * already given; any other file type is rejected.
   */
  function DispatchPackageFile(a: Args): (r: Result<Args, PyError>)
    ensures !Given(a.packageFile) ==> r == Ok(a)
    ensures r.Err? <==>
      && Given(a.packageFile)
      && !(EndsWith(Lower(a.packageFile.value), ".zip") || EndsWith(Lower(a.packageFile.value), ".whl")
           || EndsWith(Lower(a.packageFile.value), ".tar.gz"))
    ensures r.Ok? ==> r.value.packageFile == a.packageFile && r.value.installVersion == a.installVersion
    ensures r.Ok? && Given(a.installFromZip) ==> r.value.installFromZip == a.installFromZip
    ensures r.Ok? && Given(a.installFromPackage) ==> r.value.installFromPackage == a.installFromPackage
    ensures r.Ok? && r.value.installFromZip != a.installFromZip ==>
      r.value.installFromZip == a.packageFile && EndsWith(Lower(a.packageFile.value), ".zip")
    ensures r.Ok? && r.value.installFromPackage != a.installFromPackage ==>
      r.value.installFromPackage == a.packageFile && !EndsWith(Lower(a.packageFile.value), ".zip")
    ensures r.Ok? && Given(a.packageFile) ==>
      Given(r.value.installFromZip) || Given(r.value.installFromPackage)
  {
    if !Given(a.packageFile) then Ok(a)
    else
      var lowerPath := Lower(a.packageFile.value);
      if EndsWith(lowerPath, ".zip") then
        if !Given(a.installFromZip) then Ok(a.(installFromZip := a.packageFile)) else Ok(a)
      else if EndsWith(lowerPath, ".whl") || EndsWith(lowerPath, ".tar.gz") then
        if !Given(a.installFromPackage) then Ok(a.(installFromPackage := a.packageFile)) else Ok(a)
      else
        Err(ValueError("不支持的文件类型: " + a.packageFile.value))
  }

  /** Dispatching again changes nothing: the option filled the first time is then already given. */
  lemma DispatchIdempotent(a: Args)
    requires DispatchPackageFile(a).Ok?
    ensures DispatchPackageFile(DispatchPackageFile(a).value) == DispatchPackageFile(a)
  {
  }

  /** Step 3 of `main_launch`: an explicit install option turns both update settings off. */
  function EffectiveUpdateSettings(a: Args, checkUpdate: bool, autoInstallUpdate: bool): (r: (bool, bool))
    ensures Given(a.installVersion) || Given(a.installFromZip) || Given(a.installFromPackage) ==> r == (false, false)
    ensures !(Given(a.installVersion) || Given(a.installFromZip) || Given(a.installFromPackage)) ==>
      r == (checkUpdate, autoInstallUpdate)
  {
    if Given(a.installVersion) || Given(a.installFromZip) || Given(a.installFromPackage) then (false, false)
    else (checkUpdate, autoInstallUpdate)
  }

  /** The install step `main_launch` runs. */
  datatype InstallPlan =
    | FromZip(zipPath: string)
    | FromPackage(packagePath: string)
    | PinnedVersion(version: string)
    | Default(checkUpdate: bool, installUpdate: bool)

  /** Step 5 of `main_launch`: a zip wins over a package file, which wins over a pinned version. */
  function PlanInstall(a: Args, checkUpdate: bool, autoInstallUpdate: bool): (r: InstallPlan)
    ensures r.FromZip? <==> Given(a.installFromZip)
    ensures r.FromPackage? <==> !Given(a.installFromZip) && Given(a.installFromPackage)
    ensures r.PinnedVersion? <==> !Given(a.installFromZip) && !Given(a.installFromPackage) && Given(a.installVersion)
    ensures r.FromZip? ==> Some(r.zipPath) == a.installFromZip
    ensures r.FromPackage? ==> Some(r.packagePath) == a.installFromPackage
    ensures r.PinnedVersion? ==> Some(r.version) == a.installVersion
  {
    var (check, install) := EffectiveUpdateSettings(a, checkUpdate, autoInstallUpdate);
    if Given(a.installFromZip) then FromZip(a.installFromZip.value)
    else if Given(a.installFromPackage) then FromPackage(a.installFromPackage.value)
    else if Given(a.installVersion) then PinnedVersion(a.installVersion.value)
    else Default(check, install)
  }

  /** The default install path runs with the configured update settings, untouched by the override. */
  lemma DefaultPlanKeepsSettings(a: Args, checkUpdate: bool, autoInstallUpdate: bool)
    ensures PlanInstall(a, checkUpdate, autoInstallUpdate).Default? ==>
      PlanInstall(a, checkUpdate, autoInstallUpdate) == Default(checkUpdate, autoInstallUpdate)
  {
  }

  /** A positional package file always leads to a package install of some file, never to the default update path. */
  lemma PositionalFileInstalls(a: Args, check: bool, install: bool)
    requires DispatchPackageFile(a).Ok? && Given(a.packageFile)
    ensures PlanInstall(DispatchPackageFile(a).value, check, install).FromZip?
         || PlanInstall(DispatchPackageFile(a).value, check, install).FromPackage?
  {
  }

  // ---------------------------------------------------------------------
  // File names as `pathlib` sees them on Windows
  // ---------------------------------------------------------------------

  predicate IsSep(c: char)
  {
    c == '/' || c == '\\'
  }

  /** The length of `p[..e]` once its trailing separators are dropped. */
  function TrimSeps(p: string, e: nat): (r: nat)
    requires e <= |p|
    ensures r <= e
    ensures r > 0 ==> !IsSep(p[r - 1])
    ensures forall j :: r <= j < e ==> IsSep(p[j])
  {
    if e > 0 && IsSep(p[e - 1]) then TrimSeps(p, e - 1) else e
  }

  /** The index just after the last separator in `p[..e]`, or 0 when there is none. */
  function AfterLastSep(p: string, e: nat): (r: nat)
    requires e <= |p|
    ensures r <= e
    ensures r > 0 ==> IsSep(p[r - 1])
    ensures forall j :: r <= j < e ==> !IsSep(p[j])
  {
    if e == 0 then 0
    else if IsSep(p[e - 1]) then e
    else AfterLastSep(p, e - 1)
  }

  /** `PurePath(p).name`: the last component, trailing separators ignored. */
  function Name(p: string): (r: string)
    ensures |r| <= |p|
    ensures forall j :: 0 <= j < |r| ==> !IsSep(r[j])
  {
    var e := TrimSeps(p, |p|);
    p[AfterLastSep(p, e)..e]
  }

  /** The index of the last `c` in `s[..e]`. */
  function LastIndexBelow(s: string, c: char, e: nat): (r: Option<nat>)
    requires e <= |s|
    ensures r.Some? ==> r.value < e && s[r.value] == c
    ensures r.Some? ==> forall j :: r.value < j < e ==> s[j] != c
    ensures r.None? ==> forall j :: 0 <= j < e ==> s[j] != c
  {
    if e == 0 then None
    else if s[e - 1] == c then Some(e - 1)
    else LastIndexBelow(s, c, e - 1)
  }

  /** A dot, then at least one character and no further dot. */
  predicate DotOnlyAtStart(t: string)
  {
    |t| >= 2 && t[0] == '.' && forall j :: 1 <= j < |t| ==> t[j] != '.'
  }

  /** The suffix of a file name: from its last dot, unless that dot starts or ends the name. */
  function NameSuffix(name: string): (r: string)
    ensures r == "" || (DotOnlyAtStart(r) && |r| < |name| && EndsWith(name, r))
  {
    match LastIndexBelow(name, '.', |name|)
    case Some(i) => if 0 < i < |name| - 1 then name[i..] else ""
    case None => ""
  }

  /** `PurePath(p).suffix`. */
  function Suffix(p: string): string
  {
    NameSuffix(Name(p))
  }

  /** `install_ksaa_from_package`'s file-type test. */
  predicate PackageTypeAccepted(p: string)
  {
    Lower(Suffix(p)) == ".whl" || EndsWith(Lower(p), ".tar.gz")
  }

  /** `install_ksaa_from_zip`'s file-type test. */
  predicate ZipTypeAccepted(p: string)
  {
    Lower(Suffix(p)) == ".zip"
  }

  lemma {:induction false} TrimSepsNone(p: string, e: nat)
    requires 0 < e <= |p| && !IsSep(p[e - 1])
    ensures TrimSeps(p, e) == e
  {
  }

  lemma {:induction false} AfterLastSepAt(p: string, e: nat, i: nat)
    requires i < e <= |p| && IsSep(p[i])
    requires forall j :: i < j < e ==> !IsSep(p[j])
    ensures AfterLastSep(p, e) == i + 1
    decreases e
  {
    if i < e - 1 {
      AfterLastSepAt(p, e - 1, i);
    }
  }

  lemma {:induction false} LastIndexAt(s: string, c: char, e: nat, i: nat)
    requires i < e <= |s| && s[i] == c
    requires forall j :: i < j < e ==> s[j] != c
    ensures LastIndexBelow(s, c, e) == Some(i)
    decreases e
  {
    if i < e - 1 {
      LastIndexAt(s, c, e - 1, i);
    }
  }

  /** For a path not ending in a separator, the name is the stretch after the last separator. */
  lemma NameOfPlainPath(p: string)
    requires |p| > 0 && !IsSep(p[|p| - 1])
    ensures Name(p) == p[AfterLastSep(p, |p|)..]
  {
    TrimSepsNone(p, |p|);
  }

  /** A name that ends in an extension shorter than itself has that extension as suffix. */
  lemma NameSuffixOfTail(name: string, k: nat)
    requires k < |name| && DotOnlyAtStart(name[|name| - k..])
    ensures NameSuffix(name) == name[|name| - k..]
  {
    var m := |name|;
    forall j | m - k < j < m ensures name[j] != '.' {
      assert name[m - k..][j - (m - k)] == name[j];
    }
    assert name[m - k..][0] == name[m - k];
    LastIndexAt(name, '.', m, m - k);
  }

  /** An extension that ends `p` within a longer last component is `p`'s suffix. */
  lemma SuffixIsTail(p: string, k: nat)
    requires k < |p| && !IsSep(p[|p| - 1])
    requires DotOnlyAtStart(p[|p| - k..]) && |Name(p)| > k
    ensures Suffix(p) == p[|p| - k..]
  {
    NameOfPlainPath(p);
    var name := Name(p);
    assert name[|name| - k..] == p[|p| - k..];
    NameSuffixOfTail(name, k);
  }

  /** The end of `p` that lower-cases to `ext` is `ext` up to case. */
  lemma LowerTail(p: string, ext: string)
    requires EndsWith(Lower(p), ext)
    ensures Lower(p[|p| - |ext|..]) == ext
  {
    var t := p[|p| - |ext|..];
    forall j | 0 <= j < |ext| ensures Lower(t)[j] == ext[j] {
      assert t[j] == p[|p| - |ext| + j];
      assert Lower(p)[|p| - |ext| + j] == ext[j];
    }
  }

  /** Lower-casing changes no dot and no separator, so the end of `p` has the shape of the extension it lower-cases to. */
  lemma ExtensionTail(p: string, ext: string)
    requires DotOnlyAtStart(ext) && !IsSep(ext[|ext| - 1])
    requires EndsWith(Lower(p), ext)
    ensures DotOnlyAtStart(p[|p| - |ext|..])
    ensures !IsSep(p[|p| - 1])
  {
    var t := p[|p| - |ext|..];
    assert LowerChar(t[0]) == Lower(p)[|p| - |ext|] == '.';
    forall j | 1 <= j < |t| ensures t[j] != '.' {
      assert LowerChar(t[j]) == Lower(p)[|p| - |ext| + j] == ext[j];
    }
    assert LowerChar(p[|p| - 1]) == Lower(p)[|p| - 1] == ext[|ext| - 1];
  }

  /** The two lower-case extensions the installers look for by suffix. */
  lemma KnownExtension(ext: string)
    requires ext == ".whl" || ext == ".zip"
    ensures DotOnlyAtStart(ext) && !IsSep(ext[|ext| - 1]) && |ext| == 4
  {
  }

  /** A path whose lower-cased form ends in an extension, within a longer last component, has that extension as lower-cased suffix. */
  lemma SuffixOfExtension(p: string, ext: string)
    requires DotOnlyAtStart(ext) && !IsSep(ext[|ext| - 1])
    requires EndsWith(Lower(p), ext) && |Name(p)| > |ext|
    ensures Lower(Suffix(p)) == ext
  {
    assert |ext| < |p|;
    ExtensionTail(p, ext);
    LowerTail(p, ext);
    LowerOfSuffix(p, ext);
  }

  lemma LowerOfSuffix(p: string, ext: string)
    requires |ext| < |p| && !IsSep(p[|p| - 1])
    requires DotOnlyAtStart(p[|p| - |ext|..]) && |Name(p)| > |ext|
    requires Lower(p[|p| - |ext|..]) == ext
    ensures Lower(Suffix(p)) == ext
  {
    SuffixIsTail(p, |ext|);
  }

  /** A package the positional argument routes to the package installer passes that installer's own file-type test, unless its whole name is `.whl`. */
  lemma DispatchedPackageAccepted(p: string)
    requires EndsWith(Lower(p), ".whl") || EndsWith(Lower(p), ".tar.gz")
    requires |Name(p)| > 4
    ensures PackageTypeAccepted(p)
  {
    if !EndsWith(Lower(p), ".tar.gz") {
      KnownExtension(".whl");
      SuffixOfExtension(p, ".whl");
    }
  }

  /** A zip the positional argument routes to the zip installer passes that installer's test, unless its whole name is `.zip`. */
  lemma DispatchedZipAccepted(p: string)
    requires EndsWith(Lower(p), ".zip")
    requires |Name(p)| > 4
    ensures ZipTypeAccepted(p)
  {
    KnownExtension(".zip");
    SuffixOfExtension(p, ".zip");
  }

  /** A file named just `.whl` is sent to the package installer by its name yet refused there: a leading dot starts no suffix. */
  lemma BareExtensionRefused(p: string)
    requires p == "dist/.whl"
    ensures EndsWith(Lower(p), ".whl")
    ensures !PackageTypeAccepted(p)
  {
    NameOfPlainPath(p);
    AfterLastSepAt(p, |p|, 4);
    assert Name(p) == ".whl";
    LastIndexAt(".whl", '.', 4, 0);
    assert Suffix(p) == "";
    assert Lower(p)[2] == 's';
    assert Lower(p)[5..] == ".whl";
  }

  // ---------------------------------------------------------------------
  // Administrator check
  // ---------------------------------------------------------------------

  /**
   * `check_admin` with `is_admin()` as a parameter: with Windows screenshots
   * in the first user config the admin check passes iff the process is elevated
   * (when it is not, the launcher asks to restart elevated and reports
   * failure); otherwise it passes.
   */
  function CheckAdmin(config: Value, isAdmin: bool): (r: Result<bool, PyError>)
    ensures !config.Dict? ==> r == Err(AttributeError)
    ensures r == Ok(false) ==> !isAdmin
    ensures config.Dict? && "user_configs" !in Assoc.Keys(config.entries) ==> r == Ok(true)
  {
    match GetOr(config, "user_configs", List([]))
    case Err(e) => Err(e)
    case Ok(ucs) =>
      if !Truthy(ucs) then Ok(true)
      else
        match BootstrapUtil.First(ucs)
        case Err(e) => Err(e)
        case Ok(first) =>
          match GetOr(first, "backend", Dict([]))
          case Err(e) => Err(e)
          case Ok(backend) =>
            match GetOr(backend, "screenshot_impl", PyNone)
            case Err(e) => Err(e)
            case Ok(impl) => Ok(if EqualsStr(impl, "windows") then isAdmin else true)
  }

  /** With the first user config's `backend.screenshot_impl` set, the admin check fails exactly for "windows" without elevation. */
  lemma CheckAdminByScreenshotImpl(config: Value, first: Value, impl: Value, isAdmin: bool)
    requires BootstrapUtil.FirstUserConfig(config, first)
    requires GetPath(first, ["backend", "screenshot_impl"]) == Ok(impl)
    ensures CheckAdmin(config, isAdmin) == Ok(impl != Str("windows") || isAdmin)
  {
    BootstrapUtil.FirstUserConfigFound(config, first);
    GetPathTwo(first, "backend", "screenshot_impl", impl, Dict([]), PyNone);
  }
}

=== FILE: mat.dfy ===
/**
 * Images as NumPy arrays: a rectangle of pixels stored row by row, and
 * NumPy's two-dimensional slicing `m[y0:y1, x0:x1]` with Python's rules
 * for negative and out-of-range bounds.
 */
module Mat {

  /** The channel values (0-255) of one pixel. */
  type Pixel = seq<int>

  /** An image `height` rows tall and `width` columns wide. */
  datatype Mat<P> = Mat(width: nat, rows: seq<seq<P>>)
  {
    function Height(): nat { |rows| }

    /** Every row has `width` pixels, as in any NumPy array. */
    predicate Valid()
    {
      forall y :: 0 <= y < |rows| ==> |rows[y]| == width
    }
  }

  /** Python's normalisation of one slice bound against a length. */
  function ClampBound(len: nat, b: int): (r: nat)
    ensures r <= len
    ensures 0 <= b <= len ==> r == b
    ensures b > len ==> r == len
    ensures -(len as int) <= b < 0 ==> r == len + b
    ensures b < -(len as int) ==> r == 0
  {
    if b < 0 then (if b + len < 0 then 0 else b + len)
    else if b > len then len
    else b
  }

  /** The index range `[lo, hi)` that `s[start:stop]` selects from a sequence of length `len`. */
  function SliceRange(len: nat, start: int, stop: int): (r: (nat, nat))
    ensures r.0 <= r.1 <= len
    ensures 0 <= start <= stop <= len ==> r == (start, stop)
  {
    var lo := ClampBound(len, start);
    var hi := ClampBound(len, stop);
    if hi < lo then (lo, lo) else (lo, hi)
  }

  /** Python's `s[start:stop]`. */
  function PySlice<T>(s: seq<T>, start: int, stop: int): (r: seq<T>)
    ensures 0 <= start <= stop <= |s| ==> r == s[start..stop]
    ensures |r| <= |s|
  {
    var (lo, hi) := SliceRange(|s|, start, stop);
    s[lo..hi]
  }

  /** NumPy's `m[y0:y1, x0:x1]`. */
  function Crop<P>(m: Mat<P>, y0: int, y1: int, x0: int, x1: int): (r: Mat<P>)
    requires m.Valid()
    ensures r.Valid()
    ensures r.Height() == SliceRange(m.Height(), y0, y1).1 - SliceRange(m.Height(), y0, y1).0
    ensures r.width == SliceRange(m.width, x0, x1).1 - SliceRange(m.width, x0, x1).0
    ensures forall y, x :: 0 <= y < r.Height() && 0 <= x < r.width ==>
      r.rows[y][x] == m.rows[SliceRange(m.Height(), y0, y1).0 + y][SliceRange(m.width, x0, x1).0 + x]
  {
    var (ylo, yhi) := SliceRange(m.Height(), y0, y1);
    var (xlo, xhi) := SliceRange(m.width, x0, x1);
    var picked := m.rows[ylo..yhi];
    Mat(xhi - xlo, seq(|picked|, i requires 0 <= i < |picked| => picked[i][xlo..xhi]))
  }
}

=== FILE: numeric.dfy ===
/**
 * Number helpers of the Python code: Python's `int()` of a float and the
 * absolute value of an integer. Floats are modelled as exact reals.
 */
module Numeric {

  function Abs(n: int): nat { if n < 0 then -n else n }

  /** Python's `int(x)` for a float: truncation toward zero. */
  function Trunc(x: real): (r: int)
    ensures x >= 0.0 ==> r >= 0 && r as real <= x < r as real + 1.0
    ensures x < 0.0 ==> r <= 0 && r as real - 1.0 < x <= r as real
  {
    if x >= 0.0 then x.Floor else -((-x).Floor)
  }

  /** Truncation keeps the order of non-negative numbers. */
  lemma TruncMonotonic(x: real, y: real)
    requires 0.0 <= x <= y
    ensures Trunc(x) <= Trunc(y)
  {
    assert Trunc(x) as real <= y < Trunc(y) as real + 1.0;
  }

  /** `int()` of a whole number gives it back. */
  lemma TruncInt(n: int)
    ensures Trunc(n as real) == n
  {
    if n < 0 {
      assert (-(n as real)).Floor == -n;
    }
  }
}

=== FILE: ocr.dfy ===
/**
 * The bookkeeping around the OCR engine (kotonebot/backend/ocr.py): how a
 * text pattern is matched, how the engine's raw lines become `OcrResult`s,
 * and the first-hit search with its not-found error. The engine and
 * Unicode NFKC normalisation are inputs of the model.
 */
module Ocr {
  import opened Wrappers
  import opened Text
  import opened Numeric
  import opened StrMatch

  /**
   * What `find` accepts: a compiled regular expression (with its `str()`
   * form), a predicate on the text (with its `__name__`), or a literal.
   */
  datatype Pattern =
    | Regex(re: ReMatch, display: string)
    | Predicate(pred: string -> bool, name: string)
    | Literal(text: string)

  /** `_is_match`: regexes match at the start, predicates decide, literals compare for equality. */
  predicate IsMatch(text: string, pattern: Pattern)
  {
    match pattern
    case Regex(re, _) => Matches(re, text)
    case Predicate(pred, _) => pred(text)
    case Literal(p) => text == p
  }

  /**
   * A string and a regex of the same plain characters differ: the string
   * needs the whole text, the regex only a prefix of it.
   */
  lemma LiteralVersusRegex(t: string, text: string, display: string)
    ensures IsMatch(text, Literal(t)) <==> text == t
    ensures IsMatch(text, Regex(LiteralMatch(t), display)) <==> StartsWith(text, t)
    ensures IsMatch(text, Literal(t)) ==> IsMatch(text, Regex(LiteralMatch(t), display))
  {
    if text == t {
      assert text[..|t|] == t;
    }
  }

  /** `TextNotFoundError`: the pattern and the image searched. */
  datatype TextNotFound<Img> = TextNotFound(pattern: Pattern, image: Img)
  {
    /** The exception message: the pattern's `str()` for strings and regexes, a predicate's `__name__`. */
    function Message(): (m: string)
      ensures StartsWith(m, "Expected text not found: ")
      ensures pattern.Literal? ==> m[|"Expected text not found: "|..] == pattern.text
      ensures pattern.Regex? ==> m[|"Expected text not found: "|..] == pattern.display
      ensures pattern.Predicate? ==> m[|"Expected text not found: "|..] == pattern.name
    {
      var prefix := "Expected text not found: ";
      var shown := match pattern
        case Regex(_, display) => display
        case Predicate(_, name) => name
        case Literal(t) => t;
      assert (prefix + shown)[..|prefix|] == prefix;
      prefix + shown
    }
  }

  datatype Point = Point(x: real, y: real)

  /** A text box as the engine reports it: four corners, top-left first, clockwise. */
  datatype Quad = Quad(p0: Point, p1: Point, p2: Point, p3: Point)

  /** One engine line: its box, its text and the confidence. */
  datatype RawLine = RawLine(box: Quad, text: string, confidence: real)

  /** Left, top, width, height. */
  type Rect = (int, int, int, int)

  datatype OcrResult = OcrResult(text: string, rect: Rect, confidence: real)

  /** Unicode NFKC normalisation (`unicodedata.normalize('NFKC', _)`). */
  type Normalizer = string -> string

  /** The text of a result: normalised, then every `ą` replaced by `a`. */
  function CleanText(raw: string, nfkc: Normalizer): (t: string)
    ensures 'ą' !in t
    ensures |t| == |nfkc(raw)|
    ensures forall i :: 0 <= i < |t| && nfkc(raw)[i] != 'ą' ==> t[i] == nfkc(raw)[i]
  {
    ReplaceChar(nfkc(raw), 'ą', 'a')
  }

  /** The rect of a box, from its top-left and bottom-right corners, each part truncated by `int()`. */
  function BoxRect(q: Quad): (r: Rect)
  {
    (Trunc(q.p0.x), Trunc(q.p0.y), Trunc(q.p2.x - q.p0.x), Trunc(q.p2.y - q.p0.y))
  }

  /**
   * For a box whose corners lie on whole pixels the rect spans exactly
   * from the top-left to the bottom-right corner; the other two corners
   * play no part.
   */
  lemma {:induction false} BoxRectCorners(q: Quad, x0: int, y0: int, x2: int, y2: int, p1: Point, p3: Point)
    requires q.p0 == Point(x0 as real, y0 as real) && q.p2 == Point(x2 as real, y2 as real)
    ensures BoxRect(q) == (x0, y0, x2 - x0, y2 - y0)
    ensures BoxRect(q.(p1 := p1, p3 := p3)) == BoxRect(q)
  {
    TruncInt(x0);
    TruncInt(y0);
    TruncInt(x2 - x0);
    TruncInt(y2 - y0);
  }

  /** The result built from one engine line. */
  function ResultOf(line: RawLine, nfkc: Normalizer): OcrResult
  {
    OcrResult(CleanText(line.text, nfkc), BoxRect(line.box), line.confidence)
  }

  /** `Ocr.ocr`: nothing when the engine reports nothing, else one result per line, in order. */
  function Recognize(engine: Option<seq<RawLine>>, nfkc: Normalizer): (r: seq<OcrResult>)
    ensures engine.None? ==> r == []
    ensures engine.Some? ==> |r| == |engine.value|
    ensures engine.Some? ==> forall i :: 0 <= i < |r| ==> r[i] == ResultOf(engine.value[i], nfkc)
    ensures forall i :: 0 <= i < |r| ==> 'ą' !in r[i].text
  {
    match engine
    case None => []
    case Some(lines) => seq(|lines|, i requires 0 <= i < |lines| => ResultOf(lines[i], nfkc))
  }

  /** The first result, in order, whose text matches. */
  function FindIn(results: seq<OcrResult>, pattern: Pattern): (r: Option<OcrResult>)
    ensures r.None? <==> forall i :: 0 <= i < |results| ==> !IsMatch(results[i].text, pattern)
    ensures r.Some? ==> exists i :: (0 <= i < |results| && results[i] == r.value && IsMatch(results[i].text, pattern)
      && forall j :: 0 <= j < i ==> !IsMatch(results[j].text, pattern))
  {
    if |results| == 0 then None
    else if IsMatch(results[0].text, pattern) then
      Some(results[0])
    else
      var r := FindIn(results[1..], pattern);
      if r.Some? then
        var i :| 0 <= i < |results[1..]| && results[1..][i] == r.value && IsMatch(results[1..][i].text, pattern)
          && forall j :: 0 <= j < i ==> !IsMatch(results[1..][j].text, pattern);
        assert results[i + 1] == r.value;
        assert forall j :: 0 <= j < i + 1 ==> !IsMatch(results[j].text, pattern) by {
          forall j | 0 <= j < i + 1 ensures !IsMatch(results[j].text, pattern) {
            if j > 0 {
              assert results[j] == results[1..][j - 1];
            }
          }
        }
        r
      else
        assert forall i :: 1 <= i < |results| ==> results[i] == results[1..][i - 1];
        r
  }

  /** `Ocr.find` on what the engine reported. */
  function Find(engine: Option<seq<RawLine>>, nfkc: Normalizer, pattern: Pattern): (r: Option<OcrResult>)
    ensures engine.None? ==> r.None?
    ensures r.Some? ==> IsMatch(r.value.text, pattern) && r.value in Recognize(engine, nfkc)
  {
    FindIn(Recognize(engine, nfkc), pattern)
  }

  /** `Ocr.expect`: the found result, or `TextNotFoundError` carrying the pattern and the image. */
  function Expect<Img>(image: Img, engine: Option<seq<RawLine>>, nfkc: Normalizer, pattern: Pattern): (r: Result<OcrResult, TextNotFound<Img>>)
    ensures r.Err? <==> Find(engine, nfkc, pattern).None?
    ensures r.Err? ==> r.error.image == image && r.error.pattern == pattern
    ensures r.Ok? ==> Some(r.value) == Find(engine, nfkc, pattern)
  {
    match Find(engine, nfkc, pattern)
    case None => Err(TextNotFound(pattern, image))
    case Some(res) => Ok(res)
  }

  /** A literal pattern finds exactly a result with that text: an engine line normalising to it. */
  lemma {:induction false} FindLiteral(engine: Option<seq<RawLine>>, nfkc: Normalizer, text: string)
    ensures Find(engine, nfkc, Literal(text)).Some? <==>
      engine.Some? && exists i :: 0 <= i < |engine.value| && CleanText(engine.value[i].text, nfkc) == text
    ensures Find(engine, nfkc, Literal(text)).Some? ==> Find(engine, nfkc, Literal(text)).value.text == text
  {
    var rs := Recognize(engine, nfkc);
    var r := FindIn(rs, Literal(text));
    if r.Some? {
      var i :| 0 <= i < |rs| && rs[i] == r.value && IsMatch(rs[i].text, Literal(text));
      assert CleanText(engine.value[i].text, nfkc) == text;
    }
    if engine.Some? && exists i :: 0 <= i < |engine.value| && CleanText(engine.value[i].text, nfkc) == text {
      var i :| 0 <= i < |engine.value| && CleanText(engine.value[i].text, nfkc) == text;
      assert IsMatch(rs[i].text, Literal(text));
    }
  }
}

=== FILE: pidols.dfy ===
/**
 * The deprecated `PIdol` enumeration of kotonebot/kaa/config/upgrade.py and
 * the two idol lookups the configuration upgrades use: the v1 `[idol, title]`
 * lists to `PIdol` values, and `PIdol` values to the game's skin ids.
 *
 * The enumeration is kept as a table of idol groups in declaration order.
 * The k-th member of group g is `PIdol` value `Bases[g] + k`, as each member
 * is declared `<idol>_BASE + k`; each member also records the v1 title that
 * maps to it and the skin id it maps to.
 */
module PIdols {
  import opened Wrappers
  import opened PyValue

  datatype Member = Member(name: string, v1Title: seq<string>, skinId: string)
  datatype Group = Group(idol: string, members: seq<Member>)

  /** `倉本千奈_BASE` ... `藤田ことね_BASE`. */
  const Bases: seq<int> := [0, 100, 200, 300, 400, 500, 600, 700, 800, 900, 1000]

  const Groups: seq<Group> := [
      Group("倉本千奈", [
        Member("Campusmode", ["Campus mode!!"], "i_card-skin-kcna-3-007"),
        Member("WonderScale", ["Wonder Scale"], "i_card-skin-kcna-3-000"),
        Member("ようこそ初星温泉", ["ようこそ初星温泉"], "i_card-skin-kcna-3-005"),
        Member("仮装狂騒曲", ["仮装狂騒曲"], "i_card-skin-kcna-3-002"),
        Member("初心", ["初心"], "i_card-skin-kcna-1-001"),
        Member("学園生活", ["学園生活"], "i_card-skin-kcna-1-000"),
        Member("日々_発見的ステップ", ["日々、発見的ステップ！"], "i_card-skin-kcna-3-001"),
        Member("胸を張って一歩ずつ", ["胸を張って一歩ずつ"], "i_card-skin-kcna-2-000")
      ]),
      Group("十王星南", [
        Member("Campusmode", ["Campus mode!!"], "i_card-skin-jsna-3-002"),
        Member("一番星", ["一番星"], "i_card-skin-jsna-2-000"),
        Member("学園生活", ["学園生活"], "i_card-skin-jsna-1-000"),
        Member("小さな野望", ["小さな野望"], "i_card-skin-jsna-3-000")
      ]),
      Group("姫崎莉波", [
        Member("clumsytrick", ["clumsy trick"], "i_card-skin-hrnm-3-000"),
        Member("私らしさのはじまり", ["『私らしさ』のはじまり"], "i_card-skin-hrnm-2-000"),
        Member("キミとセミブルー", ["キミとセミブルー"], "i_card-skin-hrnm-3-001"),
        Member("Campusmode", ["Campus mode!!"], "i_card-skin-hrnm-3-007"),
        Member("LUV", ["L.U.V"], "i_card-skin-hrnm-3-002"),
        Member("ようこそ初星温泉", ["ようこそ初星温泉"], "i_card-skin-hrnm-3-004"),
        Member("ハッピーミルフィーユ", ["ハッピーミルフィーユ"], "i_card-skin-hrnm-3-008"),
        Member("初心", ["初心"], "i_card-skin-hrnm-1-001"),
        Member("学園生活", ["学園生活"], "i_card-skin-hrnm-1-000")
      ]),
      Group("月村手毬", [
        Member("Lunasaymaybe", ["Luna say maybe"], "i_card-skin-ttmr-3-000"),
        Member("一匹狼", ["一匹狼"], "i_card-skin-ttmr-2-000"),
        Member("Campusmode", ["Campus mode!!"], "i_card-skin-ttmr-3-007"),
        Member("アイヴイ", ["アイヴイ"], "i_card-skin-ttmr-3-001"),
        Member("初声", ["初声"], "i_card-skin-ttmr-1-001"),
        Member("学園生活", ["学園生活"], "i_card-skin-ttmr-1-000"),
        Member("仮装狂騒曲", ["仮装狂騒曲"], "i_card-skin-ttmr-3-002")
      ]),
      Group("有村麻央", [
        Member("Fluorite", ["Fluorite"], "i_card-skin-amao-3-000"),
        Member("はじまりはカッコよく", ["はじまりはカッコよく"], "i_card-skin-amao-2-000"),
        Member("Campusmode", ["Campus mode!!"], "i_card-skin-amao-3-007"),
        Member("FeelJewelDream", ["Feel Jewel Dream"], "i_card-skin-amao-3-002"),
        Member("キミとセミブルー", ["キミとセミブルー"], "i_card-skin-amao-3-001"),
        Member("初恋", ["初恋"], "i_card-skin-amao-1-001"),
        Member("学園生活", ["学園生活"], "i_card-skin-amao-1-000")
      ]),
      Group("篠泽广", [
        Member("コントラスト", ["コントラスト"], "i_card-skin-shro-3-001"),
        Member("一番向いていないこと", ["一番向いていないこと"], "i_card-skin-shro-2-000"),
        Member("光景", ["光景"], "i_card-skin-shro-3-000"),
        Member("Campusmode", ["Campus mode!!"], "i_card-skin-shro-3-007"),
        Member("仮装狂騒曲", ["仮装狂騒曲"], "i_card-skin-shro-3-002"),
        Member("ハッピーミルフィーユ", ["ハッピーミルフィーユ"], "i_card-skin-shro-3-008"),
        Member("初恋", ["初恋"], "i_card-skin-shro-1-001"),
        Member("学園生活", ["学園生活"], "i_card-skin-shro-1-000")
      ]),
      Group("紫云清夏", [
        Member("TameLieOneStep", ["Tame-Lie-One-Step"], "i_card-skin-ssmk-3-000"),
        Member("カクシタワタシ", ["カクシタワタシ"], "i_card-skin-ssmk-3-002"),
        Member("夢へのリスタート", ["夢へのリスタート"], "i_card-skin-ssmk-2-000"),
        Member("Campusmode", ["Campus mode!!"], "i_card-skin-ssmk-3-007"),
        Member("キミとセミブルー", ["キミとセミブルー"], "i_card-skin-ssmk-3-001"),
        Member("初恋", ["初恋"], "i_card-skin-ssmk-1-001"),
        Member("学園生活", ["学園生活"], "i_card-skin-ssmk-1-000")
      ]),
      Group("花海佑芽", [
        Member("WhiteNightWhiteWish", ["White Night! White Wish!"], "i_card-skin-hume-3-005"),
        Member("学園生活", ["学園生活"], "i_card-skin-hume-1-000"),
        Member("Campusmode", ["Campus mode!!"], "i_card-skin-hume-3-006"),
        Member("TheRollingRiceball", ["The Rolling Riceball"], "i_card-skin-hume-3-000"),
        Member("アイドル_はじめっ", ["アイドル、はじめっ！"], "i_card-skin-hume-2-000")
      ]),
      Group("花海咲季", [
        Member("BoomBoomPow", ["Boom Boom Pow"], "i_card-skin-hski-3-001"),
        Member("Campusmode", ["Campus mode!!"], "i_card-skin-hski-3-008"),
        Member("FightingMyWay", ["Fighting My Way"], "i_card-skin-hski-3-000"),
        Member("わたしが一番", ["わたしが一番！"], "i_card-skin-hski-2-000"),
        Member("冠菊", ["冠菊"], "i_card-skin-hski-3-002"),
        Member("初声", ["初声"], "i_card-skin-hski-1-001"),
        Member("古今東西ちょちょいのちょい", ["古今東西ちょちょいのちょい"], "i_card-skin-hski-3-006"),
        Member("学園生活", ["学園生活"], "i_card-skin-hski-1-000")
      ]),
      Group("葛城リーリヤ", [
        Member("一つ踏み出した先に", ["一つ踏み出した先に"], "i_card-skin-kllj-2-000"),
        Member("白線", ["白線"], "i_card-skin-kllj-3-000"),
        Member("Campusmode", ["Campus mode!!"], "i_card-skin-kllj-3-006"),
        Member("WhiteNightWhiteWish", ["White Night! White Wish!"], "i_card-skin-kllj-3-005"),
        Member("冠菊", ["冠菊"], "i_card-skin-kllj-3-001"),
        Member("初心", ["初心"], "i_card-skin-kllj-1-001"),
        Member("学園生活", ["学園生活"], "i_card-skin-kllj-1-000")
      ]),
      Group("藤田ことね", [
        Member("カワイイ_はじめました", ["カワイイ", "はじめました"], "i_card-skin-fktn-2-000"),
        Member("世界一可愛い私", ["世界一可愛い私"], "i_card-skin-fktn-3-000"),
        Member("Campusmode", ["Campus mode!!"], "i_card-skin-fktn-3-007"),
        Member("YellowBigBang", ["Yellow Big Bang！"], "i_card-skin-fktn-3-001"),
        Member("WhiteNightWhiteWish", ["White Night! White Wish!"], "i_card-skin-fktn-3-006"),
        Member("冠菊", ["冠菊"], "i_card-skin-fktn-3-002"),
        Member("初声", ["初声"], "i_card-skin-fktn-1-001"),
        Member("学園生活", ["学園生活"], "i_card-skin-fktn-1-000")
      ])
    ]

  predicate ValidIndex(g: int, k: int)
  {
    0 <= g < |Groups| && 0 <= k < |Groups[g].members|
  }

  /** The bases are 100 apart and no group has 100 members. */
  predicate ShapeFrom(g: nat)
    decreases |Groups| - g
  {
    g >= |Groups| || (g < |Bases| && Bases[g] == 100 * g && |Groups[g].members| < 100 && ShapeFrom(g + 1))
  }

  lemma {:induction false} ShapeAt(g: nat, h: nat)
    requires ShapeFrom(g) && g <= h < |Groups|
    ensures h < |Bases| && Bases[h] == 100 * h && |Groups[h].members| < 100
    decreases h - g
  {
    if g < h {
      ShapeAt(g + 1, h);
    }
  }

  lemma TableShape()
    ensures |Bases| == |Groups| == 11
    ensures forall g :: 0 <= g < |Groups| ==> Bases[g] == 100 * g && |Groups[g].members| < 100
  {
    assert ShapeFrom(0);
    forall g | 0 <= g < |Groups| ensures Bases[g] == 100 * g && |Groups[g].members| < 100 {
      ShapeAt(0, g);
    }
  }

  /** The value of the k-th member of group g. */
  function PIdol(g: int, k: int): (v: int)
    requires ValidIndex(g, k)
    ensures 100 * g <= v < 100 * g + 100
  {
    TableShape();
    Bases[g] + k
  }

  /** No two members share a value. */
  lemma PIdolInjective(g1: int, k1: int, g2: int, k2: int)
    requires ValidIndex(g1, k1) && ValidIndex(g2, k2)
    ensures PIdol(g1, k1) == PIdol(g2, k2) <==> g1 == g2 && k1 == k2
  {
    TableShape();
  }

  /** (g', k') is declared before (g, k). */
  predicate Before(g': int, k': int, g: int, k: int)
  {
    g' < g || (g' == g && k' < k)
  }

  /** The first member in declaration order, from group `g` on, that satisfies `p`. */
  function SearchGroups(p: (int, int) -> bool, g: nat): (r: Option<(int, int)>)
    ensures r.Some? ==> ValidIndex(r.value.0, r.value.1) && g <= r.value.0 && p(r.value.0, r.value.1)
    ensures r.Some? ==> forall g', k' :: ValidIndex(g', k') && g <= g' && Before(g', k', r.value.0, r.value.1) ==> !p(g', k')
    ensures r.None? ==> forall g', k' :: ValidIndex(g', k') && g <= g' ==> !p(g', k')
    decreases |Groups| - g
  {
    if g >= |Groups| then None
    else
      match SearchMembers(p, g, 0)
      case Some(k) => Some((g, k))
      case None => SearchGroups(p, g + 1)
  }

  /** The first member of group `g`, from position `k` on, that satisfies `p`. */
  function SearchMembers(p: (int, int) -> bool, g: nat, k: nat): (r: Option<int>)
    requires g < |Groups|
    ensures r.Some? ==> k <= r.value < |Groups[g].members| && p(g, r.value)
    ensures r.Some? ==> forall k' :: k <= k' < r.value ==> !p(g, k')
    ensures r.None? ==> forall k' :: k <= k' < |Groups[g].members| ==> !p(g, k')
    decreases |Groups[g].members| - k
  {
    if k >= |Groups[g].members| then None
    else if p(g, k) then Some(k)
    else SearchMembers(p, g, k + 1)
  }

  /** The Python sequence pattern `[idol, *title]`: a list or tuple of exactly those strings. */
  predicate MatchesV1(v: Value, g: int, k: int)
  {
    && ValidIndex(g, k)
    && (v.List? || v.Tuple?)
    && var items := if v.List? then v.items else v.elems;
       var pattern := [Groups[g].idol] + Groups[g].members[k].v1Title;
       |items| == |pattern| && forall i :: 0 <= i < |items| ==> items[i] == Str(pattern[i])
  }

  /** `map_idol` of `upgrade_v1_to_v2`: the first case whose pattern matches, as its integer value. */
  function MapIdolV1(v: Value): (r: Option<Value>)
    ensures r.None? <==> forall g, k :: ValidIndex(g, k) ==> !MatchesV1(v, g, k)
    ensures r.Some? ==> exists g, k :: (MatchesV1(v, g, k) && r.value == Int(PIdol(g, k))
      && forall g', k' :: ValidIndex(g', k') && Before(g', k', g, k) ==> !MatchesV1(v, g', k'))
  {
    match SearchGroups((g, k) => MatchesV1(v, g, k), 0)
    case Some((g, k)) => Some(Int(PIdol(g, k)))
    case None => None
  }

  /** `map_idol` of `upgrade_v2_to_v3`: the skin id of the member equal to `v` (Python `==`, so `True` and `1.0` count as 1). */
  function MapIdolV2(v: Value): (r: Option<Value>)
    ensures r.None? <==> forall g, k :: ValidIndex(g, k) ==> !EqualsInt(v, PIdol(g, k))
    ensures r.Some? ==> exists g, k :: ValidIndex(g, k) && EqualsInt(v, PIdol(g, k)) && r.value == Str(Groups[g].members[k].skinId)
  {
    match SearchGroups((g, k) => ValidIndex(g, k) && EqualsInt(v, PIdol(g, k)), 0)
    case Some((g, k)) => Some(Str(Groups[g].members[k].skinId))
    case None => None
  }

  /** A stored `PIdol` value maps to its own member's skin id: values are unique, so the first equal member is that one. */
  lemma MapIdolV2OfPIdol(g: int, k: int)
    requires ValidIndex(g, k)
    ensures MapIdolV2(Int(PIdol(g, k))) == Some(Str(Groups[g].members[k].skinId))
  {
    var r := MapIdolV2(Int(PIdol(g, k)));
    var g', k' :| ValidIndex(g', k') && EqualsInt(Int(PIdol(g, k)), PIdol(g', k')) && r.value == Str(Groups[g'].members[k'].skinId);
    PIdolInjective(g, k, g', k');
  }

  /** Whatever v1 entry maps to a value, that value maps on to the same member's skin id. */
  lemma V1ThenV2(v: Value)
    requires MapIdolV1(v).Some?
    ensures exists g, k :: (MatchesV1(v, g, k)
      && MapIdolV2(MapIdolV1(v).value) == Some(Str(Groups[g].members[k].skinId)))
  {
    var g, k :| MatchesV1(v, g, k) && MapIdolV1(v).value == Int(PIdol(g, k))
      && forall g', k' :: ValidIndex(g', k') && Before(g', k', g, k) ==> !MatchesV1(v, g', k');
    MapIdolV2OfPIdol(g, k);
  }
}

=== FILE: pyvalue.dfy ===
/**
 * Values as Python sees a loaded JSON or YAML document (and as JavaScript
 * sees parsed JSON): `None`, booleans, integers, floats, strings, lists,
 * tuples, insertion-ordered dicts with string keys, and objects of any
 * other type, which the model only names.
 */
module PyValue {
  import opened Wrappers
  import Assoc

  datatype Value =
    | PyNone
    | Bool(b: bool)
    | Int(i: int)
    | Float(f: real)
    | Str(s: string)
    | List(items: seq<Value>)
    | Tuple(elems: seq<Value>)
    | Dict(entries: seq<(string, Value)>)
    | Opaque(typeName: string)

  /** The exceptions the modelled code can raise while navigating values. */
  datatype PyError =
    | KeyError(key: string)
    | TypeError
    | AttributeError
    | IndexError
    | ValueError(message: string)

  /** Python truthiness. */
  predicate Truthy(v: Value)
  {
    match v
    case PyNone => false
    case Bool(b) => b
    case Int(i) => i != 0
    case Float(f) => f != 0.0
    case Str(s) => |s| > 0
    case List(items) => |items| > 0
    case Tuple(elems) => |elems| > 0
    case Dict(entries) => |entries| > 0
    case Opaque(_) => true
  }

  /** `isinstance(v, int)`: `bool` is a subclass of `int`. */
  predicate IsInt(v: Value)
  {
    v.Int? || v.Bool?
  }

  /** The integer an `int` or `bool` stands for. */
  function IntValue(v: Value): (r: int)
    requires IsInt(v)
    ensures v.Bool? ==> (r == 1 <==> v.b) && (r == 0 <==> !v.b)
  {
    if v.Int? then v.i else if v.b then 1 else 0
  }

  /** Python's `v == n` for an integer `n`: numbers compare by value across int, bool and float. */
  predicate EqualsInt(v: Value, n: int)
  {
    match v
    case Int(i) => i == n
    case Bool(b) => (if b then 1 else 0) == n
    case Float(f) => f == n as real
    case _ => false
  }

  /** Python's `v == s` for a string `s`. */
  predicate EqualsStr(v: Value, s: string)
  {
    v == Str(s)
  }

  /** `v[key]` with a string key. */
  function Subscript(v: Value, key: string): (r: Result<Value, PyError>)
    ensures r.Ok? <==> v.Dict? && key in Assoc.Keys(v.entries)
    ensures v.Dict? && key !in Assoc.Keys(v.entries) ==> r == Err(KeyError(key))
    ensures !v.Dict? ==> r == Err(TypeError)
  {
    match v
    case Dict(entries) =>
      (match Assoc.Get(entries, key)
       case Some(x) => Ok(x)
       case None => Err(KeyError(key)))
    case _ => Err(TypeError)
  }

  /** `v.get(key, default)`: only dicts have a `get` method. */
  function GetOr(v: Value, key: string, default: Value): (r: Result<Value, PyError>)
    ensures r.Ok? <==> v.Dict?
    ensures v.Dict? && key !in Assoc.Keys(v.entries) ==> r == Ok(default)
    ensures r.Ok? && key in Assoc.Keys(v.entries) ==> Subscript(v, key) == r
  {
    match v
    case Dict(entries) => Ok(Assoc.Get(entries, key).GetOr(default))
    case _ => Err(AttributeError)
  }

  /** `v[key] = x`: dicts only; a list, string or tuple rejects a string key. */
  function SetKey(v: Value, key: string, x: Value): (r: Result<Value, PyError>)
    ensures r.Ok? <==> v.Dict?
    ensures r.Ok? ==> r.value.Dict? && Subscript(r.value, key) == Ok(x)
  {
    match v
    case Dict(entries) =>
      Assoc.GetSet(entries, key, x, key);
      Ok(Dict(Assoc.Set(entries, key, x)))
    case _ => Err(TypeError)
  }

  /** `v[p0][p1]...`: follows a path of string keys. */
  function GetPath(v: Value, path: seq<string>): Result<Value, PyError>
    decreases |path|
  {
    if |path| == 0 then Ok(v)
    else
      match Subscript(v, path[0])
      case Err(e) => Err(e)
      case Ok(child) => GetPath(child, path[1..])
  }

  /**
   * `v[p0]...[pn-1] = x`: the dict reached through the path prefix is
   * updated and every dict on the way keeps its other keys.
   */
  function SetPath(v: Value, path: seq<string>, x: Value): (r: Result<Value, PyError>)
    requires |path| >= 1
    decreases |path|
  {
    if |path| == 1 then SetKey(v, path[0], x)
    else
      match Subscript(v, path[0])
      case Err(e) => Err(e)
      case Ok(child) =>
        match SetPath(child, path[1..], x)
        case Err(e) => Err(e)
        case Ok(child') => SetKey(v, path[0], child')
  }

  /** Writing through a path and reading the same path back gives the written value. */
  lemma {:induction false} GetPathSetPath(v: Value, path: seq<string>, x: Value)
    requires |path| >= 1
    requires SetPath(v, path, x).Ok?
    ensures GetPath(SetPath(v, path, x).value, path) == Ok(x)
    decreases |path|
  {
    var r := SetPath(v, path, x).value;
    if |path| > 1 {
      var child := Subscript(v, path[0]).value;
      GetPathSetPath(child, path[1..], x);
      assert Subscript(r, path[0]) == Ok(SetPath(child, path[1..], x).value);
    }
  }

  /** Reading a two-key path is subscripting twice, and `get` with either key finds the same values. */
  lemma GetPathTwo(v: Value, k1: string, k2: string, x: Value, d1: Value, d2: Value)
    requires GetPath(v, [k1, k2]) == Ok(x)
    ensures Subscript(v, k1).Ok? && GetOr(v, k1, d1) == Subscript(v, k1)
    ensures GetOr(Subscript(v, k1).value, k2, d2) == Ok(x)
  {
    assert [k1, k2][1..] == [k2];
    GetPathOne(Subscript(v, k1).value, k2, x);
  }

  lemma GetPathOne(v: Value, k: string, x: Value)
    requires GetPath(v, [k]) == Ok(x)
    ensures Subscript(v, k) == Ok(x)
  {
    assert [k][1..] == [];
    if Subscript(v, k).Ok? {
      assert GetPath(Subscript(v, k).value, []) == Ok(Subscript(v, k).value);
    }
  }

  /** `v[k] = x` leaves every other key of the dict as it was. */
  lemma SubscriptSetKey(v: Value, k: string, x: Value, k': string)
    requires v.Dict?
    ensures Subscript(SetKey(v, k, x).value, k') == if k' == k then Ok(x) else Subscript(v, k')
  {
    Assoc.GetSet(v.entries, k, x, k');
  }

  /** Writing through path `p` leaves what lies under any other first key as it was. */
  lemma GetPathSetPathApart(v: Value, p: seq<string>, x: Value, q: seq<string>)
    requires |p| >= 1 && |q| >= 1 && p[0] != q[0]
    requires SetPath(v, p, x).Ok?
    ensures GetPath(SetPath(v, p, x).value, q) == GetPath(v, q)
  {
    var r := SetPath(v, p, x).value;
    var child' := if |p| == 1 then x else SetPath(Subscript(v, p[0]).value, p[1..], x).value;
    assert r == SetKey(v, p[0], child').value;
    SubscriptSetKey(v, p[0], child', q[0]);
    GetPathFirstKey(r, v, q);
  }

  /** Below a shared first key, writing through `p` leaves path `q` as it was whenever it does so one level down. */
  lemma GetPathSetPathBelow(v: Value, p: seq<string>, x: Value, q: seq<string>)
    requires |p| >= 2 && |q| >= 1 && p[0] == q[0]
    requires SetPath(v, p, x).Ok?
    requires var child := Subscript(v, p[0]).value;
      GetPath(SetPath(child, p[1..], x).value, q[1..]) == GetPath(child, q[1..])
    ensures GetPath(SetPath(v, p, x).value, q) == GetPath(v, q)
  {
    var child := Subscript(v, p[0]).value;
    var child' := SetPath(child, p[1..], x).value;
    SubscriptSetKey(v, p[0], child', q[0]);
  }

  /** Two values with the same entry under the first key of a path read the same along it. */
  lemma GetPathFirstKey(v: Value, w: Value, q: seq<string>)
    requires |q| >= 1 && Subscript(v, q[0]) == Subscript(w, q[0])
    ensures GetPath(v, q) == GetPath(w, q)
  {
  }

  /** A path that can be read ends in a key of a dict: its parent path reads a dict. */
  lemma {:induction false} GetPathParent(v: Value, p: seq<string>)
    requires |p| >= 1 && GetPath(v, p).Ok?
    ensures GetPath(v, p[..|p| - 1]).Ok? && GetPath(v, p[..|p| - 1]).value.Dict?
    decreases |p|
  {
    if |p| == 1 {
      assert p[..0] == [];
    } else {
      var child := Subscript(v, p[0]).value;
      GetPathParent(child, p[1..]);
      assert p[..|p| - 1][0] == p[0];
      assert p[..|p| - 1][1..] == p[1..][..|p| - 2];
    }
  }

  /** Writing through a path succeeds once its parent path reads a dict. */
  lemma {:induction false} SetPathDefined(v: Value, p: seq<string>, x: Value)
    requires |p| >= 1 && GetPath(v, p[..|p| - 1]).Ok? && GetPath(v, p[..|p| - 1]).value.Dict?
    ensures SetPath(v, p, x).Ok?
    decreases |p|
  {
    if |p| == 1 {
      assert p[..0] == [];
    } else {
      assert p[..|p| - 1][0] == p[0];
      assert p[..|p| - 1][1..] == p[1..][..|p| - 2];
      SetPathDefined(Subscript(v, p[0]).value, p[1..], x);
    }
  }

  /** Reading `a + b` is reading `a`, then `b` from there. */
  lemma {:induction false} GetPathAppend(v: Value, a: seq<string>, b: seq<string>)
    ensures GetPath(v, a + b) == match GetPath(v, a) case Err(e) => Err(e) case Ok(w) => GetPath(w, b)
    decreases |a|
  {
    if |a| == 0 {
      assert a + b == b;
    } else {
      assert (a + b)[0] == a[0];
      assert (a + b)[1..] == a[1..] + b;
      if Subscript(v, a[0]).Ok? {
        GetPathAppend(Subscript(v, a[0]).value, a[1..], b);
      }
    }
  }
}

=== FILE: rect_box.dfy ===
/**
 * The movable, resizable rectangle (`kotonebot-devtool/src/components/ImageEditor/RectBox.tsx`):
 * which parts of the box start a drag in each mode, how a drag moves the
 * corners, what it reports when the button is released, and when a click
 * is passed on.
 */
module RectBox {
  import opened Wrappers
  import opened EditorTypes

  /** `move` shows no handles; `resize` shows the edges and corners; `none` is documented as fixed. */
  datatype Mode = MoveMode | ResizeMode | NoneMode

  const DefaultMode := ResizeMode

  /** The part of the box a drag started on. */
  datatype DragSource =
    | TopEdge | BottomEdge | LeftEdge | RightEdge
    | TopLeftCorner | TopRightCorner | BottomLeftCorner | BottomRightCorner
    | Move

  const ResizeSources: set<DragSource> :=
    {TopEdge, BottomEdge, LeftEdge, RightEdge, TopLeftCorner, TopRightCorner, BottomLeftCorner, BottomRightCorner}

  /** The parts that start a drag as the component renders them: the body always, the edges and corners only when resizing. */
  function SourcesAsWritten(m: Mode): (r: set<DragSource>)
    ensures Move in r
    ensures ResizeSources <= r <==> m == ResizeMode
  {
    if m == ResizeMode then ResizeSources + {Move} else {Move}
  }

  /** The parts that start a drag as the mode is documented: nothing at all in `none`. */
  function Sources(m: Mode): (r: set<DragSource>)
    ensures m == NoneMode <==> r == {}
    ensures m != NoneMode ==> r == SourcesAsWritten(m)
  {
    if m == NoneMode then {} else SourcesAsWritten(m)
  }

  /** `dragRef`: the drag in progress, if any. */
  datatype DragState = DragState(
    dragging: bool,
    source: Option<DragSource>,
    mouseStartX: real,
    mouseStartY: real,
    original: Option<RectPoints>,
    newRect: Option<RectPoints>)

  const Idle := DragState(false, None, 0.0, 0.0, None, None)

  /** The corners each part drags. */
  predicate DragsX1(s: DragSource) { s == LeftEdge || s == TopLeftCorner || s == BottomLeftCorner || s == Move }
  predicate DragsX2(s: DragSource) { s == RightEdge || s == TopRightCorner || s == BottomRightCorner || s == Move }
  predicate DragsY1(s: DragSource) { s == TopEdge || s == TopLeftCorner || s == TopRightCorner || s == Move }
  predicate DragsY2(s: DragSource) { s == BottomEdge || s == BottomLeftCorner || s == BottomRightCorner || s == Move }

  /** `handleMouseMove`'s chain of cases: the rectangle a drag from `s` by `(dx, dy)` makes of `r`. */
  function Transformed(r: RectPoints, s: DragSource, dx: real, dy: real): RectPoints
  {
    match s
    case TopEdge => r.(y1 := r.y1 + dy)
    case BottomEdge => r.(y2 := r.y2 + dy)
    case LeftEdge => r.(x1 := r.x1 + dx)
    case RightEdge => r.(x2 := r.x2 + dx)
    case TopLeftCorner => r.(x1 := r.x1 + dx, y1 := r.y1 + dy)
    case TopRightCorner => r.(x2 := r.x2 + dx, y1 := r.y1 + dy)
    case BottomLeftCorner => r.(x1 := r.x1 + dx, y2 := r.y2 + dy)
    case BottomRightCorner => r.(x2 := r.x2 + dx, y2 := r.y2 + dy)
    case Move => RectPoints(r.x1 + dx, r.y1 + dy, r.x2 + dx, r.y2 + dy)
  }

  /** Each part moves exactly the corners it names, by the mouse's travel along that axis. */
  lemma TransformedCorners(r: RectPoints, s: DragSource, dx: real, dy: real)
    ensures Transformed(r, s, dx, dy).x1 == r.x1 + (if DragsX1(s) then dx else 0.0)
    ensures Transformed(r, s, dx, dy).x2 == r.x2 + (if DragsX2(s) then dx else 0.0)
    ensures Transformed(r, s, dx, dy).y1 == r.y1 + (if DragsY1(s) then dy else 0.0)
    ensures Transformed(r, s, dx, dy).y2 == r.y2 + (if DragsY2(s) then dy else 0.0)
  {
  }

  /** Drags compose by adding their travel; no travel changes nothing, so a drag back undoes a drag. */
  lemma TransformedCompose(r: RectPoints, s: DragSource, a: real, b: real, c: real, d: real)
    ensures Transformed(Transformed(r, s, a, b), s, c, d) == Transformed(r, s, a + c, b + d)
    ensures Transformed(r, s, 0.0, 0.0) == r
    ensures Transformed(Transformed(r, s, a, b), s, -a, -b) == r
  {
  }

  /** The width and height the box is drawn with. */
  function BoxSize(r: RectPoints): (real, real)
  {
    (Abs(r.x2 - r.x1), Abs(r.y2 - r.y1))
  }

  /** Dragging the body moves the box without resizing it; an edge changes only one side. */
  lemma MoveKeepsSize(r: RectPoints, dx: real, dy: real)
    ensures BoxSize(Transformed(r, Move, dx, dy)) == BoxSize(r)
    ensures BoxSize(Transformed(r, TopEdge, dx, dy)).0 == BoxSize(r).0
    ensures BoxSize(Transformed(r, LeftEdge, dx, dy)).1 == BoxSize(r).1
  {
    assert (r.x2 + dx) - (r.x1 + dx) == r.x2 - r.x1;
    assert (r.y2 + dy) - (r.y1 + dy) == r.y2 - r.y1;
  }

  // ---------------------------------------------------------------------
  // Mouse events
  // ---------------------------------------------------------------------

  /** `handleMouseDown` on part `s`: remember where the mouse and the box started. */
  function Press(rect: RectPoints, s: DragSource, cx: real, cy: real): (r: DragState)
    ensures r.dragging && r.source == Some(s) && r.original == Some(rect) && r.newRect == Some(rect)
  {
    DragState(true, Some(s), cx, cy, Some(rect), Some(rect))
  }

  /** A button press on part `s`, as rendered: only the parts `SourcesAsWritten` lists listen. */
  function MouseDownAsWritten(st: DragState, m: Mode, rect: RectPoints, s: DragSource, cx: real, cy: real): (r: DragState)
    ensures s in SourcesAsWritten(m) ==> r == Press(rect, s, cx, cy)
    ensures s !in SourcesAsWritten(m) ==> r == st
  {
    if s in SourcesAsWritten(m) then Press(rect, s, cx, cy) else st
  }

  /** A button press on part `s` with the documented modes. */
  function MouseDown(st: DragState, m: Mode, rect: RectPoints, s: DragSource, cx: real, cy: real): (r: DragState)
    ensures s in Sources(m) ==> r == Press(rect, s, cx, cy)
    ensures s !in Sources(m) ==> r == st
    ensures m != NoneMode ==> r == MouseDownAsWritten(st, m, rect, s, cx, cy)
  {
    if s in Sources(m) then Press(rect, s, cx, cy) else st
  }

  /**
   * `handleMouseMove`: while dragging, the box is the one at the press
   * moved by the mouse's travel since the press; it is reported and kept.
   */
  function MouseMove(st: DragState, cx: real, cy: real): (r: (DragState, Option<RectPoints>))
    ensures !st.dragging || st.original.None? ==> r == (st, None)
    ensures st.dragging && st.original.Some? ==> r.1.Some? && r.0 == st.(newRect := r.1)
  {
    if !st.dragging || st.original.None? then (st, None)
    else
      var o := st.original.value;
      var p := match st.source
        case None => o
        case Some(s) => Transformed(o, s, cx - st.mouseStartX, cy - st.mouseStartY);
      (st.(newRect := Some(p)), Some(p))
  }

  /** `handleMouseUp`: report the last box and forget the drag. */
  function MouseUp(st: DragState): (r: (DragState, Option<RectPoints>))
    ensures !st.dragging || st.newRect.None? ==> r == (st, None)
    ensures st.dragging && st.newRect.Some? ==> r == (Idle, st.newRect)
  {
    if !st.dragging || st.newRect.None? then (st, None) else (Idle, st.newRect)
  }

  /** `handleClick`: the click reaches the owner only when no drag is under way. */
  function ClickPasses(st: DragState): bool
  {
    !st.dragging
  }

  /** Only the last mouse position of a drag matters: moves do not accumulate. */
  lemma LastMoveWins(st: DragState, ax: real, ay: real, px: real, py: real)
    ensures MouseMove(MouseMove(st, ax, ay).0, px, py) == MouseMove(st, px, py)
  {
  }

  /** A whole gesture: press, move, release reports the pressed part dragged by the mouse's travel, and ends idle. */
  lemma Gesture(st: DragState, m: Mode, rect: RectPoints, s: DragSource, x0: real, y0: real, x1: real, y1: real)
    requires s in Sources(m)
    ensures var down := MouseDown(st, m, rect, s, x0, y0);
            var moved := MouseMove(down, x1, y1);
            && !ClickPasses(down) && !ClickPasses(moved.0)
            && moved.1 == Some(Transformed(rect, s, x1 - x0, y1 - y0))
            && MouseUp(moved.0) == (Idle, moved.1)
            && ClickPasses(MouseUp(moved.0).0)
  {
  }

  /** Press and release without moving reports the box unchanged. */
  lemma ClickReportsSameBox(st: DragState, m: Mode, rect: RectPoints, s: DragSource, x: real, y: real)
    requires s in Sources(m)
    ensures MouseUp(MouseDown(st, m, rect, s, x, y)) == (Idle, Some(rect))
  {
  }

  /** As rendered, a box in `none` mode still moves when its body is dragged. */
  lemma NoneModeMovesAsWritten(rect: RectPoints, x0: real, y0: real, x1: real, y1: real)
    requires x1 != x0
    ensures var moved := MouseMove(MouseDownAsWritten(Idle, NoneMode, rect, Move, x0, y0), x1, y1);
            moved.1.Some? && moved.1.value != rect
  {
  }

  /** With the documented modes, nothing on a box in `none` mode starts a drag, so no move reports anything. */
  lemma NoneModeFixed(st: DragState, rect: RectPoints, s: DragSource, x0: real, y0: real, x1: real, y1: real)
    requires !st.dragging
    ensures var down := MouseDown(st, NoneMode, rect, s, x0, y0);
            && down == st
            && MouseMove(down, x1, y1).1.None?
            && MouseUp(down).1.None?
  {
  }
}

=== FILE: rect_tool.dfy ===
/**
 * The rectangle-drawing tool of the image editor
 * (`kotonebot-devtool/src/components/ImageEditor/tools/RectTool.tsx`) and the
 * older one it replaced (`kotonebot-devtool/src/components/ImageEditor/RectTool.tsx`):
 * press, drag and release draw a box in container coordinates, which is
 * normalised, converted to image pixels and added as a new annotation.
 *
 * The new annotation's id comes from `uuid` and is a parameter here.
 */
module RectTool {
  import opened Wrappers
  import opened EditorTypes
  import ImageEditor

  /** The corners drawn so far, and whether a press is under way (`drawingRef`). */
  datatype ToolState = ToolState(start: Option<Point>, end: Option<Point>, drawing: bool)

  const Ready := ToolState(None, None, false)

  /** Sides shorter than this many container pixels make no annotation. */
  const MinSide: real := 10.0

  /** A client position relative to the container's top-left corner; `None` when the container is not mounted. */
  function Local(container: Option<Point>, cx: real, cy: real): (r: Option<Point>)
    ensures r.Some? <==> container.Some?
    ensures r.Some? ==> r.value.x + container.value.x == cx && r.value.y + container.value.y == cy
  {
    match container
    case None => None
    case Some(o) => Some(Point(cx - o.x, cy - o.y))
  }

  /** `handleMouseDown`: both corners at the mouse. */
  function MouseDown(st: ToolState, container: Option<Point>, cx: real, cy: real): (r: ToolState)
    ensures r.drawing
    ensures container.Some? ==> r.start == r.end == Local(container, cx, cy)
    ensures container.None? ==> r.start == st.start && r.end == st.end
  {
    match Local(container, cx, cy)
    case None => st.(drawing := true)
    case Some(p) => ToolState(Some(p), Some(p), true)
  }

  /** `handleMouseMove`: the second corner follows the mouse, pressed or not. */
  function MouseMove(st: ToolState, container: Option<Point>, cx: real, cy: real): (r: ToolState)
    ensures r.start == st.start && r.drawing == st.drawing
    ensures container.Some? ==> r.end == Local(container, cx, cy)
    ensures container.None? ==> r == st
  {
    match Local(container, cx, cy)
    case None => st
    case Some(p) => st.(end := Some(p))
  }

  /** The box with corners `a` and `b`, smaller coordinates first. */
  function Normalised(a: Point, b: Point): (r: RectPoints)
    ensures r.x1 <= r.x2 && r.y1 <= r.y2
    ensures r.x1 <= a.x <= r.x2 && r.x1 <= b.x <= r.x2
    ensures r.y1 <= a.y <= r.y2 && r.y1 <= b.y <= r.y2
    ensures (r.x1 == a.x || r.x1 == b.x) && (r.x2 == a.x || r.x2 == b.x)
    ensures (r.y1 == a.y || r.y1 == b.y) && (r.y2 == a.y || r.y2 == b.y)
  {
    RectPoints(Min(a.x, b.x), Min(a.y, b.y), Max(a.x, b.x), Max(a.y, b.y))
  }

  /** The corners can be drawn in either order. */
  lemma NormalisedSymmetric(a: Point, b: Point)
    ensures Normalised(a, b) == Normalised(b, a)
  {
  }

  /** Narrower or lower than `MinSide`. */
  predicate TooSmall(r: RectPoints)
  {
    Abs(r.x1 - r.x2) < MinSide || Abs(r.y1 - r.y2) < MinSide
  }

  /** The annotation the drawn box becomes, in image pixels. */
  function DrawnAnnotation(v: ImageEditor.View, id: string, a: Point, b: Point): (r: Annotation)
    requires v.scale != 0.0
    ensures r.id == id && r.tip.None? && r.shape.Rect?
    ensures r.shape.rect == ImageEditor.RectContainerToImage(v, Normalised(a, b))
  {
    Annotation(id, Rect(ImageEditor.RectContainerToImage(v, Normalised(a, b))), None)
  }

  /** At a positive scale the added box keeps its corners in order in image pixels too. */
  lemma DrawnInOrder(v: ImageEditor.View, id: string, a: Point, b: Point)
    requires v.scale > 0.0
    ensures var q := DrawnAnnotation(v, id, a, b).shape.rect;
            q.x1 <= q.x2 && q.y1 <= q.y2
  {
    var n := Normalised(a, b);
    ImageEditor.ContainerMonotone(v, Point(n.x1, n.y1), Point(n.x2, n.y2));
  }

  /**
   * `handleMouseUp`: with both corners, the box is added (and selected)
   * unless a side is under `MinSide`; either way the tool starts over.
   */
  function MouseUp(st: ToolState, v: ImageEditor.View, id: string): (r: (ToolState, Option<Annotation>))
    requires st.start.Some? && st.end.Some? && !TooSmall(Normalised(st.start.value, st.end.value)) ==> v.scale != 0.0
    ensures st.start.None? || st.end.None? ==> r == (st, None)
    ensures st.start.Some? && st.end.Some? ==> r.0 == Ready
    ensures r.1.Some? <==> st.start.Some? && st.end.Some? && !TooSmall(Normalised(st.start.value, st.end.value))
    ensures r.1.Some? ==> r.1.value == DrawnAnnotation(v, id, st.start.value, st.end.value)
  {
    if st.start.None? || st.end.None? then (st, None)
    else
      var n := Normalised(st.start.value, st.end.value);
      if TooSmall(n) then (Ready, None)
      else (Ready, Some(DrawnAnnotation(v, id, st.start.value, st.end.value)))
  }

  /** The older tool: no `drawingRef`, and every box is added, however small. */
  function LegacyMouseUp(st: ToolState, v: ImageEditor.View, id: string): (r: (ToolState, Option<Annotation>))
    requires st.start.Some? && st.end.Some? ==> v.scale != 0.0
    ensures st.start.None? || st.end.None? ==> r == (st, None)
    ensures st.start.Some? && st.end.Some? ==>
      r == (st.(start := None, end := None), Some(DrawnAnnotation(v, id, st.start.value, st.end.value)))
  {
    if st.start.None? || st.end.None? then (st, None)
    else (st.(start := None, end := None), Some(DrawnAnnotation(v, id, st.start.value, st.end.value)))
  }

  /** The new tool adds a subset of what the old one added, the same annotation each time. */
  lemma GateOnlyFilters(st: ToolState, v: ImageEditor.View, id: string)
    requires v.scale != 0.0
    ensures MouseUp(st, v, id).1.Some? ==> MouseUp(st, v, id).1 == LegacyMouseUp(st, v, id).1
    ensures LegacyMouseUp(st, v, id).1.Some? && MouseUp(st, v, id).1.None? ==>
      TooSmall(Normalised(st.start.value, st.end.value))
  {
  }

  /**
   * A whole gesture in a mounted container: press at one point, release
   * after moving to another; an annotation appears exactly when the drag
   * spans at least `MinSide` in both directions, and it covers the drag.
   */
  lemma {:induction false} Gesture(o: Point, v: ImageEditor.View, id: string, x0: real, y0: real, x1: real, y1: real)
    requires v.scale != 0.0
    ensures var st := MouseMove(MouseDown(Ready, Some(o), x0, y0), Some(o), x1, y1);
            var up := MouseUp(st, v, id);
            && up.0 == Ready
            && (up.1.Some? <==> Abs(x1 - x0) >= MinSide && Abs(y1 - y0) >= MinSide)
            && (up.1.Some? ==> up.1.value == DrawnAnnotation(v, id, Point(x0 - o.x, y0 - o.y), Point(x1 - o.x, y1 - o.y)))
  {
    var a, b := Point(x0 - o.x, y0 - o.y), Point(x1 - o.x, y1 - o.y);
    var n := Normalised(a, b);
    assert Abs(n.x1 - n.x2) == Abs(x1 - x0) by {
      assert Abs(n.x1 - n.x2) == Abs(a.x - b.x);
    }
    assert Abs(n.y1 - n.y2) == Abs(y1 - y0) by {
      assert Abs(n.y1 - n.y2) == Abs(a.y - b.y);
    }
  }
}

=== FILE: registry.dfy ===
/**
 * The image editor's registry of tools and overlays
 * (`kotonebot-devtool/src/components/ImageEditor/core/registry.ts`): two
 * `Map`s keyed by name, and the overlays listed by ascending `zIndex`.
 *
 * A tool's React component and an overlay's renderer are not modelled.
 */
module EditorRegistry {
  import opened Wrappers
  import Assoc
  import Sorting

  datatype EditorTool = EditorTool(name: string, cursor: string)

  datatype EditorOverlay = EditorOverlay(name: string, zIndex: real)

  /** Both maps keep insertion order, as a JavaScript `Map` does. */
  datatype Registry = Registry(tools: Assoc.Dict<string, EditorTool>, overlays: Assoc.Dict<string, EditorOverlay>)

  const EmptyRegistry := Registry([], [])

  /** `registerTool`: a tool under a name already taken replaces it in place. */
  function RegisterTool(r: Registry, t: EditorTool): (r': Registry)
    ensures r'.overlays == r.overlays
    ensures t.name in Assoc.Keys(r.tools) ==> Assoc.Keys(r'.tools) == Assoc.Keys(r.tools)
    ensures t.name !in Assoc.Keys(r.tools) ==> Assoc.Keys(r'.tools) == Assoc.Keys(r.tools) + [t.name]
  {
    r.(tools := Assoc.Set(r.tools, t.name, t))
  }

  /** `getTool`. */
  function GetTool(r: Registry, name: string): (t: Option<EditorTool>)
    ensures t.None? <==> name !in Assoc.Keys(r.tools)
  {
    Assoc.Get(r.tools, name)
  }

  /** A tool is found under its name once registered, and no other name changes. */
  lemma RegisterThenGet(r: Registry, t: EditorTool, name: string)
    ensures GetTool(RegisterTool(r, t), name) == if name == t.name then Some(t) else GetTool(r, name)
  {
    Assoc.GetSet(r.tools, t.name, t, name);
  }

  /** `registerOverlay`. */
  function RegisterOverlay(r: Registry, o: EditorOverlay): (r': Registry)
    ensures r'.tools == r.tools
    ensures o.name in Assoc.Keys(r.overlays) ==> Assoc.Keys(r'.overlays) == Assoc.Keys(r.overlays)
    ensures o.name !in Assoc.Keys(r.overlays) ==> Assoc.Keys(r'.overlays) == Assoc.Keys(r.overlays) + [o.name]
  {
    r.(overlays := Assoc.Set(r.overlays, o.name, o))
  }

  /** An overlay is stored under its name once registered, and no other name changes. */
  lemma RegisterOverlayStores(r: Registry, o: EditorOverlay, name: string)
    ensures Assoc.Get(RegisterOverlay(r, o).overlays, name) == if name == o.name then Some(o) else Assoc.Get(r.overlays, name)
  {
    Assoc.GetSet(r.overlays, o.name, o, name);
  }

  /** The comparator `a.zIndex - b.zIndex`: `a` goes first when its `zIndex` is smaller. */
  predicate ZBefore(a: EditorOverlay, b: EditorOverlay)
  {
    a.zIndex < b.zIndex
  }

  /** The overlays at one `zIndex`. */
  function AtZ(z: real): EditorOverlay -> bool
  {
    (o: EditorOverlay) => o.zIndex == z
  }

  lemma ZBeforeOrder()
    ensures Sorting.StrictOrder(ZBefore)
    ensures forall z :: Sorting.TieClass(AtZ(z), ZBefore)
  {
  }

  /**
   * `getOverlays`: every registered overlay once, lowest `zIndex` first;
   * overlays with the same `zIndex` keep their registration order.
   */
  function GetOverlays(r: Registry): (s: seq<EditorOverlay>)
    ensures multiset(s) == multiset(Assoc.Values(r.overlays))
    ensures forall i, j :: 0 <= i < j < |s| ==> s[i].zIndex <= s[j].zIndex
    ensures forall z :: Sorting.Filter(s, AtZ(z)) == Sorting.Filter(Assoc.Values(r.overlays), AtZ(z))
  {
    var vs := Assoc.Values(r.overlays);
    ZBeforeOrder();
    Sorting.SortBySorted(vs, ZBefore);
    forall z ensures Sorting.Filter(Sorting.SortBy(vs, ZBefore), AtZ(z)) == Sorting.Filter(vs, AtZ(z)) {
      Sorting.SortByStable(vs, ZBefore, AtZ(z));
    }
    Sorting.SortBy(vs, ZBefore)
  }

  /** Registered in ascending `zIndex`, the overlays come back in registration order. */
  lemma OrderedRegistration(r: Registry)
    requires forall i, j :: 0 <= i < j < |r.overlays| ==> r.overlays[i].1.zIndex <= r.overlays[j].1.zIndex
    ensures GetOverlays(r) == Assoc.Values(r.overlays)
  {
    var vs := Assoc.Values(r.overlays);
    assert Sorting.SortedBy(vs, ZBefore);
    Sorting.SortBySortedIdentity(vs, ZBefore);
  }

  /** A registered overlay is among those `getOverlays` lists. */
  lemma RegisteredOverlayListed(r: Registry, o: EditorOverlay)
    ensures o in GetOverlays(RegisterOverlay(r, o))
  {
    var d := RegisterOverlay(r, o).overlays;
    RegisterOverlayStores(r, o, o.name);
    var i :| 0 <= i < |d| && d[i].0 == o.name && d[i].1 == o;
    assert Assoc.Values(d)[i] == o;
    assert o in multiset(Assoc.Values(d));
    assert o in multiset(GetOverlays(RegisterOverlay(r, o)));
  }
}

=== FILE: repo.dfy ===
/**
 * Package versions as the launcher sees them (bootstrap/kaa-bootstrap/repo.py):
 * pre-release labels, the `Version` record parsed from a version string,
 * its ordering, package-name normalisation, the version hidden in a
 * distribution file name, and the filtered, newest-first version list.
 *
 * The PEP 440 regular expression itself is an oracle: it hands back the
 * groups it captured, with the numeric groups already read as the integers
 * their digits spell. The fallback patterns used when it does not match
 * are small enough to be written out here.
 */
module Repo {
  import opened Wrappers
  import opened Text
  import Sorting

  // ---------------------------------------------------------------------
  // Pre-release labels
  // ---------------------------------------------------------------------

  /** The pre-release spellings the PEP 440 pattern accepts. */
  const PreSpellings: set<string> := {"a", "b", "c", "rc", "alpha", "beta", "pre", "preview"}

  /** The labels a parsed version can carry: none, the three pre-release kinds, dev and post. */
  const KnownLabels: set<string> := {"", "a", "b", "rc", "dev", "post"}

  /** `_normalize_pre_label`: the spellings of alpha, beta and release candidate collapse to `a`, `b` and `rc`. */
  function NormalizePreLabel(tag: string): (r: string)
    ensures r == "a" <==> Lower(tag) in {"alpha", "a"}
    ensures r == "b" <==> Lower(tag) in {"beta", "b"}
    ensures r == "rc" <==> Lower(tag) in {"rc", "c", "pre", "preview"}
    ensures Lower(tag) !in {"alpha", "a", "beta", "b", "rc", "c", "pre", "preview"} ==> r == Lower(tag)
  {
    var l := Lower(tag);
    if l in {"alpha", "a"} then "a"
    else if l in {"beta", "b"} then "b"
    else if l in {"rc", "c", "pre", "preview"} then "rc"
    else l
  }

  /** Normalising a normalised label changes nothing. */
  lemma NormalizePreLabelIdempotent(tag: string)
    ensures NormalizePreLabel(NormalizePreLabel(tag)) == NormalizePreLabel(tag)
  {
    LowerIdempotent(tag);
    assert Lower("a") == "a" && Lower("b") == "b" && Lower("rc") == "rc";
  }

  /** The spellings the version patterns capture normalise to known labels, pre-release spellings to `a`, `b` or `rc`. */
  lemma NormalizeSpelling(tag: string)
    ensures tag in PreSpellings ==> NormalizePreLabel(tag) in {"a", "b", "rc"}
    ensures tag in {"dev", "post"} ==> NormalizePreLabel(tag) == tag
  {
    if tag in PreSpellings || tag in {"dev", "post"} {
      assert forall i :: 0 <= i < |tag| ==> !('A' <= tag[i] <= 'Z');
      assert Lower(tag) == tag;
    }
  }

  // ---------------------------------------------------------------------
  // The version record
  // ---------------------------------------------------------------------

  datatype PreGroup = PreGroup(tag: string, num: Option<nat>)

  /** The two spellings of a post release: `-N`, or `post`/`rev`/`r` with an optional number. */
  datatype PostGroup = PostGroup(n1: Option<nat>, n2: Option<nat>)

  datatype RawGroups = RawGroups(release: seq<nat>, pre: Option<PreGroup>, post: Option<PostGroup>, dev: Option<Option<nat>>)

  /** What a successful match of the PEP 440 pattern captures: a non-empty release and a pre-release label it spells. */
  type Groups = g: RawGroups | |g.release| >= 1 && (g.pre.Some? ==> g.pre.value.tag in PreSpellings)
    witness RawGroups([0], None, None, None)

  /** The PEP 440 pattern, anchored and surrounded by optional whitespace. */
  type Pep440Regex = string -> Option<Groups>

  datatype Version = Version(text: string, major: int, minor: int, patch: int, prerelease: string, prereleaseNum: int)

  /** The release number at position `i`, or 0 past the end. */
  function ReleaseAt(release: seq<nat>, i: nat): nat
  {
    if i < |release| then release[i] else 0
  }

  /** `version_str.strip().lower().lstrip('v')`. */
  function Clean(text: string): (r: string)
    ensures var t := Lower(StripSpace(text));
      && |r| <= |t| && r == t[|t| - |r|..]
      && (forall i :: 0 <= i < |t| - |r| ==> t[i] == 'v')
      && (|r| > 0 ==> r[0] != 'v')
  {
    LStripChar(Lower(StripSpace(text)), 'v')
  }

  /** The regular-expression path: one marker is kept, dev before pre before post. */
  function FromGroups(text: string, g: Groups): (v: Version)
    ensures v.major == g.release[0]
    ensures |g.release| >= 2 ==> v.minor == g.release[1]
    ensures |g.release| >= 3 ==> v.patch == g.release[2]
    ensures |g.release| < 2 ==> v.minor == 0
    ensures |g.release| < 3 ==> v.patch == 0
    ensures g.dev.Some? ==> v.prerelease == "dev" && v.prereleaseNum == g.dev.value.GetOr(0)
    ensures g.dev.None? && g.pre.Some? ==> v.prerelease in {"a", "b", "rc"}
    ensures g.dev.None? && g.pre.Some? ==> v.prereleaseNum == g.pre.value.num.GetOr(0)
    ensures g.dev.None? && g.pre.None? && g.post.Some? ==> v.prerelease == "post"
    ensures g.dev.None? && g.pre.None? && g.post.None? ==> v.prerelease == "" && v.prereleaseNum == 0
    ensures v.prerelease in KnownLabels
  {
    var major := g.release[0];
    NormalizeSpelling(if g.pre.Some? then g.pre.value.tag else "");
    var minor := ReleaseAt(g.release, 1);
    var patch := ReleaseAt(g.release, 2);
    if g.dev.Some? then
      Version(text, major, minor, patch, "dev", g.dev.value.GetOr(0))
    else if g.pre.Some? then
      Version(text, major, minor, patch, NormalizePreLabel(g.pre.value.tag), g.pre.value.num.GetOr(0))
    else if g.post.Some? then
      var n := if g.post.value.n1.Some? then g.post.value.n1.value else g.post.value.n2.GetOr(0);
      Version(text, major, minor, patch, "post", n)
    else
      Version(text, major, minor, patch, "", 0)
  }

  /** Trailing zero release numbers make no difference: `1.2` and `1.2.0` parse alike. */
  lemma ReleasePaddingIrrelevant(text: string, g: Groups)
    ensures FromGroups(text, g.(release := g.release + [0])) == FromGroups(text, g)
  {
    var g' := g.(release := g.release + [0]);
    assert forall i :: 0 <= i < |g.release| ==> g'.release[i] == g.release[i];
  }

  // The fallback when the PEP 440 pattern does not match.

  /** `\.(\d+)` at `i`: the end of the digits when a dot and at least one digit follow. */
  function DotNumberAt(s: string, i: nat): (r: Option<nat>)
    requires i <= |s|
    ensures r.None? <==> !(i + 1 < |s| && s[i] == '.' && IsDigit(s[i + 1]))
    ensures r.Some? ==> i + 2 <= r.value <= |s| && r.value == DigitRunEnd(s, i + 1)
  {
    if i + 1 < |s| && s[i] == '.' && IsDigit(s[i + 1]) then Some(DigitRunEnd(s, i + 1)) else None
  }

  /** `^(\d+)(?:\.(\d+))?(?:\.(\d+))?`: up to three dotted numbers at the start, or `None` without a leading digit. */
  function FallbackRelease(s: string): (r: Option<(nat, nat, nat)>)
    ensures r.None? <==> |s| == 0 || !IsDigit(s[0])
    ensures r.Some? ==> r.value.0 == DigitsValue(s[..DigitRunEnd(s, 0)], 10)
    ensures r.Some? && DotNumberAt(s, DigitRunEnd(s, 0)).None? ==> r.value.1 == 0 && r.value.2 == 0
    ensures r.Some? && DotNumberAt(s, DigitRunEnd(s, 0)).Some? ==>
      var e1 := DigitRunEnd(s, 0);
      var e2 := DotNumberAt(s, e1).value;
      && r.value.1 == DigitsValue(s[e1 + 1..e2], 10)
      && (DotNumberAt(s, e2).None? ==> r.value.2 == 0)
      && (DotNumberAt(s, e2).Some? ==> r.value.2 == DigitsValue(s[e2 + 1..DotNumberAt(s, e2).value], 10))
  {
    var e1 := DigitRunEnd(s, 0);
    if e1 == 0 then None
    else
      var major := DigitsValue(s[..e1], 10);
      match DotNumberAt(s, e1)
      case None => Some((major, 0, 0))
      case Some(e2) =>
        var minor := DigitsValue(s[e1 + 1..e2], 10);
        match DotNumberAt(s, e2)
        case None => Some((major, minor, 0))
        case Some(e3) => Some((major, minor, DigitsValue(s[e2 + 1..e3], 10)))
  }

  /** The alternation `a|b|c|rc|alpha|beta|pre|preview|dev|post`, in that order. */
  const LabelAlternatives: seq<string> := ["a", "b", "c", "rc", "alpha", "beta", "pre", "preview", "dev", "post"]

  /** The index of the first alternative that `t` starts with, as a regex alternation tries them. */
  function FirstAlternative(t: string, alts: seq<string>, k: nat): (r: Option<nat>)
    requires k <= |alts|
    ensures r.Some? ==> k <= r.value < |alts| && StartsWith(t, alts[r.value])
    ensures r.Some? ==> forall j :: k <= j < r.value ==> !StartsWith(t, alts[j])
    ensures r.None? ==> forall j :: k <= j < |alts| ==> !StartsWith(t, alts[j])
    decreases |alts| - k
  {
    if k == |alts| then None
    else if StartsWith(t, alts[k]) then Some(k)
    else FirstAlternative(t, alts, k + 1)
  }

  /**
   * The label the alternation matches at `i`. `alpha`, `beta` and `preview`
   * are never the answer since `a`, `b` and `pre` are tried first.
   */
  function LabelAt(s: string, i: nat): (r: Option<string>)
    requires i <= |s|
    ensures r.Some? ==> StartsWith(s[i..], r.value) && r.value in {"a", "b", "c", "rc", "pre", "dev", "post"}
    ensures r.None? <==> forall k :: 0 <= k < |LabelAlternatives| ==> !StartsWith(s[i..], LabelAlternatives[k])
  {
    var t := s[i..];
    StartsWithTrans(t, "alpha", "a");
    StartsWithTrans(t, "beta", "b");
    StartsWithTrans(t, "preview", "pre");
    match FirstAlternative(t, LabelAlternatives, 0)
    case None => None
    case Some(k) =>
      Some(LabelAlternatives[k])
  }

  /** `re.search` for the alternation: the leftmost position at or after `i` where it matches. */
  function SearchLabel(s: string, i: nat): (r: Option<(nat, string)>)
    requires i <= |s|
    ensures r.Some? ==> i <= r.value.0 < |s| && LabelAt(s, r.value.0) == Some(r.value.1)
    ensures r.Some? ==> forall j :: i <= j < r.value.0 ==> LabelAt(s, j).None?
    ensures r.None? ==> forall j :: i <= j <= |s| ==> LabelAt(s, j).None?
    decreases |s| - i
  {
    if i == |s| then
      assert LabelAt(s, i).None? by { assert !StartsWith(s[i..], "a"); }
      None
    else
      match LabelAt(s, i)
      case Some(l) => Some((i, l))
      case None => SearchLabel(s, i + 1)
  }

  /** `\s*([0-9]*)` after the label: the number that follows, 0 when there is none. */
  function NumberAfter(s: string, i: nat): (n: nat)
    requires i <= |s|
    ensures LeadingSpaces(s, i) == DigitRunEnd(s, LeadingSpaces(s, i)) ==> n == 0
    ensures var k := LeadingSpaces(s, i); k < DigitRunEnd(s, k) ==> n == DigitsValue(s[k..DigitRunEnd(s, k)], 10)
  {
    var k := LeadingSpaces(s, i);
    var e := DigitRunEnd(s, k);
    if e == k then 0 else DigitsValue(s[k..e], 10)
  }

  /** The marker of the first label anywhere, normalised, or `""` when there is none. */
  function FallbackTag(s: string): string
  {
    match SearchLabel(s, 0)
    case None => ""
    case Some((_, l)) => NormalizePreLabel(l)
  }

  /** The number after the first label anywhere, or 0 when there is none. */
  function FallbackNumber(s: string): nat
  {
    var found := SearchLabel(s, 0);
    if found.Some? then LabelEnd(s, found.value.0, found.value.1); NumberAfterFound(s, found)
    else NumberAfterFound(s, found)
  }

  /** The number after the label a search found, or 0 when it found none. */
  function NumberAfterFound(s: string, found: Option<(nat, string)>): nat
    requires found.Some? ==> found.value.0 + |found.value.1| <= |s|
  {
    if found.None? then 0 else NumberAfter(s, found.value.0 + |found.value.1|)
  }

  lemma FallbackNumberFound(s: string)
    ensures SearchLabel(s, 0).Some? ==> SearchLabel(s, 0).value.0 + |SearchLabel(s, 0).value.1| <= |s|
    ensures FallbackNumber(s) == NumberAfterFound(s, SearchLabel(s, 0))
  {
    var found := SearchLabel(s, 0);
    if found.Some? {
      LabelEnd(s, found.value.0, found.value.1);
    }
  }

  lemma NumberAfterSome(s: string, p: nat, l: string)
    requires p + |l| <= |s|
    ensures NumberAfterFound(s, Some((p, l))) == NumberAfter(s, p + |l|)
  {
  }

  /** Every label the search can find normalises to a marker the comparison knows. */
  lemma FallbackTagKnown(s: string)
    ensures FallbackTag(s) in KnownLabels
  {
    match SearchLabel(s, 0)
    case None =>
    case Some((_, l)) => NormalizeSpelling(l);
  }

  /** `(?:a|b|...|post)\s*([0-9]*)` searched for: the normalised first label anywhere and the number after it. */
  function FallbackLabel(s: string): (r: (string, nat))
    ensures r.0 in KnownLabels
    ensures SearchLabel(s, 0).None? ==> r == ("", 0)
  {
    FallbackTagKnown(s);
    (FallbackTag(s), FallbackNumber(s))
  }

  /** The fallback path: the simple release pattern, then the first pre-release word anywhere. */
  function FromFallback(text: string, s: string): (v: Version)
    ensures v.text == text
    ensures v.prerelease in KnownLabels
    ensures (v.prerelease, v.prereleaseNum) == FallbackLabel(s)
    ensures FallbackRelease(s).None? ==> v.major == 0 && v.minor == 0 && v.patch == 0
  {
    var (major, minor, patch) := FallbackRelease(s).GetOr((0, 0, 0));
    var (tag, num) := FallbackLabel(s);
    Version(text, major, minor, patch, tag, num)
  }

  /** The fallback's marker is the first label found anywhere in the text, normalised. */
  lemma FallbackTagSpec(s: string, p: nat, l: string)
    requires SearchLabel(s, 0) == Some((p, l))
    ensures FallbackLabel(s).0 == NormalizePreLabel(l)
  {
  }

  /** The fallback's number is the one after that label, past any whitespace, or 0. */
  lemma FallbackNumberSpec(s: string, p: nat, l: string)
    requires SearchLabel(s, 0) == Some((p, l))
    ensures FallbackLabel(s).1 == NumberAfter(s, p + |l|)
  {
    FallbackNumberAt(s, p, l);
    assert FallbackLabel(s).1 == FallbackNumber(s);
  }

  lemma FallbackNumberAt(s: string, p: nat, l: string)
    requires SearchLabel(s, 0) == Some((p, l))
    ensures p + |l| <= |s| && FallbackNumber(s) == NumberAfter(s, p + |l|)
  {
    LabelEnd(s, p, l);
    FallbackNumberFound(s);
    NumberAfterSome(s, p, l);
  }

  lemma LabelEnd(s: string, p: nat, l: string)
    requires p < |s| && LabelAt(s, p) == Some(l)
    ensures p + |l| <= |s|
  {
    assert StartsWith(s[p..], l);
  }

  /** Where the simple release pattern matches, it supplies all three numbers. */
  lemma FromFallbackRelease(text: string, s: string)
    requires FallbackRelease(s).Some?
    ensures (FromFallback(text, s).major, FromFallback(text, s).minor, FromFallback(text, s).patch) == FallbackRelease(s).value
  {
  }

  /** `Version(text)`: the PEP 440 pattern when it matches, the fallback otherwise. */
  function Parse(pep: Pep440Regex, text: string): (v: Version)
    ensures v.text == text
    ensures v.prerelease in KnownLabels
    ensures pep(Clean(text)).Some? ==> v.major == pep(Clean(text)).value.release[0]
    ensures pep(Clean(text)).Some? && pep(Clean(text)).value.dev.Some? ==> v.prerelease == "dev"
    ensures pep(Clean(text)).None? && SearchLabel(Clean(text), 0).None? ==> v.prerelease == ""
    ensures pep(Clean(text)).Some? ==> v == FromGroups(text, pep(Clean(text)).value)
    ensures pep(Clean(text)).None? ==> v == FromFallback(text, Clean(text))
  {
    var s := Clean(text);
    match pep(s)
    case Some(g) => FromGroups(text, g)
    case None => FromFallback(text, s)
  }

  // ---------------------------------------------------------------------
  // Ordering
  // ---------------------------------------------------------------------

  /** The place of a label in `dev < a < b < rc < final < post`; unknown labels rank as final. */
  function Rank(tag: string): (r: nat)
    ensures r <= 5
    ensures tag !in KnownLabels ==> r == 4
  {
    if tag == "dev" then 0
    else if tag == "a" then 1
    else if tag == "b" then 2
    else if tag == "rc" then 3
    else if tag == "post" then 5
    else 4
  }

  /** `Version.__lt__`. */
  predicate Lt(a: Version, b: Version)
  {
    if a.major != b.major then a.major < b.major
    else if a.minor != b.minor then a.minor < b.minor
    else if a.patch != b.patch then a.patch < b.patch
    else if Rank(a.prerelease) != Rank(b.prerelease) then Rank(a.prerelease) < Rank(b.prerelease)
    else if a.prerelease == b.prerelease then a.prereleaseNum < b.prereleaseNum
    else false
  }

  /** `Version.__eq__`: the five parsed fields agree; the original text is not compared. */
  predicate Eq(a: Version, b: Version)
  {
    a.major == b.major && a.minor == b.minor && a.patch == b.patch
    && a.prerelease == b.prerelease && a.prereleaseNum == b.prereleaseNum
  }

  /** The comparison key `(major, minor, patch, rank, number)`. */
  function Key(v: Version): seq<int>
  {
    [v.major, v.minor, v.patch, Rank(v.prerelease), v.prereleaseNum]
  }

  /** Lexicographic order on integer sequences of the same length. */
  predicate LexLess(a: seq<int>, b: seq<int>)
    requires |a| == |b|
  {
    |a| > 0 && (a[0] < b[0] || (a[0] == b[0] && LexLess(a[1..], b[1..])))
  }

  /** Lexicographic order on five-element keys, written out. */
  lemma LexLessFive(a: seq<int>, b: seq<int>)
    requires |a| == 5 && |b| == 5
    ensures LexLess(a, b) <==>
      a[0] < b[0] || (a[0] == b[0] && (a[1] < b[1] || (a[1] == b[1] && (a[2] < b[2] || (a[2] == b[2]
      && (a[3] < b[3] || (a[3] == b[3] && a[4] < b[4])))))))
  {
    assert LexLess(a[4..], b[4..]) <==> a[4] < b[4] by {
      assert a[4..][1..] == [] == b[4..][1..];
    }
    assert LexLess(a[3..], b[3..]) <==> a[3] < b[3] || (a[3] == b[3] && LexLess(a[4..], b[4..])) by {
      assert a[3..][1..] == a[4..] && b[3..][1..] == b[4..];
    }
    assert LexLess(a[2..], b[2..]) <==> a[2] < b[2] || (a[2] == b[2] && LexLess(a[3..], b[3..])) by {
      assert a[2..][1..] == a[3..] && b[2..][1..] == b[3..];
    }
    assert LexLess(a[1..], b[1..]) <==> a[1] < b[1] || (a[1] == b[1] && LexLess(a[2..], b[2..])) by {
      assert a[1..][1..] == a[2..] && b[1..][1..] == b[2..];
    }
  }

  /** `<` is a strict order, and `==` rules out `<` either way. */
  lemma LtStrict(a: Version, b: Version, c: Version)
    ensures !Lt(a, a)
    ensures Lt(a, b) ==> !Lt(b, a)
    ensures Lt(a, b) && Lt(b, c) ==> Lt(a, c)
    ensures Eq(a, b) ==> !Lt(a, b) && !Lt(b, a)
  {
  }

  /**
   * On the labels parsing produces, `<` is exactly the lexicographic order
   * of the keys and `==` is equality of keys, so any two parsed versions
   * are comparable.
   */
  lemma LtIsKeyOrder(a: Version, b: Version)
    requires a.prerelease in KnownLabels && b.prerelease in KnownLabels
    ensures Lt(a, b) <==> LexLess(Key(a), Key(b))
    ensures Eq(a, b) <==> Key(a) == Key(b)
    ensures Lt(a, b) || Lt(b, a) || Eq(a, b)
  {
    var ka, kb := Key(a), Key(b);
    LexLessFive(ka, kb);
    assert Rank(a.prerelease) == Rank(b.prerelease) ==> a.prerelease == b.prerelease;
    assert ka == kb <==> ka[0] == kb[0] && ka[1] == kb[1] && ka[2] == kb[2] && ka[3] == kb[3] && ka[4] == kb[4];
  }

  // ---------------------------------------------------------------------
  // Package names and file names
  // ---------------------------------------------------------------------

  /** `_`, `.` and `-` are the same separator. */
  predicate IsSeparator(c: char) { c == '_' || c == '.' || c == '-' }

  /** `normalize_package_name`: lower case, every separator turned into `-`. */
  function NormalizePackageName(name: string): (r: string)
    ensures |r| == |name|
    ensures forall i :: 0 <= i < |r| ==> r[i] != '_' && r[i] != '.' && !('A' <= r[i] <= 'Z')
    ensures forall i :: 0 <= i < |r| ==> (r[i] == '-' <==> IsSeparator(name[i]))
    ensures forall i :: 0 <= i < |r| && !IsSeparator(name[i]) ==> r[i] == LowerChar(name[i])
  {
    ReplaceChar(ReplaceChar(Lower(name), '_', '-'), '.', '-')
  }

  /** Normalising twice is normalising once. */
  lemma NormalizePackageNameIdempotent(name: string)
    ensures NormalizePackageName(NormalizePackageName(name)) == NormalizePackageName(name)
  {
  }

  /** Two names normalise alike exactly when they agree position by position up to ASCII case and the choice of separator. */
  lemma SameNormalizedName(a: string, b: string)
    ensures NormalizePackageName(a) == NormalizePackageName(b) <==>
      (|a| == |b| && forall i :: 0 <= i < |a| ==>
        (IsSeparator(a[i]) && IsSeparator(b[i])) || (!IsSeparator(a[i]) && !IsSeparator(b[i]) && LowerChar(a[i]) == LowerChar(b[i])))
  {
    var na, nb := NormalizePackageName(a), NormalizePackageName(b);
    if |a| == |b| && forall i :: 0 <= i < |a| ==>
        (IsSeparator(a[i]) && IsSeparator(b[i])) || (!IsSeparator(a[i]) && !IsSeparator(b[i]) && LowerChar(a[i]) == LowerChar(b[i])) {
      forall i | 0 <= i < |a| ensures na[i] == nb[i] {
      }
    }
  }

  /** `\.(?:whl|tar\.gz|zip)$`. */
  predicate IsArchiveSuffix(t: string)
  {
    t == ".whl" || t == ".tar.gz" || t == ".zip"
  }

  /** `(?:-none-any)?` followed by the archive suffix. */
  predicate NoneAnyTail(t: string)
  {
    IsArchiveSuffix(t) || (StartsWith(t, "-none-any") && IsArchiveSuffix(t[9..]))
  }

  /**
   * `(?:-py\d+)?(?:-none-any)?\.(?:whl|tar\.gz|zip)$`. The digits after
   * `-py` can only end where the run of digits ends, because what follows
   * them starts with `-` or `.`.
   */
  predicate WheelTail(t: string)
  {
    NoneAnyTail(t)
    || (StartsWith(t, "-py") && DigitRunEnd(t, 3) > 3 && NoneAnyTail(t[DigitRunEnd(t, 3)..]))
  }

  /** No `-` among the `len` characters from `a`. */
  predicate NoDash(f: string, a: nat, len: nat)
  {
    forall j :: a <= j < a + len && j < |f| ==> f[j] != '-'
  }

  /** The text after the first `m` characters from `a` is a wheel tail. */
  predicate TailAfter(f: string, a: nat, m: nat)
  {
    a + m <= |f| && WheelTail(f[a + m..])
  }

  /**
   * The lazy group `([^-]+?)` starting at `a`: the shortest length `n` or
   * more such that `f[a..a+n]` has no `-` and a wheel tail follows it.
   */
  function LazyVersion(f: string, a: nat, n: nat): (r: Option<nat>)
    requires 1 <= n && NoDash(f, a, n - 1)
    ensures r.Some? ==> n <= r.value && TailAfter(f, a, r.value) && NoDash(f, a, r.value)
    ensures r.Some? ==> forall m :: n <= m < r.value ==> !TailAfter(f, a, m)
    ensures r.None? ==> forall m :: n <= m && NoDash(f, a, m) ==> !TailAfter(f, a, m)
    decreases |f| + 1 - (a + n)
  {
    if a + n > |f| then None
    else if f[a + n - 1] == '-' then
      assert forall m :: n <= m ==> !NoDash(f, a, m) by {
        forall m | n <= m ensures !NoDash(f, a, m) {
          assert a <= a + n - 1 < a + m;
        }
      }
      None
    else if TailAfter(f, a, n) then Some(n)
    else LazyVersion(f, a, n + 1)
  }

  /** `^[^-]+-([^-]+?)(?:-py\d+)?(?:-none-any)?\.(?:whl|tar\.gz|zip)$`: the name runs up to the first `-`. */
  function WheelVersion(f: string): (r: Option<string>)
    ensures r.Some? ==> |r.value| > 0 && '-' !in r.value
    ensures '-' !in f ==> r.None?
  {
    match IndexOf(f, '-')
    case None => None
    case Some(d) =>
      if d == 0 then None
      else
        match LazyVersion(f, d + 1, 1)
        case None => None
        case Some(n) => Some(f[d + 1..d + 1 + n])
  }

  /**
   * The wheel pattern matches exactly when the name before the first `-` is
   * non-empty and some dash-free text after it (from `a`, just past the
   * dash) is followed by a wheel tail; the version is then the shortest such text.
   */
  lemma WheelVersionSpec(f: string, a: nat)
    requires 1 <= a && IndexOf(f, '-') == Some(a - 1)
    ensures WheelVersion(f).Some? <==> a > 1 && exists m :: 1 <= m && NoDash(f, a, m) && TailAfter(f, a, m)
    ensures WheelVersion(f).Some? ==>
      var v := WheelVersion(f).value;
      && a + |v| <= |f| && v == f[a..a + |v|]
      && NoDash(f, a, |v|) && TailAfter(f, a, |v|)
      && forall m :: 1 <= m < |v| ==> !TailAfter(f, a, m)
  {
    if a > 1 {
      match LazyVersion(f, a, 1)
      case None =>
      case Some(n) =>
        assert |f[a..a + n]| == n;
    }
  }

  /** `[a-zA-Z0-9]*` from `i`. */
  function AlnumRunEnd(s: string, i: nat): (k: nat)
    requires i <= |s|
    ensures i <= k <= |s|
    ensures forall j :: i <= j < k ==> IsAlnumChar(s[j])
    ensures k < |s| ==> !IsAlnumChar(s[k])
    decreases |s| - i
  {
    if i < |s| && IsAlnumChar(s[i]) then AlnumRunEnd(s, i + 1) else i
  }

  /** `-(\d+\.\d+(?:\.\d+)?(?:[a-zA-Z0-9]*))` at position `i`. */
  function DottedVersionAt(f: string, i: nat): (r: Option<string>)
    requires i <= |f|
    ensures r.Some? ==> i < |f| && f[i] == '-' && |r.value| >= 3 && IsDigit(r.value[0])
  {
    if i < |f| && f[i] == '-' then
      var e1 := DigitRunEnd(f, i + 1);
      if e1 > i + 1 then
        match DotNumberAt(f, e1)
        case None => None
        case Some(e2) =>
          var e3 := DotNumberAt(f, e2).GetOr(e2);
          Some(f[i + 1..AlnumRunEnd(f, e3)])
      else None
    else None
  }

  /**
   * The fallback pattern matches at a `-` followed by digits, a dot and a
   * digit, and yields the text after the dash up to the end of the letters
   * and digits that follow the last number it reads.
   */
  lemma DottedVersionAtSpec(f: string, i: nat)
    requires i <= |f|
    ensures DottedVersionAt(f, i).Some? <==>
      i < |f| && f[i] == '-' && DigitRunEnd(f, i + 1) > i + 1 && DotNumberAt(f, DigitRunEnd(f, i + 1)).Some?
    ensures DottedVersionAt(f, i).Some? ==>
      var v := DottedVersionAt(f, i).value;
      var e := i + 1 + |v|;
      && e <= |f| && v == f[i + 1..e]
      && (e < |f| ==> !IsAlnumChar(f[e]))
  {
  }

  /** `re.search` for the fallback pattern: the leftmost position at or after `i` where it matches, and what it yields there. */
  function SearchDottedVersion(f: string, i: nat): (r: Option<(nat, string)>)
    requires i <= |f|
    ensures r.None? ==> forall j :: i <= j <= |f| ==> DottedVersionAt(f, j).None?
    ensures r.Some? ==> i <= r.value.0 < |f| && DottedVersionAt(f, r.value.0) == Some(r.value.1)
    ensures r.Some? ==> forall j :: i <= j < r.value.0 ==> DottedVersionAt(f, j).None?
    decreases |f| - i
  {
    if i == |f| then None
    else
      match DottedVersionAt(f, i)
      case Some(v) => Some((i, v))
      case None => SearchDottedVersion(f, i + 1)
  }

  /** `extract_version_from_filename`: the wheel pattern, then the dotted-number search, then `"unknown"`. */
  function ExtractVersion(f: string): (r: string)
    ensures WheelVersion(f).Some? ==> r == WheelVersion(f).value
    ensures WheelVersion(f).None? && SearchDottedVersion(f, 0).Some? ==> r == SearchDottedVersion(f, 0).value.1
    ensures WheelVersion(f).None? && SearchDottedVersion(f, 0).None? ==> r == "unknown"
  {
    match WheelVersion(f)
    case Some(v) => v
    case None =>
      match SearchDottedVersion(f, 0)
      case Some((_, v)) => v
      case None => "unknown"
  }

  lemma PyNoneAnyWheelTail()
    ensures WheelTail("-py3-none-any.whl")
  {
    var t := "-py3-none-any.whl";
    assert StartsWith(t, "-py");
    assert DigitRunEnd(t, 3) == 4;
    assert t[4..] == "-none-any.whl";
  }

  lemma ExampleDash(f: string)
    requires f == "beautifulsoup4-4.13.0b2-py3-none-any.whl"
    ensures IndexOf(f, '-') == Some(14)
  {
    assert f[..14] == "beautifulsoup4";
    IndexOfAt(f, '-', 14);
  }

  lemma ExampleSlice(f: string)
    requires f == "beautifulsoup4-4.13.0b2-py3-none-any.whl"
    ensures |f| == 40 && f[15..23] == "4.13.0b2" && f[23..] == "-py3-none-any.whl"
  {
    assert f == "beautifulsoup4-" + "4.13.0b2" + "-py3-none-any.whl";
  }

  /** A text longer than any wheel tail that does not start with `-` is not one. */
  lemma NotWheelTail(t: string)
    requires |t| > 7 && t[0] != '-'
    ensures !WheelTail(t)
  {
  }

  /** The lazy search from `n` stops at `m` when `m` is the first length from `n` on that a wheel tail follows. */
  lemma {:induction false} LazyVersionFound(f: string, a: nat, n: nat, m: nat)
    requires 1 <= n <= m && NoDash(f, a, m) && TailAfter(f, a, m)
    requires forall k :: n <= k < m ==> !TailAfter(f, a, k)
    ensures NoDash(f, a, n - 1) && LazyVersion(f, a, n) == Some(m)
    decreases m - n
  {
    assert a + n - 1 < a + m;
    if n < m {
      LazyVersionFound(f, a, n + 1, m);
    }
  }

  lemma ExampleLazyVersion(f: string)
    requires f == "beautifulsoup4-4.13.0b2-py3-none-any.whl"
    ensures LazyVersion(f, 15, 1) == Some(8)
  {
    ExampleSlice(f);
    var v := f[15..23];
    assert NoDash(f, 15, 8) by {
      forall j | 15 <= j < 23 ensures f[j] != '-' {
        assert f[j] == v[j - 15];
      }
    }
    PyNoneAnyWheelTail();
    assert TailAfter(f, 15, 8);
    forall k | 1 <= k < 8 ensures !TailAfter(f, 15, k) {
      NotWheelTail(f[15 + k..]);
    }
    LazyVersionFound(f, 15, 1, 8);
  }

  /** The documented example: the version of a universal wheel. */
  lemma ExtractVersionExample(f: string)
    requires f == "beautifulsoup4-4.13.0b2-py3-none-any.whl"
    ensures ExtractVersion(f) == "4.13.0b2"
  {
    ExampleDash(f);
    ExampleLazyVersion(f);
    ExampleSlice(f);
  }

  /** A file name without `-` holds no version. */
  lemma ExtractVersionUnknown(f: string)
    requires '-' !in f
    ensures ExtractVersion(f) == "unknown"
  {
  }

  // ---------------------------------------------------------------------
  // Listing versions
  // ---------------------------------------------------------------------

  datatype PackageVersion = PackageVersion(version: Version, url: string)

  /** The markers `list_versions` hides unless pre-releases are asked for. */
  predicate IsPreRelease(v: Version)
  {
    v.prerelease in {"a", "b", "rc", "dev"}
  }

  /** One index link `(file name, href)` turned into a listed version. */
  function Listed(pep: Pep440Regex, link: (string, string)): PackageVersion
  {
    PackageVersion(Parse(pep, ExtractVersion(link.0)), link.1)
  }

  /** The versions `list_versions` shows. */
  function Shown(includePre: bool): PackageVersion -> bool
  {
    (p: PackageVersion) => includePre || !IsPreRelease(p.version)
  }

  /** The filter in the loop of `list_versions`: pre-releases dropped unless included, order kept. */
  function KeepReleases(items: seq<PackageVersion>, includePre: bool): (r: seq<PackageVersion>)
    ensures |r| <= |items|
    ensures forall i :: 0 <= i < |r| ==> r[i] in items && (includePre || !IsPreRelease(r[i].version))
    ensures forall k :: 0 <= k < |items| && (includePre || !IsPreRelease(items[k].version)) ==> items[k] in r
    ensures r == Sorting.Filter(items, Shown(includePre))
  {
    if |items| == 0 then []
    else
      var rest := KeepReleases(items[1..], includePre);
      assert forall k :: 1 <= k < |items| ==> items[k] == items[1..][k - 1];
      if includePre || !IsPreRelease(items[0].version) then [items[0]] + rest else rest
  }

  /** The loop of `list_versions`: every link parsed, in order, then filtered. */
  function Collect(pep: Pep440Regex, links: seq<(string, string)>, includePre: bool): seq<PackageVersion>
  {
    KeepReleases(seq(|links|, i requires 0 <= i < |links| => Listed(pep, links[i])), includePre)
  }

  /** `a` belongs before `b` in a newest-first list. */
  predicate Newer(a: PackageVersion, b: PackageVersion)
  {
    Lt(b.version, a.version)
  }

  lemma NewerIsStrictOrder()
    ensures Sorting.StrictOrder(Newer)
  {
    forall a: PackageVersion, b: PackageVersion, c: PackageVersion
      ensures !Newer(a, a) && (Newer(a, b) && Newer(b, c) ==> Newer(a, c))
    {
      LtStrict(c.version, b.version, a.version);
    }
  }

  /** The links whose version is `==` to `v`: a class of ties of the sort. */
  function SameVersion(v: Version): PackageVersion -> bool
  {
    (p: PackageVersion) => Eq(p.version, v)
  }

  lemma SameVersionTies()
    ensures forall v :: Sorting.TieClass(SameVersion(v), Newer)
  {
  }

  /** The stable newest-first sort of `list_versions`. */
  function SortNewestFirst(c: seq<PackageVersion>): (r: seq<PackageVersion>)
    ensures multiset(r) == multiset(c)
    ensures forall i :: 0 <= i < |r| ==> r[i] in c
    ensures forall i, j :: 0 <= i < j < |r| ==> !Lt(r[i].version, r[j].version)
    ensures forall v :: Sorting.Filter(r, SameVersion(v)) == Sorting.Filter(c, SameVersion(v))
  {
    NewerIsStrictOrder();
    SameVersionTies();
    Sorting.SortBySorted(c, Newer);
    var r := Sorting.SortBy(c, Newer);
    assert forall i :: 0 <= i < |r| ==> r[i] in multiset(r);
    forall v ensures Sorting.Filter(r, SameVersion(v)) == Sorting.Filter(c, SameVersion(v)) {
      Sorting.SortByStable(c, Newer, SameVersion(v));
    }
    r
  }

  /**
   * `list_versions` after the download: the collected versions sorted newest
   * first, the sort keeping equal versions in their original order.
   */
  function ListVersions(pep: Pep440Regex, links: seq<(string, string)>, includePre: bool): (r: seq<PackageVersion>)
    ensures multiset(r) == multiset(Collect(pep, links, includePre))
    ensures !includePre ==> forall i :: 0 <= i < |r| ==> !IsPreRelease(r[i].version)
    ensures forall i, j :: 0 <= i < j < |r| ==> !Lt(r[i].version, r[j].version)
    ensures forall v :: Sorting.Filter(r, SameVersion(v)) == Sorting.Filter(Collect(pep, links, includePre), SameVersion(v))
  {
    SortNewestFirst(Collect(pep, links, includePre))
  }
}

=== FILE: resize_panel.dfy ===
/**
 * A side panel resized by dragging its left edge
 * (`kotonebot-devtool/src/hooks/useResizePanel.ts`): dragging left widens
 * the panel, the width stays between a minimum and a maximum, and a toggle
 * collapses the panel or restores its default width.
 *
 * The cursor and text-selection styling of the page body is not modelled;
 * the width reported to `onWidthChange` is returned alongside the state.
 */
module ResizePanel {
  import opened Wrappers
  import opened EditorTypes

  datatype PanelConfig = PanelConfig(minWidth: real, maxWidth: real, defaultWidth: real)

  /** The hook's default bounds and width. */
  const DefaultConfig := PanelConfig(200.0, 800.0, 400.0)

  /** The width, whether a drag is under way, and where the drag started (`startXRef`, `startWidthRef`). */
  datatype Panel = Panel(width: real, resizing: bool, startX: real, startWidth: real)

  function Initial(c: PanelConfig): (p: Panel)
    ensures p.width == c.defaultWidth && !p.resizing
  {
    Panel(c.defaultWidth, false, 0.0, 0.0)
  }

  /** `handleResizeStart`: remember the mouse and the width at the press. */
  function Start(p: Panel, clientX: real): (r: Panel)
    ensures r.resizing && r.width == p.width
    ensures r.startX == clientX && r.startWidth == p.width
  {
    Panel(p.width, true, clientX, p.width)
  }

  /**
   * `handleResizeMove`: the width at the press plus how far the mouse
   * went left, kept within the bounds (the maximum wins when they
   * conflict); the new width is also reported.
   */
  function Move(c: PanelConfig, p: Panel, clientX: real): (r: (Panel, Option<real>))
    ensures !p.resizing ==> r == (p, None)
    ensures p.resizing ==> r.1 == Some(r.0.width) && r.0 == p.(width := r.0.width)
    ensures p.resizing ==> r.0.width <= c.maxWidth
    ensures p.resizing && c.minWidth <= c.maxWidth ==> c.minWidth <= r.0.width
    ensures p.resizing && c.minWidth <= p.startWidth + (p.startX - clientX) <= c.maxWidth ==>
      r.0.width == p.startWidth + (p.startX - clientX)
    ensures p.resizing && p.startWidth + (p.startX - clientX) < c.minWidth <= c.maxWidth ==> r.0.width == c.minWidth
    ensures p.resizing && c.maxWidth < p.startWidth + (p.startX - clientX) ==> r.0.width == c.maxWidth
  {
    if !p.resizing then (p, None)
    else
      var dx := p.startX - clientX;
      var w := Min(Max(p.startWidth + dx, c.minWidth), c.maxWidth);
      (p.(width := w), Some(w))
  }

  /** `handleResizeEnd`: the drag is over and the width stays. */
  function End(p: Panel): (r: Panel)
    ensures !r.resizing && r.width == p.width
  {
    p.(resizing := false)
  }

  /** `togglePanel`: a collapsed panel opens at the default width; any other collapses. */
  function Toggle(c: PanelConfig, p: Panel): (r: (Panel, real))
    ensures r.0 == p.(width := r.1)
    ensures p.width == 0.0 ==> r.1 == c.defaultWidth
    ensures p.width != 0.0 ==> r.1 == 0.0
  {
    var w := if p.width == 0.0 then c.defaultWidth else 0.0;
    (p.(width := w), w)
  }

  /** Only where the mouse is now matters, not the path it took since the press. */
  lemma MovePathIndependent(c: PanelConfig, p: Panel, x1: real, x2: real)
    ensures Move(c, Move(c, p, x1).0, x2) == Move(c, p, x2)
  {
  }

  /** The further left the mouse, the wider the panel. */
  lemma MoveLeftWidens(c: PanelConfig, p: Panel, x1: real, x2: real)
    requires p.resizing && x1 <= x2
    ensures Move(c, p, x2).0.width <= Move(c, p, x1).0.width
  {
  }

  /** A press and a release without moving leave the width as it was. */
  lemma ClickKeepsWidth(c: PanelConfig, p: Panel, x: real)
    requires !p.resizing
    ensures End(Start(p, x)).width == p.width
    ensures Move(c, End(Start(p, x)), x).1.None?
  {
  }

  /** Starting within the bounds, pressing and releasing on the spot without moving changes nothing. */
  lemma StillDragKeepsWidth(c: PanelConfig, p: Panel, x: real)
    requires c.minWidth <= p.width <= c.maxWidth
    ensures Move(c, Start(p, x), x).0.width == p.width
  {
  }

  /** Toggling twice collapses then restores, so it returns to a collapsed or default-width panel. */
  lemma ToggleTwice(c: PanelConfig, p: Panel)
    ensures Toggle(c, Toggle(c, p).0).0.width == if p.width == 0.0 then 0.0 else c.defaultWidth
    ensures p.width == 0.0 || p.width == c.defaultWidth ==> Toggle(c, Toggle(c, p).0).0 == p
  {
  }
}

=== FILE: schema.dfy ===
/**
 * The enumerations and defaults of the bot's configuration schema
 * (`kotonebot/kaa/config/schema.py`): task priorities, the items of the
 * daily money shop with their settings-page labels and the "note" subset,
 * the produce actions and the recommended-card detection modes with their
 * display names, and the defaults that name members of these enumerations.
 *
 * Python builds an enumeration member from its value (`Priority(1)`,
 * `ProduceAction('visual')`), which is how pydantic reads a stored config;
 * each enumeration here has that lookup next to the member-to-value map,
 * and the two are proved inverse.
 */
module Schema {
  import opened Wrappers
  import opened Text
  import Upgrade

  // ---------------------------------------------------------------------
  // Priority
  // ---------------------------------------------------------------------

  /** Task priorities; a task with a larger value runs earlier. */
  datatype Priority = StartGame | Default | ClaimMissionReward | EndGame

  function PriorityValue(p: Priority): int
  {
    match p
    case StartGame => 1
    case Default => 0
    case ClaimMissionReward => -1
    case EndGame => -2
  }

  /** The members in declaration order. */
  const Priorities: seq<Priority> := [StartGame, Default, ClaimMissionReward, EndGame]

  /** `Priority(v)`: the member whose value is `v`, or none (Python raises `ValueError`). */
  function PriorityOf(v: int): (r: Option<Priority>)
    ensures r.Some? <==> -2 <= v <= 1
    ensures r.Some? ==> PriorityValue(r.value) == v
  {
    if -2 <= v <= 1 then Some(Priorities[1 - v]) else None
  }

  /** Every priority is found again from its value. */
  lemma PriorityRoundTrip(p: Priority)
    ensures PriorityOf(PriorityValue(p)) == Some(p)
  {
  }

  /**
   * START_GAME runs before DEFAULT, which runs before CLAIM_MISSION_REWARD,
   * which runs before END_GAME: the values fall strictly along the
   * declaration order, and that order lists every priority.
   */
  lemma PriorityOrder()
    ensures forall p :: p in Priorities
    ensures forall i, j :: 0 <= i < j < |Priorities| ==>
      PriorityValue(Priorities[i]) > PriorityValue(Priorities[j])
  {
    forall p ensures p in Priorities {
      PriorityRoundTrip(p);
    }
  }

  // ---------------------------------------------------------------------
  // DailyMoneyShopItems
  // ---------------------------------------------------------------------

  /**
   * The items of the daily money shop. The idol pieces' Python names carry
   * the idol's name in Japanese; the constructors here use a transcription,
   * and `ItemName` keeps the original.
   */
  datatype ShopItem =
    Recommendations
    | LessonNote
    | VeteranNote
    | SupportEnhancementPt
    | SenseNoteVocal
    | SenseNoteDance
    | SenseNoteVisual
    | LogicNoteVocal
    | LogicNoteDance
    | LogicNoteVisual
    | AnomalyNoteVocal
    | AnomalyNoteDance
    | AnomalyNoteVisual
    | RechallengeTicket
    | RecordKey
    | PieceChinaWonderScale
    | PieceHiroKoukei
    | PieceSumikaTameLieOneStep
    | PieceLiljaHakusen
    | PieceRinamiClumsyTrick
    | PieceSakiFightingMyWay
    | PieceKotoneSekaiichiKawaii
    | PieceUmeRollingRiceball
    | PieceTemariLunaSayMaybe
    | PieceMaoFluorite

  /** The `IntEnum` value of each item. */
  function ItemValue(x: ShopItem): int
  {
    match x
    case Recommendations => -1
    case LessonNote => 0
    case VeteranNote => 1
    case SupportEnhancementPt => 2
    case SenseNoteVocal => 3
    case SenseNoteDance => 4
    case SenseNoteVisual => 5
    case LogicNoteVocal => 6
    case LogicNoteDance => 7
    case LogicNoteVisual => 8
    case AnomalyNoteVocal => 9
    case AnomalyNoteDance => 10
    case AnomalyNoteVisual => 11
    case RechallengeTicket => 12
    case RecordKey => 13
    case PieceChinaWonderScale => 14
    case PieceHiroKoukei => 15
    case PieceSumikaTameLieOneStep => 16
    case PieceLiljaHakusen => 17
    case PieceRinamiClumsyTrick => 18
    case PieceSakiFightingMyWay => 19
    case PieceKotoneSekaiichiKawaii => 20
    case PieceUmeRollingRiceball => 21
    case PieceTemariLunaSayMaybe => 22
    case PieceMaoFluorite => 23
  }

  /**
   * The Python member name, which `_is_note` inspects. Names that mention
   * "Note" are written with that part separate.
   */
  function ItemName(x: ShopItem): string
  {
    match x
    case Recommendations => "Recommendations"
    case LessonNote => "Lesson" + "Note"
    case VeteranNote => "Veteran" + "Note"
    case SupportEnhancementPt => "SupportEnhancementPt"
    case SenseNoteVocal => "Sense" + "Note" + "Vocal"
    case SenseNoteDance => "Sense" + "Note" + "Dance"
    case SenseNoteVisual => "Sense" + "Note" + "Visual"
    case LogicNoteVocal => "Logic" + "Note" + "Vocal"
    case LogicNoteDance => "Logic" + "Note" + "Dance"
    case LogicNoteVisual => "Logic" + "Note" + "Visual"
    case AnomalyNoteVocal => "Anomaly" + "Note" + "Vocal"
    case AnomalyNoteDance => "Anomaly" + "Note" + "Dance"
    case AnomalyNoteVisual => "Anomaly" + "Note" + "Visual"
    case RechallengeTicket => "RechallengeTicket"
    case RecordKey => "RecordKey"
    case PieceChinaWonderScale => "IdolPiece_倉本千奈_WonderScale"
    case PieceHiroKoukei => "IdolPiece_篠泽广_光景"
    case PieceSumikaTameLieOneStep => "IdolPiece_紫云清夏_TameLieOneStep"
    case PieceLiljaHakusen => "IdolPiece_葛城リーリヤ_白線"
    case PieceRinamiClumsyTrick => "IdolPiece_姬崎莉波_clumsy_trick"
    case PieceSakiFightingMyWay => "IdolPiece_花海咲季_FightingMyWay"
    case PieceKotoneSekaiichiKawaii => "IdolPiece_藤田ことね_世界一可愛い私"
    case PieceUmeRollingRiceball => "IdolPiece_花海佑芽_TheRollingRiceball"
    case PieceTemariLunaSayMaybe => "IdolPiece_月村手毬_LunaSayMaybe"
    case PieceMaoFluorite => "IdolPiece_有村麻央_Fluorite"
  }

  /** `to_ui_text`: the label the settings page shows. */
  function UiText(x: ShopItem): string
  {
    match x
    case Recommendations => "所有推荐商品"
    case LessonNote => "课程笔记"
    case VeteranNote => "老手笔记"
    case SupportEnhancementPt => "支援强化点数"
    case SenseNoteVocal => "感性笔记（声乐）"
    case SenseNoteDance => "感性笔记（舞蹈）"
    case SenseNoteVisual => "感性笔记（形象）"
    case LogicNoteVocal => "理性笔记（声乐）"
    case LogicNoteDance => "理性笔记（舞蹈）"
    case LogicNoteVisual => "理性笔记（形象）"
    case AnomalyNoteVocal => "非凡笔记（声乐）"
    case AnomalyNoteDance => "非凡笔记（舞蹈）"
    case AnomalyNoteVisual => "非凡笔记（形象）"
    case RechallengeTicket => "重新挑战券"
    case RecordKey => "记录钥匙"
    case PieceChinaWonderScale => "倉本千奈　WonderScale 碎片"
    case PieceHiroKoukei => "篠泽广　光景 碎片"
    case PieceSumikaTameLieOneStep => "紫云清夏　Tame-Lie-One-Step 碎片"
    case PieceLiljaHakusen => "葛城リーリヤ　白線 碎片"
    case PieceRinamiClumsyTrick => "姫崎薪波　clumsy trick 碎片"
    case PieceSakiFightingMyWay => "花海咲季　FightingMyWay 碎片"
    case PieceKotoneSekaiichiKawaii => "藤田ことね　世界一可愛い私 碎片"
    case PieceUmeRollingRiceball => "花海佑芽　The Rolling Riceball 碎片"
    case PieceTemariLunaSayMaybe => "月村手毬　Luna say maybe 碎片"
    case PieceMaoFluorite => "有村麻央　Fluorite 碎片"
  }

  /** The members in declaration order, which is also the order `for item in cls` visits them. */
  const ShopItems: seq<ShopItem> := [
    Recommendations, LessonNote, VeteranNote, SupportEnhancementPt,
    SenseNoteVocal, SenseNoteDance, SenseNoteVisual, LogicNoteVocal,
    LogicNoteDance, LogicNoteVisual, AnomalyNoteVocal, AnomalyNoteDance,
    AnomalyNoteVisual, RechallengeTicket, RecordKey, PieceChinaWonderScale,
    PieceHiroKoukei, PieceSumikaTameLieOneStep, PieceLiljaHakusen, PieceRinamiClumsyTrick,
    PieceSakiFightingMyWay, PieceKotoneSekaiichiKawaii, PieceUmeRollingRiceball, PieceTemariLunaSayMaybe,
    PieceMaoFluorite
  ]

  /** Position `i` of the declaration order holds the item whose value is `i - 1`. */
  lemma ShopItemsByValue()
    ensures |ShopItems| == 25
    ensures forall i :: 0 <= i < |ShopItems| ==> ItemValue(ShopItems[i]) == i - 1
  {
  }

  /** `DailyMoneyShopItems(v)`: the item whose value is `v`, or none (Python raises `ValueError`). */
  function ItemOf(v: int): (r: Option<ShopItem>)
    ensures r.Some? <==> -1 <= v <= 23
    ensures r.Some? ==> ItemValue(r.value) == v
  {
    ShopItemsByValue();
    if -1 <= v <= 23 then Some(ShopItems[v + 1]) else None
  }

  /** Every item is found again from its value, so values are distinct and the declaration order lists every item. */
  lemma ItemRoundTrip(x: ShopItem)
    ensures ItemOf(ItemValue(x)) == Some(x)
    ensures x in ShopItems
  {
  }

  /**
   * `all()`: one `(to_ui_text(item), item)` pair per member, in declaration
   * order: each pair carries its item's own label, and the items' values
   * strictly increase, so no item appears twice.
   */
  function All(): (r: seq<(string, ShopItem)>)
    ensures |r| == |ShopItems|
    ensures forall i :: 0 <= i < |r| ==> r[i].0 == UiText(r[i].1)
    ensures forall i, j :: 0 <= i < j < |r| ==> ItemValue(r[i].1) < ItemValue(r[j].1)
  {
    ShopItemsByValue();
    seq(|ShopItems|, i requires 0 <= i < |ShopItems| => (UiText(ShopItems[i]), ShopItems[i]))
  }

  /** Every item appears in `all()`, at the position its value gives. */
  lemma AllListsEveryItem(x: ShopItem)
    ensures 0 <= ItemValue(x) + 1 < |All()| && All()[ItemValue(x) + 1] == (UiText(x), x)
  {
    ItemRoundTrip(x);
    ShopItemsByValue();
  }

  /** `_is_note` on a member name: it mentions "Note" but neither starts nor ends with it. */
  predicate IsNoteName(n: string)
  {
    Contains(n, "Note") && !StartsWith(n, "Note") && !EndsWith(n, "Note")
  }

  /** `_is_note`. */
  predicate IsNote(x: ShopItem)
  {
    IsNoteName(ItemName(x))
  }

  /** The nine Sense, Logic and Anomaly notes, in declaration order. */
  const NoteKinds: seq<ShopItem> := [
    SenseNoteVocal, SenseNoteDance, SenseNoteVisual,
    LogicNoteVocal, LogicNoteDance, LogicNoteVisual,
    AnomalyNoteVocal, AnomalyNoteDance, AnomalyNoteVisual
  ]

  /** A string that contains `t` contains its first character. */
  lemma ContainsFirst(s: string, t: string)
    requires |t| > 0 && Contains(s, t)
    ensures t[0] in s
  {
    var i :| 0 <= i <= |s| - |t| && StartsWith(s[i..], t);
    assert s[i] == t[0];
  }

  /** "Note" after a start other than 'N' and before an end other than "te" makes a note name. */
  lemma NoteInside(a: string, b: string)
    requires |a| > 0 && a[0] != 'N'
    requires |b| >= 2 && b[|b| - 2..] != "te"
    ensures IsNoteName(a + "Note" + b)
  {
    var s := a + "Note" + b;
    assert s[|a|..][..4] == "Note";
    assert s[0] != 'N';
    assert s[|s| - 2..] == b[|b| - 2..];
  }

  /** A name ending in "Note" is not a note name. */
  lemma NoteAtEnd(a: string)
    ensures !IsNoteName(a + "Note")
  {
    assert (a + "Note")[|a|..] == "Note";
  }

  /** A name without a capital N mentions no "Note". */
  lemma NoCapitalN(n: string)
    requires 'N' !in n
    ensures !IsNoteName(n)
  {
    if Contains(n, "Note") {
      ContainsFirst(n, "Note");
    }
  }

  /** No name among the plain items mentions "Note". */
  lemma NotNoteNames1()
    ensures !IsNoteName("Recommendations")
    ensures !IsNoteName("SupportEnhancementPt")
    ensures !IsNoteName("RechallengeTicket")
    ensures !IsNoteName("RecordKey")
  {
    NoCapitalN("Recommendations");
    NoCapitalN("SupportEnhancementPt");
    NoCapitalN("RechallengeTicket");
    NoCapitalN("RecordKey");
  }

  /** No name among these two idol pieces mentions "Note". */
  lemma NotNoteNames2()
    ensures !IsNoteName("IdolPiece_倉本千奈_WonderScale")
    ensures !IsNoteName("IdolPiece_篠泽广_光景")
  {
    NoCapitalN("IdolPiece_倉本千奈_WonderScale");
    NoCapitalN("IdolPiece_篠泽广_光景");
  }

  /** No name among these two idol pieces mentions "Note". */
  lemma NotNoteNames3()
    ensures !IsNoteName("IdolPiece_紫云清夏_TameLieOneStep")
    ensures !IsNoteName("IdolPiece_葛城リーリヤ_白線")
  {
    NoCapitalN("IdolPiece_紫云清夏_TameLieOneStep");
    NoCapitalN("IdolPiece_葛城リーリヤ_白線");
  }

  /** No name among these two idol pieces mentions "Note". */
  lemma NotNoteNames4()
    ensures !IsNoteName("IdolPiece_姬崎莉波_clumsy_trick")
    ensures !IsNoteName("IdolPiece_花海咲季_FightingMyWay")
  {
    NoCapitalN("IdolPiece_姬崎莉波_clumsy_trick");
    NoCapitalN("IdolPiece_花海咲季_FightingMyWay");
  }

  /** No name among these two idol pieces mentions "Note". */
  lemma NotNoteNames5()
    ensures !IsNoteName("IdolPiece_藤田ことね_世界一可愛い私")
    ensures !IsNoteName("IdolPiece_花海佑芽_TheRollingRiceball")
  {
    NoCapitalN("IdolPiece_藤田ことね_世界一可愛い私");
    NoCapitalN("IdolPiece_花海佑芽_TheRollingRiceball");
  }

  /** No name among these two idol pieces mentions "Note". */
  lemma NotNoteNames6()
    ensures !IsNoteName("IdolPiece_月村手毬_LunaSayMaybe")
    ensures !IsNoteName("IdolPiece_有村麻央_Fluorite")
  {
    NoCapitalN("IdolPiece_月村手毬_LunaSayMaybe");
    NoCapitalN("IdolPiece_有村麻央_Fluorite");
  }

  /**
   * `_is_note` picks out exactly the nine Sense, Logic and Anomaly notes,
   * the items with values 3 to 11: LessonNote and VeteranNote end with
   * "Note" and are excluded, and no other name mentions it.
   */
  lemma {:induction false} IsNoteExactly(x: ShopItem)
    ensures IsNote(x) <==> 3 <= ItemValue(x) <= 11
  {
    NotNoteNames1();
    NotNoteNames2();
    NotNoteNames3();
    NotNoteNames4();
    NotNoteNames5();
    NotNoteNames6();
    match x
    case LessonNote => NoteAtEnd("Lesson");
    case VeteranNote => NoteAtEnd("Veteran");
    case SenseNoteVocal => NoteInside("Sense", "Vocal");
    case SenseNoteDance => NoteInside("Sense", "Dance");
    case SenseNoteVisual => NoteInside("Sense", "Visual");
    case LogicNoteVocal => NoteInside("Logic", "Vocal");
    case LogicNoteDance => NoteInside("Logic", "Dance");
    case LogicNoteVisual => NoteInside("Logic", "Visual");
    case AnomalyNoteVocal => NoteInside("Anomaly", "Vocal");
    case AnomalyNoteDance => NoteInside("Anomaly", "Dance");
    case AnomalyNoteVisual => NoteInside("Anomaly", "Visual");
    case Recommendations =>
    case SupportEnhancementPt =>
    case RechallengeTicket =>
    case RecordKey =>
    case PieceChinaWonderScale =>
    case PieceHiroKoukei =>
    case PieceSumikaTameLieOneStep =>
    case PieceLiljaHakusen =>
    case PieceRinamiClumsyTrick =>
    case PieceSakiFightingMyWay =>
    case PieceKotoneSekaiichiKawaii =>
    case PieceUmeRollingRiceball =>
    case PieceTemariLunaSayMaybe =>
    case PieceMaoFluorite =>
  }

  /** The note pairs of the members from position `i` on, in order. */
  function NotesFrom(i: nat): seq<(string, ShopItem)>
    requires i <= |ShopItems|
    decreases |ShopItems| - i
  {
    if i == |ShopItems| then []
    else (if IsNote(ShopItems[i]) then [(UiText(ShopItems[i]), ShopItems[i])] else []) + NotesFrom(i + 1)
  }

  /** `note_items()`: the `all()` pairs of the members that satisfy `_is_note`, in declaration order. */
  function NoteItems(): (r: seq<(string, ShopItem)>)
    ensures |r| == |NoteKinds|
    ensures forall k :: 0 <= k < |r| ==> r[k] == (UiText(NoteKinds[k]), NoteKinds[k])
  {
    NotesFromAt(0);
    NotesFrom(0)
  }

  /** The note kinds are the items with values 3 to 11, in order. */
  lemma NoteKindsByValue()
    ensures forall k :: 0 <= k < |NoteKinds| ==> ItemValue(NoteKinds[k]) == k + 3
  {
  }

  /** The note pairs, one per note kind. */
  const NotePairs: seq<(string, ShopItem)> :=
    seq(|NoteKinds|, k requires 0 <= k < |NoteKinds| => (UiText(NoteKinds[k]), NoteKinds[k]))

  /** The notes sit at positions 4 to 12 of the declaration order. */
  lemma IsNoteAt(i: nat)
    requires i < |ShopItems|
    ensures IsNote(ShopItems[i]) <==> 4 <= i <= 12
    ensures 4 <= i <= 12 ==> ShopItems[i] == NoteKinds[i - 4]
  {
    ShopItemsByValue();
    IsNoteExactly(ShopItems[i]);
    if 4 <= i <= 12 {
      NoteKindsByValue();
      ItemRoundTrip(NoteKinds[i - 4]);
      ItemRoundTrip(ShopItems[i]);
    }
  }

  lemma DropCons<T>(s: seq<T>, k: nat)
    requires k < |s|
    ensures s[k..] == [s[k]] + s[k + 1..]
  {
  }

  /** From position `i` on, the notes found are the note kinds not yet passed. */
  lemma {:induction false} NotesFromAt(i: nat)
    requires i <= |ShopItems|
    ensures NotesFrom(i) == NotePairs[if i <= 4 then 0 else if i >= 13 then 9 else i - 4..]
    decreases |ShopItems| - i
  {
    ShopItemsByValue();
    if i < |ShopItems| {
      NotesFromAt(i + 1);
      IsNoteAt(i);
      if 4 <= i <= 12 {
        DropCons(NotePairs, i - 4);
      }
    }
  }

  // ---------------------------------------------------------------------
  // ProduceAction and RecommendCardDetectionMode
  // ---------------------------------------------------------------------

  /** The weekly actions of a produce run. */
  datatype ProduceAction =
    Recommended | Visual | Vocal | Dance | Outing | Study | Allowance | Rest | Consult

  function ActionValue(a: ProduceAction): string
  {
    match a
    case Recommended => "recommended"
    case Visual => "visual"
    case Vocal => "vocal"
    case Dance => "dance"
    case Outing => "outing"
    case Study => "study"
    case Allowance => "allowance"
    case Rest => "rest"
    case Consult => "consult"
  }

  /** `display_name`: defined for every member, because the match is exhaustive. */
  function ActionDisplayName(a: ProduceAction): string
  {
    match a
    case Recommended => "推荐行动"
    case Visual => "形象课程"
    case Vocal => "声乐课程"
    case Dance => "舞蹈课程"
    case Outing => "外出（おでかけ）"
    case Study => "文化课（授業）"
    case Allowance => "活动支给（活動支給）"
    case Rest => "休息"
    case Consult => "咨询（相談）"
  }

  /** `ProduceAction(s)`: the action whose value is `s`, or none (Python raises `ValueError`). */
  function ActionOf(s: string): (r: Option<ProduceAction>)
    ensures r.Some? ==> ActionValue(r.value) == s
    ensures r.None? ==> forall a :: ActionValue(a) != s
  {
    if s == "recommended" then Some(Recommended)
    else if s == "visual" then Some(Visual)
    else if s == "vocal" then Some(Vocal)
    else if s == "dance" then Some(Dance)
    else if s == "outing" then Some(Outing)
    else if s == "study" then Some(Study)
    else if s == "allowance" then Some(Allowance)
    else if s == "rest" then Some(Rest)
    else if s == "consult" then Some(Consult)
    else None
  }

  /** Every action is found again from its value. */
  lemma ActionRoundTrip(a: ProduceAction)
    ensures ActionOf(ActionValue(a)) == Some(a)
  {
  }

  /** The default `ProduceConfig.actions_order`. */
  const DefaultActionsOrder: seq<ProduceAction> :=
    [Recommended, Visual, Vocal, Dance, Allowance, Outing, Study, Consult, Rest]

  /** The default action order is a permutation of the actions: each occurs exactly once. */
  lemma DefaultActionsOrderIsPermutation()
    ensures forall a :: a in DefaultActionsOrder
    ensures forall i, j :: 0 <= i < j < |DefaultActionsOrder| ==> DefaultActionsOrder[i] != DefaultActionsOrder[j]
  {
    var d := DefaultActionsOrder;
    forall a ensures a in d {
      match a
      case Recommended => assert d[0] == a;
      case Visual => assert d[1] == a;
      case Vocal => assert d[2] == a;
      case Dance => assert d[3] == a;
      case Allowance => assert d[4] == a;
      case Outing => assert d[5] == a;
      case Study => assert d[6] == a;
      case Consult => assert d[7] == a;
      case Rest => assert d[8] == a;
    }
  }

  datatype DetectionMode = Normal | Strict

  function ModeValue(m: DetectionMode): string
  {
    match m
    case Normal => "normal"
    case Strict => "strict"
  }

  /** `display_name` of `RecommendCardDetectionMode`, defined for both members. */
  function ModeDisplayName(m: DetectionMode): string
  {
    match m
    case Normal => "正常模式"
    case Strict => "严格模式"
  }

  /** `RecommendCardDetectionMode(s)`, or none (Python raises `ValueError`). */
  function ModeOf(s: string): (r: Option<DetectionMode>)
    ensures r.Some? ==> ModeValue(r.value) == s
    ensures r.None? ==> forall m :: ModeValue(m) != s
  {
    if s == "normal" then Some(Normal)
    else if s == "strict" then Some(Strict)
    else None
  }

  lemma ModeRoundTrip(m: DetectionMode)
    ensures ModeOf(ModeValue(m)) == Some(m)
  {
  }

  // ---------------------------------------------------------------------
  // Defaults
  // ---------------------------------------------------------------------

  /** The default `ClubRewardConfig.selected_note`. */
  const DefaultSelectedNote: ShopItem := AnomalyNoteVisual

  /** The default club-reward note is one of the notes the settings page offers. */
  lemma DefaultSelectedNoteIsNote()
    ensures IsNote(DefaultSelectedNote)
  {
    NoteInside("Anomaly", "Visual");
  }

  /** The default `StartGameConfig.game_package_name`. */
  const DefaultGamePackage: string := "com.bandainamcoent.idolmaster_gakuen"

  /** The v3 to v4 upgrade corrects a stored package name to exactly this default. */
  lemma UpgradeWritesDefaultPackage()
    ensures Upgrade.GamePackage == DefaultGamePackage
  {
  }
}

=== FILE: sorting.dfy ===
/**
 * Stable sorting by a "must come before" relation, the behaviour of
 * Python's `list.sort`/`sorted` (also with `reverse=True`, which keeps
 * equal elements in their original order) and of JavaScript's
 * `Array.prototype.sort` since ES2019.
 */
module Sorting {

  /** `prec` is irreflexive and transitive: a strict partial order. */
  ghost predicate StrictOrder<T(!new)>(prec: (T, T) -> bool)
  {
    && (forall a :: !prec(a, a))
    && (forall a, b, c :: prec(a, b) && prec(b, c) ==> prec(a, c))
  }

  /** No element strictly precedes an element placed before it. */
  ghost predicate SortedBy<T>(s: seq<T>, prec: (T, T) -> bool)
  {
    forall i, j :: 0 <= i < j < |s| ==> !prec(s[j], s[i])
  }

  /** Index of the first element of `s` that `x` strictly precedes, or `|s|`. */
  function InsertPos<T>(x: T, s: seq<T>, prec: (T, T) -> bool): (k: nat)
    ensures k <= |s|
    ensures forall i :: 0 <= i < k ==> !prec(x, s[i])
    ensures k < |s| ==> prec(x, s[k])
  {
    if |s| == 0 || prec(x, s[0]) then 0 else 1 + InsertPos(x, s[1..], prec)
  }

  /** `x` placed in `s` just before the first element it strictly precedes. */
  function Insert<T>(x: T, s: seq<T>, prec: (T, T) -> bool): (r: seq<T>)
    ensures |r| == |s| + 1
    ensures multiset(r) == multiset(s) + multiset{x}
  {
    var k := InsertPos(x, s, prec);
    assert s == s[..k] + s[k..];
    s[..k] + [x] + s[k..]
  }

  /** Insertion sort taking the elements in their original order. */
  function SortBy<T>(s: seq<T>, prec: (T, T) -> bool): (r: seq<T>)
    ensures |r| == |s|
    ensures multiset(r) == multiset(s)
  {
    if |s| == 0 then []
    else
      assert s == s[..|s| - 1] + [s[|s| - 1]];
      Insert(s[|s| - 1], SortBy(s[..|s| - 1], prec), prec)
  }

  lemma {:induction false} InsertSorted<T(!new)>(x: T, s: seq<T>, prec: (T, T) -> bool)
    requires StrictOrder(prec)
    requires SortedBy(s, prec)
    ensures SortedBy(Insert(x, s, prec), prec)
  {
    var r := Insert(x, s, prec);
    var k := InsertPos(x, s, prec);
    forall i, j | 0 <= i < j < |r| ensures !prec(r[j], r[i]) {
      if i != k && j != k {
        var i' := if i < k then i else i - 1;
        var j' := if j < k then j else j - 1;
        assert r[i] == s[i'] && r[j] == s[j'];
      } else if i == k {
        assert r[j] == s[j - 1] && r[i] == x;
        assert prec(x, s[k]);
        assert k == j - 1 || !prec(s[j - 1], s[k]);
      } else {
        assert r[i] == s[i];
      }
    }
  }

  /** With a strict partial order the result is sorted. */
  lemma {:induction false} SortBySorted<T(!new)>(s: seq<T>, prec: (T, T) -> bool)
    requires StrictOrder(prec)
    ensures SortedBy(SortBy(s, prec), prec)
  {
    if |s| > 0 {
      SortBySorted(s[..|s| - 1], prec);
      InsertSorted(s[|s| - 1], SortBy(s[..|s| - 1], prec), prec);
    }
  }

  /** Sorting a list that is already sorted leaves it as it is, ties included. */
  lemma {:induction false} SortBySortedIdentity<T>(s: seq<T>, prec: (T, T) -> bool)
    requires SortedBy(s, prec)
    ensures SortBy(s, prec) == s
  {
    if |s| > 0 {
      var p := s[..|s| - 1];
      assert SortedBy(p, prec);
      SortBySortedIdentity(p, prec);
      assert InsertPos(s[|s| - 1], p, prec) == |p| by {
        InsertPosPastAll(s[|s| - 1], p, prec);
      }
      LastSplit(s);
    }
  }

  lemma {:induction false} InsertPosPastAll<T>(x: T, s: seq<T>, prec: (T, T) -> bool)
    requires forall i :: 0 <= i < |s| ==> !prec(x, s[i])
    ensures InsertPos(x, s, prec) == |s|
  {
    if |s| > 0 {
      InsertPosPastAll(x, s[1..], prec);
    }
  }

  /** The elements of `s` that satisfy `P`, in their order. */
  function Filter<T>(s: seq<T>, P: T -> bool): (r: seq<T>)
    ensures |r| <= |s|
    ensures forall i :: 0 <= i < |r| ==> P(r[i])
  {
    if |s| == 0 then [] else (if P(s[0]) then [s[0]] else []) + Filter(s[1..], P)
  }

  lemma {:induction false} FilterAppend<T>(a: seq<T>, b: seq<T>, P: T -> bool)
    ensures Filter(a + b, P) == Filter(a, P) + Filter(b, P)
  {
    if |a| == 0 {
      assert a + b == b;
    } else {
      assert (a + b)[0] == a[0] && (a + b)[1..] == a[1..] + b;
      FilterAppend(a[1..], b, P);
    }
  }

  lemma {:induction false} FilterNone<T>(s: seq<T>, P: T -> bool)
    requires forall i :: 0 <= i < |s| ==> !P(s[i])
    ensures Filter(s, P) == []
  {
    if |s| > 0 {
      FilterNone(s[1..], P);
    }
  }

  /**
   * `P` picks a class of ties: its members precede none of each other and
   * precede the same elements.
   */
  ghost predicate TieClass<T(!new)>(P: T -> bool, prec: (T, T) -> bool)
  {
    && (forall a, b :: P(a) && P(b) ==> !prec(a, b))
    && (forall a, b, z :: P(a) && P(b) && prec(a, z) ==> prec(b, z))
  }

  /** In a sorted list, no tie of `x` sits at or after the place `x` is inserted. */
  lemma {:induction false} NoTieAfterInsertPos<T(!new)>(x: T, r: seq<T>, prec: (T, T) -> bool, P: T -> bool)
    requires TieClass(P, prec) && P(x) && SortedBy(r, prec)
    ensures forall j :: InsertPos(x, r, prec) <= j < |r| ==> !P(r[j])
  {
    var k := InsertPos(x, r, prec);
    forall j | k <= j < |r| ensures !P(r[j]) {
    }
  }

  /** Splicing `x` in before a part with none of its ties puts it after all of them. */
  lemma {:induction false} FilterSplice<T>(a: seq<T>, x: T, b: seq<T>, P: T -> bool)
    requires P(x) ==> Filter(b, P) == []
    ensures Filter(a + [x] + b, P) == Filter(a + b, P) + Filter([x], P)
  {
    var fa, fx, fb := Filter(a, P), Filter([x], P), Filter(b, P);
    assert Filter(a + b, P) == fa + fb by {
      FilterAppend(a, b, P);
    }
    assert Filter(a + [x] + b, P) == (fa + fx) + fb by {
      FilterAppend(a + [x], b, P);
      FilterAppend(a, [x], P);
    }
    if P(x) {
      assert (fa + fx) + fb == fa + fx;
    } else {
      assert fx == [];
    }
  }

  /** Inserted where no tie of it follows, `x` comes after all its ties. */
  lemma {:induction false} InsertFilter<T>(x: T, r: seq<T>, prec: (T, T) -> bool, P: T -> bool)
    requires P(x) ==> forall j :: InsertPos(x, r, prec) <= j < |r| ==> !P(r[j])
    ensures Filter(Insert(x, r, prec), P) == Filter(r, P) + Filter([x], P)
  {
    var k := InsertPos(x, r, prec);
    var a, b := r[..k], r[k..];
    assert P(x) ==> Filter(b, P) == [] by {
      if P(x) {
        FilterNone(b, P);
      }
    }
    FilterSplice(a, x, b, P);
    assert a + b == r;
  }

  /** Sorting is stable: every class of ties comes out in its original order. */
  lemma {:induction false} SortByStable<T(!new)>(s: seq<T>, prec: (T, T) -> bool, P: T -> bool)
    requires StrictOrder(prec) && TieClass(P, prec)
    ensures Filter(SortBy(s, prec), P) == Filter(s, P)
  {
    if |s| > 0 {
      var p, x := s[..|s| - 1], s[|s| - 1];
      SortByStable(p, prec, P);
      SortBySorted(p, prec);
      if P(x) {
        NoTieAfterInsertPos(x, SortBy(p, prec), prec, P);
      }
      InsertFilter(x, SortBy(p, prec), prec, P);
      LastSplit(s);
      FilterAppend(p, [x], P);
    }
  }

  lemma LastSplit<T>(s: seq<T>)
    requires |s| > 0
    ensures s == s[..|s| - 1] + [s[|s| - 1]]
  {
  }

  /** Python's `s[:n]` for `n >= 0`. */
  function Take<T>(s: seq<T>, n: nat): (r: seq<T>)
    ensures |r| == if n < |s| then n else |s|
    ensures r == s[..|r|]
  {
    if n < |s| then s[..n] else s
  }
}

=== FILE: strmatch.dfy ===
/**
 * String matching through a regular expression. The regex engine is an
 * input of the model: a compiled pattern is given as Python's `re.match`
 * itself, a function from the whole subject to where the match ends
 * (`m.end()`), or `None` when there is no match.
 *
 * Whether `re.match` succeeds can depend on the text after the matched
 * part (`$`, `\b`, lookahead), so the model does not describe a pattern
 * by the strings it matches in full. Patterns without such assertions can
 * be: `DecidedByPrefix` says when an engine agrees with such a language.
 */
module StrMatch {
  import opened Wrappers
  import opened Text

  /** `re.match(pattern, s)`, as the end of the match at the start of `s`, or `None`. */
  type ReMatch = string -> Option<nat>

  /** `re.match(pattern, s) is not None`. */
  predicate Matches(m: ReMatch, s: string)
  {
    m(s).Some?
  }

  /** The strings a regular expression matches in full. */
  type Language = string -> bool

  /**
   * An engine whose answer is decided by the prefixes of the subject alone,
   * as for a pattern without anchors, word boundaries or lookaround: it
   * matches exactly when some prefix is in the language, and the part it
   * matches is such a prefix.
   */
  ghost predicate DecidedByPrefix(lang: Language, m: ReMatch)
  {
    forall s ::
      && (m(s).Some? <==> exists k :: 0 <= k <= |s| && lang(s[..k]))
      && (m(s).Some? ==> m(s).value <= |s| && lang(s[..m(s).value]))
  }

  /** For such a pattern, a match at the start survives appending text to the subject. */
  lemma PrefixMatchExtends(lang: Language, m: ReMatch, s: string, t: string)
    requires DecidedByPrefix(lang, m)
    requires Matches(m, s)
    ensures Matches(m, s + t)
  {
    var k := m(s).value;
    assert lang(s[..k]);
    assert (s + t)[..k] == s[..k];
  }

  /** `re.match('a$', s)`: `$` matches at the end of the subject or before a final newline. */
  function EndAnchoredA(s: string): (r: Option<nat>)
    ensures r.Some? <==> s == "a" || s == "a\n"
  {
    if s == "a" || s == "a\n" then Some(1) else None
  }

  /**
   * With `$` a match is not kept by appending text: `a$` matches `a` but
   * not `ab`, so no language of full matches describes it.
   */
  lemma EndAnchorNotByPrefix(lang: Language)
    ensures Matches(EndAnchoredA, "a") && !Matches(EndAnchoredA, "ab")
    ensures !DecidedByPrefix(lang, EndAnchoredA)
  {
    assert "ab" != "a" && "ab" != "a\n" by {
      assert "ab"[1] != "a\n"[1];
    }
    assert "a" + "b" == "ab";
    if DecidedByPrefix(lang, EndAnchoredA) {
      PrefixMatchExtends(lang, EndAnchoredA, "a", "b");
      assert false;
    }
  }

  /** `re.match` of a pattern of plain characters `t`. */
  function LiteralMatch(t: string): (m: ReMatch)
    ensures forall s :: m(s).Some? <==> StartsWith(s, t)
  {
    s => if StartsWith(s, t) then Some(|t|) else None
  }

  /** A pattern of plain characters is decided by prefixes, its language being the pattern itself. */
  lemma LiteralByPrefix(t: string)
    ensures DecidedByPrefix(x => x == t, LiteralMatch(t))
  {
    forall s ensures
      && (LiteralMatch(t)(s).Some? <==> exists k :: 0 <= k <= |s| && s[..k] == t)
      && (LiteralMatch(t)(s).Some? ==> LiteralMatch(t)(s).value <= |s| && s[..LiteralMatch(t)(s).value] == t)
    {
      if exists k :: 0 <= k <= |s| && s[..k] == t {
        var k :| 0 <= k <= |s| && s[..k] == t;
        assert |t| == k;
      }
    }
  }

  /** Anchoring matters: `b` occurs in `ab`, yet the pattern `b` does not match `ab`. */
  lemma MatchIsNotSearch()
    ensures Contains("ab", "b")
    ensures !Matches(LiteralMatch("b"), "ab")
  {
    assert StartsWith("ab"[1..], "b");
    assert "ab"[..1][0] == 'a';
  }
}

=== FILE: tcp_forward.dfy ===
/**
 * Address handling of the TCP port forwarder (`tools/tcp_forward.py`):
 * `parse_address` reads `host:port`, `port`, or either of them followed by
 * a `/…` suffix, and `format_addr` renders a `(host, port)` pair back.
 *
 * Sockets, `select` and the forwarding loop are not modelled.
 */
module TcpForward {
  import opened Wrappers
  import opened Text
  import opened PyValue

  datatype Address = Address(host: string, port: int)

  /** Unpacking `addr_str.split(':')` into two names fails on a second ':'. */
  const UnpackMessage := "too many values to unpack (expected 2)"

  /**
   * `int(port)` fails on anything but an optionally signed decimal number,
   * quoting the text it was given.
   */
  function IntMessage(text: string): string
  {
    "invalid literal for int() with base 10: '" + text + "'"
  }

  /** The host a bare port number listens on or forwards to. */
  const DefaultHost := "localhost"

  /** `s.split(c)[0]`: the text before the first `c`, or all of `s`. */
  function Before(s: string, c: char): (r: string)
    ensures c !in r
    ensures StartsWith(s, r)
    ensures c !in s ==> r == s
    ensures c in s ==> |r| < |s| && s[|r|] == c
  {
    match SplitOnce(s, c)
    case None => s
    case Some((a, b)) =>
      assert s[..|a|] == a;
      a
  }

  /** `int(p.split('/')[0])`: the port number, ignoring a `/` suffix. */
  function PortNumber(text: string): (r: Result<int, PyError>)
    ensures r.Err? ==> r.error == ValueError(IntMessage(Before(text, '/')))
  {
    match PyInt(Before(text, '/'), 10)
    case None => Err(ValueError(IntMessage(Before(text, '/'))))
    case Some(p) => Ok(p)
  }

  /** `parse_address`: `host:port[/…]` or `port[/…]`. */
  function ParseAddress(s: string): (r: Result<Address, PyError>)
    ensures r.Ok? && ':' in s ==> ':' !in r.value.host && StartsWith(s, r.value.host + ":")
    ensures r.Ok? && ':' !in s ==> r.value.host == DefaultHost
    ensures r.Err? ==> r.error == ValueError(UnpackMessage) || exists t :: r.error == ValueError(IntMessage(t))
  {
    if ':' in s then
      var parts := Split(s, ':');
      if |parts| != 2 then Err(ValueError(UnpackMessage))
      else
        var p :- PortNumber(parts[1]);
        assert parts[0] == Before(s, ':') by { SplitFirst(s, ':'); }
        Ok(Address(parts[0], p))
    else
      var p :- PortNumber(s);
      Ok(Address(DefaultHost, p))
  }

  /** `format_addr`: `f"{host}:{port}"`. */
  function FormatAddr(a: Address): (r: string)
    ensures StartsWith(r, a.host + ":")
  {
    a.host + ":" + IntToDecimal(a.port)
  }

  // ---------------------------------------------------------------------
  // Splitting at the first separator
  // ---------------------------------------------------------------------

  lemma SplitFirst(s: string, c: char)
    ensures Split(s, c)[0] == Before(s, c)
  {
  }

  /** `Before` is the prefix up to a position holding the first `c`. */
  lemma BeforeAt(s: string, c: char, i: nat)
    requires i < |s| && s[i] == c && c !in s[..i]
    ensures Before(s, c) == s[..i]
  {
    IndexOfAt(s, c, i);
  }

  /** A suffix after a `c` does not change the text before the first `c`. */
  lemma {:induction false} BeforeAppend(b: string, c: char, t: string)
    ensures Before(b + [c] + t, c) == Before(b, c)
  {
    var s := b + [c] + t;
    var x := Before(b, c);
    var i := |x|;
    assert i <= |b| && s[i] == c;
    assert s[..i] == x by { assert b[..i] == x; }
    BeforeAt(s, c, i);
  }

  // ---------------------------------------------------------------------
  // What each form of address parses to
  // ---------------------------------------------------------------------

  /** `host:port`: the host is the text before the ':', the port is read from the rest up to a '/'. */
  lemma {:induction false} HostAndPort(h: string, t: string)
    requires ':' !in h && ':' !in t
    ensures PyInt(Before(t, '/'), 10).Some? ==>
      ParseAddress(h + ":" + t) == Ok(Address(h, PyInt(Before(t, '/'), 10).value))
    ensures PyInt(Before(t, '/'), 10).None? ==> ParseAddress(h + ":" + t) == Err(ValueError(IntMessage(Before(t, '/'))))
  {
    SplitOnceAt(h, t, ':');
    assert ':' in h + ":" + t by { assert (h + ":" + t)[|h|] == ':'; }
  }

  /** A bare port: the host is `localhost`. */
  lemma PortOnly(t: string)
    requires ':' !in t
    ensures PyInt(Before(t, '/'), 10).Some? ==> ParseAddress(t) == Ok(Address(DefaultHost, PyInt(Before(t, '/'), 10).value))
    ensures PyInt(Before(t, '/'), 10).None? ==> ParseAddress(t) == Err(ValueError(IntMessage(Before(t, '/'))))
  {
  }

  /** A second ':' is rejected, whatever surrounds it. */
  lemma {:induction false} SecondColonRejected(h: string, t: string)
    requires ':' !in h && ':' in t
    ensures ParseAddress(h + ":" + t) == Err(ValueError(UnpackMessage))
  {
    SplitOnceAt(h, t, ':');
    assert ':' in h + ":" + t by { assert (h + ":" + t)[|h|] == ':'; }
    assert |Split(t, ':')| >= 2;
  }

  /** Everything from a '/' on is ignored, as long as it holds no ':'. */
  lemma {:induction false} SuffixIgnored(s: string, t: string)
    requires ':' !in t
    ensures ParseAddress(s + "/" + t) == ParseAddress(s)
  {
    if ':' in s {
      var h := Before(s, ':');
      var b := s[|h| + 1..];
      assert s == h + ":" + b;
      assert s + "/" + t == h + ":" + (b + "/" + t);
      assert ':' in b + "/" + t <==> ':' in b;
      if ':' in b {
        SecondColonRejected(h, b);
        SecondColonRejected(h, b + "/" + t);
      } else {
        BeforeAppend(b, '/', t);
        HostAndPort(h, b);
        HostAndPort(h, b + "/" + t);
      }
    } else {
      assert ':' !in s + "/" + t;
      BeforeAppend(s, '/', t);
      PortOnly(s);
      PortOnly(s + "/" + t);
    }
  }

  // ---------------------------------------------------------------------
  // Round trips with `format_addr`
  // ---------------------------------------------------------------------

  /** A rendered integer holds neither separator. */
  lemma DecimalHasNoSeparators(i: int)
    ensures ':' !in IntToDecimal(i) && '/' !in IntToDecimal(i)
  {
    var d := NatDigits(if i < 0 then -i else i, 10);
    assert forall k :: 0 <= k < |d| ==> IsDigit(d[k]);
  }

  /** A formatted address whose host has no ':' parses back to itself. */
  lemma {:induction false} FormatParses(a: Address)
    requires ':' !in a.host
    ensures ParseAddress(FormatAddr(a)) == Ok(a)
  {
    var d := IntToDecimal(a.port);
    DecimalHasNoSeparators(a.port);
    DecimalRoundTrip(a.port);
    HostAndPort(a.host, d);
  }

  /** A bare decimal port parses to that port on `localhost`. */
  lemma {:induction false} PortParses(p: int)
    ensures ParseAddress(IntToDecimal(p)) == Ok(Address(DefaultHost, p))
  {
    DecimalHasNoSeparators(p);
    DecimalRoundTrip(p);
    PortOnly(IntToDecimal(p));
  }

  /** A formatted address with any `/…` suffix free of ':' parses back to the address. */
  lemma {:induction false} ParseFormats(h: string, p: int, t: string)
    requires ':' !in h && ':' !in t
    ensures ParseAddress(FormatAddr(Address(h, p)) + "/" + t) == Ok(Address(h, p))
  {
    FormatParses(Address(h, p));
    SuffixIgnored(FormatAddr(Address(h, p)), t);
  }
}

=== FILE: terminal.dfy ===
/**
 * Console layout of the launcher (bootstrap/kaa-bootstrap/terminal.py):
 * display widths with wide East Asian characters, truncation to a width,
 * the centred header, the cursor-up escape and the status line.
 *
 * The East Asian Width property of a character (Unicode Standard Annex
 * #11) is an oracle returning the property's short name; the terminal
 * width is a parameter.
 */
module Terminal {
  import opened Wrappers
  import opened Text

  /** `unicodedata.east_asian_width`: one of "F", "W", "H", "Na", "A", "N". */
  type EastAsianWidth = char -> string

  const Esc: char := '\U{1B}'
  const Reset: string := [Esc] + "[0m"
  const Bold: string := [Esc] + "[1m"
  const Red: string := [Esc] + "[31m"
  const Green: string := [Esc] + "[32m"
  const Yellow: string := [Esc] + "[33m"
  const Blue: string := [Esc] + "[34m"
  const Cyan: string := [Esc] + "[36m"

  /** Fullwidth and wide characters take two columns, every other character one. */
  function CharWidth(eaw: EastAsianWidth, c: char): (w: nat)
    ensures w == 1 || w == 2
    ensures w == 2 <==> eaw(c) == "F" || eaw(c) == "W"
  {
    if eaw(c) == "F" || eaw(c) == "W" then 2 else 1
  }

  /** `get_display_width`: the columns `s` occupies. */
  function DisplayWidth(eaw: EastAsianWidth, s: string): (w: nat)
    ensures |s| <= w <= 2 * |s|
  {
    if |s| == 0 then 0 else DisplayWidth(eaw, s[..|s| - 1]) + CharWidth(eaw, s[|s| - 1])
  }

  /** Widths add up over concatenation. */
  lemma {:induction false} DisplayWidthAppend(eaw: EastAsianWidth, a: string, b: string)
    ensures DisplayWidth(eaw, a + b) == DisplayWidth(eaw, a) + DisplayWidth(eaw, b)
    decreases |b|
  {
    if |b| == 0 {
      assert a + b == a;
    } else {
      var b' := b[..|b| - 1];
      assert (a + b)[..|a + b| - 1] == a + b';
      assert (a + b)[|a + b| - 1] == b[|b| - 1];
      DisplayWidthAppend(eaw, a, b');
    }
  }

  /** A longer prefix is at least one column wider per extra character. */
  lemma {:induction false} DisplayWidthPrefix(eaw: EastAsianWidth, s: string, j: nat, k: nat)
    requires j <= k <= |s|
    ensures DisplayWidth(eaw, s[..j]) + (k - j) <= DisplayWidth(eaw, s[..k])
    decreases k - j
  {
    if j < k {
      DisplayWidthPrefix(eaw, s, j, k - 1);
      assert s[..k][..k - 1] == s[..k - 1];
    }
  }

  /**
   * `truncate_string`: the characters of `s` are taken in order while they
   * fit; the first one that would overflow `maxWidth` ends the result.
   */
  method TruncateString(eaw: EastAsianWidth, s: string, maxWidth: int) returns (r: string)
    ensures |s| == 0 || maxWidth <= 0 ==> r == ""
    ensures |r| <= |s| && r == s[..|r|]
    ensures maxWidth > 0 ==> DisplayWidth(eaw, r) <= maxWidth
    ensures forall k :: |r| < k <= |s| ==> DisplayWidth(eaw, s[..k]) > maxWidth
  {
    if |s| == 0 || maxWidth <= 0 {
      return "";
    }
    var width := 0;
    var end := 0;
    var stop := false;
    while end < |s| && !stop
      invariant 0 <= end <= |s|
      invariant width == DisplayWidth(eaw, s[..end]) <= maxWidth
      invariant stop ==> end < |s| && DisplayWidth(eaw, s[..end + 1]) > maxWidth
      decreases |s| - end, if stop then 0 else 1
    {
      var w := CharWidth(eaw, s[end]);
      assert s[..end + 1][..end] == s[..end];
      if width + w > maxWidth {
        stop := true;
      } else {
        width := width + w;
        end := end + 1;
      }
    }
    r := s[..end];
    forall k | end < k <= |s| ensures DisplayWidth(eaw, s[..k]) > maxWidth {
      DisplayWidthPrefix(eaw, s, end + 1, k);
    }
  }

  /** `"━" * n`. */
  function Repeat(c: char, n: int): (r: string)
    ensures |r| == if n < 0 then 0 else n
    ensures forall i :: 0 <= i < |r| ==> r[i] == c
    decreases n
  {
    if n <= 0 then [] else [c] + Repeat(c, n - 1)
  }

  lemma {:induction false} RepeatWidth(eaw: EastAsianWidth, c: char, n: nat)
    requires CharWidth(eaw, c) == 1
    ensures DisplayWidth(eaw, Repeat(c, n)) == n
  {
    if n > 0 {
      assert Repeat(c, n) == [c] + Repeat(c, n - 1);
      RepeatWidth(eaw, c, n - 1);
      DisplayWidthAppend(eaw, [c], Repeat(c, n - 1));
      assert [c][..0] == [];
    }
  }

  /**
   * The separator lengths of `print_header` for a padded title `textWidth`
   * columns wide on a terminal `width` columns wide: none when the title does
   * not fit, otherwise the rest split with the odd column on the right.
   */
  function HeaderLayout(textWidth: nat, width: int): (r: Option<(nat, nat)>)
    ensures r.None? <==> textWidth >= width
    ensures r.Some? ==> r.value.0 + textWidth + r.value.1 == width
    ensures r.Some? ==> r.value.0 <= r.value.1 <= r.value.0 + 1
  {
    if textWidth >= width then None
    else
      var total := width - textWidth;
      var left := total / 2;
      Some((left, total - left))
  }

  const HeavyRule: char := '━'

  /** The visible part of the header: separators around the title padded with one space each side. */
  function HeaderBody(eaw: EastAsianWidth, text: string, width: int): (r: string)
    ensures DisplayWidth(eaw, " " + text + " ") >= width ==> r == text
  {
    var padded := " " + text + " ";
    match HeaderLayout(DisplayWidth(eaw, padded), width)
    case None => text
    case Some((l, rr)) => Repeat(HeavyRule, l) + padded + Repeat(HeavyRule, rr)
  }

  /** With a one-column separator character, a header that fits fills the terminal width exactly. */
  lemma HeaderFillsWidth(eaw: EastAsianWidth, text: string, width: int)
    requires CharWidth(eaw, HeavyRule) == 1
    requires DisplayWidth(eaw, " " + text + " ") < width
    ensures DisplayWidth(eaw, HeaderBody(eaw, text, width)) == width
  {
    var padded := " " + text + " ";
    var (l, rr) := HeaderLayout(DisplayWidth(eaw, padded), width).value;
    RepeatWidth(eaw, HeavyRule, l);
    RepeatWidth(eaw, HeavyRule, rr);
    DisplayWidthAppend(eaw, Repeat(HeavyRule, l), padded);
    DisplayWidthAppend(eaw, Repeat(HeavyRule, l) + padded, Repeat(HeavyRule, rr));
  }

  /** The line `print_header` writes, colour codes included. */
  function HeaderLine(eaw: EastAsianWidth, text: string, color: string, width: int): (r: string)
    ensures StartsWith(r, "\n" + Bold + color) && EndsWith(r, Reset)
  {
    var r := "\n" + Bold + color + HeaderBody(eaw, text, width) + Reset;
    assert r[..|"\n" + Bold + color|] == "\n" + Bold + color;
    assert r[|r| - |Reset|..] == Reset;
    r
  }

  /** `move_cursor_up`: `ESC [ n A`, nothing for `n <= 0`. */
  function MoveCursorUp(lines: int): (r: string)
    ensures r == "" <==> lines <= 0
    ensures lines > 0 ==> |r| >= 4 && r[..2] == [Esc, '['] && r[|r| - 1] == 'A'
    ensures lines > 0 ==> PyInt(r[2..|r| - 1], 10) == Some(lines)
  {
    if lines > 0 then
      var r := [Esc, '['] + IntToDecimal(lines) + "A";
      DecimalRoundTrip(lines);
      assert r[2..|r| - 1] == IntToDecimal(lines);
      r
    else ""
  }

  datatype Status = Success | Failure | Warning | Info

  /** The status `print_status` shows: an explicit `success` flag wins, unknown names mean info. */
  function ResolveStatus(success: Option<bool>, status: string): (r: Status)
    ensures success == Some(true) ==> r == Success
    ensures success == Some(false) ==> r == Failure
    ensures success.None? ==> (r == Success <==> status == "success")
    ensures success.None? ==> (r == Failure <==> status == "error")
    ensures success.None? ==> (r == Warning <==> status == "warning")
  {
    var s := match success
      case Some(true) => "success"
      case Some(false) => "error"
      case None => status;
    if s == "success" then Success
    else if s == "error" then Failure
    else if s == "warning" then Warning
    else Info
  }

  /** The coloured symbol of a status; only the info symbol resets the colour itself. */
  function Symbol(st: Status): (r: string)
    ensures |r| > 0 && r[|r| - 1] != ']'
    ensures st == Success ==> r == Green + "✓"
    ensures st == Failure ==> r == Red + "✗"
    ensures st == Warning ==> r == Yellow + "⚠"
    ensures st == Info ==> r == Blue + "ℹ" + Reset
  {
    match st
    case Success => Green + "✓"
    case Failure => Red + "✗"
    case Warning => Yellow + "⚠"
    case Info => Blue + "ℹ" + Reset
  }

  /** The colour digit, the fourth character of a symbol, tells the statuses apart. */
  lemma SymbolColourDigit(a: Status, b: Status)
    ensures |Symbol(a)| >= 4 && |Symbol(b)| >= 4
    ensures Symbol(a)[3] == Symbol(b)[3] <==> a == b
  {
  }

  /** `print_status`: two spaces per indent level (none for a negative level), the bracketed symbol, the message. */
  function StatusLine(message: string, success: Option<bool>, status: string, indent: int): (r: string)
    ensures var n := if indent < 0 then 0 else 2 * indent;
      var sym := Symbol(ResolveStatus(success, status));
      && |r| == n + 1 + |sym| + 2 + |message| + |Reset|
      && r[..n] == Repeat(' ', n) && r[n] == '['
      && r[n + 1..n + 1 + |sym|] == sym
      && r[n + 1 + |sym|..n + 3 + |sym|] == "] "
      && r[n + 3 + |sym|..] == message + Reset
  {
    var prefix := Repeat(' ', 2 * indent);
    var sym := Symbol(ResolveStatus(success, status));
    Bracketed(prefix, sym, message + Reset);
    prefix + "[" + sym + "] " + (message + Reset)
  }

  /** Where the parts of `p[sym] tail` sit. */
  lemma Bracketed(p: string, sym: string, tail: string)
    ensures var r := p + "[" + sym + "] " + tail;
      && |r| == |p| + 1 + |sym| + 2 + |tail|
      && r[..|p|] == p && r[|p|] == '['
      && r[|p| + 1..|p| + 1 + |sym|] == sym
      && r[|p| + 1 + |sym|..|p| + 3 + |sym|] == "] "
      && r[|p| + 3 + |sym|..] == tail
  {
    var r := p + "[" + sym + "] " + tail;
    assert r == p + ("[" + (sym + ("] " + tail)));
  }

  /** Two bracketed lines with the same prefix agree on the symbols' fourth characters, and on the tails when the symbols agree. */
  lemma BracketedReadBack(p: string, s1: string, t1: string, s2: string, t2: string)
    requires p + "[" + s1 + "] " + t1 == p + "[" + s2 + "] " + t2
    requires |s1| >= 4 && |s2| >= 4
    ensures s1[3] == s2[3]
    ensures s1 == s2 ==> t1 == t2
  {
    Bracketed(p, s1, t1);
    Bracketed(p, s2, t2);
    var r := p + "[" + s1 + "] " + t1;
    assert s1[3] == r[|p| + 4] == s2[3] by {
      assert r[|p| + 1..|p| + 1 + |s1|][3] == r[|p| + 4];
      assert r[|p| + 1..|p| + 1 + |s2|][3] == r[|p| + 4];
    }
  }

  /**
   * A status line can be read back: at a given indent, the same line means
   * the same resolved status and the same message.
   */
  lemma StatusLineReadBack(m1: string, s1: Option<bool>, st1: string, m2: string, s2: Option<bool>, st2: string, indent: int)
    requires StatusLine(m1, s1, st1, indent) == StatusLine(m2, s2, st2, indent)
    ensures ResolveStatus(s1, st1) == ResolveStatus(s2, st2)
    ensures m1 == m2
  {
    var prefix := Repeat(' ', 2 * indent);
    var a, b := ResolveStatus(s1, st1), ResolveStatus(s2, st2);
    SymbolColourDigit(a, b);
    BracketedReadBack(prefix, Symbol(a), m1 + Reset, Symbol(b), m2 + Reset);
    assert m1 == (m1 + Reset)[..|m1|];
    assert m2 == (m2 + Reset)[..|m2|];
  }
}

=== FILE: text.dfy ===
/**
 * String helpers shared by the model: prefixes and suffixes, searching,
 * splitting the way Python's `str.split` does, ASCII case mapping and
 * whitespace, decimal and hexadecimal formatting, and Python's `int(s, base)`.
 *
 * Python's and JavaScript's string methods are Unicode-aware; this module
 * models their ASCII behaviour only (see the README).
 */
module Text {
  import opened Wrappers

  // ---------------------------------------------------------------------
  // Prefixes, suffixes, occurrences
  // ---------------------------------------------------------------------

  predicate StartsWith(s: string, p: string)
  {
    |p| <= |s| && s[..|p|] == p
  }

  predicate EndsWith(s: string, p: string)
  {
    |p| <= |s| && s[|s| - |p|..] == p
  }

  /** `t in s` for strings: `t` occurs somewhere in `s`. */
  predicate Contains(s: string, t: string)
  {
    exists i :: 0 <= i <= |s| - |t| && StartsWith(s[i..], t)
  }

  /** `p` is a prefix of `q`, and `q` of `t`: then `p` is a prefix of `t`. */
  lemma StartsWithTrans(t: string, q: string, p: string)
    ensures StartsWith(t, q) && StartsWith(q, p) ==> StartsWith(t, p)
  {
    if StartsWith(t, q) && StartsWith(q, p) {
      assert t[..|p|] == t[..|q|][..|p|];
    }
  }

  predicate HasChar(s: string, c: char)
  {
    c in s
  }

  /** Index of the first occurrence of `c`. */
  function IndexOf(s: string, c: char): (r: Option<nat>)
    ensures r.None? <==> c !in s
    ensures r.Some? ==> r.value < |s| && s[r.value] == c && c !in s[..r.value]
  {
    if |s| == 0 then None
    else if s[0] == c then Some(0)
    else
      match IndexOf(s[1..], c)
      case None => None
      case Some(i) =>
        assert s[1..][..i] == s[1..i + 1];
        Some(i + 1)
  }

  /** Every occurrence of `a` replaced by `b`. */
  function ReplaceChar(s: string, a: char, b: char): (r: string)
    ensures |r| == |s|
    ensures forall i :: 0 <= i < |s| ==> r[i] == (if s[i] == a then b else s[i])
  {
    if |s| == 0 then [] else [if s[0] == a then b else s[0]] + ReplaceChar(s[1..], a, b)
  }

  /** The index of the first `c` is the `i` with `s[i] == c` and no `c` before it. */
  lemma IndexOfAt(s: string, c: char, i: nat)
    requires i < |s| && s[i] == c && c !in s[..i]
    ensures IndexOf(s, c) == Some(i)
  {
  }

  // ---------------------------------------------------------------------
  // Ordering
  // ---------------------------------------------------------------------

  /** Python's `a < b` on strings: code point by code point, a proper prefix first. */
  predicate StrLess(a: string, b: string)
  {
    |b| > 0 && (|a| == 0 || a[0] < b[0] || (a[0] == b[0] && StrLess(a[1..], b[1..])))
  }

  lemma {:induction false} StrLessIrreflexive(a: string)
    ensures !StrLess(a, a)
  {
    if |a| > 0 {
      StrLessIrreflexive(a[1..]);
    }
  }

  lemma {:induction false} StrLessTransitive(a: string, b: string, c: string)
    requires StrLess(a, b) && StrLess(b, c)
    ensures StrLess(a, c)
  {
    if |a| > 0 && a[0] == b[0] && b[0] == c[0] {
      StrLessTransitive(a[1..], b[1..], c[1..]);
    }
  }

  // ---------------------------------------------------------------------
  // Splitting and joining
  // ---------------------------------------------------------------------

  /** `s.split(c, 1)` when `c` occurs: the text before and after its first occurrence. */
  function SplitOnce(s: string, c: char): (r: Option<(string, string)>)
    ensures r.None? <==> c !in s
    ensures r.Some? ==> s == r.value.0 + [c] + r.value.1 && c !in r.value.0
  {
    match IndexOf(s, c)
    case None => None
    case Some(i) =>
      assert s == s[..i] + [c] + s[i + 1..];
      Some((s[..i], s[i + 1..]))
  }

  /** Python's `s.split(c)`: the pieces between occurrences of `c`, at least one. */
  function Split(s: string, c: char): (r: seq<string>)
    ensures |r| >= 1
    ensures forall k :: 0 <= k < |r| ==> c !in r[k]
    ensures Join(r, [c]) == s
    ensures |r| == 1 <==> c !in s
    ensures c !in s ==> r == [s]
    decreases |s|
  {
    match SplitOnce(s, c)
    case None => [s]
    case Some((a, b)) =>
      var rest := Split(b, c);
      assert Join([a] + rest, [c]) == a + [c] + Join(rest, [c]) by {
        JoinCons(a, rest, [c]);
      }
      [a] + rest
  }

  /** With no `c` in `a`, the first `c` of `a + [c] + b` is the one after `a`. */
  lemma {:induction false} SplitOnceAt(a: string, b: string, c: char)
    requires c !in a
    ensures SplitOnce(a + [c] + b, c) == Some((a, b))
    ensures Split(a + [c] + b, c) == [a] + Split(b, c)
  {
    var s := a + [c] + b;
    assert s[..|a|] == a;
    IndexOfAt(s, c, |a|);
    assert s[|a| + 1..] == b;
  }

  function Join(parts: seq<string>, sep: string): (r: string)
  {
    if |parts| == 0 then ""
    else if |parts| == 1 then parts[0]
    else parts[0] + sep + Join(parts[1..], sep)
  }

  lemma JoinCons(a: string, rest: seq<string>, sep: string)
    requires |rest| >= 1
    ensures Join([a] + rest, sep) == a + sep + Join(rest, sep)
  {
    assert ([a] + rest)[1..] == rest;
  }

  // ---------------------------------------------------------------------
  // ASCII character classes and case
  // ---------------------------------------------------------------------

  predicate IsDigit(c: char) { '0' <= c <= '9' }

  predicate IsAsciiLetter(c: char) { 'a' <= c <= 'z' || 'A' <= c <= 'Z' }

  predicate IsAlnumChar(c: char) { IsDigit(c) || IsAsciiLetter(c) }

  /** Python's `str.isalnum()`: non-empty and every character alphanumeric. */
  predicate IsAlnum(s: string)
  {
    |s| > 0 && forall i :: 0 <= i < |s| ==> IsAlnumChar(s[i])
  }

  predicate IsDigits(s: string)
  {
    forall i :: 0 <= i < |s| ==> IsDigit(s[i])
  }

  /** The characters Python's `str.isspace()` accepts below code point 128. */
  predicate IsSpace(c: char)
  {
    c == ' ' || '\t' <= c <= '\r' || '\U{1C}' <= c <= '\U{1F}'
  }

  function LowerChar(c: char): (r: char)
    ensures 'A' <= c <= 'Z' ==> 'a' <= r <= 'z'
    ensures !('A' <= c <= 'Z') ==> r == c
  {
    if 'A' <= c <= 'Z' then (c as int + 32) as char else c
  }

  /** `s.lower()`. */
  function Lower(s: string): (r: string)
    ensures |r| == |s|
    ensures forall i :: 0 <= i < |s| ==> r[i] == LowerChar(s[i])
  {
    seq(|s|, i requires 0 <= i < |s| => LowerChar(s[i]))
  }

  lemma LowerIdempotent(s: string)
    ensures Lower(Lower(s)) == Lower(s)
  {
  }

  lemma LowerAppend(a: string, b: string)
    ensures Lower(a + b) == Lower(a) + Lower(b)
  {
  }

  // ---------------------------------------------------------------------
  // Stripping
  // ---------------------------------------------------------------------

  /** The index of the first non-space character of `s` at `i` or later, or `|s|`. */
  function LeadingSpaces(s: string, i: nat): (k: nat)
    requires i <= |s|
    ensures i <= k <= |s|
    ensures forall j :: i <= j < k ==> IsSpace(s[j])
    ensures k < |s| ==> !IsSpace(s[k])
    decreases |s| - i
  {
    if i < |s| && IsSpace(s[i]) then LeadingSpaces(s, i + 1) else i
  }

  /** The end of `s[..j]` once its trailing spaces are dropped. */
  function TrailingEnd(s: string, j: nat): (k: nat)
    requires j <= |s|
    ensures k <= j
    ensures forall m :: k <= m < j ==> IsSpace(s[m])
    ensures k > 0 ==> !IsSpace(s[k - 1])
  {
    if j > 0 && IsSpace(s[j - 1]) then TrailingEnd(s, j - 1) else j
  }

  /**
   * `s.strip()`: what is left after removing whitespace at both ends, which
   * neither starts nor ends with whitespace; `StripSpaceSlice` states that
   * it is a slice of `s`.
   */
  function StripSpace(s: string): (r: string)
    ensures |r| > 0 ==> !IsSpace(r[0]) && !IsSpace(r[|r| - 1])
    ensures (|s| == 0 || (!IsSpace(s[0]) && !IsSpace(s[|s| - 1]))) ==> r == s
  {
    var a := LeadingSpaces(s, 0);
    var b := TrailingEnd(s, |s|);
    if b <= a then [] else s[a..b]
  }

  /** The stripped text is the slice of `s` between a run of leading and a run of trailing whitespace. */
  lemma StripSpaceSlice(s: string)
    ensures exists a, b :: (0 <= a <= b <= |s| && StripSpace(s) == s[a..b]
      && (forall i :: 0 <= i < a ==> IsSpace(s[i])) && (forall i :: b <= i < |s| ==> IsSpace(s[i])))
  {
    var a := LeadingSpaces(s, 0);
    var b := TrailingEnd(s, |s|);
    if b <= a {
      assert StripSpace(s) == s[a..a];
    } else {
      assert StripSpace(s) == s[a..b];
    }
  }

  /** `s.rstrip(c)`: every trailing `c` removed. */
  function RStripChar(s: string, c: char): (r: string)
    ensures |r| <= |s| && r == s[..|r|]
    ensures |r| > 0 ==> r[|r| - 1] != c
    ensures forall i :: |r| <= i < |s| ==> s[i] == c
  {
    if |s| > 0 && s[|s| - 1] == c then RStripChar(s[..|s| - 1], c) else s
  }

  /** `s.lstrip(c)`: every leading `c` removed. */
  function LStripChar(s: string, c: char): (r: string)
    ensures |r| <= |s| && r == s[|s| - |r|..]
    ensures |r| > 0 ==> r[0] != c
    ensures forall i :: 0 <= i < |s| - |r| ==> s[i] == c
  {
    if |s| > 0 && s[0] == c then LStripChar(s[1..], c) else s
  }

  // ---------------------------------------------------------------------
  // Digits in base 10 and 16
  // ---------------------------------------------------------------------

  predicate IsDigitIn(c: char, base: nat)
  {
    if base == 16 then IsDigit(c) || 'a' <= c <= 'f' || 'A' <= c <= 'F' else IsDigit(c)
  }

  function DigitValue(c: char): (r: nat)
    ensures IsDigit(c) ==> r < 10
    ensures IsDigitIn(c, 16) ==> r < 16
  {
    if IsDigit(c) then c as int - '0' as int
    else if 'a' <= c <= 'f' then c as int - 'a' as int + 10
    else if 'A' <= c <= 'F' then c as int - 'A' as int + 10
    else 0
  }

  /** The lower-case digit character for `d`. */
  function DigitChar(d: nat): (r: char)
    requires d < 16
    ensures IsDigitIn(r, 16) && DigitValue(r) == d
    ensures d < 10 ==> IsDigit(r)
    ensures !('A' <= r <= 'Z')
  {
    if d < 10 then ('0' as int + d) as char else ('a' as int + d - 10) as char
  }

  /** The end of the run of ASCII digits starting at `i`. */
  function DigitRunEnd(s: string, i: nat): (k: nat)
    requires i <= |s|
    ensures i <= k <= |s|
    ensures forall j :: i <= j < k ==> IsDigit(s[j])
    ensures k < |s| ==> !IsDigit(s[k])
    decreases |s| - i
  {
    if i < |s| && IsDigit(s[i]) then DigitRunEnd(s, i + 1) else i
  }

  /** The value of a run of digits, most significant first. */
  function DigitsValue(ds: string, base: nat): nat
  {
    if |ds| == 0 then 0 else DigitsValue(ds[..|ds| - 1], base) * base + DigitValue(ds[|ds| - 1])
  }

  /** The digits of `n` in `base`, without leading zeros (`"0"` for zero). */
  function NatDigits(n: nat, base: nat): (r: string)
    requires base == 10 || base == 16
    ensures |r| >= 1
    ensures forall i :: 0 <= i < |r| ==> IsDigitIn(r[i], base) && r[i] != '_' && !IsSpace(r[i])
    ensures forall i :: 0 <= i < |r| ==> !('A' <= r[i] <= 'Z')
    ensures DigitsValue(r, base) == n
  {
    if n < base then [DigitChar(n)]
    else
      var r := NatDigits(n / base, base) + [DigitChar(n % base)];
      assert r[..|r| - 1] == NatDigits(n / base, base);
      r
  }

  /** Python's `str(i)` for an int, also JavaScript's template rendering of an integral number. */
  function IntToDecimal(i: int): (r: string)
    ensures |r| >= 1
    ensures i >= 0 <==> IsDigit(r[0])
    ensures i < 0 ==> r[0] == '-'
  {
    if i < 0 then "-" + NatDigits(-i, 10) else NatDigits(i, 10)
  }

  /** `format(n, "02x")`: lower-case hexadecimal, zero-padded to width two (sign included). */
  function Hex02(n: int): (r: string)
    ensures 0 <= n < 256 ==> |r| == 2 && IsDigitIn(r[0], 16) && IsDigitIn(r[1], 16)
    ensures 0 <= n < 256 ==> DigitValue(r[0]) * 16 + DigitValue(r[1]) == n
  {
    if n < 0 then "-" + NatDigits(-n, 16)
    else if n < 256 then [DigitChar(n / 16), DigitChar(n % 16)]
    else NatDigits(n, 16)
  }

  // ---------------------------------------------------------------------
  // Python's int(s, base)
  // ---------------------------------------------------------------------

  /** A digit run with single underscores allowed between digits, as `int()` accepts. */
  predicate WellFormedDigits(s: string, base: nat)
  {
    && |s| > 0
    && IsDigitIn(s[0], base)
    && IsDigitIn(s[|s| - 1], base)
    && (forall i :: 0 <= i < |s| ==> IsDigitIn(s[i], base) || s[i] == '_')
    && (forall i :: 0 <= i < |s| - 1 ==> !DoubleUnderscoreAt(s, i))
  }

  /** Two underscores in a row start at `i`. */
  predicate DoubleUnderscoreAt(s: string, i: nat)
  {
    i + 1 < |s| && s[i] == '_' && s[i + 1] == '_'
  }

  function RemoveUnderscores(s: string): (r: string)
    ensures (forall i :: 0 <= i < |s| ==> s[i] != '_') ==> r == s
  {
    if |s| == 0 then [] else (if s[0] == '_' then [] else [s[0]]) + RemoveUnderscores(s[1..])
  }

  /** After the sign: for base 16 an optional `0x`/`0X` prefix, optionally followed by one underscore. */
  function UnsignedValue(s: string, base: nat): Option<nat>
  {
    if base == 16 && |s| >= 2 && s[0] == '0' && (s[1] == 'x' || s[1] == 'X') then
      var rest := if |s| >= 3 && s[2] == '_' then s[3..] else s[2..];
      if WellFormedDigits(rest, base) then Some(DigitsValue(RemoveUnderscores(rest), base)) else None
    else if WellFormedDigits(s, base) then Some(DigitsValue(RemoveUnderscores(s), base))
    else None
  }

  /**
   * `int(s, base)` for base 10 or 16: surrounding whitespace, an optional
   * sign, and underscores between digits are accepted; `None` stands for
   * the `ValueError` Python raises on anything else.
   */
  function PyInt(s: string, base: nat): Option<int>
    requires base == 10 || base == 16
  {
    var t := StripSpace(s);
    if |t| > 0 && (t[0] == '-' || t[0] == '+') then
      match UnsignedValue(t[1..], base)
      case None => None
      case Some(v) =>
        var n: int := if t[0] == '-' then -(v as int) else v;
        Some(n)
    else
      match UnsignedValue(t, base)
      case None => None
      case Some(v) => Some(v as int)
  }

  lemma DigitsValueNoUnderscore(ds: string, base: nat)
    requires base == 10 || base == 16
    requires |ds| >= 1
    requires forall i :: 0 <= i < |ds| ==> IsDigitIn(ds[i], base) && ds[i] != '_' && !IsSpace(ds[i])
    ensures WellFormedDigits(ds, base)
    ensures RemoveUnderscores(ds) == ds
  {
  }

  /** `int(str(i)) == i`: the decimal rendering parses back. */
  lemma {:induction false} DecimalRoundTrip(i: int)
    ensures PyInt(IntToDecimal(i), 10) == Some(i)
  {
    var s := IntToDecimal(i);
    var n := if i < 0 then -i else i;
    var ds := NatDigits(n, 10);
    DigitsValueNoUnderscore(ds, 10);
    assert UnsignedValue(ds, 10) == Some(n);
    assert !IsSpace(s[0]) && !IsSpace(s[|s| - 1]);
    assert StripSpace(s) == s;
    if i < 0 {
      assert s[1..] == ds;
      assert s[0] == '-';
    } else {
      assert s == ds;
      assert s[0] != '-' && s[0] != '+';
    }
  }

  /** A run of digits, with no prefix, sign or space, is read as its value. */
  lemma UnsignedDigits(ds: string, base: nat)
    requires base == 10 || base == 16
    requires |ds| >= 1 && forall i :: 0 <= i < |ds| ==> IsDigitIn(ds[i], base)
    ensures UnsignedValue(ds, base) == Some(DigitsValue(ds, base))
    ensures ds[0] != '-' && ds[0] != '+' && !IsSpace(ds[0]) && !IsSpace(ds[|ds| - 1])
  {
    DigitsValueNoUnderscore(ds, base);
    assert ds[0] != 'x' && ds[0] != '-' && ds[0] != '+' && !IsSpace(ds[0]) && !IsSpace(ds[|ds| - 1]);
    assert |ds| >= 2 ==> ds[1] != 'x' && ds[1] != 'X';
  }

  /** A run of digits parses to its value. */
  lemma PyIntDigits(ds: string, base: nat)
    requires base == 10 || base == 16
    requires |ds| >= 1 && forall i :: 0 <= i < |ds| ==> IsDigitIn(ds[i], base)
    ensures PyInt(ds, base) == Some(DigitsValue(ds, base) as int)
  {
    UnsignedDigits(ds, base);
    assert StripSpace(ds) == ds;
  }

  /** `int` refuses an empty or blank text, a bare sign and a doubled underscore. */
  lemma PyIntRejects()
    ensures PyInt("", 10).None? && PyInt(" ", 10).None? && PyInt("-", 10).None?
    ensures PyInt("1__0", 10).None?
  {
    assert StripSpace(" ") == [];
    assert StripSpace("-") == "-" && "-"[1..] == [];
    var d := "1__0";
    assert StripSpace(d) == d;
    assert DoubleUnderscoreAt(d, 1);
  }

  /** Two hexadecimal digits parse to the byte they denote. */
  lemma {:induction false} HexPairValue(p: string)
    requires |p| == 2 && IsDigitIn(p[0], 16) && IsDigitIn(p[1], 16)
    ensures PyInt(p, 16) == Some(DigitValue(p[0]) * 16 + DigitValue(p[1]))
  {
    assert !IsSpace(p[0]) && !IsSpace(p[1]);
    assert StripSpace(p) == p;
    assert p[0] != '-' && p[0] != '+' && p[1] != 'x' && p[1] != 'X';
    assert WellFormedDigits(p, 16) by {
      assert !DoubleUnderscoreAt(p, 0);
    }
    assert RemoveUnderscores(p) == p;
    assert UnsignedValue(p, 16) == Some(DigitsValue(p, 16));
    assert p[..1] == [p[0]];
    assert [p[0]][..0] == [];
    assert DigitsValue(p[..1], 16) == DigitValue(p[0]);
  }
}

=== FILE: upgrade.dfy ===
/**
 * Configuration upgrades of kotonebot/kaa/config/upgrade.py: the version
 * loop run on every user config, the four per-version transforms, and the
 * messages they report.
 *
 * The configuration is the loaded JSON document. The Python code mutates
 * dicts in place; the model returns the updated document instead, writing
 * each change back at the path of the dict the code mutated. `str(x)` as an
 * f-string renders a value is a parameter. The backup copies
 * (`shutil.copy`), the file reads and writes and the logging are not part of
 * this model.
 */
module Upgrade {
  import opened Wrappers
  import opened PyValue
  import opened Text
  import PIdols

  /** `str(x)`: how an f-string renders a value. */
  type Show = Value -> string

  /** A `map_idol` of one upgrade: the new entry, or `None` when the old one is not recognised. */
  type IdolMap = Value -> Option<Value>

  /** `for x in v`: lists and tuples give their items, strings their characters, dicts their keys. */
  function Iterate(v: Value): (r: Result<seq<Value>, PyError>)
    ensures r.Ok? <==> v.List? || v.Tuple? || v.Str? || v.Dict?
    ensures r.Err? ==> r.error == TypeError
    ensures v.Str? ==> |r.value| == |v.s| && forall i :: 0 <= i < |v.s| ==> r.value[i] == Str([v.s[i]])
    ensures v.Dict? ==> |r.value| == |v.entries| && forall i :: 0 <= i < |v.entries| ==> r.value[i] == Str(v.entries[i].0)
  {
    match v
    case List(items) => Ok(items)
    case Tuple(elems) => Ok(elems)
    case Str(s) => Ok(seq(|s|, i requires 0 <= i < |s| => Str([s[i]])))
    case Dict(entries) => Ok(seq(|entries|, i requires 0 <= i < |entries| => Str(entries[i].0)))
    case _ => Err(TypeError)
  }

  /** `list(filter(lambda x: x is not None, map(f, items)))`. */
  function Kept(items: seq<Value>, f: IdolMap): seq<Value>
  {
    if |items| == 0 then []
    else Mapped(items[0], f) + Kept(items[1..], f)
  }

  function Mapped(x: Value, f: IdolMap): seq<Value>
  {
    if f(x).Some? then [f(x).value] else []
  }

  /** The entries `f` does not recognise, in order. */
  function Dropped(items: seq<Value>, f: IdolMap): seq<Value>
  {
    if |items| == 0 then []
    else Unmapped(items[0], f) + Dropped(items[1..], f)
  }

  function Unmapped(x: Value, f: IdolMap): seq<Value>
  {
    if f(x).None? then [x] else []
  }

  /** Filtering distributes over concatenation: the kept entries of a list keep the list's order. */
  lemma {:induction false} KeptAppend(a: seq<Value>, b: seq<Value>, f: IdolMap)
    ensures Kept(a + b, f) == Kept(a, f) + Kept(b, f)
    decreases |a|
  {
    if |a| == 0 {
      assert a + b == b;
    } else {
      var c := a + b;
      assert c[0] == a[0];
      assert c[1..] == a[1..] + b;
      KeptAppend(a[1..], b, f);
      assert Kept(c, f) == Mapped(a[0], f) + (Kept(a[1..], f) + Kept(b, f));
    }
  }

  /** The same for the dropped entries. */
  lemma {:induction false} DroppedAppend(a: seq<Value>, b: seq<Value>, f: IdolMap)
    ensures Dropped(a + b, f) == Dropped(a, f) + Dropped(b, f)
    decreases |a|
  {
    if |a| == 0 {
      assert a + b == b;
    } else {
      var c := a + b;
      assert c[0] == a[0];
      assert c[1..] == a[1..] + b;
      DroppedAppend(a[1..], b, f);
      assert Dropped(c, f) == Unmapped(a[0], f) + (Dropped(a[1..], f) + Dropped(b, f));
    }
  }

  /** Every entry is either mapped and kept or reported as dropped. */
  lemma {:induction false} KeptDroppedCount(items: seq<Value>, f: IdolMap)
    ensures |Kept(items, f)| + |Dropped(items, f)| == |items|
    ensures |Dropped(items, f)| == 0 <==> forall i :: 0 <= i < |items| ==> f(items[i]).Some?
    decreases |items|
  {
    if |items| > 0 {
      KeptDroppedCount(items[1..], f);
      assert forall i :: 1 <= i < |items| ==> items[i] == items[1..][i - 1];
    }
  }

  /** When every entry is recognised, the result holds each mapped entry at its old position. */
  lemma {:induction false} KeptAll(items: seq<Value>, f: IdolMap)
    requires forall i :: 0 <= i < |items| ==> f(items[i]).Some?
    ensures |Kept(items, f)| == |items|
    ensures forall i :: 0 <= i < |items| ==> Kept(items, f)[i] == f(items[i]).value
    decreases |items|
  {
    if |items| > 0 {
      KeptAll(items[1..], f);
      assert forall i :: 1 <= i < |items| ==> items[i] == items[1..][i - 1];
    }
  }

  const Header: string := "培育设置中的以下偶像升级失败。请尝试手动添加。\n"
  const NotFound: string := " 未找到\n"

  /** What the `case _` branch of `map_idol` does to `msg` for an unrecognised entry `x`. */
  function Note(msg: string, x: Value, f: IdolMap, show: Show): string
  {
    if f(x).Some? then msg
    else (if msg == "" then Header else msg) + show(x) + NotFound
  }

  /** `msg` after `map_idol` has run over `items`, starting from `msg`. */
  function MessageFold(items: seq<Value>, f: IdolMap, show: Show, msg: string): string
  {
    if |items| == 0 then msg else MessageFold(items[1..], f, show, Note(msg, items[0], f, show))
  }

  /** One `'<entry> 未找到'` line per dropped entry. */
  function Lines(dropped: seq<Value>, show: Show): string
  {
    if |dropped| == 0 then "" else show(dropped[0]) + NotFound + Lines(dropped[1..], show)
  }

  lemma {:induction false} MessageFoldFrom(items: seq<Value>, f: IdolMap, show: Show, msg: string)
    ensures MessageFold(items, f, show, msg) ==
      if msg == "" && |Dropped(items, f)| == 0 then ""
      else (if msg == "" then Header else msg) + Lines(Dropped(items, f), show)
    decreases |items|
  {
    if |items| > 0 {
      var msg' := Note(msg, items[0], f, show);
      assert MessageFold(items, f, show, msg) == MessageFold(items[1..], f, show, msg');
      MessageFoldFrom(items[1..], f, show, msg');
      if f(items[0]).None? {
        assert |msg'| > 0;
        DroppedLine(items, f, show, msg);
      } else {
        assert Dropped(items, f) == Dropped(items[1..], f);
      }
    }
  }

  /** A dropped first entry puts its line right after the message so far. */
  lemma DroppedLine(items: seq<Value>, f: IdolMap, show: Show, msg: string)
    requires |items| > 0 && f(items[0]).None?
    ensures |Dropped(items, f)| > 0
    ensures Note(msg, items[0], f, show) + Lines(Dropped(items[1..], f), show)
      == (if msg == "" then Header else msg) + Lines(Dropped(items, f), show)
  {
    var x, rest := items[0], Dropped(items[1..], f);
    var h := if msg == "" then Header else msg;
    DroppedFirst(items, f);
    calc {
      Note(msg, x, f, show) + Lines(rest, show);
      ((h + show(x)) + NotFound) + Lines(rest, show);
      { ConcatAssoc(h, show(x), NotFound); }
      (h + (show(x) + NotFound)) + Lines(rest, show);
      { ConcatAssoc(h, show(x) + NotFound, Lines(rest, show)); }
      h + ((show(x) + NotFound) + Lines(rest, show));
      { LinesCons(x, rest, show); }
      h + Lines([x] + rest, show);
    }
  }

  lemma ConcatAssoc(a: string, b: string, c: string)
    ensures (a + b) + c == a + (b + c)
  {
  }

  lemma DroppedFirst(items: seq<Value>, f: IdolMap)
    requires |items| > 0 && f(items[0]).None?
    ensures Dropped(items, f) == [items[0]] + Dropped(items[1..], f)
  {
  }

  lemma LinesCons(x: Value, rest: seq<Value>, show: Show)
    ensures Lines([x] + rest, show) == show(x) + NotFound + Lines(rest, show)
  {
    assert ([x] + rest)[1..] == rest;
  }

  /**
   * The report of one idol upgrade: empty when every entry is recognised,
   * otherwise the header once followed by one line per dropped entry.
   */
  lemma FailureMessage(items: seq<Value>, f: IdolMap, show: Show)
    ensures |Dropped(items, f)| == 0 ==> MessageFold(items, f, show, "") == ""
    ensures |Dropped(items, f)| > 0 ==> MessageFold(items, f, show, "") == Header + Lines(Dropped(items, f), show)
  {
    MessageFoldFrom(items, f, show, "");
  }

  const IdolsPath: seq<string> := ["produce", "idols"]

  /**
   * The shared shape of `upgrade_v1_to_v2` and `upgrade_v2_to_v3`: the
   * entries of `options.produce.idols` are mapped, the recognised ones
   * replace the list and the others are reported.
   */
  function MapIdols(options: Value, f: IdolMap, show: Show): (r: Result<(Value, string), PyError>)
    ensures r.Ok? <==> GetPath(options, IdolsPath).Ok? && Iterate(GetPath(options, IdolsPath).value).Ok?
    ensures r.Ok? ==>
      var items := Iterate(GetPath(options, IdolsPath).value).value;
      && GetPath(r.value.0, IdolsPath) == Ok(List(Kept(items, f)))
      && r.value.1 == MessageFold(items, f, show, "")
  {
    var stored :- GetPath(options, IdolsPath);
    var items :- Iterate(stored);
    var msg := MessageFold(items, f, show, "");
    GetPathParent(options, IdolsPath);
    SetPathDefined(options, IdolsPath, List(Kept(items, f)));
    var options' := SetPath(options, IdolsPath, List(Kept(items, f))).value;
    GetPathSetPath(options, IdolsPath, List(Kept(items, f)));
    Ok((options', msg))
  }

  /** The `map_idol` of `upgrade_v1_to_v2` and that of `upgrade_v2_to_v3`. */
  datatype IdolMaps = IdolMaps(v1: IdolMap, v2: IdolMap)

  /** `[idol, title]` lists become `PIdol` values, then `PIdol` values become skin ids. */
  const PIdolMaps: IdolMaps := IdolMaps(PIdols.MapIdolV1, PIdols.MapIdolV2)

  /** When whatever `f` keeps, `g` also maps, filtering by `f` then by `g` drops nothing the second time. */
  lemma {:induction false} ChainDropsNothing(items: seq<Value>, f: IdolMap, g: IdolMap)
    requires forall x :: f(x).Some? ==> g(f(x).value).Some?
    ensures Dropped(Kept(items, f), g) == []
    decreases |items|
  {
    if |items| > 0 {
      ChainDropsNothing(items[1..], f, g);
      DroppedAppend(Mapped(items[0], f), Kept(items[1..], f), g);
      if f(items[0]).Some? {
        assert Dropped(Mapped(items[0], f), g) == [];
      }
    }
  }

  /** No entry that survives the v1 to v2 upgrade is dropped by the v2 to v3 upgrade. */
  lemma SecondPassDropsNothing(items: seq<Value>)
    ensures Dropped(Kept(items, PIdols.MapIdolV1), PIdols.MapIdolV2) == []
  {
    forall x | PIdols.MapIdolV1(x).Some?
      ensures PIdols.MapIdolV2(PIdols.MapIdolV1(x).value).Some?
    {
      PIdols.V1ThenV2(x);
    }
    ChainDropsNothing(items, PIdols.MapIdolV1, PIdols.MapIdolV2);
  }

  const PackagePath: seq<string> := ["start_game", "game_package_name"]
  const MisspeltPackage: string := "com.bandinamcoent.idolmaster_gakuen"
  const GamePackage: string := "com.bandainamcoent.idolmaster_gakuen"

  /** `upgrade_v3_to_v4`: the misspelt game package name is corrected; nothing else changes. */
  function V3ToV4(options: Value): (r: Result<(Value, string), PyError>)
    ensures r.Ok? <==> GetPath(options, PackagePath).Ok?
    ensures r.Ok? ==> r.value.1 == ""
    ensures r.Ok? ==>
      var name := GetPath(options, PackagePath).value;
      && (name == Str(MisspeltPackage) ==> GetPath(r.value.0, PackagePath) == Ok(Str(GamePackage)))
      && (name != Str(MisspeltPackage) ==> r.value.0 == options)
  {
    var name :- GetPath(options, PackagePath);
    if EqualsStr(name, MisspeltPackage) then
      GetPathParent(options, PackagePath);
      SetPathDefined(options, PackagePath, Str(GamePackage));
      GetPathSetPath(options, PackagePath, Str(GamePackage));
      var options' := SetPath(options, PackagePath, Str(GamePackage)).value;
      Ok((options', ""))
    else
      Ok((options, ""))
  }

  /** The package fix leaves every top-level option other than `start_game` as it was. */
  lemma V3ToV4Frame(options: Value, q: seq<string>)
    requires V3ToV4(options).Ok? && |q| >= 1 && q[0] != PackagePath[0]
    ensures GetPath(V3ToV4(options).value.0, q) == GetPath(options, q)
  {
    if GetPath(options, PackagePath).value == Str(MisspeltPackage) {
      GetPathSetPathApart(options, PackagePath, Str(GamePackage), q);
    }
  }

  const ImplPath: seq<string> := ["backend", "screenshot_impl"]
  const TypePath: seq<string> := ["backend", "type"]

  /** `screenshot_impl in ['windows', 'remote_windows']`. */
  predicate IsWindowsImpl(impl: Value)
  {
    EqualsStr(impl, "windows") || EqualsStr(impl, "remote_windows")
  }

  /**
   * `upgrade_v4_to_v5`: a user config taking screenshots through Windows
   * gets the backend type `dmm`; the options are returned untouched.
   */
  function V4ToV5(userConfig: Value, options: Value): (r: Result<(Value, Value, string), PyError>)
    ensures r.Ok? <==> GetPath(userConfig, ImplPath).Ok?
    ensures r.Ok? ==> r.value.1 == options && r.value.2 == ""
    ensures r.Ok? ==>
      var impl := GetPath(userConfig, ImplPath).value;
      && (IsWindowsImpl(impl) ==> GetPath(r.value.0, TypePath) == Ok(Str("dmm")))
      && (!IsWindowsImpl(impl) ==> r.value.0 == userConfig)
  {
    var impl :- GetPath(userConfig, ImplPath);
    if IsWindowsImpl(impl) then
      assert ImplPath[..1] == TypePath[..1];
      GetPathParent(userConfig, ImplPath);
      SetPathDefined(userConfig, TypePath, Str("dmm"));
      GetPathSetPath(userConfig, TypePath, Str("dmm"));
      var userConfig' := SetPath(userConfig, TypePath, Str("dmm")).value;
      Ok((userConfig', options, ""))
    else
      Ok((userConfig, options, ""))
  }

  /** The backend change leaves every top-level key other than `backend`, the options included, as it was. */
  lemma V4ToV5Frame(userConfig: Value, options: Value, q: seq<string>)
    requires V4ToV5(userConfig, options).Ok? && |q| >= 1 && q[0] != TypePath[0]
    ensures GetPath(V4ToV5(userConfig, options).value.0, q) == GetPath(userConfig, q)
  {
    if IsWindowsImpl(GetPath(userConfig, ImplPath).value) {
      GetPathSetPathApart(userConfig, TypePath, Str("dmm"), q);
    }
  }

  /** `v[p] = x` through a possibly empty path; the empty path replaces the whole value. */
  function Replace(v: Value, path: seq<string>, x: Value): (r: Result<Value, PyError>)
  {
    if |path| == 0 then Ok(x) else SetPath(v, path, x)
  }

  /**
   * The `case n` arm of `upgrade_user_config` for `n` in 1..4. `uc` is the
   * user config as stored; `bind` is the path from it to the dict the local
   * `user_config` names. The result is the stored user config after the
   * arm's in-place changes, and the arm's message.
   */
  function Step(n: nat, uc: Value, bind: seq<string>, maps: IdolMaps, show: Show): (r: Result<(Value, string), PyError>)
    requires 1 <= n <= 4
  {
    var userConfig :- GetPath(uc, bind);
    var options :- Subscript(userConfig, "options");
    if n == 4 then
      var s :- V4ToV5(userConfig, options);
      var uc' :- Replace(uc, bind, s.0);
      Ok((uc', s.2))
    else
      var s :- Transform(n, options, maps, show);
      var uc' :- Replace(uc, bind, SetKey(userConfig, "options", s.0).value);
      Ok((uc', s.1))
  }

  /**
   * Every arm reads `user_config['options']` first: a user config without
   * options fails with `KeyError('options')` whatever the arm.
   */
  lemma StepNeedsOptions(n: nat, uc: Value, bind: seq<string>, maps: IdolMaps, show: Show)
    requires 1 <= n <= 4
    requires GetPath(uc, bind).Ok? && GetPath(uc, bind).value.Dict?
    requires "options" !in Assoc.Keys(GetPath(uc, bind).value.entries)
    ensures Step(n, uc, bind, maps, show) == Err(KeyError("options"))
  {
  }

  /** The transform the `case n` arm applies to the options, for `n` in 1..3. */
  function Transform(n: nat, options: Value, maps: IdolMaps, show: Show): Result<(Value, string), PyError>
    requires 1 <= n <= 3
  {
    if n == 1 then MapIdols(options, maps.v1, show)
    else if n == 2 then MapIdols(options, maps.v2, show)
    else V3ToV4(options)
  }

  /**
   * The `while True` loop from version `n` on. Each arm rebinds
   * `user_config` to the options it returns when `rebind` holds, as the
   * code is written; with `rebind` false `user_config` keeps naming the
   * user config, which is what the arms' `user_config['options']` expects.
   */
  function RunFrom(n: nat, uc: Value, bind: seq<string>, rebind: bool, maps: IdolMaps, show: Show): (r: Result<(Value, seq<string>), PyError>)
    requires 1 <= n <= 5
    ensures r.Ok? ==> |r.value.1| == 5 - n
    decreases 5 - n
  {
    if n == 5 then Ok((uc, []))
    else
      var s :- Step(n, uc, bind, maps, show);
      var rest :- RunFrom(n + 1, s.0, if rebind then bind + ["options"] else bind, rebind, maps, show);
      Ok((rest.0, [s.1] + rest.1))
  }

  /** The `case` the loop enters first: the number in 1..4 the stored version equals, if any. */
  function StartStep(version: Value): (r: Option<nat>)
    ensures r.Some? ==> 1 <= r.value <= 4 && EqualsInt(version, r.value)
    ensures r.None? ==> forall n :: 1 <= n <= 4 ==> !EqualsInt(version, n)
  {
    if EqualsInt(version, 1) then Some(1)
    else if EqualsInt(version, 2) then Some(2)
    else if EqualsInt(version, 3) then Some(3)
    else if EqualsInt(version, 4) then Some(4)
    else None
  }

  /** The number of upgrade steps a stored version leads to. */
  function StepCount(version: Value): (r: nat)
    ensures r <= 4
    ensures r == 0 <==> forall n :: 1 <= n <= 4 ==> !EqualsInt(version, n)
  {
    match StartStep(version)
    case Some(n) => 5 - n
    case None => 0
  }

  datatype Upgraded = Upgraded(version: Value, config: Value, messages: seq<string>)

  /**
   * `upgrade_user_config`: from a version in 1..4 every later step runs in
   * order and the result is 5; any other version is returned as it is and
   * no step runs. One message is reported per step run.
   */
  function UpgradeUserConfig(version: Value, uc: Value, rebind: bool, maps: IdolMaps, show: Show): (r: Result<Upgraded, PyError>)
    ensures StepCount(version) == 0 ==> r == Ok(Upgraded(version, uc, []))
    ensures r.Ok? && StepCount(version) > 0 ==> r.value.version == Int(5)
    ensures r.Ok? ==> |r.value.messages| == StepCount(version)
  {
    match StartStep(version)
    case None => Ok(Upgraded(version, uc, []))
    case Some(n) =>
      var run :- RunFrom(n, uc, [], rebind, maps, show);
      Ok(Upgraded(Int(5), run.0, run.1))
  }

  /**
   * The `for` loop over the user configs: each is upgraded from the same
   * stored version. The result holds the upgraded configs, the version of
   * the last one (`None` when there are none) and all messages in order.
   */
  function UpgradeAll(items: seq<Value>, version: Value, rebind: bool, maps: IdolMaps, show: Show): (r: Result<(seq<Value>, Option<Value>, seq<seq<string>>), PyError>)
    ensures r.Ok? ==> |r.value.0| == |r.value.2| == |items|
    ensures r.Ok? ==> (r.value.1.None? <==> |items| == 0)
    ensures r.Ok? && |items| > 0 ==> r.value.1 == Some(if StepCount(version) == 0 then version else Int(5))
    ensures r.Ok? ==> forall i :: 0 <= i < |items| ==> |r.value.2[i]| == StepCount(version)
  {
    if |items| == 0 then Ok(([], None, []))
    else
      var first :- UpgradeUserConfig(version, items[0], rebind, maps, show);
      var rest :- UpgradeAll(items[1..], version, rebind, maps, show);
      Ok(([first.config] + rest.0, Some(if rest.1.Some? then rest.1.value else first.version), [first.messages] + rest.2))
  }

  /** The messages of all configs, in order. */
  function Flatten(xss: seq<seq<string>>): (r: seq<string>)
  {
    if |xss| == 0 then [] else xss[0] + Flatten(xss[1..])
  }

  /** Configs that each report `c` messages report `c` per config in total. */
  lemma {:induction false} FlattenLength(xss: seq<seq<string>>, c: nat)
    requires forall i :: 0 <= i < |xss| ==> |xss[i]| == c
    ensures |Flatten(xss)| == |xss| * c
    decreases |xss|
  {
    if |xss| > 0 {
      assert forall i :: 0 <= i < |xss| - 1 ==> xss[1..][i] == xss[i + 1];
      FlattenLength(xss[1..], c);
      assert |xss| * c == c + (|xss| - 1) * c;
    }
  }

  /**
   * `upgrade_config` on a loaded document: the upgraded configs are stored
   * back, `version` is set to the last config's result, and the messages
   * are joined by newlines.
   */
  function UpgradeConfig(root: Value, rebind: bool, show: Show): (r: Result<(Value, string), PyError>)
    ensures r.Ok? ==> Subscript(root, "user_configs").Ok? && Subscript(root, "version").Ok?
    ensures r.Ok? ==> Iterate(Subscript(root, "user_configs").value).Ok?
    ensures r.Ok? ==>
      var items := Iterate(Subscript(root, "user_configs").value).value;
      var version := Subscript(root, "version").value;
      && (|items| == 0 ==> Subscript(r.value.0, "version") == Ok(version))
      && (|items| > 0 ==> Subscript(r.value.0, "version") == Ok(if StepCount(version) == 0 then version else Int(5)))
  {
    var configs :- Subscript(root, "user_configs");
    var version :- Subscript(root, "version");
    var items :- Iterate(configs);
    var all :- UpgradeAll(items, version, rebind, PIdolMaps, show);
    var configs' := match configs
      case List(_) => List(all.0)
      case Tuple(_) => Tuple(all.0)
      case _ => configs;
    var root1 := SetKey(root, "user_configs", configs').value;
    var root2 := if all.1.Some? then SetKey(root1, "version", all.1.value).value else root1;
    SubscriptSetKey(root, "user_configs", configs', "version");
    Ok((root2, Join(Flatten(all.2), "\n")))
  }

  /** From version 4 on the binding no longer matters: the written and the corrected loop agree. */
  lemma AgreeFromV4(uc: Value, maps: IdolMaps, show: Show)
    ensures RunFrom(4, uc, [], true, maps, show) == RunFrom(4, uc, [], false, maps, show)
  {
  }

  /**
   * As written, a run from version 1, 2 or 3 whose first step succeeds
   * stops with `KeyError('options')` at the second step whenever the
   * options it produced hold no `options` key, as the options of a real
   * configuration never do: `user_config` now names those options.
   */
  lemma AsWrittenStops(n: nat, uc: Value, maps: IdolMaps, show: Show)
    requires 1 <= n <= 3 && Step(n, uc, [], maps, show).Ok?
    requires var uc' := Step(n, uc, [], maps, show).value.0;
      Subscript(uc', "options").Ok? && Subscript(Subscript(uc', "options").value, "options") == Err(KeyError("options"))
    ensures RunFrom(n, uc, [], true, maps, show) == Err(KeyError("options"))
  {
    var uc' := Step(n, uc, [], maps, show).value.0;
    assert [] + ["options"] == ["options"];
    GetPathSingle(uc', "options");
  }

  lemma GetPathSingle(v: Value, k: string)
    ensures GetPath(v, [k]) == Subscript(v, k)
  {
    assert [k][1..] == [];
  }

  /** A user config of the shape every version-3 config has: an options dict with a package name, and a screenshot method. */
  predicate V3Shaped(uc: Value)
  {
    && GetPath(uc, ["options"] + PackagePath).Ok?
    && GetPath(uc, ImplPath).Ok?
  }

  /** The version-3 step: the options with the package name fixed are written back, nothing is reported. */
  lemma StepThree(uc: Value, maps: IdolMaps, show: Show)
    requires V3Shaped(uc)
    ensures Subscript(uc, "options").Ok? && V3ToV4(Subscript(uc, "options").value).Ok?
    ensures var options' := V3ToV4(Subscript(uc, "options").value).value.0;
      && Step(3, uc, [], maps, show).Ok?
      && Step(3, uc, [], maps, show).value.1 == ""
      && Subscript(Step(3, uc, [], maps, show).value.0, "options") == Ok(options')
      && GetPath(Step(3, uc, [], maps, show).value.0, ImplPath) == GetPath(uc, ImplPath)
  {
    GetPathAppend(uc, ["options"], PackagePath);
    GetPathSingle(uc, "options");
    var options := Subscript(uc, "options").value;
    var options' := V3ToV4(options).value.0;
    var uc' := SetKey(uc, "options", options').value;
    assert Step(3, uc, [], maps, show) == Ok((uc', ""));
    SubscriptSetKey(uc, "options", options', ImplPath[0]);
    GetPathFirstKey(uc', uc, ImplPath);
  }

  /**
   * The finding, as written: a version-3 config with the usual layout and
   * no `options` key inside its options makes the upgrade raise
   * `KeyError('options')`.
   */
  lemma AsWrittenFailsFromV3(uc: Value, maps: IdolMaps, show: Show)
    requires V3Shaped(uc)
    requires Subscript(Subscript(uc, "options").value, "options").Err?
    ensures Subscript(uc, "options").Ok?
    ensures UpgradeUserConfig(Int(3), uc, true, maps, show) == Err(KeyError("options"))
  {
    StepThreeKeepsKeyMissing(uc, maps, show);
    AsWrittenStops(3, uc, maps, show);
    StartsAt(3);
    UpgradeFails(Int(3), 3, uc, true, maps, show);
  }

  /** The package fix does not add an `options` key to the options. */
  lemma StepThreeKeepsKeyMissing(uc: Value, maps: IdolMaps, show: Show)
    requires V3Shaped(uc)
    requires Subscript(Subscript(uc, "options").value, "options").Err?
    ensures Subscript(uc, "options").Ok?
    ensures Step(3, uc, [], maps, show).Ok?
    ensures var uc' := Step(3, uc, [], maps, show).value.0;
      Subscript(uc', "options").Ok? && Subscript(Subscript(uc', "options").value, "options") == Err(KeyError("options"))
  {
    StepThree(uc, maps, show);
    var options := Subscript(uc, "options").value;
    var options' := V3ToV4(options).value.0;
    V3ToV4Frame(options, ["options"]);
    GetPathSingle(options, "options");
    GetPathSingle(options', "options");
  }

  /**
   * The finding, corrected: the same config upgrades to version 5 with two
   * empty messages, the package name fixed and, for Windows screenshots,
   * the backend type set to `dmm`.
   */
  lemma CorrectedFromV3(uc: Value, maps: IdolMaps, show: Show)
    requires V3Shaped(uc)
    ensures var r := UpgradeUserConfig(Int(3), uc, false, maps, show);
      && r.Ok? && r.value.version == Int(5) && r.value.messages == ["", ""]
      && (GetPath(uc, ["options"] + PackagePath) == Ok(Str(MisspeltPackage)) ==>
            GetPath(r.value.config, ["options"] + PackagePath) == Ok(Str(GamePackage)))
      && (IsWindowsImpl(GetPath(uc, ImplPath).value) ==> GetPath(r.value.config, TypePath) == Ok(Str("dmm")))
  {
    CorrectedSteps(uc, maps, show);
    var uc1 := Step(3, uc, [], maps, show).value.0;
    var uc2 := Step(4, uc1, [], maps, show).value.0;
    CorrectedRun(uc, maps, show);
    StartsAt(3);
    UpgradeRuns(Int(3), 3, uc, false, maps, show);
  }

  lemma StartsAt(n: nat)
    requires 1 <= n <= 4
    ensures StartStep(Int(n)) == Some(n)
  {
  }

  /** An error in the run from the first step is the error of the whole upgrade. */
  lemma UpgradeFails(version: Value, n: nat, uc: Value, rebind: bool, maps: IdolMaps, show: Show)
    requires StartStep(version) == Some(n) && RunFrom(n, uc, [], rebind, maps, show).Err?
    ensures UpgradeUserConfig(version, uc, rebind, maps, show) == Err(RunFrom(n, uc, [], rebind, maps, show).error)
  {
  }

  /** A version the loop enters at step `n` is upgraded by the run from `n`. */
  lemma UpgradeRuns(version: Value, n: nat, uc: Value, rebind: bool, maps: IdolMaps, show: Show)
    requires StartStep(version) == Some(n) && RunFrom(n, uc, [], rebind, maps, show).Ok?
    ensures UpgradeUserConfig(version, uc, rebind, maps, show) ==
      Ok(Upgraded(Int(5), RunFrom(n, uc, [], rebind, maps, show).value.0, RunFrom(n, uc, [], rebind, maps, show).value.1))
  {
  }

  /** The two steps from version 3, one after the other, on the stored config. */
  lemma CorrectedSteps(uc: Value, maps: IdolMaps, show: Show)
    requires V3Shaped(uc)
    ensures Step(3, uc, [], maps, show).Ok? && Step(3, uc, [], maps, show).value.1 == ""
    ensures var uc1 := Step(3, uc, [], maps, show).value.0;
      && Step(4, uc1, [], maps, show).Ok? && Step(4, uc1, [], maps, show).value.1 == ""
      && var uc2 := Step(4, uc1, [], maps, show).value.0;
      && (GetPath(uc, ["options"] + PackagePath) == Ok(Str(MisspeltPackage)) ==>
            GetPath(uc2, ["options"] + PackagePath) == Ok(Str(GamePackage)))
      && (IsWindowsImpl(GetPath(uc, ImplPath).value) ==> GetPath(uc2, TypePath) == Ok(Str("dmm")))
  {
    StepThree(uc, maps, show);
    var options := Subscript(uc, "options").value;
    var options' := V3ToV4(options).value.0;
    var uc1 := Step(3, uc, [], maps, show).value.0;
    StepFour(uc1, options', maps, show);
    var uc2 := Step(4, uc1, [], maps, show).value.0;
    assert GetPath(uc, ["options"] + PackagePath) == GetPath(options, PackagePath) by {
      GetPathAppend(uc, ["options"], PackagePath);
      GetPathSingle(uc, "options");
    }
    assert GetPath(uc2, ["options"] + PackagePath) == GetPath(options', PackagePath) by {
      GetPathAppend(uc2, ["options"], PackagePath);
      GetPathSingle(uc2, "options");
    }
  }

  /** With `user_config` left bound to the config, a run from version 3 is its two steps in turn. */
  lemma CorrectedRun(uc: Value, maps: IdolMaps, show: Show)
    requires Step(3, uc, [], maps, show).Ok?
    requires Step(4, Step(3, uc, [], maps, show).value.0, [], maps, show).Ok?
    ensures RunFrom(3, uc, [], false, maps, show).Ok?
    ensures var s3 := Step(3, uc, [], maps, show).value;
      var s4 := Step(4, s3.0, [], maps, show).value;
      RunFrom(3, uc, [], false, maps, show) == Ok((s4.0, [s3.1, s4.1]))
  {
    var s3 := Step(3, uc, [], maps, show).value;
    LastStep(s3.0, [], false, maps, show);
    var s4 := Step(4, s3.0, [], maps, show).value;
    assert [s3.1] + [s4.1] == [s3.1, s4.1];
  }

  /** The run from version 4 is the last step alone, whatever the binding. */
  lemma LastStep(uc: Value, bind: seq<string>, rebind: bool, maps: IdolMaps, show: Show)
    requires Step(4, uc, bind, maps, show).Ok?
    ensures RunFrom(4, uc, bind, rebind, maps, show) ==
      Ok((Step(4, uc, bind, maps, show).value.0, [Step(4, uc, bind, maps, show).value.1]))
  {
    var s := Step(4, uc, bind, maps, show).value;
    var bind' := if rebind then bind + ["options"] else bind;
    RunEnds(s.0, bind', rebind, maps, show);
    assert [s.1] + [] == [s.1];
  }

  lemma RunEnds(uc: Value, bind: seq<string>, rebind: bool, maps: IdolMaps, show: Show)
    ensures RunFrom(5, uc, bind, rebind, maps, show) == Ok((uc, []))
  {
  }

  /** The version-4 step on a config whose options are `options`: they stay, and only `backend` may change. */
  lemma StepFour(uc: Value, options: Value, maps: IdolMaps, show: Show)
    requires Subscript(uc, "options") == Ok(options) && GetPath(uc, ImplPath).Ok?
    ensures Step(4, uc, [], maps, show).Ok? && Step(4, uc, [], maps, show).value.1 == ""
    ensures var uc' := Step(4, uc, [], maps, show).value.0;
      && Subscript(uc', "options") == Ok(options)
      && (IsWindowsImpl(GetPath(uc, ImplPath).value) ==> GetPath(uc', TypePath) == Ok(Str("dmm")))
  {
    V4ToV5Frame(uc, options, ["options"]);
    GetPathSingle(uc, "options");
    GetPathSingle(V4ToV5(uc, options).value.0, "options");
  }
}

=== FILE: wrappers.dfy ===
/** Optional values and fallible results shared by every module of the model. */
module Wrappers {

  datatype Option<+T> = None | Some(value: T)
  {
    /** The carried value, or `default` when there is none. */
    function GetOr(default: T): (r: T)
      ensures Some? ==> r == value
      ensures None? ==> r == default
    {
      match this
      case Some(v) => v
      case None => default
    }
  }

  datatype Result<+T, +E> = Ok(value: T) | Err(error: E)
  {
    /** With the next two, lets `var x :- r;` stop at the first error, as a raised exception does. */
    predicate IsFailure()
    {
      Err?
    }

    function PropagateFailure<U>(): Result<U, E>
      requires Err?
    {
      Err(error)
    }

    function Extract(): T
      requires Ok?
    {
      value
    }
  }
}
